=== FILE: README.md ===
# discord-dingomata core, modelled in Dafny

A model of the logic inside the Discord bot "snoozybot" (discord-dingomata), with proofs
of what that logic promises. The bot itself is mostly calls into the Discord gateway, an
ORM and outside APIs. What is modelled here are the pieces of logic around those calls:

- the fixed-window rate limiter (`Cooldown`);
- the rolling chat history buffer and the AI chat prompt (`Chat`);
- the localisation tables and `Get` (`I18n`);
- the command tree: build, localisation, dispatch, option lookup and `Respond` (`Commands`);
- the config get-or-load cache (`Config`) and the stored records and user cache (`Models`);
- the scheduled-task tick: claim, dispatch and birthday rescheduling (`Scheduled`);
- quotes with their content digest (`Quotes`);
- temporary roles and the regulars role (`Roles`), fed by message metrics (`RoleMetrics`);
- the text commands: roll and the targeted replies (`TextCommands`);
- timezone and birthday settings (`MyTimezone`, `MyBirthday`);
- reminders (`Reminders`);
- the bedtime notice (`Bedtime`);
- the YouTube and Bluesky notification tasks (`Youtube`, `Bluesky`);
- Twitch live status (`TwitchLive`);
- the moderation log (`MessageLog`);
- the bot manager and the interaction dispatch (`Bot`).

Each Go file of the core is one module. Five supporting modules hold what several of them share:

- `Wrappers`: Option and Result.
- `Text`: joining, searching, replacing and lower-casing strings.
- `Calendar`: civil dates and day numbers in the proleptic Gregorian calendar.
- `Zones`: time zones as fixed offsets.
- `Discord`: mentions, members and embed fields.

Conventions of the model:

- An instant is an integer number of seconds since the Unix epoch.
- A time zone is a fixed offset from UTC.
- Storage is in-memory tables, held by classes where the source updates rows in place.
- The results of outside calls are parameters of the operation: storage errors, Discord fetches, feeds, parsed dates and rendered templates.
- What the bot sends is returned as data.
- A Go handler ends in one of three ways: it responds, it returns an error, or it panics. Its model returns one of `Responded`, `Failed` or `Panicked` (`EventFailed` and `EventPanicked` for event handlers).
- Go map iteration order is an arbitrary choice (`:|`).
- A random pick is an arbitrary number supplied by the caller.

Where the code and its surrounding documentation disagree, the model follows the code.

## Model

| member | source | states |
|---|---|---|
| Cooldown.UserKey | internal/cooldown/cooldown.go:49 | the user bucket's key is the channel id, a colon, then the user id |
| Cooldown.Decide | internal/cooldown/cooldown.go:53-71 | a check is denied exactly when the bucket's window is still live and its count has reached the maximum, and a denied bucket is left as it was; a live bucket under the limit gains exactly one; a missing or expired bucket resets to count 1, expiring one duration from now |
| Cooldown.DecideKeepsBound | internal/cooldown/cooldown.go:53-71 | with a maximum of at least one, a bucket within the limit stays within it after a check |
| Cooldown.CountNeverExceedsMax | internal/cooldown/cooldown.go:53-71 | after any sequence of checks of one key, starting from a missing bucket, the count never exceeds the maximum |
| Cooldown.LiveWindowOutcomes | internal/cooldown/cooldown.go:60-64 | inside a live window that began with count c, the i-th check is allowed exactly when c + i is below the maximum |
| Cooldown.WindowAllowsExactlyMax | internal/cooldown/cooldown.go:54-68 | a missing or expired bucket opens a window whose first check is always allowed and whose i-th check is allowed exactly when i is below the maximum, so check max + 1 in one window is denied |
| Cooldown.Buckets.constructor | internal/cooldown/cooldown.go:29-30 | a bucket map starts empty |
| Cooldown.Buckets.Check | internal/cooldown/cooldown.go:53-71 | checkBuckets answers the decision for the bucket under its key, stores the decided bucket under that key only, and never removes a key |
| Cooldown.CooldownManager.Initialize | internal/cooldown/cooldown.go:28-32 | both bucket maps start empty and the three limits are kept as given |
| Cooldown.CooldownManager.Can | internal/cooldown/cooldown.go:34-51 | Manage Messages or an exempt channel allows with no bucket touched; otherwise the channel bucket is checked first and the user bucket only if the channel allowed, so a user denial still leaves the channel count raised; the new bucket maps are exactly those `Updated` describes |
| Cooldown.Permits | internal/cooldown/cooldown.go:34-51 | the verdict Can gives: a bypass for Manage Messages or an exempt channel, otherwise both the channel bucket and the user bucket allowing |
| Cooldown.Updated | internal/cooldown/cooldown.go:34-51 | the bucket maps after Can: unchanged on a bypass; otherwise the channel bucket decided and stored, and the user bucket decided and stored only when the channel allowed |
| Chat.Window | internal/events/chat.go:43-50 | the oldest-first contents of a buffer of capacity n after a sequence of adds: the last n items, or empty slots padding fewer |
| Chat.WindowSnoc | internal/events/chat.go:43-46 | one more add drops the oldest slot of the window and appends the new item |
| Chat.AddsFromEmpty | internal/events/chat.go:43-50 | adding a sequence of items to a fresh buffer leaves exactly their window in view |
| Chat.RotateAfterWrite | internal/events/chat.go:44-49 | writing the slot under the cursor and advancing the cursor modulo the length turns the rotated view into its shift by the new item |
| Chat.RollingCache.View | internal/events/chat.go:48-50 | the buffer read from the cursor to the end and then from the start, one entry per slot |
| Chat.RollingCache.constructor | internal/events/chat.go:57-60 | a buffer of the given capacity, all slots empty, cursor at 0 |
| Chat.RollingCache.Add | internal/events/chat.go:43-46 | the item lands in the slot under the old cursor, no other slot changes, the cursor advances modulo the capacity, and the oldest-first view shifts by the item |
| Chat.RollingCache.GetAll | internal/events/chat.go:48-50 | returns the rotation, oldest first, without changing the buffer |
| Chat.FewAddsPadded | internal/events/chat.go:43-50 | after k adds with k at most the capacity, the view is capacity − k empty slots followed by the k items in insertion order |
| Chat.ManyAddsKeepLast | internal/events/chat.go:43-50 | after at least capacity adds, the view is exactly the last capacity items in insertion order |
| Chat.ChatCaches.constructor | internal/events/chat.go:52 | no channel has a buffer yet |
| Chat.ChatCaches.ViewOf | internal/events/chat.go:55-61 | the channel's buffer view, with an unseen channel reading as CACHE_CAPACITY empty slots |
| Chat.ChatCaches.AddMessage | internal/events/chat.go:54-64 | addMessage creates a fresh buffer for an unseen channel, shifts the message into that channel's view, and leaves every other channel's buffer and view unchanged |
| Chat.ChatCaches.BufferFor | internal/events/chat.go:55-62 | an existing channel keeps its buffer; an unseen one gets a fresh empty buffer of capacity 10 registered under its id |
| Chat.ChatMessageCreate | internal/events/chat.go:66-128 | with no chat roles configured nothing is cached, no buffer view and no bucket changes; otherwise the message is cached first; bots and messages not mentioning the bot are ignored; a message without a member (a direct message, which reads a chat role list once any guild has one) panics on the nil member before the cooldown, with the buckets unchanged; otherwise the 2/5/3-minute cooldown updates the buckets as `Can` does; a refusal gives the cooldown reply, or a panic when the guild fetch for its locale fails; a permitted member lacking every chat role sends the default prompt with only their own message; one holding a chat role sends the channel's full rolling history, or panics when the prompt does not parse or the bot member or guild is missing from the state |
| Chat.Respond | internal/events/chat.go:78-128 | the bot and mention checks; the nil-member panic before the cooldown, with the buckets unchanged; the cooldown with the buckets updated as `Can` updates them, a refusal answered by the cooldown reply or by a panic when the guild fetch fails; the permitted request with the prompt and history the member's roles call for, or a panic when the guild prompt's inputs are missing; the cached buffer is left as it is |
| Chat.Instructions | internal/events/chat.go:143 | the system prompt followed by the fixed context sentence |
| Chat.RenderAll | internal/events/chat.go:144-148 | one line per history entry: "[username] content" for a message, "" for an empty slot |
| Chat.MessagePromptSnoc | internal/events/chat.go:144-149 | the lines are joined by newlines: one more entry appends a newline and its line |
| Chat.MessagePrompt | internal/events/chat.go:144-149 | the history rendered line by line and joined with newlines; `MessagePromptSnoc` and `EmptySlotsAreEmptyLines` state its shape |
| Chat.EmptySlotsAreEmptyLines | internal/events/chat.go:144-149 | k empty slots before a non-empty history put k empty lines in front of its input |
| I18n.LeavesBelowPrefix | internal/i18n/i18n.go:91-107 | every string flattenAndAdd finds under an entry is added under a path that extends the prefix with the entry's key: a nested map extends the path |
| I18n.ListElementUnderListPath | internal/i18n/i18n.go:98-101 | a string element of a list is added under the list's own path |
| I18n.FlattenEntriesAppend | internal/i18n/i18n.go:92-107 | flattening a map adds the strings of its entries in entry order |
| I18n.FlattenItemsAppend | internal/i18n/i18n.go:99-101 | flattening a list adds the strings of its elements in element order |
| I18n.ResponseKey | internal/i18n/i18n.go:60-72 | a path without "fragments" is filed under its dot-joined parts; otherwise under the parts before the first "fragments", with the parts after it as the fragment key |
| I18n.WithResponse | internal/i18n/i18n.go:59-80 | addResponse appends one fragment value or one template variant, as the path decides, and changes no other table entry |
| I18n.WithVariant | internal/i18n/i18n.go:71-78 | the (key, locale) variants gain the value at the end; every other (key, locale), the fragments and the metadata are unchanged |
| I18n.WithFragment | internal/i18n/i18n.go:61-70 | the values of one (key, locale, fragment key) gain the value at the end, in insertion order; nothing else changes |
| I18n.WithMetadata | internal/i18n/i18n.go:82-89 | addMetadata holds exactly one value per (key, locale): the new value replaces any old one, and every other entry is kept |
| I18n.ApplyAllAppend | internal/i18n/i18n.go:91-107 | adding two runs of leaves one after the other is adding their concatenation |
| I18n.LocaleOf | internal/i18n/i18n.go:53 | a file's locale is the part of its name before the first ".", a prefix of the name without any "." |
| I18n.LocaleOfExample | internal/i18n/i18n.go:53 | "en-US.yaml" is loaded as locale "en-US" |
| I18n.Catalog.constructor | internal/i18n/i18n.go:21-23 | the three tables start empty |
| I18n.Catalog.AddResponse | internal/i18n/i18n.go:59-80 | the tables become exactly WithResponse of the old tables |
| I18n.Catalog.AddMetadata | internal/i18n/i18n.go:82-89 | the tables become exactly WithMetadata of the old tables |
| I18n.Catalog.AddEntry | internal/i18n/i18n.go:93-106 | one entry of the range loop: a string is added, each list element is flattened under the list's path, a map extends the path, any other value is skipped |
| I18n.Catalog.FlattenAndAdd | internal/i18n/i18n.go:91-107 | the tables become the old tables with every leaf of the tree added in order |
| I18n.Catalog.LoadFile | internal/i18n/i18n.go:46-57 | a file's tree is flattened from the empty path under the locale taken from its name |
| I18n.Catalog.GetFragments | internal/i18n/i18n.go:128-135 | exactly the fragment keys stored for (key, locale), each mapped to one of its stored values; empty when there are none, with no locale fallback |
| I18n.Get | internal/i18n/i18n.go:110-126 | the raw key comes back exactly when neither the locale nor en-US has a variant; a locale with variants renders one of its own with the caller's variables; otherwise a non-default locale renders an en-US variant, drawn like any other, without the caller's variables |
| I18n.FallbackCanShowAnyVariant | internal/i18n/i18n.go:112-115 | on the fallback to en-US every en-US variant can be the one shown, with no variables |
| I18n.SingleVariantAlwaysUsed | internal/i18n/i18n.go:120-121 | with a single variant, that variant is used whatever the random pick |
| I18n.AddedVariantIsFound | internal/i18n/i18n.go:71-126 | after a variant is added for a locale, Get of that key and locale renders one of that locale's variants, never a fallback |
| Commands.FindOption | internal/commands/base.go:29-38 | None exactly when no option has the name; otherwise an option with that name before which none has it, the first match |
| Commands.LocalizationKey | internal/commands/base.go:75 | the node's name at the root, prefix + "/" + name below it |
| Commands.LocalizeChoice | internal/commands/base.go:123-126 | a choice's name localisations come from key.options.<option>.choices.<value>, and its name is their en-US entry |
| Commands.LocalizeOption | internal/commands/base.go:119-127 | a leaf option gets the name and description localisations under key.options.<name>, its en-US description, and its choices localised; name, type and nested options are kept |
| Commands.Localize | internal/commands/base.go:104-129 | localizeCommand always sets the name localisations; chat-input internal nodes get the description "(unused)", chat-input leaves the localised description; user and message commands keep theirs; option and choice localisations are attached only to leaves |
| Commands.AsSubcommandOption | internal/commands/base.go:132-141 | a built node as an option with its name, description and options, typed SubCommandGroup exactly when it has children and SubCommand otherwise |
| Commands.NameMap | internal/commands/base.go:81-83 | the subcommand map holds exactly the names of the built children |
| Commands.Build | internal/commands/base.go:66-102 | build succeeds exactly when no node of the tree mixes subcommands with options or a handler, and panics naming a mixed node; a built leaf keeps its handler, a built internal node gets the generated dispatcher and one option per child |
| Commands.BuildAll | internal/commands/base.go:82-85 | the children are built in order, each one as build would build it alone, stopping at the first panic |
| Commands.BuiltInternalOptions | internal/commands/base.go:81-85 | building an internal node appends one option per child, in child order, each the child's built form as a subcommand option, a group exactly when the child has children |
| Commands.BuiltInternalMap | internal/commands/base.go:81-83 | the subcommand map of a built internal node holds exactly the child names, each mapped to a built child of that name |
| Commands.NameMapOfChildren | internal/commands/base.go:82-83 | the map of built children holds exactly the source children's names, each mapped to the built form of a child of that name |
| Commands.BuildTwicePanics | internal/commands/base.go:76-87 | building an internal node a second time panics, because the first build gave it options and a handler |
| Commands.Run | internal/commands/base.go:87-98 | a leaf runs its handler on the options as they are; the generated handler looks up the first option's name and runs that child on that option's nested options, or fails naming the subcommand and the parent |
| Commands.DispatchPeelsOneLayer | internal/commands/base.go:87-98 | after building, a call whose first option names a child with a handler runs that child's handler on the nested options |
| Commands.RunPeels | internal/commands/base.go:90-94 | the generated handler strips exactly one option layer before running the child |
| Commands.BuiltChildAt | internal/commands/base.go:82-83 | a child whose name no sibling shares is found in the built map as its own built form |
| Commands.NameMapDistinct | internal/commands/base.go:83 | a child with a unique name is the one the map holds for that name |
| Commands.Respond | internal/commands/base.go:40-54 | the sent flags are the visibility-adjusted flags; content is replaced only when the key is non-empty, by Get in the user's locale if the flags passed in were ephemeral and in the guild's locale otherwise |
| Commands.Visibility | internal/commands/base.go:45-49 | the ephemeral bit is clear exactly when the response is public; every other flag bit is kept |
| Commands.PrivateResponseUsesGuildLocale | internal/commands/base.go:41-48 | a non-public response with no flags is sent ephemeral yet its text is rendered in the guild's locale |
| Config.CacheKey | internal/config/config.go:24 | the cache key is the config key, a colon, then the guild id |
| Config.Load | internal/config/config.go:28-31 | the single-row query result: the storage error on failure; not found exactly when the struct condition selects no row; otherwise the value of one selected row. With the guild "", which GORM drops from the condition, a row of the key in any guild is selected |
| Config.Selected | internal/config/config.go:29 | the rows the struct condition selects: the config key, and the guild unless it is "" |
| Config.LoadFindsTheGuildsRow | internal/config/config.go:29 | with a guild named and the primary key on (key, guild), the query returns that guild's row whichever row the database takes |
| Config.NoGuildCanLoadAnyGuildsRow | internal/config/config.go:29 | with the guild "" (a direct message has none), every row of the key, in any guild, is one the query can return |
| Config.Value | internal/config/config.go:50-55 | the zero value plus the query error when the lookup failed, otherwise the JSON decode of the stored value |
| Config.GetAll | internal/config/config.go:36-42 | exactly one entry per guild that has a row of the key, carrying one of that guild's rows and no query result |
| Config.GetAllEntriesDoNotExist | internal/config/config.go:36-59 | under the primary key, the entry for a stored row reports Exists false, yet Value still decodes that row |
| Config.LoadedExistsIffFound | internal/config/config.go:28-59 | a loaded value exists exactly when the query succeeded and some row of the key matches the guild, any guild's row counting for the guild "" |
| Config.ConfigCache.constructor | internal/config/config.go:21 | the cache starts empty |
| Config.ConfigCache.Get | internal/config/config.go:23-34 | a hit returns the cached value with no query; a miss queries once, with Load's semantics for the guild "", and caches the result under the cache key even when the row is absent or the query failed |
| Config.ConfigCache.ClearCache | internal/config/config.go:61-63 | every cached entry is removed at once |
| Config.SecondGetIsCached | internal/config/config.go:23-34 | two reads of one key and guild answer the same value and make at most one query together |
| Models.EncodeReminder | internal/database/models.go:42-45 | a reminder payload serialises as an object with exactly the fields "channel" and "reason" |
| Models.DecodeReminder | internal/database/models.go:42-45 | decoding fails exactly on malformed text; an object gives its "channel" and "reason" fields, absent ones empty |
| Models.EncodeRemoveRole | internal/database/models.go:49-51 | a role-removal payload serialises as an object with exactly the field "role" |
| Models.DecodeRemoveRole | internal/database/models.go:49-51 | decoding fails exactly on malformed text; an object gives its "role" field |
| Models.EncodeBirthday | internal/database/models.go:47-59 | the birthday payload is the empty object, the column default '{}' |
| Models.PayloadRoundTrips | internal/database/models.go:42-51 | a reminder or role-removal payload decodes back to itself |
| Models.NewUser | internal/database/models.go:74 | a user row with only its id set: no zone, no bedtime, never notified, mentions not suppressed |
| Models.Users.constructor | internal/database/cache.go:9 | the user cache starts empty over the given table |
| Models.Users.Stored | internal/database/models.go:74-75 | the row a lookup by id finds, or a user with only the id set when there is none |
| Models.Users.GetUser | internal/database/models.go:70-80 | a hit returns the cached user with no query; a miss queries once, a storage failure returns its error and caches nothing, and a found or missing row is returned and cached |
| Models.Users.Evict | internal/commands/my.timezone.go:84 | UserCache.Remove drops only that id from the cache |
| Models.GetUserAgrees | internal/database/models.go:70-80 | a cache that agrees with the table keeps agreeing after GetUser, and GetUser then answers what the table holds |
| Models.TaskTable.constructor | internal/database/models.go:53-60 | the task table with every id below the next auto-increment value |
| Models.TaskTable.Insert | internal/database/models.go:53-60 | Create appends one row carrying the next id and the given fields, and the counter moves on |
| Models.TaskTable.DeleteById | internal/commands/remind.go:94-95 | Delete with a struct: id 0 is refused with "WHERE conditions required" and a storage failure is returned, both with no change; otherwise every row with that id goes, and whether one existed is reported, never as an error |
| Models.WithoutId | internal/commands/remind.go:94-95 | the rows a delete by primary key leaves: exactly those whose id differs |
| Models.WithoutAbsentId | internal/commands/remind.go:94-95 | deleting an id no row has leaves the table as it is |
| Models.MetricTable.constructor | internal/database/models.go:62-68 | one metric row per (guild, user), stored under that key |
| Scheduled.DueTasks | internal/tasks/scheduled.go:21 | the claim returns exactly the rows whose process-after is strictly before now |
| Scheduled.Remaining | internal/tasks/scheduled.go:21 | the rows left are exactly those due at or after now |
| Scheduled.ClaimPartitions | internal/tasks/scheduled.go:21 | every row is either claimed or kept, none lost or duplicated |
| Scheduled.TaskInfoOf | internal/tasks/scheduled.go:41-58 | task information exists exactly when there is a bot for the guild and both the guild and member fetches succeed |
| Scheduled.ProcessReminder | internal/tasks/scheduled.go:60-79 | no bot, guild or member, or a payload that fails to decode, does nothing; otherwise the reminder text naming the member and the reason goes to the payload's channel, and no task follows |
| Scheduled.ProcessBirthday | internal/tasks/scheduled.go:81-115 | nothing without task information, a decodable payload and a birthday channel; otherwise the greeting goes to that channel, and a new birthday task for the same guild and user, one calendar year later, follows exactly when the send succeeded |
| Scheduled.ProcessRemoveRole | internal/tasks/scheduled.go:117-133 | no task information or an undecodable payload does nothing; otherwise the payload's role is removed from the member |
| Scheduled.Process | internal/tasks/scheduled.go:26-35 | each task goes to the handler of its type; an unknown type does nothing |
| Scheduled.OnlyBirthdaysRecur | internal/tasks/scheduled.go:107-113 | only a birthday task creates a follow-up, and that follow-up is a birthday task for the same guild and user |
| Scheduled.ProcessAllPointwise | internal/tasks/scheduled.go:24-36 | each claimed task gets the outcome of its own handler with its own inputs |
| Scheduled.Apply | internal/tasks/scheduled.go:108-113 | the task a handler asks for, if any, is appended to the table; only birthday tasks are added |
| Scheduled.Claim | internal/tasks/scheduled.go:19-21 | the delete-returning claim returns the due tasks and leaves only the others |
| Scheduled.ProcessClaimed | internal/tasks/scheduled.go:24-36 | the claimed tasks are handled in order, and only the birthday tasks they ask for are added |
| Scheduled.Tick | internal/tasks/scheduled.go:18-38 | a tick removes exactly the due tasks, handles each of them by type, and leaves the not-yet-due rows followed by the new birthday tasks |
| Quotes.KeepAlnum | internal/commands/quote.go:127-133 | the kept text is no longer than the input and holds only ASCII letters and digits |
| Quotes.KeepAlnumAppend | internal/commands/quote.go:127-133 | compaction keeps the original order: compacting a concatenation concatenates the compactions |
| Quotes.PunctuationIsIgnored | internal/commands/quote.go:124-133 | a character that is not a letter or digit does not change what is kept |
| Quotes.AlnumIsKept | internal/commands/quote.go:128-130 | text made only of letters and digits is kept whole |
| Quotes.CaseIsKept | internal/commands/quote.go:124-130 | case is kept, so "Hi" and "hi" compact to different inputs despite the comment |
| Quotes.CompactAlnum | internal/commands/quote.go:125-133 | the in-place compaction leaves exactly the letters and digits of the input, in order and case, as a prefix of the buffer, and never writes past the read position, so the rest is untouched |
| Quotes.HexDigit | internal/commands/quote.go:136 | each nibble becomes the lower-case hex digit of its value |
| Quotes.Hex | internal/commands/quote.go:136 | hex encoding gives two hex digits per byte |
| Quotes.HexRoundTrip | internal/commands/quote.go:136 | hex encoding loses nothing: decoding it gives the bytes back |
| Quotes.Digest | internal/commands/quote.go:123-137 | the digest is the hex of the hash of the kept letters and digits, two characters per hash byte |
| Quotes.ComputeDigest | internal/commands/quote.go:123-137 | _computeDigest compacts a copy of the content in place and hashes the kept prefix; a 16-byte hash gives 32 hex characters, the char(32) column |
| Quotes.SameLettersSameDigest | internal/commands/quote.go:124 | contents that differ only in spacing and punctuation have the same digest |
| Quotes.Collides | internal/database/models.go:25-32 | a collision is a stored quote with the same guild, user and digest |
| Quotes.Without | internal/commands/quote.go:149 | deleting by id keeps exactly the rows with another id |
| Quotes.WithoutKeepsUnique | internal/database/models.go:25-32 | deleting a row keeps the guild, user and digest index unique |
| Quotes.QuoteTable.Create | internal/commands/quote.go:113-118 | Create fails on a storage error or a (guild, user, digest) collision, leaving the table as it was; otherwise it appends the quote with the next id |
| Quotes.QuoteTable.Delete | internal/commands/quote.go:148-149 | a delete by primary key: id 0 is refused with "WHERE conditions required" and a storage failure is returned, both with no change; otherwise the row with that id is removed, and whether one existed is reported, never as an error |
| Quotes.FindById | internal/commands/quote.go:62-63 | Take by id finds a row with that id exactly when one exists |
| Quotes.AddQuote | internal/commands/quote.go:107-121 | quoting the bot is refused before any write; a storage error is returned; a collision answers "duplicate" with no write, not an error; otherwise one quote is stored with the invoker as adder and its id is reported |
| Quotes.AddTwiceIsDuplicate | internal/commands/quote.go:111-124 | adding the same words for the same member again, spaced or punctuated differently, answers "duplicate" and stores at most one quote |
| Quotes.OfMember | internal/commands/quote.go:29 | the quotes of exactly one member of one guild |
| Quotes.RandomQuote | internal/commands/quote.go:23-40 | a failed member fetch or a storage error is returned; "missing" exactly when the member has no quote in the guild; otherwise one of that member's quotes, shown publicly with the member's display name |
| Quotes.GetQuote | internal/commands/quote.go:60-78 | a storage error is returned; "missing" when a non-zero id matches no quote; otherwise that quote, shown publicly, or the member fetch error; id 0 puts no condition on the query, so it is "missing" only on an empty table and otherwise shows some stored quote |
| Quotes.TakeById | internal/commands/quote.go:62-63 | Take by primary key: the row with a non-zero id, none when it is absent; with id 0 there is no condition and any row can come back, none only from an empty table |
| Quotes.DeleteAnswerAsWritten | internal/commands/quote.go:147-157 | as written: only an error from the delete is answered with an error; every successful delete, whether or not a row went, answers success |
| Quotes.DeleteAnswer | internal/commands/quote.go:147-157 | the corrected answer: "missing" when the delete removed nothing, success when it removed the quote, the error otherwise |
| Quotes.MissingQuoteAnswersSuccess | internal/commands/quote.go:149-151 | the "missing" branch as written is never taken: deleting an absent quote answers success |
| Quotes.DeleteQuoteAsWritten | internal/commands/quote.go:146-157 | as written: id 0 fails with "WHERE conditions required", a storage error is returned, and otherwise the quote with that id is removed if there is one and success is answered either way |
| Quotes.DeleteQuote | internal/commands/quote.go:146-157 | the corrected delete: id 0 fails with "WHERE conditions required"; a storage error is returned; "missing" with no change when no quote has the id; otherwise that quote is removed and success answered |
| Quotes.FindRows | internal/commands/quote.go:176-183 | the find query as written: exactly the rows matching the user filter when one is given and the substring filter when the text is non-empty, from any guild |
| Quotes.FindRowsInGuild | internal/commands/quote.go:176-183 | the same filters restricted to the invoking guild |
| Quotes.QuoteField | internal/commands/quote.go:189-200 | each field shows the quote's content under "[#id] name", with "Unknown User" when the member cannot be fetched |
| Quotes.Page | internal/commands/quote.go:183-205 | "empty" exactly on zero rows; otherwise at most 10 fields, one per fetched row in order, and the "has more" footer exactly when 11 came back |
| Quotes.FindAsWritten | internal/commands/quote.go:175-205 | find as written pages at most 11 matching rows of any guild |
| Quotes.FindListsOtherGuilds | internal/commands/quote.go:176-183 | a quote stored in another guild is listed by find as written, where a guild-scoped find answers "empty" |
| Quotes.Find | internal/commands/quote.go:175-205 | find pages at most 11 matching rows of the invoking guild |
| Quotes.FindStaysInGuild | internal/commands/quote.go:176-205 | the guild-scoped find answers "empty" exactly when no quote of the guild matches, and every listed quote belongs to the guild, matches the filters and is shown in order |
| Roles.TempRoleCheck | internal/commands/roles.go:24-48 | the temporary-role checks in their order, each with its own answer: self-target, caller not a moderator, role unset or empty or duration unset, member fetch failure, target already holding the role; granted exactly when all pass, with the expiry now + duration minutes |
| Roles.AssignTempRole | internal/commands/roles.go:23-73 | a refused check answers its key with no change; a failed role add answers roles.error and stores nothing; otherwise a RemoveRole task with the expiry and the role id in its payload is stored, and success is answered only once it is |
| Roles.TempRoleIsTakenBack | internal/commands/roles.go:54-67 | the stored removal task is claimed by the first tick after the expiry and not before, and its handler takes exactly that role from that member |
| Roles.DaysJoined | internal/commands/roles.go:118 | whole days since joining, rounded down |
| Roles.MetricLookup | internal/commands/roles.go:123-128 | the member's metric row, its absence, or the storage error |
| Roles.Counts | internal/commands/roles.go:123-134 | a missing metric row counts as zero messages and zero days |
| Roles.RegularsCheck | internal/commands/roles.go:99-134 | the regulars chain stops at the first failure: role unset, all thresholds zero, role already held, too few days joined (with the mention and the days joined), a storage error (roles.error), too few messages and too few active days (each with the mention and the required minimum); granted with the role exactly when every check passes |
| Roles.HeldRoleBeatsThresholds | internal/commands/roles.go:115-117 | a member who already holds the role is told so whatever their days, messages or active days |
| Roles.MissingMetricCountsAsZero | internal/commands/roles.go:123-130 | a member without a metric row is refused for messages whenever a message minimum is set |
| Roles.TryAssignRegularsRole | internal/commands/roles.go:99-146 | a refusal changes nothing; a failed role add answers roles.error with the metric row kept; success is reported only after the role add, and the member's metric row is then deleted |
| Roles.AssignRegularsRole | internal/commands/roles.go:82-96 | the regulars command checks the moderator permission before self-target, the reverse of the temporary-role order, then fetches the member; on a fetched member a refusal answers the check's verdict with no change, a failed role add answers roles.error, and a role add answers success with the role added and only that member's metric row deleted |
| RoleMetrics.FirstMetric | internal/events/roles.go:41-47 | a first message creates a row with count 1, one distinct day and the boundary at now |
| RoleMetrics.Bump | internal/events/roles.go:36-40 | a later message adds exactly one to the count; a distinct day is added and the boundary moves to now only when the stored boundary is more than a day old, otherwise both stay |
| RoleMetrics.RecordMessage | internal/events/roles.go:34-51 | the upsert inserts the first row or bumps the stored one, touches no other member's row, changes nothing when the statement fails, and keeps distinct days at most the message count in every row |
| RoleMetrics.Replay | internal/events/roles.go:34-47 | the row of one member after messages at the given times |
| RoleMetrics.ReplayCounts | internal/events/roles.go:36-47 | from no row, the count equals the number of messages and the distinct days lie between one and the count |
| RoleMetrics.SameDayAddsNoDay | internal/events/roles.go:38-39 | messages within a day of the boundary add no distinct day and leave the boundary where it was |
| RoleMetrics.RoleMessageMetrics | internal/events/roles.go:15-61 | nothing is recorded when the regulars role is unset, the member is missing, the author is a bot or already holds the role; otherwise the message is counted, and only with automatic assignment is the role attempted, on the counted table: the check's refusal with the rows as counted, roles.error with the rows as counted when the role add fails, or success with the role added and that member's row deleted |
| RoleMetrics.Counted | internal/events/roles.go:34-51 | the table after the upsert: the member's row is added or bumped, every other row is kept, and a failure changes nothing |
| TextCommands.Face | internal/commands/text.go:45 | the roll result lies in 1..sides inclusive |
| TextCommands.Roll | internal/commands/text.go:37-47 | fewer than 3 sides and more than 120 sides are refused with their own keys; otherwise a public success carrying the sides and a result in 1..sides |
| TextCommands.EveryFaceCanComeUp | internal/commands/text.go:45-46 | every face from 1 to sides is the result of some draw |
| TextCommands.TargetKey | internal/commands/text.go:82-94 | the key suffix is ".self" when the target is the invoker, else ".bot" when it is the bot, else ".user" |
| TextCommands.SelfBeatsBot | internal/commands/text.go:83-86 | self takes precedence over the bot |
| TextCommands.MentionIfWanted | internal/commands/text.go:103-109 | the plain display name when the user lookup fails, mentions are suppressed or the target can manage messages; otherwise a mention |
| TextCommands.UserAnswer | internal/database/models.go:70-79 | what GetUser returns for the target: a cached user never fails, and only a storage fault on a miss does |
| TextCommands.FirstNonEmpty | internal/commands/text.go:89 | the first non-empty name, or "" exactly when every name is empty |
| TextCommands.HandleTargeted | internal/commands/text.go:68-101 | the 3/5/5-minute cooldown is checked before anything else and a refusal answers base.cooldown; an unresolved target is an error; otherwise the targeted reply. The user cache changes only when a third-party target is fetched and was not cached, gaining that user's stored row unless the read failed |
| TextCommands.TargetReply | internal/commands/text.go:78-100 | the public reply's variables are exactly the command's fragments plus "author", always the invoker's display name, and "target", named by who the target is; a failed fetch of a third-party target panics; the user cache gains the target's stored row only on an uncached lookup that succeeds |
| TextCommands.TargetedCommand | internal/commands/text.go:50-60 | a targeted command has one required user option and the shared handler |
| TextCommands.Flip | internal/commands/text.go:15-28 | the flip answer is always public; it has the failure key and no variables exactly when the flip failed, and otherwise the success key with the text of the drawn side's "flip.heads" or "flip.tails" string as its "result" |
| TextCommands.FlipShowsTheSideDrawn | internal/commands/text.go:25-26 | with distinct heads and tails texts, heads shows a heads text, tails a tails text, and the two answers differ |
| MyTimezone.MatchingMembers | internal/commands/my.timezone.go:56-61 | a zone is a hit if and only if its lower-cased name contains the lower-cased input |
| MyTimezone.MatchingAppend | internal/commands/my.timezone.go:58-61 | the hits keep the list's order |
| MyTimezone.OfferedPrefix | internal/commands/my.timezone.go:58-65 | once the scan has seen ten hits, or every zone, it holds exactly the first ten hits |
| MyTimezone.ZoneChoice | internal/commands/my.timezone.go:60 | each choice uses the zone string as both name and value |
| MyTimezone.Autocomplete | internal/commands/my.timezone.go:51-69 | nothing unless the "zone" option is present and focused; otherwise one choice per hit, in list order, for the first ten hits, the scan stopping at the tenth |
| MyTimezone.ZoneChoices | internal/commands/my.timezone.go:60 | one choice per found zone, in order |
| MyTimezone.SuggestionsMatch | internal/commands/my.timezone.go:56-64 | every suggestion is a listed zone that matches, there are never more than ten, and every matching zone is offered when fewer than ten match in all |
| MyTimezone.SetTimezone | internal/commands/my.timezone.go:70-87 | an unloadable zone answers "invalid" and writes nothing; an upsert failure is returned; otherwise the user's row gets the normalised name, its other columns kept, and the user's cache entry is evicted |
| MyTimezone.SetThenRead | internal/commands/my.timezone.go:77-84 | after a successful set, the next read through the cache sees the new zone |
| MyTimezone.GetTimezone | internal/commands/my.timezone.go:30-40 | success with the stored zone when one is stored; "missing" when none is stored or the row is absent; any other error is returned |
| MyTimezone.SetThenGet | internal/commands/my.timezone.go:30-80 | what set stores, get reads back |
| Zones.LoadLocation | internal/commands/my.timezone.go:72 | "" and "UTC" load as UTC; any other name, "Local" included, loads exactly when it is in the zone database, to its offset |
| Zones.ZoneName | internal/commands/my.timezone.go:73 | the normalised name of a loaded zone is its own name, "UTC" for the empty name |
| Zones.NormalisedNameReloads | internal/commands/my.timezone.go:72-80 | a stored normalised name loads the same zone again |
| MyBirthday.ValidBirthdayIsValidDate | internal/commands/my.birthday.go:63-67 | a (month, day) passes the check if and only if that day exists in that month of the leap year 2000 |
| MyBirthday.ValidBirthday | internal/commands/my.birthday.go:63-67 | the date check: the day built into the leap year 2000 and normalised keeps its month and day; `ValidBirthdayIsValidDate` states which days pass |
| MyBirthday.ValidBirthdayOccursInSomeYear | internal/commands/my.birthday.go:63-67 | a (month, day) passes exactly when it occurs in some year |
| MyBirthday.FebruaryAndApril | internal/commands/my.birthday.go:63-67 | February accepts days 1 to 29 and April days 1 to 30, so 29 Feb is valid and 31 Apr is not |
| MyBirthday.InsideTheYear | internal/commands/my.birthday.go:70 | a valid birthday placed in any year falls inside that year |
| MyBirthday.NextBirthdayAsWritten | internal/commands/my.birthday.go:69-73 | the next birthday as written, with the year from the server's clock and midnight in the user's zone, is a local midnight in the user's zone |
| MyBirthday.AsWrittenCanBeInThePast | internal/commands/my.birthday.go:70-73 | with the server on UTC and a user on UTC+14 born on 1 January, at noon UTC on 31 December the computed birthday is two hours in the past |
| MyBirthday.NewYearsEveNoon | internal/commands/my.birthday.go:70 | noon UTC on 31 December is still in that year on the server's clock |
| MyBirthday.NextBirthdayIsAhead | internal/commands/my.birthday.go:69-73 | with the year read in the user's zone, the next birthday is a local midnight, never before now and less than 366 days ahead |
| MyBirthday.NextBirthday | internal/commands/my.birthday.go:69-73 | the corrected next birthday, with the year read in the user's zone: always a local midnight in that zone; `NextBirthdayIsAhead` states that it is never in the past |
| MyBirthday.WithoutBirthdays | internal/commands/my.birthday.go:81-83 | the conditional delete keeps exactly the tasks that are not birthday tasks of this member in this guild, in order |
| MyBirthday.StoredZone | internal/commands/my.birthday.go:51-52 | the zone is read only when the row exists, carries a zone and the read succeeds |
| MyBirthday.SetBirthday | internal/commands/my.birthday.go:43-97 | the corrected program: no birthday channel answers no_channel, no loadable zone answers timezone, a day that does not exist answers invalid, all with no write; otherwise every birthday task of the member in the guild is deleted, or all are kept when the unchecked delete fails, and one is created for the corrected next birthday, which is never in the past; a failed create returns its error |
| MyBirthday.SetLeavesOneBirthday | internal/commands/my.birthday.go:79-93 | after a set whose delete and create succeed, the member has exactly one birthday task in the guild, and every other task is kept |
| MyBirthday.FailedDeleteKeepsOldBirthday | internal/commands/my.birthday.go:79-93 | when the unchecked delete fails and the create succeeds, a member who had a birthday task ends with two, the old one and the new one |
| MyBirthday.ClearBirthday | internal/commands/my.birthday.go:104-110 | success is always answered; a delete that succeeds removes every birthday task of the member in the guild and keeps the rest; a failed delete, whose error is not checked, keeps every task |
| Calendar.DaysInMonth | internal/commands/my.birthday.go:64-65 | every month has 28 to 31 days |
| Calendar.CivilRoundTrip | internal/commands/my.birthday.go:64-65 | a valid date survives time.Date's trip to an instant and back, so the month and day read back unchanged |
| Calendar.NoLeapDay | internal/commands/my.birthday.go:64-65 | in a common year time.Date normalises 29 February to 1 March |
| Calendar.LocalSecond | internal/events/bedtime.go:44-45 | the seconds since local midnight lie in one day and add up to the local reading of the instant |
| Calendar.DateOfMidnight | internal/commands/my.birthday.go:70 | local midnight of a valid date falls on that date |
| Calendar.AddYear | internal/tasks/scheduled.go:107 | AddDate(1, 0, 0) moves an instant on by 365 or 366 days |
| Calendar.AddYearToMidnight | internal/commands/my.birthday.go:72 | a year after local midnight of a valid date is local midnight of the same month and day in the next year |
| Calendar.LeapDayDrifts | internal/tasks/scheduled.go:107 | a year added to 29 February lands on 1 March, since the next year is not a leap year |
| Reminders.SetReminder | internal/commands/remind.go:39-83 | refusals in the source's order (no zone, the read's error, a zone that does not load panics, no parse, a time before now, the create's error), each leaving the table unchanged; otherwise exactly one Reminder row is appended with the next id, the parsed time and a payload holding the channel and the message, and the reply carries its time markup and id |
| Reminders.WithoutCancelled | internal/commands/remind.go:94-95 | the corrected delete's conditions: a row survives exactly when it is not the reminder with this id in this guild |
| Reminders.CancelReminder | internal/commands/remind.go:92-102 | the corrected cancel: a storage failure is returned and nothing is deleted; a delete that matches no reminder of this guild with the id answers "missing", one that matches answers "success"; rows the delete does not match are kept and the id counter is unchanged |
| Reminders.CancelReminderAsWritten | internal/commands/remind.go:92-102 | as written: id 0 fails with "WHERE conditions required" and a storage failure is returned, both with no change; otherwise the task with that id, of any guild or type, is deleted and success answered, also when there is none |
| Reminders.CancelAsWrittenTakesAnyTask | internal/commands/remind.go:94-95 | the delete as written removes a task of another guild or another type, which the corrected conditions keep |
| Reminders.NothingCancelled | internal/commands/remind.go:94-97 | the delete never adds rows, and removes none exactly when no row matches its conditions |
| Reminders.Cancels | internal/commands/remind.go:94 | the corrected delete condition: this id, in this guild, of the reminder type |
| Reminders.Candidates | internal/commands/remind.go:109-111 | a row is a candidate exactly when it is a Reminder of this guild whose payload's "ChannelID" key equals the channel |
| Reminders.Listed | internal/commands/remind.go:109-111 | the list filter as written: a reminder of this guild whose payload has "ChannelID" equal to the channel |
| Reminders.Fetch | internal/commands/remind.go:108-111 | the query: at most eleven rows, in process-after order, each one passing the filter |
| Reminders.InsertByTime | internal/commands/remind.go:112 | inserting into a time-ordered sequence keeps it ordered by process_after and adds exactly that row |
| Reminders.InsertAfterHead | internal/commands/remind.go:112 | the inductive step of the insertion: a head no later than the rest stays in front of an ordered permutation |
| Reminders.SortByTime | internal/commands/remind.go:112 | the ORDER BY process_after yields an ordered permutation of its input |
| Reminders.ReminderField | internal/commands/remind.go:119-133 | a field's value is the payload's reason, or empty when the payload does not decode |
| Reminders.ReminderFields | internal/commands/remind.go:118 | one field per shown row, in the rows' order |
| Reminders.ListShowsEarliest | internal/commands/remind.go:107-146 | the list answers "empty" if and only if no row passes the filter; otherwise it shows the first ten passing rows in time order, none later than a row left out, with the "has more" footer exactly when more than ten pass |
| Reminders.ListReminders | internal/commands/remind.go:104-146 | the list handler: the query error alone on a failure, otherwise "empty" or an embed and never an error; `ListShowsEarliest` states which rows are shown |
| Reminders.PageShowsFirstTen | internal/commands/remind.go:112-138 | a LIMIT 11 fetch of an ordered result shows its first ten rows and the footer exactly when an eleventh exists |
| Reminders.Page | internal/commands/remind.go:112-138 | "empty" exactly when nothing was fetched; otherwise at most ten fields, with the "has more" footer exactly when more than ten rows came back |
| Reminders.SortKeepsRows | internal/commands/remind.go:112 | sorting keeps the number of rows and which rows there are |
| Reminders.NoneListedIffEmpty | internal/commands/remind.go:109-115 | the query finds no row exactly when no row passes the filter |
| Reminders.StoredRemindersAreNotListed | internal/commands/remind.go:60-111 | a reminder stored by set carries the key "channel", so the list's "ChannelID" filter never matches it |
| Reminders.ListOfStoredRemindersIsEmpty | internal/commands/remind.go:60-115 | a guild whose reminders were all stored by set always lists as empty |
| Bedtime.ReferenceBedtimeIsPast | internal/events/bedtime.go:43-48 | for a bedtime within the day, the bedtime that applies (today's, or yesterday's when today's is ahead) is never after now and less than a day before it |
| Bedtime.NoticeWindow | internal/events/bedtime.go:50-60 | outside the cooldown, with a zone that loads, a notice goes out if and only if at most six hours have passed since bedtime; it is "late" if and only if fewer than three have, "early" if and only if three to six have |
| Bedtime.NoticeKey | internal/events/bedtime.go:23-60 | a notice is one of "late" and "early", and only for a user with a bedtime and a zone that loads, outside the thirty-minute cooldown; `NoticeWindow` states when each is sent |
| Bedtime.CooldownHoldsBack | internal/events/bedtime.go:12-33 | once a notice is recorded at some instant, no message within thirty minutes of it brings another |
| Bedtime.BedtimeHandler | internal/events/bedtime.go:15-75 | bots are ignored; a failed read returns its error; otherwise the notice is the one the window chooses, posted to the message's channel in the guild's locale naming the author; a guild fetch failure panics; send and save failures return their error and leave the table unchanged; a notice that goes out is saved with its time in the table and the cache; the cache stays in agreement with the table |
| Bedtime.Notify | internal/events/bedtime.go:23-74 | the handler after the read: which notice is sent, the result of each failure, and that table and cache change only after a successful send and save, both to the user stamped with now |
| Bedtime.FillKeepsAgreement | internal/events/bedtime.go:19 | caching what the table holds keeps the cache in agreement with the table |
| Bedtime.SaveKeepsAgreement | internal/events/bedtime.go:68-73 | saving the same user to the table and to the cache keeps the two in agreement |
| Bedtime.NoSecondNotice | internal/events/bedtime.go:30-73 | of two messages less than thirty minutes apart, if the first brings a notice the second brings none |
| Youtube.Public | internal/tasks/youtube.go:82-84 | a video is kept exactly when it is in the feed and public |
| Youtube.After | internal/tasks/youtube.go:101-104 | a video is kept exactly when it is in the list and its time parses and is strictly after the watermark |
| Youtube.PlaylistRules | internal/tasks/youtube.go:74-105 | a failed query, a feed with no public video or a newest public video whose time does not parse changes nothing; the first sighting stores the newest public video's time and announces nothing; a newer newest video stores its time and announces exactly the public videos after the old watermark; otherwise nothing happens |
| Youtube.PlaylistStep | internal/tasks/youtube.go:74-105 | one playlist's step: a watermark is stored only after a successful query, the first sighting announces nothing, and every video announced is a public video of the feed; `PlaylistRules` states the full rules |
| Youtube.WatermarkNeverDecreases | internal/tasks/youtube.go:99-105 | once a playlist has a watermark, any watermark stored for it is strictly later |
| Youtube.SecondCheckSeesNothing | internal/tasks/youtube.go:79-105 | checking the same feed right after the watermark moved announces nothing, so a second guild following that playlist in the same tick sends nothing |
| Youtube.Announce | internal/tasks/youtube.go:110-111 | a video is announced in the guild's channel with the guild's template, the watch URL built from the video id, and the channel title |
| Youtube.AnnounceAll | internal/tasks/youtube.go:109-115 | one announcement per new video, in order |
| Youtube.AnnounceAllStep | internal/tasks/youtube.go:109-115 | announcing one more video appends exactly its announcement |
| Youtube.UnreadyGuildIsSkipped | internal/tasks/youtube.go:33-68 | a guild missing a usable channel, template, bot or playlist list changes no watermark and sends nothing |
| Youtube.OnlyReadyGuildsQuery | internal/tasks/youtube.go:33-69 | every playlist queried belongs to a guild whose settings all passed the checks |
| Youtube.YoutubeTask.constructor | internal/tasks/youtube.go:17 | the task starts with no watermarks |
| Youtube.YoutubeTask.Tick | internal/tasks/youtube.go:27-120 | after a tick the watermarks and the messages sent are those of visiting the guilds in order, and the playlists queried are exactly those of the ready guilds |
| Youtube.YoutubeTask.CheckGuild | internal/tasks/youtube.go:69-117 | a ready guild's playlists are checked in order |
| Youtube.YoutubeTask.CheckPlaylist | internal/tasks/youtube.go:74-116 | one playlist check stores the watermark the rules choose and appends one message per new video |
| Bluesky.PostUrl | internal/tasks/bluesky.go:154-159 | the link is the author's profile page followed by the post id, the longest end of the URI that holds no "/" |
| Bluesky.AddFollowerSpec | internal/tasks/bluesky.go:81-83 | after the inner loop, a guild follows an account exactly when it did before or it is this guild and the account is in its list |
| Bluesky.FollowersSpec | internal/tasks/bluesky.go:74-84 | in the inverted map, a guild follows an account exactly when that guild's list decoded and names the account; a list that does not decode adds nothing |
| Bluesky.After | internal/tasks/bluesky.go:112-119 | a post is kept exactly when it is in the feed and its time parses and is strictly after the watermark |
| Bluesky.UserRules | internal/tasks/bluesky.go:88-120 | a failed fetch or an empty feed changes nothing; the first sighting stores the newest time and announces nothing; a newer post stores the newest time plus five seconds and announces exactly the posts after the old watermark; otherwise nothing happens |
| Bluesky.UserStep | internal/tasks/bluesky.go:88-120 | one account's step: a watermark is stored only after a successful fetch, the first sighting announces nothing, and every post announced is from the fetched feed; `UserRules` states the full rules |
| Bluesky.BufferHidesCloseFollowUp | internal/tasks/bluesky.go:120 | a newest post made less than five seconds after the newest one announced is never announced on the next tick |
| Bluesky.MissingChannelPanics | internal/tasks/bluesky.go:124-134 | as written, a following guild with no channel row makes the announcement panic |
| Bluesky.NotifyAsWritten | internal/tasks/bluesky.go:124-134 | as written: the delivery panics exactly when the guild has no channel row, or a parsed channel but no template row; a delivery goes to that guild with the post's URL |
| Bluesky.Notify | internal/tasks/bluesky.go:133-165 | never panics; a post is delivered to a guild exactly when its channel and template rows exist and decode, the template parses and a bot serves the guild, and then in that channel with that template and the post's link |
| Bluesky.NotifyAgreesWhenNoPanic | internal/tasks/bluesky.go:133-165 | wherever the version as written does not panic, the corrected one decides the same |
| Bluesky.PostSends | internal/tasks/bluesky.go:123-125 | a post brings at most one message per following guild |
| Bluesky.Sends | internal/tasks/bluesky.go:160 | a delivery decision sends at most one message |
| Bluesky.PostSendsMembers | internal/tasks/bluesky.go:122-126 | a post's messages are exactly the deliveries to the guilds following the account |
| Bluesky.BlueskyTask.constructor | internal/tasks/bluesky.go:103 | the task starts with no watermarks |
| Bluesky.BlueskyTask.Tick | internal/tasks/bluesky.go:64-131 | the corrected program: a failed session refresh returns its error and changes nothing; otherwise every followed account is visited exactly once, and the watermarks and messages are those of visiting them in that order with the corrected notify |
| Bluesky.BlueskyTask.VisitAccount | internal/tasks/bluesky.go:86-127 | the corrected program: one account's watermark is the one its rules choose and its new posts are announced, by the corrected notify, to its followers |
| Bluesky.SendPosts | internal/tasks/bluesky.go:122-126 | the corrected program: the messages for an account's new posts, post by post in feed order, with guilds lacking a channel or template skipped |
| Bluesky.SendPost | internal/tasks/bluesky.go:123-125 | the corrected program: the messages for one post, one following guild after another, with guilds lacking a channel or template skipped |
| Bluesky.Invert | internal/tasks/bluesky.go:74-84 | the inversion loop builds the account-to-guilds map |
| Bluesky.FollowersStep | internal/tasks/bluesky.go:75-84 | one more guild's list adds that guild to each named account, or nothing when it does not decode |
| Bluesky.Follow | internal/tasks/bluesky.go:81-83 | the inner loop appends the guild to each named account's list |
| Bluesky.PostSendsStep | internal/tasks/bluesky.go:123-125 | one more following guild appends exactly the message its delivery decision sends |
| TwitchLive.Login | internal/events/twitch.go:43-45 | the login cut from a Twitch stream URL is what follows the prefix "https://www.twitch.tv/" |
| TwitchLive.FirstStream | internal/events/twitch.go:42-50 | the activity found is a Twitch stream among the activities, and none is found exactly when no activity is one |
| TwitchLive.ScanAsWritten | internal/events/twitch.go:37-55 | as written, the guild-available scan collects at most one live login |
| TwitchLive.SecondStreamerIsMissed | internal/events/twitch.go:48 | with two streaming members, the scan as written gives the role to the first only, because the labelled break leaves the loop over presences |
| TwitchLive.ScanAllHandlesEveryone | internal/events/twitch.go:38-54 | in the corrected scan every streaming member gets the live role and every member with an activity list who is not streaming loses it |
| TwitchLive.PresenceScan | internal/events/twitch.go:38-54 | one presence: no role change without an activity list, otherwise exactly one change, for that member, and at most one live login |
| TwitchLive.ScanAll | internal/events/twitch.go:37-55 | the corrected scan: at most one role change per presence and no more live logins than role changes |
| TwitchLive.ScanAllTouchesOnlyListed | internal/events/twitch.go:39-40 | the scan touches only members whose presence has an activity list |
| TwitchLive.AsWrittenIsPrefixOfScanAll | internal/events/twitch.go:37-55 | the role changes as written are the corrected scan's, cut short |
| TwitchLive.ThenAssoc | internal/events/twitch.go:45-53 | collecting role changes and logins in two steps is associative |
| TwitchLive.ScanAllStep | internal/events/twitch.go:38 | the corrected scan of a suffix is the next presence's changes followed by the scan of the rest |
| TwitchLive.FindStream | internal/events/twitch.go:42-50 | the loop over a presence's activities finds the first Twitch stream |
| TwitchLive.ScanPresences | internal/events/twitch.go:37-55 | the scan loop, continued rather than left at a streamer, computes the corrected scan |
| TwitchLive.ScanPresencesAsWritten | internal/events/twitch.go:37-55 | the scan loop with its labelled break computes the scan as written |
| TwitchLive.GuildAvailable | internal/events/twitch.go:26-59 | nothing happens without a live role setting; otherwise the role changes are the corrected scan's |
| TwitchLive.PresenceUpdate | internal/events/twitch.go:61-115 | nothing without a live role or channel setting; a failed member fetch returns its error; an ineligible member or one without activities is left alone; a streamer gets the role when one is set and a stream check for the login, with the member's mention, when a channel is set; anyone else loses the role |
| TwitchLive.PollingPanics | internal/events/twitch.go:120-125 | the polling panics exactly when, within the 20 attempts, a request with no response comes before any request that finds the image, because the log line reads its status code |
| TwitchLive.StreamCheckPost | internal/events/twitch.go:92-137 | nothing is posted exactly when the stream lookup fails or the stream is not new; a new stream crashes the process exactly when its template does not parse or the thumbnail polling panics; otherwise the post goes to the configured channel with the rendered template and an embed showing the stream's login, link, title, game, start time, tags, the profile image and the sized thumbnail |
| TwitchLive.ThumbnailSized | internal/events/twitch.go:119 | the first "{width}x{height}" in the thumbnail URL becomes "1024x576" and nothing else changes |
| TwitchLive.Thumbnail | internal/events/twitch.go:119 | the thumbnail URL with its first "{width}x{height}" replaced by "1024x576"; `ThumbnailSized` and `ThumbnailWithoutPlaceholder` state the result |
| TwitchLive.NotificationEmbed | internal/events/twitch.go:117-137 | the stream embed: title, game, the Twitch link and login, the profile image, the start time, the tags joined by ", " and the sized thumbnail; `StreamCheckPost` states what it shows |
| TwitchLive.ThumbnailWithoutPlaceholder | internal/events/twitch.go:119 | a thumbnail URL without the placeholder is kept as it is |
| MessageLog.LogsChannel | internal/events/logging.go:33-149 | a logs channel is used only when its lookup succeeded and the stored value decodes, and it is then the decoded value |
| MessageLog.AttachmentsText | internal/events/logging.go:69-71 | no attachments, or a single attachment with an empty URL, read "None"; one attachment reads as its URL; anything else that is not "None" is the URLs joined by ", " (two empty URLs give ", ") |
| MessageLog.AttachmentsListed | internal/events/logging.go:69-71 | several attachments are listed in order, separated by ", " |
| MessageLog.AuditKeyOf | internal/events/logging.go:185-197 | delete and bulk-delete entries are keyed by channel and target; ban, unban and kick entries by target; member updates only when their first change is the timeout, by target; every other action is ignored |
| MessageLog.RoutingMatchesLookups | internal/events/logging.go:61-190 | an entry for a deleted message is stored under the key the delete handler looks up, ban, unban and kick entries likewise, and bulk deletes under a key no handler looks up |
| MessageLog.FindAudit | internal/events/logging.go:199-210 | an entry is found exactly when the audit cache holds one under the key, and it is that entry |
| MessageLog.AddAuditLogFields | internal/events/logging.go:212-226 | without an entry the fields are unchanged; with one exactly two fields are appended after the existing ones: who acted as a mention, and the reason, "Not provided" when empty |
| MessageLog.BanPost | internal/events/logging.go:83-116 | a ban or unban is posted exactly when a logs channel is set, titled by its kind, with the user's id and name first, and with four fields exactly when an audit entry for the user was found |
| MessageLog.LeavePost | internal/events/logging.go:118-146 | a departure is posted exactly when a logs channel is set; it is "User Kicked" with the audit fields exactly when a kick entry for the user is found, and "User Left" with the user's fields otherwise |
| MessageLog.RoutedKickIsReported | internal/events/logging.go:121-190 | a kick whose audit entry has been routed is reported as a kick naming who kicked |
| MessageLog.TimeoutAsWritten | internal/events/logging.go:148-183 | as written, a timeout is logged only for a known earlier member and a future end, and the handler panics exactly when the earlier timeout has lapsed and the update carries none |
| MessageLog.ClearedTimeoutPanics | internal/events/logging.go:166-168 | a member whose timeout lapsed a minute ago and whose update carries no timeout makes the handler as written dereference nil |
| MessageLog.Timeout | internal/events/logging.go:148-183 | with the nil test first the handler never panics, and reports a removal exactly when no new timeout was set, the earlier timeout has lapsed, and the new end is absent or past |
| MessageLog.TimeoutAgreesWhenNoPanic | internal/events/logging.go:166-180 | the corrected handler decides as the written one wherever that one does not panic, and reports a removal where it panics |
| MessageLog.LogCaches.constructor | internal/events/logging.go:15-22 | both caches start empty |
| MessageLog.LogCaches.MessageCreated | internal/events/logging.go:24-30 | a message is cached exactly when the logs channel setting exists and its author is a known non-bot; nothing else changes |
| MessageLog.LogCaches.MessageUpdated | internal/events/logging.go:32-55 | without a logs channel nothing happens; an edit of a cached message by a known non-bot is reported with its channel, first send time, link, previous and new content, and the cached copy is kept; in every other case the new version is cached; the send's error is returned |
| MessageLog.LogCaches.MessageDeleted | internal/events/logging.go:57-81 | a cached message is reported with its content, attachments and the audit fields of a delete entry for its channel and author, then dropped from the cache; an uncached one is not reported; a cached one without an author panics |
| MessageLog.LogCaches.AuditLogged | internal/events/logging.go:185-197 | an entry is remembered under its routing key, and an ignored one changes nothing |
| MessageLog.DeletedFields | internal/events/logging.go:64-72 | a deleted-message report has five fields, the fourth its content and the fifth its attachment text |
| MessageLog.Timestamp | internal/events/logging.go:66 | the Discord timestamp markup "<t:seconds:f>" |
| MessageLog.MessageUrl | internal/events/logging.go:67 | the message link https://discord.com/channels/guild/channel/message |
| MessageLog.CreateEditDelete | internal/events/logging.go:24-81 | a message created, edited and then deleted is reported as deleted with the content it was created with, and leaves the cache |
| Bot.GroupByToken | internal/bot/bot.go:31-35 | the tokens grouped are exactly the configured tokens; every guild is listed under its own token, and each token's list is non-empty, has no repeats and holds only guilds with that token |
| Bot.BotManager.constructor | internal/bot/bot.go:24 | a manager starts with no bots and no guild mapping |
| Bot.BotManager.AddBot | internal/bot/bot.go:39-43 | creating a bot appends its session and maps each of its guilds to it, leaving the other guilds' sessions as they were |
| Bot.Tokens | internal/bot/bot.go:16 | the sessions' tokens, one per session, in creation order |
| Bot.CreateBots | internal/bot/bot.go:37-44 | one session per token with no token twice, each holding all that token's guilds; every configured guild is mapped, and only those, to the session of its token |
| Bot.SessionCount | internal/bot/bot.go:37-44 | sessions with distinct tokens that cover the configured tokens number as many as those tokens |
| Bot.TokensAreValues | internal/bot/bot.go:32-44 | the sessions' tokens are exactly the configured tokens |
| Bot.ManagerShape | internal/bot/bot.go:23-47 | the grouping and the creation loop together give the manager its shape: distinct tokens, one session per configured token, every guild served by the session of its token |
| Bot.GuildsServed | internal/bot/bot.go:41-43 | each guild's session is one of the bots, has the guild's token and lists the guild; each guild a bot lists has that bot's token |
| Bot.CreateBotManager | internal/bot/bot.go:23-47 | failing to read the tokens panics; otherwise there is exactly one session per distinct token, every guild maps to the session of its token, and guilds that share a token share that session |
| Bot.Registry | internal/bot/bot.go:144-154 | the registry is built exactly when no command node mixes a handler and children, and is then keyed by the names of the top-level commands |
| Bot.BuiltNames | internal/bot/bot.go:144-152 | building the command list keeps the top-level names |
| Bot.OnInteraction | internal/bot/bot.go:91-114 | only command and autocomplete interactions are dispatched, every other type being ignored; a dispatched one runs the command registered under its name on its options, and a name with no command dereferences nil |
| Bot.DispatchFindsBuiltCommand | internal/bot/bot.go:98-154 | with distinct command names, a command or autocomplete interaction naming a command runs that command as built |
| Bot.RegistryIsNameMap | internal/bot/bot.go:154 | for a well-formed list the registry maps each name to the built command |
| I18n.Catalog.Add | internal/i18n/i18n.go:59-89 | adding a leaf to the responses or to the metadata changes the tables exactly as applying that leaf to the chosen table |
| Quotes.QuoteTable.constructor | internal/database/models.go:25-32 | a quotes table starts from rows that respect the (guild, user, digest) unique index, with an id counter above every stored id |
| Commands.LocalizeOptions | internal/commands/base.go:119-127 | every option of a leaf is localised, in order |
| Commands.LocalizeChoices | internal/commands/base.go:123-126 | every choice of an option is localised, in order |
| Commands.SubcommandOptions | internal/commands/base.go:84 | an internal node gets one subcommand option per built child, in order |
| Commands.BuiltNamesKept | internal/commands/base.go:82-85 | building the children keeps their number and their names |
| Commands.NameMapOfBuilt | internal/commands/base.go:81-83 | a child whose name is unique is found in the subcommand map in its built form |
| Commands.NameMapFindsBuilt | internal/commands/base.go:83 | each entry of the subcommand map is a built child, under its own name |
| Commands.BuiltMapIsNameMap | internal/commands/base.go:81-85 | the map of a built internal node is the name map of its built children |
| Commands.BuiltLeafKeepsHandler | internal/commands/base.go:74-101 | building a leaf keeps its handler |
| TextCommands.FaceOfDraw | internal/commands/text.go:45 | the draw k - 1 shows face k |
| Discord.Mention | internal/events/bedtime.go:62 | a user mention is "<@", the id, then ">" |
| Discord.MemberMention | internal/tasks/scheduled.go:70 | a member mention is "<@!", the id, then ">" |
| Text.Contains | internal/commands/my.timezone.go:59 | true exactly when the text occurs somewhere in the string |
| Text.ToLower | internal/commands/my.timezone.go:56-59 | same length, with each ASCII capital lowered and every other character kept, which is Unicode lowering on the ASCII zone names |
| Text.IndexOf | internal/i18n/i18n.go:60 | the first position of the element, or -1 exactly when it is absent |
| Text.BeforeFirst | internal/i18n/i18n.go:53 | the longest prefix without the separator, which is followed by the separator when it is not the whole string |
| Text.BeforeFirstStops | internal/i18n/i18n.go:53 | a file name's locale is the part before its first "." |
| Text.AfterLast | internal/tasks/bluesky.go:154 | the longest suffix without the separator, which is preceded by the separator when it is not the whole string |
| Text.ReplaceFirst | internal/events/twitch.go:119 | without an occurrence the string is kept; with one, the length changes by the replacement's length minus the pattern's |
| Text.ReplaceAfter | internal/events/twitch.go:119 | the first occurrence, and only it, is replaced |
| Chat.Rotate | internal/events/chat.go:48-50 | reading the buffer from the cursor around keeps its length |
| Chat.Shift | internal/events/chat.go:43-46 | one more add keeps the window's size |

## Left out

- Concurrency and lifecycle: the task manager's tickers and goroutines, `BotManager.Start`/`Stop`, the goroutine per scheduled task and the goroutine per Twitch stream check. Every operation is modelled as single-threaded; the cooldown and chat maps, which the source accesses without locks, are modelled as if no two handlers ran at once.
- Panic and recover wrappers (internal/events/base.go:19-23, internal/bot/bot.go:92-96, tasks.go:41-48): a panic is a `Panicked`/`EventPanicked` result, a `Panic` delivery or a `TimeoutPanic`, and what follows it is not modelled. Each wrapper logs the recovered value as `rec.(error)`, so the outcome depends on what was thrown:
  - A runtime error, such as the nil dereferences of `Bluesky.NotifyAsWritten`, `MessageLog.TimeoutAsWritten`, `MessageLog.LogCaches.MessageDeleted` and the `Panicked` outcome of `Chat.ChatMessageCreate`, is an `error`. It is logged, and only that handler ends, or in tasks.go that periodic task.
  - `lo.Must` panics with a string, so the type assertion panics again inside the deferred call and the whole process ends. That is the case for the `Panicked` results of `Reminders.SetReminder` (an unknown zone, remind.go:49) and `TextCommands.TargetReply` (a failed member fetch, text.go:92), and for the `EventPanicked` results of `Bedtime.BedtimeHandler` and `Bedtime.Notify` (a failed guild fetch, bedtime.go:61).
- Outside services are inputs: the OpenAI call, the YouTube and Bluesky clients and the Bluesky session refresh, internal/twitch/twitch.go (stream lookup, profile images, its stream cache), and Discord REST fetches and sends.
- A failed send is reported where the handler returns the error and is otherwise not modelled (YouTube and Bluesky only log it).
- `waitForAuditLog` retries and sleeps: the audit cache as it stands when the wait ends is the input.
- TwitchLive.StreamCheckPost: the thumbnail polling is an input, the outcome of each HEAD request; the 30-second delays between attempts are not modelled.
- LRU and TTL eviction of the expirable caches: the user cache, the message cache and the audit cache are plain maps, with explicit removal only.
- Database: GORM and SQL are in-memory tables.
  - The ORM's Delete with a struct filters by its primary key only, ignores its other fields, never reports "record not found", and refuses a zero key with "WHERE conditions required"; `Models.TaskTable.DeleteById` and `Quotes.QuoteTable.Delete` model that.
  - Ties in `ORDER BY process_after` keep table order, which SQL does not promise.
  - `order random()` is an arbitrary pick.
- Quotes find: the `LIKE %text%` search is a plain substring match; the wildcards `%` and `_` inside the typed text are not modelled.
- Quotes get and delete by id are not scoped to the guild in the source; the model keeps that as written.
- `Quotes.ComputeDigest`, `Quotes.AddQuote`: MD5 (RFC 1321) is not modelled. The hash is a parameter, required to return 16 bytes as MD5 does.
- Text is a sequence of characters; where Go works on UTF-8 bytes (the digest's alphanumeric filter, slicing the Twitch URL at 22), the model treats each character as one byte.
- Templates and YAML/JSON:
  - `text/template` execution is not modelled. A reply carries its template and variables, and a rendered notification text is an input.
  - YAML decoding is replaced by a tree datatype.
  - JSON payloads and config values are objects of string fields or malformed text.
- Dates and zones:
  - RFC 3339 parsing and the reminder date parser are inputs: the parsed instant, or none.
  - `time.LoadLocation` gives a fixed offset; daylight-saving changes are not modelled.
  - A video or post whose time does not parse has no time.
  - The zero `time.Time` watermark is modelled as an absent map entry.
- The random draws: `lo.Sample`, `rand.Int63n` in roll, the random template variant in `Get`, and flip's two `rand.Float32` draws are arbitrary inputs. The one-in-a-hundred chance of a failed flip is not modelled as a probability.
- Logging, embed colours, inline flags, avatar thumbnails and `AllowedMentions` are not modelled.
- The command tree is built on values. The source mutates each `BotCommand` in place and its children through pointers; the model returns the built tree instead, so aliasing between command objects is not captured.
- `addAuditLogFields` appends to the embed's fields in place; the model returns the new field list.
- `MessageLog.Timeout`, `MessageLog.TimeoutAsWritten`: the source compares the two timeout pointers, not the instants; whether they are the same pointer is the input `samePointer`. The embeds these handlers post are not modelled, only which one is chosen.
- Bedtime: a stored bedtime is a time of day below 24 hours, as the settings command stores it; the window lemmas assume that.
- `Roles.DaysJoined`, `Roles.RegularsCheck`, `Roles.HeldRoleBeatsThresholds`: require the member to have joined no later than now, so a join time in the future is not modelled.
- `MyBirthday.NextBirthday`, `MyBirthday.NextBirthdayAsWritten`, `MyBirthday.SetBirthday`: require a month from 1 to 12. The command's fixed choices only offer those months, so the month normalisation `time.Date` would apply to others is not modelled.
- Reminders list: the filter tests the payload key "ChannelID", while set stores the key "channel". The model keeps this as written, and `Reminders.ListOfStoredRemindersIsEmpty` states the consequence.
- Bluesky.BlueskyTask.Tick: states the corrected program, which skips a following guild that lacks a channel or template row; the program as written panics there and the task ends, which `Bluesky.NotifyAsWritten` states.
- Bluesky.BlueskyTask.VisitAccount: states the corrected program, with the same skip in place of the panic.
- Bluesky.SendPosts: states the corrected program, with the same skip in place of the panic.
- Bluesky.SendPost: states the corrected program, with the same skip in place of the panic.
- MyBirthday.SetBirthday: stores the corrected next birthday, which is never in the past; the program as written stores `MyBirthday.NextBirthdayAsWritten`, which can be.
- Reminders.CancelReminder: states the corrected cancel, limited to the guild's own reminders and answering "missing" when none goes; the program as written is `Reminders.CancelReminderAsWritten`.
- Reminders.WithoutCancelled: the delete conditions the corrected cancel applies; the program as written deletes by id alone, `Models.WithoutId`.
- Quotes.DeleteQuote: states the corrected delete, answering "missing" when no quote goes; the program as written is `Quotes.DeleteQuoteAsWritten`.
- TextCommands.Flip: the side's text is its template as stored (`I18n.TextOf`), since template execution is not modelled.
- The chat command's guild prompt template is not rendered; the prompt text is an input.
- Trivial or plumbing files are not part of this model: main.go, internal/database/database.go, internal/events/events.go, internal/commands/commands.go, internal/tasks/base.go, internal/config/keys.go, internal/config/secrets.go, internal/events/cleanup.go, and the settings, report, admin, echo and petpet commands.
- MyBirthday.SetLeavesOneBirthday: holds only for a set whose delete succeeds. The handler does not check the delete's error, and when it fails the old tasks stay beside the new one, as `MyBirthday.FailedDeleteKeepsOldBirthday` states.
- MyBirthday.ClearBirthday: promises that no birthday task of the member remains only when the delete succeeds; a failed delete keeps the tasks and the answer is still success.
- Chat.ChatMessageCreate, Chat.Respond: the three nil dereferences of the handler are the `Panicked` outcome: a message without a member (chat.go:85), a failed guild fetch for the cooldown reply (chat.go:87-88), and a prompt that does not parse or a bot member or guild missing from the state (chat.go:104-127). The recovery that follows is the panic line above.
- The `id` options of quote get, quote delete and remind cancel are integers read with `UintValue()` (quote.go:61, quote.go:147, remind.go:93). A negative value converts to an implementation-dependent unsigned number that the model's `nat` ids cannot hold; it matches no stored row, like any absent id.

## Findings

| source | as written | input that shows it | evidently intended | confidence | as-written member | corrected member |
|---|---|---|---|---|---|---|
| internal/commands/my.birthday.go:70-73 | the birthday's year is the year of `time.Now()` in the server's zone, combined with the user's zone | server on UTC, user on UTC+14, born 1 January, at noon UTC on 31 December: the result is 10:00 UTC that day, two hours in the past | the next midnight of the birthday in the user's zone that is not before now | not executed | MyBirthday.NextBirthdayAsWritten, MyBirthday.AsWrittenCanBeInThePast | MyBirthday.NextBirthday, MyBirthday.NextBirthdayIsAhead |
| internal/tasks/bluesky.go:124,133-134 | `channels[guildId]` and `templates[guildId]` are used without checking that the guild has that row, and `Value()` is called on the nil entry | a guild that follows an account but has no channel row, when that account posts: the call panics and the recover in tasks.go:41-48 ends the task | that guild is skipped for that post, as with a channel or template that fails to parse | not executed | Bluesky.NotifyAsWritten, Bluesky.MissingChannelPanics | Bluesky.Notify, Bluesky.NotifyAgreesWhenNoPanic |
| internal/commands/quote.go:176-183 | the find query filters by user and text but not by guild | a quote stored in guild A, found with matching text from guild B: it is listed in B | only quotes of the invoking guild are listed, like random | not executed | Quotes.FindAsWritten, Quotes.FindListsOtherGuilds | Quotes.Find, Quotes.FindStaysInGuild |
| internal/events/twitch.go:37-55 | `break userPresence` leaves the loop over all presences at the first streamer | two members streaming on Twitch when the guild becomes available: only the first gets the role and is listed live | leave only the loop over one member's activities and go on with the next member | not executed | TwitchLive.ScanAsWritten, TwitchLive.SecondStreamerIsMissed | TwitchLive.ScanPresences, TwitchLive.ScanAllHandlesEveryone |
| internal/events/logging.go:166-168 | `CommunicationDisabledUntil.Before(...)` is called before `CommunicationDisabledUntil == nil` is tested | a member whose earlier timeout has lapsed, updated with no timeout: the nil time is dereferenced and the handler panics | test for nil first, so the update is logged as "timeout removed" | not executed | MessageLog.TimeoutAsWritten, MessageLog.ClearedTimeoutPanics | MessageLog.Timeout, MessageLog.TimeoutAgreesWhenNoPanic |
| internal/commands/remind.go:92-102 | the reminder is deleted through a struct carrying the id, the guild and the task type, but the delete filters by the id alone, and its not-found branch never runs | `/remind cancel` with the id of another guild's reminder, a birthday task or a role removal: that task is deleted and success answered; an id no task has also answers success | delete only the invoking guild's reminder with that id, and answer "missing" when there is none | not executed | Reminders.CancelReminderAsWritten, Reminders.CancelAsWrittenTakesAnyTask | Reminders.CancelReminder, Reminders.NothingCancelled |
| internal/commands/quote.go:146-157 | the delete never reports "record not found", so the "missing" branch is dead | `/quotes delete` with an id no quote has: success is answered | answer "missing" when no quote has the id | not executed | Quotes.DeleteQuoteAsWritten, Quotes.MissingQuoteAnswersSuccess | Quotes.DeleteQuote, Quotes.DeleteAnswer |

=== FILE: bedtime.dfy ===
/** The bedtime reminder (internal/events/bedtime.go): on a message from someone who has
    set a zone and a bedtime, a notice is posted when it is up to six hours past their
    bedtime, at most once every thirty minutes. */
module Bedtime {
  import opened Wrappers
  import opened Models
  import opened Discord
  import opened Calendar
  import Zones

  /** No second notice within this many seconds of the last one. */
  const CooldownSeconds: int := 30 * 60
  /** A notice goes out only up to this many seconds after bedtime. */
  const SleepSeconds: int := 6 * 3600

  /** The bedtime that applies now: today's local midnight plus the bedtime, or the day
      before's when that lies ahead of now. */
  function ReferenceBedtime(now: int, offset: int, bedtime: int): (b: int)
  {
    var c := DateIn(now, offset);
    var today := Midnight(c.year, c.month, c.day, offset) + bedtime;
    if today > now then today - SecondsPerDay else today
  }

  /** For a bedtime within the day (a time of day, as the column stores it), the reference
      bedtime is never after now and less than a day before it. */
  lemma ReferenceBedtimeIsPast(now: int, offset: int, bedtime: int)
    requires 0 <= bedtime < SecondsPerDay
    ensures now - SecondsPerDay < ReferenceBedtime(now, offset, bedtime) <= now
  {
    var c := DateIn(now, offset);
    assert Midnight(c.year, c.month, c.day, offset) == LocalDay(now, offset) * SecondsPerDay - offset;
  }

  /** The notice to send for a message at `now` from `u`: none without a zone and a
      bedtime, within thirty minutes of the last notice, for a zone that does not load, or
      more than six hours after bedtime; "late" in the first three hours, "early" after. */
  function NoticeKey(u: User, zones: Zones.ZoneTable, now: int): (k: Option<string>)
    ensures k.Some? ==> k.value == "my/bedtime/notifs.late" || k.value == "my/bedtime/notifs.early"
    ensures k.Some? ==> u.timezone.Some? && u.bedtime.Some? && Zones.LoadLocation(zones, u.timezone.value).Some?
    ensures k.Some? && u.lastBedtimeNotified.Some? ==> now - u.lastBedtimeNotified.value >= CooldownSeconds
  {
    if u.timezone.None? || u.bedtime.None? then None
    else if u.lastBedtimeNotified.Some? && now - u.lastBedtimeNotified.value < CooldownSeconds then None
    else
      match Zones.LoadLocation(zones, u.timezone.value)
      case None => None
      case Some(offset) =>
        var since := now - ReferenceBedtime(now, offset, u.bedtime.value);
        if since > SleepSeconds then None
        else if since < SleepSeconds / 2 then Some("my/bedtime/notifs.late")
        else Some("my/bedtime/notifs.early")
  }

  /** The window: for a user with a zone that loads and a bedtime within the day, outside
      the cooldown, a notice goes out exactly when at most six hours have passed since the
      reference bedtime, "late" exactly when fewer than three have. */
  lemma NoticeWindow(u: User, zones: Zones.ZoneTable, now: int)
    requires u.timezone.Some? && u.bedtime.Some? && 0 <= u.bedtime.value < SecondsPerDay
    requires Zones.LoadLocation(zones, u.timezone.value).Some?
    requires u.lastBedtimeNotified.None? || now - u.lastBedtimeNotified.value >= CooldownSeconds
    ensures var since := now - ReferenceBedtime(now, Zones.LoadLocation(zones, u.timezone.value).value, u.bedtime.value);
      && 0 <= since < SecondsPerDay
      && (NoticeKey(u, zones, now).Some? <==> since <= SleepSeconds)
      && (NoticeKey(u, zones, now) == Some("my/bedtime/notifs.late") <==> since < 3 * 3600)
      && (NoticeKey(u, zones, now) == Some("my/bedtime/notifs.early") <==> 3 * 3600 <= since <= SleepSeconds)
  {
    ReferenceBedtimeIsPast(now, Zones.LoadLocation(zones, u.timezone.value).value, u.bedtime.value);
  }

  /** Once a notice has been recorded at `sentAt`, no message before `sentAt` plus thirty
      minutes brings another, whatever else holds. */
  lemma CooldownHoldsBack(u: User, zones: Zones.ZoneTable, sentAt: int, now: int)
    requires now < sentAt + CooldownSeconds
    ensures NoticeKey(u.(lastBedtimeNotified := Some(sentAt)), zones, now).None?
  {
  }

  /** The posted notice: to the message's channel, in the guild's locale, naming the
      author. */
  datatype Notice = Notice(channelId: string, locale: string, key: string, vars: map<string, string>)

  /** The user GetUser yields when it does not fail. */
  function ReadUser(cache: map<string, User>, rows: map<string, User>, id: string): User
  {
    if id in cache then cache[id] else if id in rows then rows[id] else NewUser(id)
  }

  /** bedtimeHandler. The inputs are the outcomes of the outside calls: `readFailure` for
      the user query, `guildLocale` for the guild fetch (whose failure panics), `sendFailure`
      for the post and `saveFailure` for the save. A notice that goes out is recorded by
      saving the user with the time of the notice, in the table and then in the cache. */
  method BedtimeHandler(users: Users, zones: Zones.ZoneTable, authorId: string, authorBot: bool,
                        channelId: string, now: int, readFailure: Option<string>,
                        guildLocale: Result<string, string>, sendFailure: Option<string>,
                        saveFailure: Option<string>)
    returns (sent: Option<Notice>, r: EventResult)
    modifies users
    ensures authorBot ==> sent.None? && r == Handled && users.rows == old(users.rows) && users.cache == old(users.cache)
    ensures !authorBot && authorId !in old(users.cache) && readFailure.Some? ==>
      sent.None? && r == EventFailed(readFailure.value) && users.rows == old(users.rows)
    ensures !authorBot && (authorId in old(users.cache) || readFailure.None?) ==>
      var u := ReadUser(old(users.cache), old(users.rows), authorId);
      var key := NoticeKey(u, zones, now);
      var saved := u.(lastBedtimeNotified := Some(now));
      && (key.None? ==> sent.None? && r == Handled && users.rows == old(users.rows))
      && (key.Some? && guildLocale.Failure? ==> sent.None? && r.EventPanicked? && users.rows == old(users.rows))
      && (key.Some? && guildLocale.Success? ==>
            && sent == Some(Notice(channelId, guildLocale.value, key.value, map["user" := Mention(authorId)]))
            && (sendFailure.Some? ==> r == EventFailed(sendFailure.value) && users.rows == old(users.rows))
            && (sendFailure.None? && saveFailure.Some? ==> r == EventFailed(saveFailure.value) && users.rows == old(users.rows))
            && (sendFailure.None? && saveFailure.None? ==>
                  && r == Handled
                  && users.rows == old(users.rows)[authorId := saved]
                  && users.cache == old(users.cache)[authorId := saved]))
    ensures CacheAgrees(old(users.cache), old(users.rows)) ==> CacheAgrees(users.cache, users.rows)
  {
    if authorBot {
      return None, Handled;
    }
    ghost var expected := ReadUser(users.cache, users.rows, authorId);
    var read := users.GetUser(authorId, readFailure);
    if read.Failure? {
      return None, EventFailed(read.error);
    }
    assert read.value == expected;
    FillKeepsAgreement(old(users.cache), users.rows, authorId);
    OverwriteTwice(old(users.cache), authorId, users.Stored(authorId), read.value.(lastBedtimeNotified := Some(now)));
    sent, r := Notify(users, read.value, zones, authorId, channelId, now, guildLocale, sendFailure, saveFailure);
  }

  /** bedtimeHandler once the author's user row is read as `u`. */
  method Notify(users: Users, u: User, zones: Zones.ZoneTable, authorId: string, channelId: string, now: int,
                guildLocale: Result<string, string>, sendFailure: Option<string>, saveFailure: Option<string>)
    returns (sent: Option<Notice>, r: EventResult)
    modifies users
    ensures var key := NoticeKey(u, zones, now);
      var saved := u.(lastBedtimeNotified := Some(now));
      && (key.None? ==> sent.None? && r == Handled)
      && (key.Some? && guildLocale.Failure? ==> sent.None? && r.EventPanicked?)
      && (key.Some? && guildLocale.Success? ==>
            && sent == Some(Notice(channelId, guildLocale.value, key.value, map["user" := Mention(authorId)]))
            && (sendFailure.Some? ==> r == EventFailed(sendFailure.value))
            && (sendFailure.None? && saveFailure.Some? ==> r == EventFailed(saveFailure.value))
            && (sendFailure.None? && saveFailure.None? ==> r == Handled))
      && (if key.Some? && guildLocale.Success? && sendFailure.None? && saveFailure.None?
          then users.rows == old(users.rows)[authorId := saved] && users.cache == old(users.cache)[authorId := saved]
          else users.rows == old(users.rows) && users.cache == old(users.cache))
    ensures CacheAgrees(old(users.cache), old(users.rows)) ==> CacheAgrees(users.cache, users.rows)
  {
    var key := NoticeKey(u, zones, now);
    if key.None? {
      return None, Handled;
    }
    if guildLocale.Failure? {
      return None, EventPanicked(guildLocale.error);
    }
    sent := Some(Notice(channelId, guildLocale.value, key.value, map["user" := Mention(authorId)]));
    if sendFailure.Some? {
      return sent, EventFailed(sendFailure.value);
    }
    var saved := u.(lastBedtimeNotified := Some(now));
    if saveFailure.Some? {
      return sent, EventFailed(saveFailure.value);
    }
    SaveKeepsAgreement(users.cache, users.rows, authorId, saved);
    users.rows := users.rows[authorId := saved];
    users.cache := users.cache[authorId := saved];
    r := Handled;
  }

  lemma OverwriteTwice<K, V>(m: map<K, V>, k: K, a: V, b: V)
    ensures m[k := a][k := b] == m[k := b]
  {
  }

  /** Caching what the table holds keeps the cache in agreement with the table. */
  lemma FillKeepsAgreement(cache: map<string, User>, rows: map<string, User>, id: string)
    ensures CacheAgrees(cache, rows) ==>
      CacheAgrees(cache[id := if id in rows then rows[id] else NewUser(id)], rows)
  {
  }

  /** Saving the same user to the table and the cache keeps the two in agreement. */
  lemma SaveKeepsAgreement(cache: map<string, User>, rows: map<string, User>, id: string, u: User)
    ensures CacheAgrees(cache, rows) ==> CacheAgrees(cache[id := u], rows[id := u])
  {
  }

  /** A second message right after a notice that was saved brings no notice. */
  method NoSecondNotice(users: Users, zones: Zones.ZoneTable, authorId: string, channelId: string, now: int,
                        later: int, guildLocale: Result<string, string>)
    returns (first: Option<Notice>, second: Option<Notice>)
    requires now <= later < now + CooldownSeconds
    modifies users
    ensures first.Some? ==> second.None?
  {
    var r;
    first, r := BedtimeHandler(users, zones, authorId, false, channelId, now, None, guildLocale, None, None);
    second, r := BedtimeHandler(users, zones, authorId, false, channelId, later, None, guildLocale, None, None);
  }
}

=== FILE: birthday.dfy ===
/** The birthday commands (internal/commands/my.birthday.go): checking a date, computing the
    next birthday and keeping one birthday task per guild and user. */
module MyBirthday {
  import opened Wrappers
  import opened Models
  import opened Commands
  import opened Calendar
  import Zones

  /** The date check: the month and day are built into a date of the leap year 2000, which
      time.Date normalises, and they are accepted when the normalised date keeps them. */
  predicate ValidBirthday(month: int, day: int)
    requires 1 <= month <= 12
  {
    var c := CivilFromDays(DayNumber(2000, month, day));
    c.month == month && c.day == day
  }

  /** The date check accepts exactly the days of the month in a leap year. */
  lemma ValidBirthdayIsValidDate(month: int, day: int)
    requires 1 <= month <= 12
    ensures ValidBirthday(month, day) <==> Valid(Date(2000, month, day))
  {
    if Valid(Date(2000, month, day)) {
      CivilRoundTrip(Date(2000, month, day));
    }
  }

  /** A month and day pass the check exactly when they occur in some year: the 29th of
      February is accepted, the 31st of April is not. */
  lemma ValidBirthdayOccursInSomeYear(month: int, day: int)
    requires 1 <= month <= 12
    ensures ValidBirthday(month, day) <==> exists y :: Valid(Date(y, month, day))
  {
    ValidBirthdayIsValidDate(month, day);
    if exists y :: Valid(Date(y, month, day)) {
      var y :| Valid(Date(y, month, day));
      assert DaysInMonth(y, month) <= DaysInMonth(2000, month);
    }
  }

  /** February accepts its 29th day; April stops at its 30th. */
  lemma FebruaryAndApril()
    ensures forall d :: ValidBirthday(2, d) <==> 1 <= d <= 29
    ensures forall d :: ValidBirthday(4, d) <==> 1 <= d <= 30
  {
    forall d ensures ValidBirthday(2, d) <==> 1 <= d <= 29 {
      ValidBirthdayIsValidDate(2, d);
    }
    forall d ensures ValidBirthday(4, d) <==> 1 <= d <= 30 {
      ValidBirthdayIsValidDate(4, d);
    }
  }

  /** A valid birthday falls inside the year it is placed in, whatever that year. */
  lemma InsideTheYear(y: int, month: int, day: int)
    requires 1 <= month <= 12 && Valid(Date(2000, month, day))
    ensures DaysBeforeYear(y) <= DayNumber(y, month, day) < DaysBeforeYear(y + 1)
  {
    DaysBeforeNextYear(y);
    MonthsFillYear(y);
    if month == 2 {
      assert DaysBeforeMonth(y, 2) == 31;
    } else {
      DaysBeforeMonthMonotone(y, month, 13);
      assert DaysInMonth(2000, month) == DaysInMonth(y, month);
    }
  }

  /** The next birthday as the command computes it: local midnight of the birthday in the
      user's zone, in the year that the server's clock shows, moved on by one year when that
      instant has passed. */
  function NextBirthdayAsWritten(now: int, serverOffset: int, userOffset: int, month: int, day: int): (t: int)
    requires 1 <= month <= 12
    ensures LocalSecond(t, userOffset) == 0
  {
    var first := Midnight(DateIn(now, serverOffset).year, month, day, userOffset);
    MidnightReadsBack(DateIn(now, serverOffset).year, month, day, userOffset);
    if now > first then AddYear(first, userOffset) else first
  }

  /** When the user's zone has already reached the next year and the server's has not, the
      computed birthday lies before the present instant: with the server on UTC, a user on
      UTC+14 born on the 1st of January, at noon UTC on the 31st of December of any year,
      gets 10:00 UTC that same day. */
  lemma AsWrittenCanBeInThePast(y: int)
    ensures var now := Midnight(y, 12, 31, 0) + 12 * 3600;
      NextBirthdayAsWritten(now, 0, 14 * 3600, 1, 1) == now - 2 * 3600
  {
    var now := Midnight(y, 12, 31, 0) + 12 * 3600;
    var userOffset := 14 * 3600;
    var first := Midnight(y, 1, 1, userOffset);
    var next := DaysBeforeYear(y + 1);
    NewYearsEveNoon(y);
    NewYearsEveIsLastDay(y);
    assert now == (next - 1) * SecondsPerDay + 12 * 3600;
    DaysBeforeNextYear(y);
    assert first == DaysBeforeYear(y) * SecondsPerDay - userOffset;
    SecondsOfDays(next - 1, DaysBeforeYear(y));
    assert now > first;
    AddYearToMidnight(y, 1, 1, userOffset);
    assert AddYear(first, userOffset) == next * SecondsPerDay - userOffset;
    SecondsOfDays(next, next - 1);
  }

  /** Noon on the 31st of December, in UTC, is in year `y`. */
  lemma NewYearsEveNoon(y: int)
    ensures DateIn(Midnight(y, 12, 31, 0) + 12 * 3600, 0).year == y
  {
    DateDuringDay(y, 12, 31, 0, 12 * 3600);
  }

  /** The 31st of December is the last day before the next year begins. */
  lemma NewYearsEveIsLastDay(y: int)
    ensures DayNumber(y, 12, 31) == DaysBeforeYear(y + 1) - 1
  {
    MonthsFillYear(y);
    DaysBeforeNextYear(y);
  }

  /** Whole days in seconds: more days are more seconds, and one day is 86400 of them. */
  lemma SecondsOfDays(a: int, b: int)
    requires b <= a
    ensures b * SecondsPerDay <= a * SecondsPerDay
    ensures a == b + 1 ==> a * SecondsPerDay == b * SecondsPerDay + 86400
  {
  }

  /** The next birthday with the year taken from the user's own zone. */
  function NextBirthday(now: int, userOffset: int, month: int, day: int): (t: int)
    requires 1 <= month <= 12
    ensures LocalSecond(t, userOffset) == 0
  {
    var first := Midnight(DateIn(now, userOffset).year, month, day, userOffset);
    MidnightReadsBack(DateIn(now, userOffset).year, month, day, userOffset);
    if now > first then AddYear(first, userOffset) else first
  }

  /** The next birthday is a local midnight, not before now and less than a year ahead. */
  lemma NextBirthdayIsAhead(now: int, userOffset: int, month: int, day: int)
    requires 1 <= month <= 12 && Valid(Date(2000, month, day))
    ensures var t := NextBirthday(now, userOffset, month, day);
      now <= t < now + 366 * SecondsPerDay && LocalSecond(t, userOffset) == 0
  {
    var y := DateIn(now, userOffset).year;
    var n := LocalDay(now, userOffset);
    assert y == YearOf(n);
    var first := Midnight(y, month, day, userOffset);
    InsideTheYear(y, month, day);
    MidnightReadsBack(y, month, day, userOffset);
    DaysBeforeNextYear(y);
    if now > first {
      var c := DateIn(first, userOffset);
      YearUnique(DayNumber(y, month, day), y);
      assert c.year == y;
      var u := AddYear(first, userOffset);
      assert u == Midnight(y + 1, c.month, c.day, userOffset);
      MidnightReadsBack(y + 1, c.month, c.day, userOffset);
      assert DaysBeforeYear(y + 1) <= DayNumber(y + 1, c.month, c.day);
    }
  }

  /** The birthday tasks of one member of one guild. */
  predicate IsBirthdayOf(task: ScheduledTask, guildId: string, userId: string)
  {
    task.guildId == guildId && task.userId == userId && task.taskType == Birthday
  }

  /** The Delete with guild, type and user conditions: every other task is kept, in order. */
  function WithoutBirthdays(rows: seq<ScheduledTask>, guildId: string, userId: string): (r: seq<ScheduledTask>)
    ensures forall x :: x in r <==> x in rows && !IsBirthdayOf(x, guildId, userId)
  {
    if |rows| == 0 then []
    else
      var last := rows[|rows| - 1];
      assert rows == rows[..|rows| - 1] + [last];
      WithoutBirthdays(rows[..|rows| - 1], guildId, userId) + (if IsBirthdayOf(last, guildId, userId) then [] else [last])
  }

  /** The user's stored zone name as the command reads it: none when the row is missing,
      has no zone, or the read fails (the read's error is not checked). */
  function StoredZone(rows: map<string, User>, userId: string, readFailure: bool): (z: Option<string>)
    ensures z.Some? <==> !readFailure && userId in rows && rows[userId].timezone.Some?
  {
    if !readFailure && userId in rows then rows[userId].timezone else None
  }

  /** my birthday set. The refusals come in order: no birthday channel configured (or its
      setting fails to read), no zone stored or a zone that does not load, a date that does
      not exist. Otherwise every birthday task of the member in the guild is deleted and one
      is created for the next birthday. The delete's error is not checked: a failed delete
      (`deleteFailure`) keeps the old tasks and the handler goes on. A failed create
      (`createFailure`) returns its error. */
  method SetBirthday(tasks: TaskTable, zones: Zones.ZoneTable, guildId: string, userId: string,
                     channel: Result<string, string>, zone: Option<string>,
                     month: int, day: int, now: int, deleteFailure: bool, createFailure: Option<string>)
    returns (r: HandlerResult)
    requires tasks.Valid()
    requires 1 <= month <= 12
    modifies tasks
    ensures tasks.Valid()
    ensures (channel.Failure? || channel.value == "") ==>
      r == Responded(Reply("my/birthday/set.no_channel")) && tasks.rows == old(tasks.rows)
    ensures channel.Success? && channel.value != "" &&
            (zone.None? || Zones.LoadLocation(zones, zone.value).None?) ==>
      r == Responded(Reply("my/birthday/set.timezone")) && tasks.rows == old(tasks.rows)
    ensures channel.Success? && channel.value != "" &&
            zone.Some? && Zones.LoadLocation(zones, zone.value).Some? && !ValidBirthday(month, day) ==>
      r == Responded(Reply("my/birthday/set.invalid")) && tasks.rows == old(tasks.rows)
    ensures channel.Success? && channel.value != "" &&
            zone.Some? && Zones.LoadLocation(zones, zone.value).Some? && ValidBirthday(month, day) ==>
      var when := NextBirthday(now, Zones.LoadLocation(zones, zone.value).value, month, day);
      var task := ScheduledTask(old(tasks.nextId), guildId, userId, Birthday, when, EncodeBirthday());
      var kept := if deleteFailure then old(tasks.rows) else WithoutBirthdays(old(tasks.rows), guildId, userId);
      && (createFailure.Some? ==> r == Failed(createFailure.value) && tasks.rows == kept)
      && (createFailure.None? ==> r == Responded(Reply("my/birthday/set.success")) && tasks.rows == kept + [task])
  {
    if channel.Failure? || channel.value == "" {
      return Responded(Reply("my/birthday/set.no_channel"));
    }
    if zone.None? {
      return Responded(Reply("my/birthday/set.timezone"));
    }
    var location := Zones.LoadLocation(zones, zone.value);
    if location.None? {
      return Responded(Reply("my/birthday/set.timezone"));
    }
    if !ValidBirthday(month, day) {
      return Responded(Reply("my/birthday/set.invalid"));
    }
    var when := NextBirthday(now, location.value, month, day);
    if !deleteFailure {
      tasks.rows := WithoutBirthdays(tasks.rows, guildId, userId);
    }
    if createFailure.Some? {
      return Failed(createFailure.value);
    }
    var task := tasks.Insert(guildId, userId, Birthday, when, EncodeBirthday());
    r := Responded(Reply("my/birthday/set.success"));
  }

  /** After a set whose delete and create both succeed the member has exactly one birthday
      task in the guild, the new one, and no other task is touched. */
  lemma {:induction false} SetLeavesOneBirthday(rows: seq<ScheduledTask>, task: ScheduledTask, guildId: string, userId: string)
    requires IsBirthdayOf(task, guildId, userId)
    ensures var after := WithoutBirthdays(rows, guildId, userId) + [task];
      && (forall i :: 0 <= i < |after| - 1 ==> !IsBirthdayOf(after[i], guildId, userId))
      && (forall x :: x in rows && !IsBirthdayOf(x, guildId, userId) ==> x in after)
  {
    var kept := WithoutBirthdays(rows, guildId, userId);
    var after := kept + [task];
    forall i | 0 <= i < |after| - 1 ensures !IsBirthdayOf(after[i], guildId, userId) {
      assert after[i] == kept[i] && kept[i] in kept;
    }
  }

  /** A set whose delete fails but whose create succeeds leaves every old birthday task of
      the member beside the new one: two tasks, and two greetings, once one existed. */
  lemma {:induction false} FailedDeleteKeepsOldBirthday(rows: seq<ScheduledTask>, prior: ScheduledTask,
                                                         task: ScheduledTask, guildId: string, userId: string)
    requires prior in rows && IsBirthdayOf(prior, guildId, userId) && IsBirthdayOf(task, guildId, userId)
    ensures var after := rows + [task];
      exists i, j :: 0 <= i < j < |after| && IsBirthdayOf(after[i], guildId, userId) && IsBirthdayOf(after[j], guildId, userId)
  {
    var after := rows + [task];
    var i :| 0 <= i < |rows| && rows[i] == prior;
    assert after[i] == prior && after[|rows|] == task;
  }

  /** my birthday clear: every birthday task of the member in the guild is deleted and the
      answer is success, whatever the delete did: a failed delete (`deleteFailure`) keeps
      the tasks and still answers success. */
  method ClearBirthday(tasks: TaskTable, guildId: string, userId: string, deleteFailure: bool) returns (r: HandlerResult)
    requires tasks.Valid()
    modifies tasks
    ensures tasks.Valid() && tasks.nextId == old(tasks.nextId)
    ensures r == Responded(Reply("my/birthday/clear.success"))
    ensures deleteFailure ==> tasks.rows == old(tasks.rows)
    ensures !deleteFailure ==> tasks.rows == WithoutBirthdays(old(tasks.rows), guildId, userId)
    ensures !deleteFailure ==> forall x :: x in tasks.rows ==> !IsBirthdayOf(x, guildId, userId)
  {
    if !deleteFailure {
      tasks.rows := WithoutBirthdays(tasks.rows, guildId, userId);
    }
    r := Responded(Reply("my/birthday/clear.success"));
  }
}

=== FILE: bluesky.dfy ===
/** The Bluesky notification task (internal/tasks/bluesky.go): every tick, the followed
    accounts of all guilds are gathered per account, each account's feed is read once, and
    posts newer than the account's watermark are announced in every guild following it. */
module Bluesky {
  import opened Wrappers
  import Text

  /** A feed entry: the post URI, the author's handle and the creation time (None when the
      timestamp does not parse). The feed lists the newest post first. */
  datatype Post = Post(uri: string, handle: string, createdAt: Option<int>)

  /** One guild's followed accounts as decoded from its setting. */
  datatype GuildFollows = GuildFollows(guildId: string, users: Result<seq<string>, string>)

  /** The guilds' channel and template settings as GetAll returns them (a guild without a
      row has no entry; an entry holds the decoded value or its error), the template texts
      that parse, and the guilds a bot serves. */
  datatype Settings = Settings(channels: map<string, Result<string, string>>,
                               templates: map<string, Result<string, string>>,
                               parsing: set<string>, bots: set<string>)

  /** A message sent: the guild's template filled with the post's link, in the guild's
      channel. */
  datatype Notification = Notification(guildId: string, channelId: string, template: string, url: string)

  /** The watermark is set this many seconds past the newest post announced. */
  const BufferSeconds: int := 5

  /** The post's link: the profile page of its author, then the post id, which is the
      longest end of the URI without a "/" (all of it when it has none). */
  function PostUrl(p: Post): (url: string)
    ensures var prefix := "https://bsky.app/profile/" + p.handle + "/post/";
      && |prefix| <= |url| && url[..|prefix|] == prefix
      && var id := url[|prefix|..];
         && '/' !in id && |id| <= |p.uri| && id == p.uri[|p.uri| - |id|..]
         && (|id| < |p.uri| ==> p.uri[|p.uri| - |id| - 1] == '/')
  {
    "https://bsky.app/profile/" + p.handle + "/post/" + Text.AfterLast(p.uri, '/')
  }

  // ----- Gathering followers -----

  /** The followers map after `g` is appended to the list of each of `users`. */
  function AddFollower(m: map<string, seq<string>>, users: seq<string>, g: string): (r: map<string, seq<string>>)
  {
    if |users| == 0 then m
    else
      var prev := AddFollower(m, users[..|users| - 1], g);
      var u := users[|users| - 1];
      prev[u := (if u in prev then prev[u] else []) + [g]]
  }

  /** userGuilds: account to the guilds following it, in the order the guilds are visited.
      A guild whose list does not decode is skipped. */
  function Followers(gs: seq<GuildFollows>): map<string, seq<string>>
  {
    if |gs| == 0 then map[]
    else
      var prev := Followers(gs[..|gs| - 1]);
      var last := gs[|gs| - 1];
      if last.users.Failure? then prev else AddFollower(prev, last.users.value, last.guildId)
  }

  lemma {:induction false} AddFollowerSpec(m: map<string, seq<string>>, users: seq<string>, g: string, u: string, h: string)
    ensures (u in AddFollower(m, users, g) && h in AddFollower(m, users, g)[u]) <==>
            (u in m && h in m[u]) || (h == g && u in users)
  {
    if |users| > 0 {
      var init := users[..|users| - 1];
      AddFollowerSpec(m, init, g, u, h);
      assert users == init + [users[|users| - 1]];
    }
  }

  /** Inverting is faithful: `g` follows `u` in the map exactly when some visited guild `g`
      decoded a list naming `u`. */
  lemma {:induction false} FollowersSpec(gs: seq<GuildFollows>, u: string, g: string)
    ensures (u in Followers(gs) && g in Followers(gs)[u]) <==>
            exists i :: 0 <= i < |gs| && gs[i].guildId == g && gs[i].users.Success? && u in gs[i].users.value
  {
    if |gs| > 0 {
      var init := gs[..|gs| - 1];
      var last := gs[|gs| - 1];
      FollowersSpec(init, u, g);
      if last.users.Success? {
        AddFollowerSpec(Followers(init), last.users.value, last.guildId, u, g);
      }
      if exists i :: 0 <= i < |gs| && gs[i].guildId == g && gs[i].users.Success? && u in gs[i].users.value {
        var i :| 0 <= i < |gs| && gs[i].guildId == g && gs[i].users.Success? && u in gs[i].users.value;
        if i < |gs| - 1 {
          assert init[i] == gs[i];
        }
      }
      if exists i :: 0 <= i < |init| && init[i].guildId == g && init[i].users.Success? && u in init[i].users.value {
        var i :| 0 <= i < |init| && init[i].guildId == g && init[i].users.Success? && u in init[i].users.value;
        assert gs[i] == init[i];
      }
    }
  }

  // ----- The watermark -----

  datatype Step = Step(store: Option<int>, newPosts: seq<Post>)

  /** The posts whose time parses and is strictly after `mark`, in feed order. */
  function After(ps: seq<Post>, mark: int): (r: seq<Post>)
    ensures forall p :: p in r <==> p in ps && p.createdAt.Some? && p.createdAt.value > mark
  {
    if |ps| == 0 then []
    else (if ps[0].createdAt.Some? && ps[0].createdAt.value > mark then [ps[0]] else []) + After(ps[1..], mark)
  }

  /** One account's check: the watermark to store (None: left as it is) and the posts to
      announce. */
  function UserStep(mark: Option<int>, feed: Result<seq<Post>, string>): (s: Step)
    ensures s.store.Some? ==> feed.Success?
    ensures forall p :: p in s.newPosts ==> feed.Success? && p in feed.value
    ensures mark.None? ==> s.newPosts == []
  {
    if feed.Failure? || |feed.value| == 0 || feed.value[0].createdAt.None? then Step(None, [])
    else
      var latest := feed.value[0].createdAt.value;
      if mark.None? then Step(Some(latest), [])
      else if latest > mark.value then Step(Some(latest + BufferSeconds), After(feed.value, mark.value))
      else Step(None, [])
  }

  /** The watermark rules: a failed fetch, an empty feed or an unparseable newest time
      change nothing; the first sighting stores the newest time and announces nothing; a
      newer post announces exactly the posts after the old watermark and stores the newest
      time plus five seconds; otherwise nothing happens. */
  lemma UserRules(mark: Option<int>, feed: Result<seq<Post>, string>)
    ensures var s := UserStep(mark, feed);
      && (feed.Failure? || |feed.value| == 0 ==> s == Step(None, []))
      && (feed.Success? && |feed.value| > 0 && feed.value[0].createdAt.Some? ==>
            var latest := feed.value[0].createdAt.value;
            && (mark.None? ==> s == Step(Some(latest), []))
            && (mark.Some? && latest > mark.value ==>
                  && s.store == Some(latest + BufferSeconds)
                  && forall p :: p in s.newPosts <==> p in feed.value && p.createdAt.Some? && p.createdAt.value > mark.value)
            && (mark.Some? && latest <= mark.value ==> s == Step(None, [])))
  {
  }

  /** The five-second buffer: a post made less than five seconds after the newest
      announced one is never announced, on this tick or the next, if it is the newest. */
  lemma BufferHidesCloseFollowUp(mark: int, first: Post, second: Post)
    requires first.createdAt.Some? && first.createdAt.value > mark
    requires second.createdAt.Some? && first.createdAt.value < second.createdAt.value < first.createdAt.value + BufferSeconds
    ensures var s := UserStep(Some(mark), Success([first]));
      s.store == Some(first.createdAt.value + BufferSeconds) &&
      UserStep(s.store, Success([second, first])) == Step(None, [])
  {
  }

  // ----- Sending -----

  /** How one announcement in one guild ends. */
  datatype Delivery = Delivered(n: Notification) | Skipped | Panic

  /** _sendBskyNotification as written: the channel and template entries are read without
      checking that the guild has them, and reading a missing entry panics. */
  function NotifyAsWritten(s: Settings, guildId: string, post: Post): (d: Delivery)
    ensures d == Panic <==> guildId !in s.channels || (s.channels[guildId].Success? && guildId !in s.templates)
    ensures d.Delivered? ==> d.n.guildId == guildId && d.n.url == PostUrl(post)
  {
    if guildId !in s.channels then Panic
    else if s.channels[guildId].Failure? then Skipped
    else if guildId !in s.templates then Panic
    else if s.templates[guildId].Failure? || s.templates[guildId].value !in s.parsing || guildId !in s.bots then Skipped
    else Delivered(Notification(guildId, s.channels[guildId].value, s.templates[guildId].value, PostUrl(post)))
  }

  /** A guild that follows accounts but has no channel row brings the whole task down. */
  lemma MissingChannelPanics(s: Settings, guildId: string, post: Post)
    requires guildId !in s.channels
    ensures NotifyAsWritten(s, guildId, post) == Panic
  {
  }

  /** The announcement with a missing entry treated like a failing one: that guild is
      skipped for that post. */
  function Notify(s: Settings, guildId: string, post: Post): (d: Delivery)
    ensures d != Panic
    ensures d.Delivered? <==>
      && guildId in s.channels && s.channels[guildId].Success?
      && guildId in s.templates && s.templates[guildId].Success?
      && s.templates[guildId].value in s.parsing && guildId in s.bots
    ensures d.Delivered? ==>
      d.n == Notification(guildId, s.channels[guildId].value, s.templates[guildId].value, PostUrl(post))
  {
    if guildId !in s.channels || s.channels[guildId].Failure? then Skipped
    else if guildId !in s.templates || s.templates[guildId].Failure? then Skipped
    else if s.templates[guildId].value !in s.parsing || guildId !in s.bots then Skipped
    else Delivered(Notification(guildId, s.channels[guildId].value, s.templates[guildId].value, PostUrl(post)))
  }

  /** Where the written version does not panic, the two agree. */
  lemma NotifyAgreesWhenNoPanic(s: Settings, guildId: string, post: Post)
    requires NotifyAsWritten(s, guildId, post) != Panic
    ensures Notify(s, guildId, post) == NotifyAsWritten(s, guildId, post)
  {
  }

  /** The messages for one post, one per following guild that can take it. */
  function PostSends(s: Settings, guilds: seq<string>, post: Post): (r: seq<Notification>)
    ensures |r| <= |guilds|
  {
    if |guilds| == 0 then []
    else PostSends(s, guilds[..|guilds| - 1], post) + Sends(Notify(s, guilds[|guilds| - 1], post))
  }

  /** The message a delivery decision sends: one, or none. */
  function Sends(d: Delivery): (r: seq<Notification>)
    ensures |r| <= 1
  {
    if d.Delivered? then [d.n] else []
  }

  lemma PostSendsStep(s: Settings, guilds: seq<string>, j: nat, post: Post)
    requires j < |guilds|
    ensures PostSends(s, guilds[..j + 1], post) == PostSends(s, guilds[..j], post) + Sends(Notify(s, guilds[j], post))
  {
    assert guilds[..j + 1][..j] == guilds[..j];
  }

  /** Each post goes to exactly the following guilds that can take it. */
  lemma {:induction false} PostSendsMembers(s: Settings, guilds: seq<string>, post: Post)
    ensures forall n :: n in PostSends(s, guilds, post) <==> exists g :: g in guilds && Notify(s, g, post) == Delivered(n)
  {
    if |guilds| > 0 {
      var init := guilds[..|guilds| - 1];
      PostSendsMembers(s, init, post);
      assert guilds == init + [guilds[|guilds| - 1]];
    }
  }

  /** The messages for an account's new posts, post by post. */
  function UserSends(s: Settings, guilds: seq<string>, posts: seq<Post>): seq<Notification>
  {
    if |posts| == 0 then [] else UserSends(s, guilds, posts[..|posts| - 1]) + PostSends(s, guilds, posts[|posts| - 1])
  }

  /** The watermarks and the messages sent so far in a tick. */
  datatype Tally = Tally(marks: map<string, int>, sent: seq<Notification>)

  function Lookup(marks: map<string, int>, u: string): Option<int>
  {
    if u in marks then Some(marks[u]) else None
  }

  function FeedOf(feeds: map<string, Result<seq<Post>, string>>, u: string): Result<seq<Post>, string>
  {
    if u in feeds then feeds[u] else Failure("fetch failed")
  }

  function VisitUser(t: Tally, u: string, followers: map<string, seq<string>>, s: Settings,
                     feeds: map<string, Result<seq<Post>, string>>): Tally
  {
    var step := UserStep(Lookup(t.marks, u), FeedOf(feeds, u));
    Tally(if step.store.Some? then t.marks[u := step.store.value] else t.marks,
          t.sent + UserSends(s, if u in followers then followers[u] else [], step.newPosts))
  }

  /** A tick over the accounts in the order they are visited. */
  function VisitAll(t: Tally, us: seq<string>, followers: map<string, seq<string>>, s: Settings,
                    feeds: map<string, Result<seq<Post>, string>>): Tally
  {
    if |us| == 0 then t else VisitUser(VisitAll(t, us[..|us| - 1], followers, s, feeds), us[|us| - 1], followers, s, feeds)
  }

  /** The task, holding the per-account watermarks across ticks. */
  class BlueskyTask {
    var lastKnown: map<string, int>

    constructor ()
      ensures lastKnown == map[]
    {
      lastKnown := map[];
    }

    /** One tick. A failed session refresh ends it with its error and nothing else.
        Otherwise every account some guild follows is visited exactly once, in an order
        that is not specified (`visited`), each with the guilds that follow it. */
    method Tick(follows: seq<GuildFollows>, s: Settings, feeds: map<string, Result<seq<Post>, string>>,
                refreshFailure: Option<string>)
      returns (sent: seq<Notification>, error: Option<string>, ghost visited: seq<string>)
      modifies this
      ensures refreshFailure.Some? ==> error == refreshFailure && sent == [] && lastKnown == old(lastKnown)
      ensures refreshFailure.None? ==>
        && error.None?
        && (forall k, l :: 0 <= k < l < |visited| ==> visited[k] != visited[l])
        && (forall u :: u in visited <==> u in Followers(follows))
        && Tally(lastKnown, sent) == VisitAll(Tally(old(lastKnown), []), visited, Followers(follows), s, feeds)
    {
      visited := [];
      if refreshFailure.Some? {
        return [], refreshFailure, visited;
      }
      var followers := Invert(follows);
      var pending := followers.Keys;
      sent := [];
      while pending != {}
        invariant pending <= followers.Keys
        invariant forall k, l :: 0 <= k < l < |visited| ==> visited[k] != visited[l]
        invariant forall u :: u in visited <==> u in followers && u !in pending
        invariant Tally(lastKnown, sent) == VisitAll(Tally(old(lastKnown), []), visited, followers, s, feeds)
        decreases pending
      {
        var u :| u in pending;
        sent := VisitAccount(u, followers, s, feeds, sent);
        pending := pending - {u};
        visited := visited + [u];
      }
      error := None;
    }

    /** One account: the watermark is updated before the announcements, which go post by
        post to each following guild in turn. */
    method VisitAccount(u: string, followers: map<string, seq<string>>, s: Settings,
                        feeds: map<string, Result<seq<Post>, string>>, sentBefore: seq<Notification>)
      returns (sent: seq<Notification>)
      modifies this
      ensures Tally(lastKnown, sent) == VisitUser(Tally(old(lastKnown), sentBefore), u, followers, s, feeds)
    {
      var step := UserStep(Lookup(lastKnown, u), FeedOf(feeds, u));
      if step.store.Some? {
        lastKnown := lastKnown[u := step.store.value];
      }
      var guilds := if u in followers then followers[u] else [];
      var newSent := SendPosts(s, guilds, step.newPosts);
      sent := sentBefore + newSent;
    }
  }

  /** The messages for an account's new posts, in feed order. */
  method SendPosts(s: Settings, guilds: seq<string>, posts: seq<Post>) returns (sent: seq<Notification>)
    ensures sent == UserSends(s, guilds, posts)
  {
    sent := [];
    var k := 0;
    while k < |posts|
      invariant 0 <= k <= |posts|
      invariant sent == UserSends(s, guilds, posts[..k])
    {
      assert posts[..k + 1][..k] == posts[..k] && posts[..k + 1][k] == posts[k];
      var forPost := SendPost(s, guilds, posts[k]);
      sent := sent + forPost;
      k := k + 1;
    }
    assert posts[..k] == posts;
  }

  /** The messages for one post, sent to each following guild in turn; a guild that
      cannot take it is skipped. */
  method SendPost(s: Settings, guilds: seq<string>, post: Post) returns (sent: seq<Notification>)
    ensures sent == PostSends(s, guilds, post)
  {
    sent := [];
    var j := 0;
    while j < |guilds|
      invariant 0 <= j <= |guilds|
      invariant sent == PostSends(s, guilds[..j], post)
    {
      PostSendsStep(s, guilds, j, post);
      sent := sent + Sends(Notify(s, guilds[j], post));
      j := j + 1;
    }
    assert guilds[..j] == guilds;
  }

  /** The inversion loop: each decoded guild list adds the guild to each named account. */
  method Invert(follows: seq<GuildFollows>) returns (followers: map<string, seq<string>>)
    ensures followers == Followers(follows)
  {
    followers := map[];
    var i := 0;
    while i < |follows|
      invariant 0 <= i <= |follows|
      invariant followers == Followers(follows[..i])
    {
      FollowersStep(follows, i);
      if follows[i].users.Success? {
        followers := Follow(followers, follows[i].users.value, follows[i].guildId);
      }
      i := i + 1;
    }
    assert follows[..i] == follows;
  }

  lemma FollowersStep(follows: seq<GuildFollows>, i: nat)
    requires i < |follows|
    ensures Followers(follows[..i + 1]) ==
      if follows[i].users.Failure? then Followers(follows[..i])
      else AddFollower(Followers(follows[..i]), follows[i].users.value, follows[i].guildId)
  {
    assert follows[..i + 1][..i] == follows[..i];
  }

  /** The inner loop: the guild is appended to each named account's list. */
  method Follow(start: map<string, seq<string>>, users: seq<string>, g: string) returns (followers: map<string, seq<string>>)
    ensures followers == AddFollower(start, users, g)
  {
    followers := start;
    var j := 0;
    while j < |users|
      invariant 0 <= j <= |users|
      invariant followers == AddFollower(start, users[..j], g)
    {
      assert users[..j + 1][..j] == users[..j];
      var u := users[j];
      followers := followers[u := (if u in followers then followers[u] else []) + [g]];
      j := j + 1;
    }
    assert users[..j] == users;
  }
}

=== FILE: bot.dfy ===
/** The bot manager (internal/bot/bot.go): one gateway session per distinct bot token,
    every guild mapped to the session of its token, and interactions dispatched to the
    command registered under their name. */
module Bot {
  import opened Wrappers
  import Commands
  import I18n

  /** A gateway session: the token it logs in with and the guilds it serves (whose
      commands it registers when ready). */
  datatype Session = Session(token: string, guilds: seq<string>)

  predicate Distinct(xs: seq<string>)
  {
    forall i, j :: 0 <= i < j < |xs| ==> xs[i] != xs[j]
  }

  /** The guild -> token table inverted into token -> guilds. Go's map iteration order is
      an arbitrary choice here. */
  method GroupByToken(guildTokens: map<string, string>) returns (tokenGuilds: map<string, seq<string>>)
    ensures forall g :: g in guildTokens ==> guildTokens[g] in tokenGuilds && g in tokenGuilds[guildTokens[g]]
    ensures forall t :: t in tokenGuilds ==>
      |tokenGuilds[t]| > 0 && Distinct(tokenGuilds[t]) &&
      forall g :: g in tokenGuilds[t] ==> g in guildTokens && guildTokens[g] == t
    ensures tokenGuilds.Keys == guildTokens.Values
  {
    tokenGuilds := map[];
    var remaining := guildTokens.Keys;
    while remaining != {}
      invariant remaining <= guildTokens.Keys
      invariant forall g :: g in guildTokens && g !in remaining ==>
        guildTokens[g] in tokenGuilds && g in tokenGuilds[guildTokens[g]]
      invariant forall t :: t in tokenGuilds ==>
        |tokenGuilds[t]| > 0 && Distinct(tokenGuilds[t]) &&
        forall g :: g in tokenGuilds[t] ==> g in guildTokens && g !in remaining && guildTokens[g] == t
      decreases |remaining|
    {
      var g :| g in remaining;
      var t := guildTokens[g];
      var guilds := if t in tokenGuilds then tokenGuilds[t] else [];
      tokenGuilds := tokenGuilds[t := guilds + [g]];
      remaining := remaining - {g};
    }
    forall t | t in guildTokens.Values ensures t in tokenGuilds {
      var g :| g in guildTokens && guildTokens[g] == t;
    }
    forall t | t in tokenGuilds ensures t in guildTokens.Values {
      assert tokenGuilds[t][0] in tokenGuilds[t];
    }
  }

  /** `tokenGuilds` lists, under each token, exactly the guilds that have that token. */
  ghost predicate Grouped(guildTokens: map<string, string>, tokenGuilds: map<string, seq<string>>)
  {
    && (forall g :: g in guildTokens ==> guildTokens[g] in tokenGuilds && g in tokenGuilds[guildTokens[g]])
    && (forall t :: t in tokenGuilds ==> forall g :: g in tokenGuilds[t] ==> g in guildTokens && guildTokens[g] == t)
  }

  /** The sessions created, and the session serving each guild. */
  class BotManager {
    var bots: seq<Session>
    var guildBots: map<string, Session>

    constructor ()
      ensures bots == [] && guildBots == map[]
    {
      bots := [];
      guildBots := map[];
    }

    /** Creating one bot: its session is appended and each of its guilds mapped to it. */
    method AddBot(token: string, guilds: seq<string>)
      modifies this
      ensures bots == old(bots) + [Session(token, guilds)]
      ensures forall g :: g in guildBots <==> g in old(guildBots) || g in guilds
      ensures forall g :: g in guildBots ==>
        guildBots[g] == if g in guilds then Session(token, guilds) else old(guildBots)[g]
    {
      var bot := Session(token, guilds);
      bots := bots + [bot];
      var j := 0;
      while j < |guilds|
        invariant 0 <= j <= |guilds|
        invariant bots == old(bots) + [bot]
        invariant forall g :: g in guildBots <==> g in old(guildBots) || g in guilds[..j]
        invariant forall g :: g in guildBots ==>
          guildBots[g] == if g in guilds[..j] then bot else old(guildBots)[g]
      {
        assert guilds[..j + 1] == guilds[..j] + [guilds[j]];
        guildBots := guildBots[guilds[j] := bot];
        j := j + 1;
      }
      assert guilds[..j] == guilds;
    }
  }

  /** The tokens of the sessions, in creation order. */
  function Tokens(bots: seq<Session>): (ts: seq<string>)
    ensures |ts| == |bots| && forall i :: 0 <= i < |bots| ==> ts[i] == bots[i].token
  {
    seq(|bots|, i requires 0 <= i < |bots| => bots[i].token)
  }

  /** A list without repeats has as many elements as its set. */
  lemma {:induction false} DistinctCount(xs: seq<string>)
    requires Distinct(xs)
    ensures |set x | x in xs| == |xs|
  {
    if |xs| > 0 {
      var init := xs[..|xs| - 1];
      DistinctCount(init);
      assert (set x | x in xs) == (set x | x in init) + {xs[|xs| - 1]};
      assert xs[|xs| - 1] !in init;
    }
  }

  /** The loop creating the bots: one session per token, in an arbitrary order. */
  method CreateBots(m: BotManager, guildTokens: map<string, string>, tokenGuilds: map<string, seq<string>>)
    requires m.bots == [] && m.guildBots == map[]
    requires Grouped(guildTokens, tokenGuilds)
    modifies m
    ensures Distinct(Tokens(m.bots))
    ensures forall s :: s in m.bots ==> s.token in tokenGuilds && s.guilds == tokenGuilds[s.token]
    ensures forall t :: t in tokenGuilds ==> Session(t, tokenGuilds[t]) in m.bots
    ensures m.guildBots.Keys == guildTokens.Keys
    ensures forall g :: g in m.guildBots ==> m.guildBots[g] == Session(guildTokens[g], tokenGuilds[guildTokens[g]])
  {
    var pending := tokenGuilds.Keys;
    while pending != {}
      invariant pending <= tokenGuilds.Keys
      invariant Progress(m.bots, m.guildBots, pending, guildTokens, tokenGuilds)
      decreases |pending|
    {
      var t :| t in pending;
      ghost var bots, guildBots := m.bots, m.guildBots;
      m.AddBot(t, tokenGuilds[t]);
      AddStep(bots, guildBots, m.bots, m.guildBots, pending, t, guildTokens, tokenGuilds);
      pending := pending - {t};
    }
  }

  /** What CreateBots holds while the tokens in `pending` have no bot yet. */
  ghost predicate Progress(bots: seq<Session>, guildBots: map<string, Session>, pending: set<string>,
                     guildTokens: map<string, string>, tokenGuilds: map<string, seq<string>>)
  {
    && Distinct(Tokens(bots))
    && (forall s :: s in bots ==> s.token in tokenGuilds && s.token !in pending && s.guilds == tokenGuilds[s.token])
    && (forall t :: t in tokenGuilds && t !in pending ==> Session(t, tokenGuilds[t]) in bots)
    && (forall g :: g in guildBots <==> g in guildTokens && guildTokens[g] !in pending)
    && (forall g :: g in guildBots ==>
          guildTokens[g] in tokenGuilds && guildBots[g] == Session(guildTokens[g], tokenGuilds[guildTokens[g]]))
  }

  /** Adding the bot of one pending token moves it out of `pending`. */
  lemma AddStep(bots: seq<Session>, guildBots: map<string, Session>,
                bots': seq<Session>, guildBots': map<string, Session>,
                pending: set<string>, t: string,
                guildTokens: map<string, string>, tokenGuilds: map<string, seq<string>>)
    requires Grouped(guildTokens, tokenGuilds)
    requires t in pending && pending <= tokenGuilds.Keys
    requires Progress(bots, guildBots, pending, guildTokens, tokenGuilds)
    requires bots' == bots + [Session(t, tokenGuilds[t])]
    requires forall g :: g in guildBots' <==> g in guildBots || g in tokenGuilds[t]
    requires forall g :: g in guildBots' ==>
      guildBots'[g] == if g in tokenGuilds[t] then Session(t, tokenGuilds[t]) else guildBots[g]
    ensures Progress(bots', guildBots', pending - {t}, guildTokens, tokenGuilds)
  {
    assert Tokens(bots') == Tokens(bots) + [t];
  }

  /** The tokens of the sessions, as a set, are the tokens the sessions cover. */
  lemma TokenSet(bots: seq<Session>, keys: set<string>)
    requires forall s :: s in bots ==> s.token in keys
    requires forall k :: k in keys ==> exists s :: s in bots && s.token == k
    ensures (set x | x in Tokens(bots)) == keys
  {
    var ts := Tokens(bots);
    forall x | x in ts ensures x in keys {
      var i :| 0 <= i < |ts| && ts[i] == x;
      assert bots[i] in bots;
    }
    forall x | x in keys ensures x in ts {
      var s :| s in bots && s.token == x;
      var i :| 0 <= i < |bots| && bots[i] == s;
      assert ts[i] == x;
    }
  }

  /** Sessions with distinct tokens covering exactly `keys` number as many as the keys. */
  lemma SessionCount(bots: seq<Session>, keys: set<string>)
    requires Distinct(Tokens(bots))
    requires forall s :: s in bots ==> s.token in keys
    requires forall k :: k in keys ==> exists s :: s in bots && s.token == k
    ensures |bots| == |keys|
  {
    var ts := Tokens(bots);
    TokenSet(bots, keys);
    DistinctCount(ts);
    assert |ts| == |bots|;
  }

  /** What the manager holds once every token has its bot. */
  predicate Managed(bots: seq<Session>, guildBots: map<string, Session>, guildTokens: map<string, string>)
  {
    && Distinct(Tokens(bots))
    && (set s | s in bots :: s.token) == guildTokens.Values
    && |bots| == |guildTokens.Values|
    && guildBots.Keys == guildTokens.Keys
    && (forall g :: g in guildBots ==>
          (guildBots[g] in bots && guildBots[g].token == guildTokens[g] && g in guildBots[g].guilds))
    && (forall s, g :: s in bots && g in s.guilds ==> g in guildTokens && guildTokens[g] == s.token)
  }

  lemma ManagerShape(bots: seq<Session>, guildBots: map<string, Session>, guildTokens: map<string, string>,
                     tokenGuilds: map<string, seq<string>>)
    requires Grouped(guildTokens, tokenGuilds)
    requires tokenGuilds.Keys == guildTokens.Values
    requires Distinct(Tokens(bots))
    requires forall s :: s in bots ==> s.token in tokenGuilds && s.guilds == tokenGuilds[s.token]
    requires forall t :: t in tokenGuilds ==> Session(t, tokenGuilds[t]) in bots
    requires guildBots.Keys == guildTokens.Keys
    requires forall g :: g in guildBots ==> guildBots[g] == Session(guildTokens[g], tokenGuilds[guildTokens[g]])
    ensures Managed(bots, guildBots, guildTokens)
  {
    TokensCovered(bots, tokenGuilds);
    SessionCount(bots, tokenGuilds.Keys);
    TokensAreValues(bots, tokenGuilds, guildTokens);
    GuildsServed(bots, guildBots, guildTokens, tokenGuilds);
  }

  lemma TokensCovered(bots: seq<Session>, tokenGuilds: map<string, seq<string>>)
    requires forall t :: t in tokenGuilds ==> Session(t, tokenGuilds[t]) in bots
    ensures forall t :: t in tokenGuilds ==> exists s :: s in bots && s.token == t
  {
    forall t | t in tokenGuilds ensures exists s :: s in bots && s.token == t {
      assert Session(t, tokenGuilds[t]) in bots;
    }
  }

  lemma TokensAreValues(bots: seq<Session>, tokenGuilds: map<string, seq<string>>, guildTokens: map<string, string>)
    requires tokenGuilds.Keys == guildTokens.Values
    requires forall s :: s in bots ==> s.token in tokenGuilds
    requires forall t :: t in tokenGuilds ==> Session(t, tokenGuilds[t]) in bots
    ensures (set s | s in bots :: s.token) == guildTokens.Values
  {
    forall t | t in tokenGuilds ensures t in (set s | s in bots :: s.token) {
      var s := Session(t, tokenGuilds[t]);
      assert s in bots && s.token == t;
    }
  }

  /** Each guild's session is one of the bots, for the guild's token, and lists the guild;
      every guild a bot lists has that bot's token. */
  lemma GuildsServed(bots: seq<Session>, guildBots: map<string, Session>, guildTokens: map<string, string>,
                     tokenGuilds: map<string, seq<string>>)
    requires Grouped(guildTokens, tokenGuilds)
    requires forall s :: s in bots ==> s.token in tokenGuilds && s.guilds == tokenGuilds[s.token]
    requires forall t :: t in tokenGuilds ==> Session(t, tokenGuilds[t]) in bots
    requires guildBots.Keys == guildTokens.Keys
    requires forall g :: g in guildBots ==> guildBots[g] == Session(guildTokens[g], tokenGuilds[guildTokens[g]])
    ensures forall g :: g in guildBots ==>
      (guildBots[g] in bots && guildBots[g].token == guildTokens[g] && g in guildBots[g].guilds)
    ensures forall s, g :: s in bots && g in s.guilds ==> g in guildTokens && guildTokens[g] == s.token
  {
  }

  /** CreateBotManager. Failing to read the tokens panics (None); otherwise there is one
      session per distinct token, each guild maps to the session of its token holding all
      that token's guilds, and guilds sharing a token share that session. */
  method CreateBotManager(tokens: Result<map<string, string>, string>) returns (bm: Option<BotManager>)
    ensures tokens.Failure? <==> bm.None?
    ensures bm.Some? ==> fresh(bm.value) && Managed(bm.value.bots, bm.value.guildBots, tokens.value)
  {
    if tokens.Failure? {
      return None;
    }
    var guildTokens := tokens.value;
    var tokenGuilds := GroupByToken(guildTokens);
    var m := new BotManager();
    CreateBots(m, guildTokens, tokenGuilds);
    ManagerShape(m.bots, m.guildBots, guildTokens, tokenGuilds);
    return Some(m);
  }

  // ---- Interactions ----

  datatype InteractionType = Ping | ApplicationCommand | MessageComponent | ApplicationCommandAutocomplete | ModalSubmit

  /** What an interaction leads to: ignored (only logged), the registered command run on
      the interaction's options, or a nil dereference when no command has that name. */
  datatype InteractionOutcome = Ignored | Ran(result: Result<Commands.Invocation, Commands.DispatchError>) | NilCommand

  /** The command list built once at start-up: each top-level command built at the root, a
      panic if any node mixes handler and children; the registry keys the built commands
      by name. */
  function Registry(t: I18n.Tables, cs: seq<Commands.Command>): (r: Result<map<string, Commands.Command>, Commands.BuildPanic>)
    ensures r.Success? <==> Commands.AllWellFormed(cs)
    ensures r.Success? ==> r.value.Keys == set i | 0 <= i < |cs| :: cs[i].name
  {
    match Commands.BuildAll(t, "", cs)
    case Failure(e) => Failure(e)
    case Success(built) =>
      BuiltNames(t, cs, built);
      Success(Commands.NameMap(built))
  }

  /** Building keeps the names of the top-level commands. */
  lemma BuiltNames(t: I18n.Tables, cs: seq<Commands.Command>, built: seq<Commands.Command>)
    requires Commands.BuildAll(t, "", cs) == Success(built)
    ensures (set i | 0 <= i < |built| :: built[i].name) == (set i | 0 <= i < |cs| :: cs[i].name)
  {
    Commands.BuiltNamesKept(t, "", cs, built);
  }

  /** The interaction handler: commands and autocompletes go to the command named by the
      interaction; other types are ignored. */
  function OnInteraction(kind: InteractionType, name: string, registry: map<string, Commands.Command>,
                         opts: seq<Commands.InteractionOption>): (o: InteractionOutcome)
    ensures (kind != ApplicationCommand && kind != ApplicationCommandAutocomplete) <==> o == Ignored
    ensures o.Ran? ==> name in registry && o.result == Commands.Run(registry[name], opts)
    ensures o == NilCommand <==> (kind == ApplicationCommand || kind == ApplicationCommandAutocomplete) && name !in registry
  {
    if kind != ApplicationCommand && kind != ApplicationCommandAutocomplete then Ignored
    else if name in registry then Ran(Commands.Run(registry[name], opts))
    else NilCommand
  }

  /** With distinct command names, a command or autocomplete interaction naming a command
      runs that command as built. */
  lemma DispatchFindsBuiltCommand(t: I18n.Tables, cs: seq<Commands.Command>, i: nat, autocomplete: bool,
                                  opts: seq<Commands.InteractionOption>)
    requires Commands.AllWellFormed(cs) && i < |cs|
    requires forall j :: 0 <= j < |cs| && j != i ==> cs[j].name != cs[i].name
    ensures Registry(t, cs).Success? && Commands.Build(t, "", cs[i]).Success?
    ensures OnInteraction(if autocomplete then ApplicationCommandAutocomplete else ApplicationCommand, cs[i].name,
                          Registry(t, cs).value, opts)
            == Ran(Commands.Run(Commands.Build(t, "", cs[i]).value, opts))
  {
    RegistryIsNameMap(t, cs);
    Commands.NameMapOfBuilt(t, "", cs, Commands.BuildAll(t, "", cs).value, i);
  }

  lemma RegistryIsNameMap(t: I18n.Tables, cs: seq<Commands.Command>)
    requires Commands.AllWellFormed(cs)
    ensures Registry(t, cs).Success? && Commands.BuildAll(t, "", cs).Success?
    ensures Registry(t, cs).value == Commands.NameMap(Commands.BuildAll(t, "", cs).value)
  {
  }
}

=== FILE: calendar.dfy ===
/** The proleptic Gregorian calendar as Go's time package computes it, over integer seconds.

    An instant is a count of seconds since 1970-01-01 00:00 UTC. A zone is a fixed offset
    in seconds east of UTC. A day number counts days since 1970-01-01 (negative before). */
module Calendar {

  const SecondsPerDay: int := 86400

  datatype Date = Date(year: int, month: int, day: int)

  predicate IsLeap(y: int)
  {
    y % 4 == 0 && (y % 100 != 0 || y % 400 == 0)
  }

  function DaysInYear(y: int): int
  {
    if IsLeap(y) then 366 else 365
  }

  function DaysInMonth(y: int, m: int): (n: int)
    requires 1 <= m <= 12
    ensures 28 <= n <= 31
  {
    if m == 2 then (if IsLeap(y) then 29 else 28)
    else if m == 4 || m == 6 || m == 9 || m == 11 then 30
    else 31
  }

  predicate Valid(d: Date)
  {
    1 <= d.month <= 12 && 1 <= d.day <= DaysInMonth(d.year, d.month)
  }

  /** Days from 1970-01-01 to the first of January of year `y`. */
  function DaysBeforeYear(y: int): int
    decreases if y < 1970 then 1970 - y else y - 1970
  {
    if y == 1970 then 0
    else if y > 1970 then DaysBeforeYear(y - 1) + DaysInYear(y - 1)
    else DaysBeforeYear(y + 1) - DaysInYear(y)
  }

  lemma DaysBeforeNextYear(y: int)
    ensures DaysBeforeYear(y + 1) == DaysBeforeYear(y) + DaysInYear(y)
  {
  }

  /** Days from the first of January to the first of month `m` (13 stands for the year's end). */
  function DaysBeforeMonth(y: int, m: int): (n: int)
    requires 1 <= m <= 13
    ensures 0 <= n
    ensures m > 1 ==> n == DaysBeforeMonth(y, m - 1) + DaysInMonth(y, m - 1)
  {
    if m == 1 then 0 else DaysBeforeMonth(y, m - 1) + DaysInMonth(y, m - 1)
  }

  lemma MonthsFillYear(y: int)
    ensures DaysBeforeMonth(y, 13) == DaysInYear(y)
  {
  }

  lemma {:induction false} DaysBeforeMonthMonotone(y: int, m: int, k: int)
    requires 1 <= m <= k <= 13
    ensures DaysBeforeMonth(y, m) <= DaysBeforeMonth(y, k)
    ensures m < k ==> DaysBeforeMonth(y, m) + DaysInMonth(y, m) <= DaysBeforeMonth(y, k)
    decreases k - m
  {
    if m < k {
      DaysBeforeMonthMonotone(y, m + 1, k);
      assert DaysBeforeMonth(y, m + 1) == DaysBeforeMonth(y, m) + DaysInMonth(y, m);
    }
  }

  lemma {:induction false} DaysBeforeYearMonotone(y: int, k: int)
    requires y <= k
    ensures DaysBeforeYear(y) <= DaysBeforeYear(k)
    ensures y < k ==> DaysBeforeYear(y + 1) <= DaysBeforeYear(k)
    decreases k - y
  {
    DaysBeforeNextYear(y);
    if y < k {
      DaysBeforeYearMonotone(y + 1, k);
    }
  }

  /** The day number of a date. Go's time.Date normalises a day outside the month by
      counting on from the first of the month, which is what this formula does for any `d`. */
  function DayNumber(y: int, m: int, d: int): int
    requires 1 <= m <= 12
  {
    DaysBeforeYear(y) + DaysBeforeMonth(y, m) + d - 1
  }

  /** The year containing day number `n`, searching upwards from year `y`. */
  function YearUp(n: int, y: int): (r: int)
    requires DaysBeforeYear(y) <= n
    ensures y <= r && DaysBeforeYear(r) <= n < DaysBeforeYear(r + 1)
    decreases n - DaysBeforeYear(y)
  {
    DaysBeforeNextYear(y);
    if n < DaysBeforeYear(y + 1) then y else YearUp(n, y + 1)
  }

  /** The year containing day number `n`, searching downwards from year `y`. */
  function YearDown(n: int, y: int): (r: int)
    requires n < DaysBeforeYear(y)
    ensures r < y && DaysBeforeYear(r) <= n < DaysBeforeYear(r + 1)
    decreases DaysBeforeYear(y) - n
  {
    DaysBeforeNextYear(y - 1);
    if DaysBeforeYear(y - 1) <= n then y - 1 else YearDown(n, y - 1)
  }

  function YearOf(n: int): (r: int)
    ensures DaysBeforeYear(r) <= n < DaysBeforeYear(r + 1)
  {
    if n >= 0 then YearUp(n, 1970) else YearDown(n, 1970)
  }

  /** Exactly one year contains a given day number. */
  lemma YearUnique(n: int, y: int)
    requires DaysBeforeYear(y) <= n < DaysBeforeYear(y + 1)
    ensures YearOf(n) == y
  {
    var r := YearOf(n);
    if r < y {
      DaysBeforeYearMonotone(r, y);
      assert false;
    } else if y < r {
      DaysBeforeYearMonotone(y, r);
      assert false;
    }
  }

  /** The month containing day `r` of year `y` (counted from zero), searching from month `m`. */
  function MonthFrom(y: int, r: int, m: int): (k: int)
    requires 1 <= m <= 12 && DaysBeforeMonth(y, m) <= r < DaysBeforeMonth(y, 13)
    ensures m <= k <= 12 && DaysBeforeMonth(y, k) <= r < DaysBeforeMonth(y, k) + DaysInMonth(y, k)
    decreases 12 - m
  {
    if r < DaysBeforeMonth(y, m + 1) then m
    else MonthFrom(y, r, m + 1)
  }

  /** The civil date of day number `n`. */
  function CivilFromDays(n: int): (d: Date)
    ensures Valid(d)
    ensures DayNumber(d.year, d.month, d.day) == n
  {
    var y := YearOf(n);
    MonthsFillYear(y);
    DaysBeforeNextYear(y);
    var r := n - DaysBeforeYear(y);
    var m := MonthFrom(y, r, 1);
    Date(y, m, r - DaysBeforeMonth(y, m) + 1)
  }

  /** A valid date survives the trip to a day number and back. */
  lemma CivilRoundTrip(d: Date)
    requires Valid(d)
    ensures CivilFromDays(DayNumber(d.year, d.month, d.day)) == d
  {
    var n := DayNumber(d.year, d.month, d.day);
    MonthsFillYear(d.year);
    DaysBeforeNextYear(d.year);
    DaysBeforeMonthMonotone(d.year, d.month, 13);
    YearUnique(n, d.year);
    var c := CivilFromDays(n);
    assert c.year == d.year;
    if c.month < d.month {
      DaysBeforeMonthMonotone(d.year, c.month, d.month);
    } else if d.month < c.month {
      DaysBeforeMonthMonotone(d.year, d.month, c.month);
    }
  }

  /** Day numbers order dates lexicographically: a valid date in a later year has a larger
      day number. */
  lemma LaterYearLaterDay(d: Date, y: int)
    requires Valid(d) && y < d.year
    ensures DaysBeforeYear(y + 1) <= DayNumber(d.year, d.month, d.day)
  {
    DaysBeforeYearMonotone(y, d.year);
  }

  /** Floor division of an instant's local reading into days. */
  function LocalDay(t: int, offset: int): int
  {
    (t + offset) / SecondsPerDay
  }

  /** Seconds since local midnight. */
  function LocalSecond(t: int, offset: int): (s: int)
    ensures 0 <= s < SecondsPerDay
    ensures t + offset == LocalDay(t, offset) * SecondsPerDay + s
  {
    (t + offset) % SecondsPerDay
  }

  /** t.In(zone).Year() and friends: the civil date of an instant in a zone. */
  function DateIn(t: int, offset: int): Date
  {
    CivilFromDays(LocalDay(t, offset))
  }

  /** time.Date(y, m, d, 0, 0, 0, 0, zone): the instant of local midnight of a date. */
  function Midnight(y: int, m: int, d: int, offset: int): int
    requires 1 <= m <= 12
  {
    DayNumber(y, m, d) * SecondsPerDay - offset
  }

  /** t.AddDate(1, 0, 0) read in a zone: the same local clock time on the same month and
      day one year later, where the 29th of February becomes the 1st of March. The result
      lies 365 or 366 days later. */
  function AddYear(t: int, offset: int): (u: int)
    ensures 365 * SecondsPerDay <= u - t <= 366 * SecondsPerDay
  {
    var c := DateIn(t, offset);
    AddYearSpan(t, offset);
    Midnight(c.year + 1, c.month, c.day, offset) + LocalSecond(t, offset)
  }

  /** The same month and day a year later is 365 or 366 days on. */
  lemma AddYearSpan(t: int, offset: int)
    ensures var c := DateIn(t, offset);
      365 * SecondsPerDay <= Midnight(c.year + 1, c.month, c.day, offset) + LocalSecond(t, offset) - t <= 366 * SecondsPerDay
  {
    var c := DateIn(t, offset);
    var n := LocalDay(t, offset);
    var n' := DayNumber(c.year + 1, c.month, c.day);
    assert DayNumber(c.year, c.month, c.day) == n;
    YearLaterDays(c.year, c.month, c.day);
    ScaleDays(n', n);
  }

  lemma YearLaterDays(y: int, m: int, d: int)
    requires 1 <= m <= 12
    ensures 365 <= DayNumber(y + 1, m, d) - DayNumber(y, m, d) <= 366
  {
    DaysBeforeNextYear(y);
    // the months before `m` differ between the two years by at most the leap day
    MonthsBeforeDiffer(y, y + 1, m);
  }

  lemma ScaleDays(a: int, b: int)
    requires 365 <= a - b <= 366
    ensures 365 * SecondsPerDay <= a * SecondsPerDay - b * SecondsPerDay <= 366 * SecondsPerDay
  {
    if a - b == 365 {
      assert a * SecondsPerDay == (b + 365) * SecondsPerDay;
    } else {
      assert a * SecondsPerDay == (b + 366) * SecondsPerDay;
    }
  }

  lemma {:induction false} MonthsBeforeDiffer(y: int, z: int, m: int)
    requires 1 <= m <= 13
    ensures -1 <= DaysBeforeMonth(z, m) - DaysBeforeMonth(y, m) <= 1
    ensures m <= 2 ==> DaysBeforeMonth(z, m) == DaysBeforeMonth(y, m)
    ensures m > 2 ==>
      (DaysBeforeMonth(z, m) - DaysBeforeMonth(y, m) ==
       (if IsLeap(z) then 1 else 0) - (if IsLeap(y) then 1 else 0))
  {
    if m > 1 {
      MonthsBeforeDiffer(y, z, m - 1);
    }
  }

  /** Local midnight of a date reads back as that day, at second 0. */
  lemma MidnightReadsBack(y: int, m: int, d: int, offset: int)
    requires 1 <= m <= 12
    ensures LocalDay(Midnight(y, m, d, offset), offset) == DayNumber(y, m, d)
    ensures LocalSecond(Midnight(y, m, d, offset), offset) == 0
  {
    var n := DayNumber(y, m, d);
    assert Midnight(y, m, d, offset) + offset == n * SecondsPerDay;
  }

  /** An instant `s` seconds into local day `n` reads back as that day. */
  lemma WithinDay(n: int, s: int, offset: int)
    requires 0 <= s < SecondsPerDay
    ensures LocalDay(n * SecondsPerDay - offset + s, offset) == n
    ensures LocalSecond(n * SecondsPerDay - offset + s, offset) == s
  {
    var t := n * SecondsPerDay - offset + s;
    var k := LocalDay(t, offset);
    var r := LocalSecond(t, offset);
    assert (k - n) * SecondsPerDay == s - r;
  }

  /** A year after local midnight of a valid date is local midnight of the same month and
      day in the next year. */
  lemma AddYearToMidnight(y: int, m: int, d: int, offset: int)
    requires Valid(Date(y, m, d))
    ensures AddYear(Midnight(y, m, d, offset), offset) == Midnight(y + 1, m, d, offset)
  {
    var t := Midnight(y, m, d, offset);
    DateOfMidnight(y, m, d, offset);
    MidnightReadsBack(y, m, d, offset);
    assert AddYear(t, offset) == Midnight(y + 1, m, d, offset) + LocalSecond(t, offset);
  }

  /** The leap day moves to the 1st of March when a year is added to it and the next year is
      not a leap year. */
  lemma LeapDayDrifts(y: int, offset: int)
    requires IsLeap(y)
    ensures DateIn(AddYear(Midnight(y, 2, 29, offset), offset), offset) == Date(y + 1, 3, 1)
  {
    AddYearToMidnight(y, 2, 29, offset);
    NoLeapAfterLeap(y);
    NoLeapDay(y + 1);
    assert Midnight(y + 1, 2, 29, offset) == Midnight(y + 1, 3, 1, offset);
    DateOfMidnight(y + 1, 3, 1, offset);
  }

  /** Local midnight of a valid date falls on that date. */
  lemma DateOfMidnight(y: int, m: int, d: int, offset: int)
    requires Valid(Date(y, m, d))
    ensures DateIn(Midnight(y, m, d, offset), offset) == Date(y, m, d)
  {
    MidnightReadsBack(y, m, d, offset);
    CivilRoundTrip(Date(y, m, d));
  }

  /** Any instant of a local day falls on that day's date. */
  lemma DateDuringDay(y: int, m: int, d: int, offset: int, s: int)
    requires Valid(Date(y, m, d)) && 0 <= s < SecondsPerDay
    ensures DateIn(Midnight(y, m, d, offset) + s, offset) == Date(y, m, d)
  {
    DuringDayReadsBack(y, m, d, offset, s);
    CivilRoundTrip(Date(y, m, d));
  }

  lemma DuringDayReadsBack(y: int, m: int, d: int, offset: int, s: int)
    requires 1 <= m <= 12 && 0 <= s < SecondsPerDay
    ensures LocalDay(Midnight(y, m, d, offset) + s, offset) == DayNumber(y, m, d)
  {
    WithinDay(DayNumber(y, m, d), s, offset);
  }

  lemma NoLeapAfterLeap(y: int)
    requires IsLeap(y)
    ensures !IsLeap(y + 1)
  {
  }

  /** In a common year, the 29th of February counts on to the 1st of March. */
  lemma NoLeapDay(y: int)
    requires !IsLeap(y)
    ensures DayNumber(y, 2, 29) == DayNumber(y, 3, 1)
  {
    assert DaysBeforeMonth(y, 3) == DaysBeforeMonth(y, 2) + 28;
  }
}

=== FILE: chat.dfy ===
/** AI chat replies (internal/events/chat.go): a per-channel rolling buffer of recent
    messages, the gating of a reply, and the rendering of the history sent to the model. */
module Chat {
  import opened Wrappers
  import opened Text
  import Cooldown

  /** CACHE_CAPACITY: how many recent messages each channel keeps. */
  const CacheCapacity: nat := 10

  /** The cooldown the chat handler uses: 2 per user, 5 per channel, 3 minutes. */
  const UserInvocations: nat := 2
  const ChannelInvocations: nat := 5
  const CooldownSeconds: int := 180

  datatype Message = Message(id: string, authorId: string, username: string, authorBot: bool,
                             content: string, mentions: seq<string>)

  /** The buffer contents, oldest first, after `added` went in, for a capacity of `n`:
      empty slots first, then the last (at most `n`) items in insertion order. */
  function Window<T>(added: seq<T>, n: nat): (w: seq<Option<T>>)
    ensures |w| == n
  {
    if |added| >= n then
      seq(n, i requires 0 <= i < n => Some(added[|added| - n + i]))
    else
      seq(n - |added|, _ => None) + seq(|added|, i requires 0 <= i < |added| => Some(added[i]))
  }

  /** items[current:] followed by items[:current]. */
  function Rotate<T>(items: seq<T>, current: nat): (r: seq<T>)
    requires current <= |items|
    ensures |r| == |items|
  {
    items[current..] + items[..current]
  }

  /** The view after one more add: the oldest slot drops out and the item comes last. */
  function Shift<T>(view: seq<Option<T>>, x: T): (v: seq<Option<T>>)
    requires |view| > 0
    ensures |v| == |view|
  {
    view[1..] + [Some(x)]
  }

  /** A view of `n` empty slots. */
  function Empty<T>(n: nat): (v: seq<Option<T>>)
    ensures |v| == n && forall i :: 0 <= i < n ==> v[i] == None
  {
    seq(n, _ => None)
  }

  /** The view after adding `xs`, in order, to a buffer whose view was `view`. */
  function AfterAdds<T>(view: seq<Option<T>>, xs: seq<T>): (v: seq<Option<T>>)
    requires |view| > 0
    ensures |v| == |view|
  {
    if |xs| == 0 then view else Shift(AfterAdds(view, xs[..|xs| - 1]), xs[|xs| - 1])
  }

  /** One more item drops the oldest slot of the window and appends the item. */
  lemma WindowSnoc<T>(added: seq<T>, x: T, n: nat)
    requires n > 0
    ensures Window(added + [x], n) == Shift(Window(added, n), x)
  {
    var a := added + [x];
    var w := Window(added, n);
    var w' := Window(a, n);
    forall i | 0 <= i < n ensures w'[i] == Shift(w, x)[i] {
      if i == n - 1 {
        assert w'[i] == Some(a[|a| - 1]);
      } else if |added| >= n {
        assert w'[i] == Some(a[|a| - n + i]) == Some(added[|added| - n + i + 1]);
      } else if i + 1 < n - |added| {
        assert w'[i] == None;
      } else {
        assert w'[i] == Some(a[i - (n - |a|)]);
        assert w[i + 1] == Some(added[i + 1 - (n - |added|)]);
      }
    }
  }

  /** Adding `xs` to a fresh buffer of capacity `n` leaves exactly Window(xs, n) in view. */
  lemma {:induction false} AddsFromEmpty<T>(xs: seq<T>, n: nat)
    requires n > 0
    ensures AfterAdds(Empty(n), xs) == Window(xs, n)
    decreases |xs|
  {
    if |xs| == 0 {
      assert Window(xs, n) == Empty(n);
    } else {
      var init := xs[..|xs| - 1];
      AddsFromEmpty(init, n);
      WindowSnoc(init, xs[|xs| - 1], n);
      assert init + [xs[|xs| - 1]] == xs;
    }
  }

  /** Writing the slot under the cursor and advancing the cursor drops the oldest entry of
      the rotated view and appends the new one. */
  lemma RotateAfterWrite<T>(s: seq<Option<T>>, c: nat, x: T)
    requires c < |s|
    ensures Rotate(s[c := Some(x)], (c + 1) % |s|) == Shift(Rotate(s, c), x)
  {
    var s' := s[c := Some(x)];
    var r := Rotate(s, c);
    assert r == s[c..] + s[..c];
    assert r[1..] == s[c + 1..] + s[..c];
    if c + 1 == |s| {
      assert (c + 1) % |s| == 0;
      assert s' == s[..c] + [Some(x)];
      assert s[c + 1..] == [];
    } else {
      assert (c + 1) % |s| == c + 1;
      assert s'[c + 1..] == s[c + 1..];
      assert s'[..c + 1] == s[..c] + [Some(x)];
    }
  }

  /** rollingCache: a fixed-size array written round-robin, with the cursor on the slot to
      be written next. Its view is the array read from the cursor round to it again. */
  class RollingCache<T> {
    const items: array<Option<T>>
    var current: nat

    ghost predicate Valid()
      reads this
    {
      items.Length > 0 && current < items.Length
    }

    /** The slots from the cursor to the end, then those before it. */
    function View(): (v: seq<Option<T>>)
      requires Valid()
      reads this, items
      ensures |v| == items.Length
    {
      Rotate(items[..], current)
    }

    /** A buffer of `capacity` empty slots with the cursor at 0. */
    constructor (capacity: nat)
      requires capacity > 0
      ensures Valid() && fresh(items)
      ensures items.Length == capacity && current == 0
      ensures View() == Empty(capacity)
    {
      items := new Option<T>[capacity](_ => None);
      current := 0;
      new;
      assert Rotate(items[..], 0) == items[..];
    }

    /** Add writes the slot under the cursor, moves the cursor on modulo the capacity, and
        changes no other slot; in the view, the oldest entry drops out and the item comes last. */
    method Add(item: T)
      requires Valid()
      modifies this, items
      ensures Valid()
      ensures items[old(current)] == Some(item)
      ensures forall i :: 0 <= i < items.Length && i != old(current) ==> items[i] == old(items[i])
      ensures current == (old(current) + 1) % items.Length
      ensures View() == Shift(old(View()), item)
    {
      RotateAfterWrite(items[..], current, item);
      items[current] := Some(item);
      current := (current + 1) % items.Length;
    }

    /** GetAll: the view, which after the adds `xs` to a fresh buffer is Window(xs, n) by
        AddsFromEmpty. The buffer is not changed. */
    method GetAll() returns (r: seq<Option<T>>)
      requires Valid()
      ensures r == View()
    {
      r := items[current..] + items[..current];
    }
  }

  /** After k adds to a fresh buffer, with k at most the capacity, the view holds
      capacity - k empty slots followed by the k items in insertion order. */
  lemma FewAddsPadded<T>(xs: seq<T>, n: nat)
    requires 0 < n && |xs| <= n
    ensures forall i :: 0 <= i < n - |xs| ==> AfterAdds(Empty(n), xs)[i] == None
    ensures forall i :: 0 <= i < |xs| ==> AfterAdds(Empty(n), xs)[n - |xs| + i] == Some(xs[i])
  {
    AddsFromEmpty(xs, n);
  }

  /** After more adds than the capacity, the view is exactly the last `n` items, in order. */
  lemma ManyAddsKeepLast<T>(xs: seq<T>, n: nat)
    requires 0 < n <= |xs|
    ensures forall i :: 0 <= i < n ==> AfterAdds(Empty(n), xs)[i] == Some(xs[|xs| - n + i])
  {
    AddsFromEmpty(xs, n);
  }

  /** chatCaches: one rolling buffer per channel id. */
  class ChatCaches {
    var caches: map<string, RollingCache<Message>>
    ghost var Repr: set<object>

    ghost predicate Valid()
      reads this, Repr
    {
      && (forall k :: k in caches ==>
            && caches[k] in Repr && caches[k].items in Repr
            && caches[k].Valid() && caches[k].items.Length == CacheCapacity)
      && (forall k, k' :: k in caches && k' in caches && k != k' ==>
            caches[k] != caches[k'] && caches[k].items != caches[k'].items)
    }

    constructor ()
      ensures Valid() && caches == map[] && Repr == {}
    {
      caches := map[];
      Repr := {};
    }

    /** The view of a channel's buffer; a channel never seen has an empty one. */
    function ViewOf(channelId: string): (v: seq<Option<Message>>)
      requires Valid()
      reads this, Repr
      ensures |v| == CacheCapacity
    {
      if channelId in caches then caches[channelId].View() else Empty(CacheCapacity)
    }

    /** addMessage: the channel's buffer is created empty on first use, then the message
        is added to it; the buffers of other channels are not touched. */
    method AddMessage(channelId: string, message: Message)
      requires Valid()
      modifies this, Repr
      ensures Valid()
      ensures caches.Keys == old(caches).Keys + {channelId}
      ensures channelId in old(caches) ==> caches[channelId] == old(caches)[channelId]
      ensures channelId !in old(caches) ==> fresh(caches[channelId])
      ensures ViewOf(channelId) == Shift(old(ViewOf(channelId)), message)
      ensures forall k :: k in old(caches) && k != channelId ==>
        caches[k] == old(caches)[k] && unchanged(caches[k], caches[k].items)
      ensures channelId in old(caches) ==> Repr == old(Repr)
      ensures channelId !in old(caches) ==>
        Repr == old(Repr) + {caches[channelId], caches[channelId].items} && fresh(caches[channelId].items)
    {
      var cache := BufferFor(channelId);
      ghost var others := caches - {channelId};
      assert forall k :: k in others ==> caches[k] != cache && caches[k].items != cache.items;
      cache.Add(message);
      assert forall k :: k in others ==> caches[k].Valid();
    }

    /** The channel's buffer, created empty and registered on first use. */
    method BufferFor(channelId: string) returns (cache: RollingCache<Message>)
      requires Valid()
      modifies this
      ensures Valid() && channelId in caches && cache == caches[channelId]
      ensures caches == old(caches)[channelId := cache]
      ensures cache.View() == old(ViewOf(channelId))
      ensures channelId in old(caches) ==> cache == old(caches)[channelId] && Repr == old(Repr)
      ensures channelId !in old(caches) ==>
        fresh(cache) && fresh(cache.items) && Repr == old(Repr) + {cache, cache.items}
    {
      if channelId in caches {
        cache := caches[channelId];
      } else {
        cache := new RollingCache<Message>(CacheCapacity);
        caches := caches[channelId := cache];
        Repr := Repr + {cache, cache.items};
      }
    }
  }

  /** What the handler does with one created message. */
  datatype Outcome =
    | NotConfigured                       // the guild has no chat role ids
    | Ignored                             // bot author, or the bot is not mentioned
    | CooldownReply                       // the reply "chat.cooldown"
    | AiRequest(prompt: Prompt, history: seq<Option<Message>>)
    | Panicked                            // a nil dereference; the event wrapper recovers it and nothing is sent

  /** The guild's prompt is a template whose rendering is not modelled. */
  datatype Prompt = DefaultPrompt | GuildPrompt

  /** The author's member data in the event: roles and permissions. A direct message
      has none. */
  datatype ChatMember = ChatMember(roles: seq<string>, permissions: bv64)

  predicate MentionsBot(m: Message, botId: string)
  {
    botId in m.mentions
  }

  /** The message asks the bot for an answer: a human author who mentions it. */
  predicate Engaged(m: Message, botId: string)
  {
    !m.authorBot && MentionsBot(m, botId)
  }

  /** The member holds none of a non-empty list of chat roles. */
  predicate LacksChatRole(roleIds: seq<string>, memberRoles: seq<string>)
  {
    |roleIds| > 0 && forall r :: r in memberRoles ==> r !in roleIds
  }

  /** chatMessageCreate up to the AI call. `roleIds` is the guild's chat role list (None
      when it cannot be read); `member` is the event's member (None on a direct message,
      whose guild "" still reads a chat role list when any guild has one); `exempt` is the
      guild's cooldown-exempt channel list; `guildFetched` says whether the guild fetch for
      the cooldown reply succeeds; `promptReady` says whether the guild prompt parses and
      the bot's member and the guild are in the session state. */
  method ChatMessageCreate(caches: ChatCaches, cdm: Cooldown.CooldownManager,
                           channelId: string, message: Message, botId: string,
                           roleIds: Option<seq<string>>, member: Option<ChatMember>,
                           exempt: Option<seq<string>>, now: int, guildFetched: bool, promptReady: bool)
    returns (out: Outcome)
    requires caches.Valid() && cdm.Valid()
    requires cdm.userInvocations == UserInvocations && cdm.channelInvocations == ChannelInvocations
    requires cdm.cooldownDuration == CooldownSeconds
    requires cdm.userBuckets !in caches.Repr && cdm.channelBuckets !in caches.Repr
    modifies caches, caches.Repr, cdm.userBuckets, cdm.channelBuckets
    ensures caches.Valid() && cdm.Valid()
    ensures roleIds.None? ==>
      && out == NotConfigured && caches.caches == old(caches.caches)
      && forall k :: caches.ViewOf(k) == old(caches.ViewOf(k))
    ensures roleIds.Some? ==> caches.ViewOf(channelId) == Shift(old(caches.ViewOf(channelId)), message)
    ensures roleIds.Some? && !Engaged(message, botId) ==> out == Ignored
    ensures roleIds.Some? && Engaged(message, botId) && member.None? ==> out == Panicked
    ensures roleIds.None? || !Engaged(message, botId) || member.None? ==>
      cdm.channelBuckets.m == old(cdm.channelBuckets.m) && cdm.userBuckets.m == old(cdm.userBuckets.m)
    ensures roleIds.Some? && Engaged(message, botId) && member.Some? ==>
      Cooldown.Updated(old(cdm.channelBuckets.m), old(cdm.userBuckets.m), cdm.channelBuckets.m, cdm.userBuckets.m,
                       ChannelInvocations, UserInvocations, CooldownSeconds, channelId, message.authorId,
                       member.value.permissions, exempt, now)
    ensures roleIds.Some? && Engaged(message, botId) && member.Some? ==>
      var permitted := Cooldown.Permits(old(cdm.channelBuckets.m), old(cdm.userBuckets.m),
                                        ChannelInvocations, UserInvocations, CooldownSeconds,
                                        channelId, message.authorId, member.value.permissions, exempt, now);
      var lacks := LacksChatRole(roleIds.value, member.value.roles);
      && (!permitted && guildFetched ==> out == CooldownReply)
      && (!permitted && !guildFetched ==> out == Panicked)
      && (permitted && lacks ==> out == AiRequest(DefaultPrompt, [Some(message)]))
      && (permitted && !lacks && promptReady ==> out == AiRequest(GuildPrompt, caches.ViewOf(channelId)))
      && (permitted && !lacks && !promptReady ==> out == Panicked)
  {
    if roleIds.None? {
      return NotConfigured;
    }
    caches.AddMessage(channelId, message);
    out := Respond(caches, cdm, channelId, message, botId, roleIds.value, member, exempt, now, guildFetched, promptReady);
  }

  /** chatMessageCreate after the message is cached: the bot and mention checks, the
      member's user (a nil member panics), the cooldown, then the request with the history
      the prompt calls for. */
  method Respond(caches: ChatCaches, cdm: Cooldown.CooldownManager,
                 channelId: string, message: Message, botId: string,
                 roleIds: seq<string>, member: Option<ChatMember>,
                 exempt: Option<seq<string>>, now: int, guildFetched: bool, promptReady: bool)
    returns (out: Outcome)
    requires caches.Valid() && cdm.Valid() && channelId in caches.caches
    requires cdm.userInvocations == UserInvocations && cdm.channelInvocations == ChannelInvocations
    requires cdm.cooldownDuration == CooldownSeconds
    requires cdm.userBuckets !in caches.Repr && cdm.channelBuckets !in caches.Repr
    modifies cdm.userBuckets, cdm.channelBuckets
    ensures caches.Valid() && cdm.Valid() && caches.ViewOf(channelId) == old(caches.ViewOf(channelId))
    ensures !Engaged(message, botId) ==> out == Ignored
    ensures Engaged(message, botId) && member.None? ==> out == Panicked
    ensures !Engaged(message, botId) || member.None? ==>
      cdm.channelBuckets.m == old(cdm.channelBuckets.m) && cdm.userBuckets.m == old(cdm.userBuckets.m)
    ensures Engaged(message, botId) && member.Some? ==>
      Cooldown.Updated(old(cdm.channelBuckets.m), old(cdm.userBuckets.m), cdm.channelBuckets.m, cdm.userBuckets.m,
                       ChannelInvocations, UserInvocations, CooldownSeconds, channelId, message.authorId,
                       member.value.permissions, exempt, now)
    ensures Engaged(message, botId) && member.Some? ==>
      var permitted := Cooldown.Permits(old(cdm.channelBuckets.m), old(cdm.userBuckets.m),
                                        ChannelInvocations, UserInvocations, CooldownSeconds,
                                        channelId, message.authorId, member.value.permissions, exempt, now);
      var lacks := LacksChatRole(roleIds, member.value.roles);
      && (!permitted && guildFetched ==> out == CooldownReply)
      && (!permitted && !guildFetched ==> out == Panicked)
      && (permitted && lacks ==> out == AiRequest(DefaultPrompt, [Some(message)]))
      && (permitted && !lacks && promptReady ==> out == AiRequest(GuildPrompt, caches.ViewOf(channelId)))
      && (permitted && !lacks && !promptReady ==> out == Panicked)
  {
    if !Engaged(message, botId) {
      return Ignored;
    }
    if member.None? {
      return Panicked;
    }
    var allowed := cdm.Can(channelId, message.authorId, member.value.permissions, exempt, now);
    if !allowed {
      out := if guildFetched then CooldownReply else Panicked;
    } else if LacksChatRole(roleIds, member.value.roles) {
      out := AiRequest(DefaultPrompt, [Some(message)]);
    } else if !promptReady {
      out := Panicked;
    } else {
      var history := caches.caches[channelId].GetAll();
      out := AiRequest(GuildPrompt, history);
    }
  }

  /** The sentence getAIResponse appends to the system prompt. */
  const InstructionSuffix: string :=
    "\n\nThe message contains the most recent conversations in the channel for context. Respond only to the last message."

  /** The instructions sent to the model: the prompt followed by the fixed suffix. */
  function Instructions(prompt: string): (r: string)
    ensures IsPrefix(prompt, r) && r[|prompt|..] == InstructionSuffix
  {
    prompt + InstructionSuffix
  }

  /** One history line: "[username] content" for a message, "" for an empty slot. */
  function Render(slot: Option<Message>): string
  {
    match slot
    case Some(m) => "[" + m.username + "] " + m.content
    case None => ""
  }

  function RenderAll(history: seq<Option<Message>>): (lines: seq<string>)
    ensures |lines| == |history|
    ensures forall i :: 0 <= i < |history| ==> lines[i] == Render(history[i])
  {
    if |history| == 0 then [] else [Render(history[0])] + RenderAll(history[1..])
  }

  /** The model input: one rendered line per history entry, joined by newlines. */
  function MessagePrompt(history: seq<Option<Message>>): string
  {
    Join(RenderAll(history), "\n")
  }

  /** A longer history is the shorter history's input, a newline, and the new line. */
  lemma MessagePromptSnoc(history: seq<Option<Message>>, slot: Option<Message>)
    requires |history| > 0
    ensures MessagePrompt(history + [slot]) == MessagePrompt(history) + "\n" + Render(slot)
  {
    assert RenderAll(history + [slot]) == RenderAll(history) + [Render(slot)];
    JoinSnoc(RenderAll(history), Render(slot), "\n");
  }

  /** With the full buffer of empty slots before any message, the input starts with one
      newline per further slot: an empty slot renders as an empty line. */
  lemma {:induction false} EmptySlotsAreEmptyLines(k: nat, rest: seq<Option<Message>>)
    requires |rest| > 0
    ensures MessagePrompt(seq(k, _ => None) + rest) == Repeat("\n", k) + MessagePrompt(rest)
    decreases k
  {
    if k > 0 {
      var tail := seq(k - 1, _ => None) + rest;
      assert seq(k, _ => None) + rest == [None] + tail;
      EmptyLineFirst(tail);
      EmptySlotsAreEmptyLines(k - 1, rest);
      AppendAssoc("\n", Repeat("\n", k - 1), MessagePrompt(rest));
    } else {
      assert seq(k, _ => None) + rest == rest;
    }
  }

  /** An empty slot before a non-empty history adds one empty line in front. */
  lemma EmptyLineFirst(tail: seq<Option<Message>>)
    requires |tail| > 0
    ensures MessagePrompt([None] + tail) == "\n" + MessagePrompt(tail)
  {
    var lines := RenderAll([None] + tail);
    assert ([None] + tail)[1..] == tail;
    assert lines[1..] == RenderAll(tail);
  }

  function Repeat(s: string, k: nat): (r: string)
    ensures |r| == k * |s|
  {
    if k == 0 then "" else s + Repeat(s, k - 1)
  }
}

=== FILE: commands_base.dfy ===
/** The slash-command tree (internal/commands/base.go).

    A command is either a leaf with a handler and options, or an internal node whose
    subcommands are built recursively: each node gets its localisation key, its
    localisations from the metadata table, and an internal node gets one subcommand option
    per child and a generated handler that dispatches on the first option's name.
    Handlers are identified by a number; running one is not modelled. */
module Commands {
  import opened Wrappers
  import opened Text
  import I18n

  /** dg.MessageFlagsEphemeral: bit 6 of the message flags. */
  const Ephemeral: bv64 := 0x40

  /** The description given to internal chat-input nodes. */
  const UnusedDescription: string := "(unused)"

  datatype CommandType = ChatInput | UserCommand | MessageCommand

  /** The option types the builder writes; every other type is kept as its number. */
  datatype OptionType = SubCommand | SubCommandGroup | OtherType(code: nat)

  /** A choice's value is kept as its printed form (fmt.Sprint). */
  datatype Choice = Choice(value: string, name: string, nameLocs: map<I18n.Locale, string>)

  datatype CommandOption = CommandOption(
    name: string,
    kind: OptionType,
    description: string,
    required: bool,
    nameLocs: map<I18n.Locale, string>,
    descLocs: map<I18n.Locale, string>,
    choices: seq<Choice>,
    options: seq<CommandOption>)

  /** NoHandler is a nil handler; Dispatch is the handler build generates. */
  datatype Handler = NoHandler | Handle(id: nat) | Dispatch

  datatype Command = Command(
    name: string,
    ctype: CommandType,
    description: string,
    nameLocs: Option<map<I18n.Locale, string>>,
    descLocs: Option<map<I18n.Locale, string>>,
    options: seq<CommandOption>,
    subcommands: seq<Command>,
    handler: Handler,
    subcommandMap: map<string, Command>)

  /** One option of an incoming interaction: its name and the options nested in it. */
  datatype InteractionOption = InteractionOption(name: string, value: string, options: seq<InteractionOption>)

  /** Option: the first option of the interaction with this name, or None. */
  method FindOption(opts: seq<InteractionOption>, name: string) returns (r: Option<InteractionOption>)
    ensures r.None? <==> forall i :: 0 <= i < |opts| ==> opts[i].name != name
    ensures r.Some? ==> exists i :: 0 <= i < |opts| && opts[i] == r.value && r.value.name == name &&
                                   forall j :: 0 <= j < i ==> opts[j].name != name
  {
    var i := 0;
    while i < |opts|
      invariant 0 <= i <= |opts|
      invariant forall j :: 0 <= j < i ==> opts[j].name != name
    {
      if opts[i].name == name {
        return Some(opts[i]);
      }
      i := i + 1;
    }
    return None;
  }

  /** The localisation key of a node: its name at the root, else prefix/name. */
  function LocalizationKey(prefix: string, name: string): (key: string)
    ensures prefix == "" ==> key == name
    ensures prefix != "" ==> key == prefix + "/" + name
  {
    if prefix == "" then name else prefix + "/" + name
  }

  /** A map's value for en-US, or the empty string Go's zero value gives. */
  function English(locs: map<I18n.Locale, string>): string
  {
    if I18n.DefaultLang in locs then locs[I18n.DefaultLang] else ""
  }

  function LocalizeChoice(t: I18n.Tables, optKey: string, c: Choice): (r: Choice)
    ensures r.value == c.value
    ensures r.nameLocs == I18n.Metadata(t, optKey + ".choices." + c.value)
    ensures r.name == English(r.nameLocs)
  {
    var locs := I18n.Metadata(t, optKey + ".choices." + c.value);
    c.(nameLocs := locs, name := English(locs))
  }

  function LocalizeChoices(t: I18n.Tables, optKey: string, cs: seq<Choice>): (r: seq<Choice>)
    ensures |r| == |cs|
    ensures forall i :: 0 <= i < |cs| ==> r[i] == LocalizeChoice(t, optKey, cs[i])
  {
    if |cs| == 0 then [] else [LocalizeChoice(t, optKey, cs[0])] + LocalizeChoices(t, optKey, cs[1..])
  }

  /** The localisations of one option of a leaf: name, description and every choice, all
      read from the metadata under key.options.<name>. Nested options are left alone. */
  function LocalizeOption(t: I18n.Tables, key: string, o: CommandOption): (r: CommandOption)
    ensures r.name == o.name && r.kind == o.kind && r.options == o.options
    ensures r.nameLocs == I18n.Metadata(t, key + ".options." + o.name + ".name")
    ensures r.descLocs == I18n.Metadata(t, key + ".options." + o.name + ".description")
    ensures r.description == English(r.descLocs)
    ensures r.choices == LocalizeChoices(t, key + ".options." + o.name, o.choices)
  {
    var optKey := key + ".options." + o.name;
    var descLocs := I18n.Metadata(t, optKey + ".description");
    o.(nameLocs := I18n.Metadata(t, optKey + ".name"),
       descLocs := descLocs,
       description := English(descLocs),
       choices := LocalizeChoices(t, optKey, o.choices))
  }

  function LocalizeOptions(t: I18n.Tables, key: string, os: seq<CommandOption>): (r: seq<CommandOption>)
    ensures |r| == |os|
    ensures forall i :: 0 <= i < |os| ==> r[i] == LocalizeOption(t, key, os[i])
  {
    if |os| == 0 then [] else [LocalizeOption(t, key, os[0])] + LocalizeOptions(t, key, os[1..])
  }

  /** localizeCommand: the name localisations always; for chat-input commands, the
      placeholder description on an internal node and the localised description on a leaf;
      and, on a leaf only, the localisations of its options. */
  function Localize(t: I18n.Tables, key: string, c: Command): (r: Command)
    ensures r.name == c.name && r.ctype == c.ctype && r.subcommands == c.subcommands
    ensures r.handler == c.handler && r.subcommandMap == c.subcommandMap
    ensures r.nameLocs == Some(I18n.Metadata(t, key + ".name"))
    ensures c.ctype == ChatInput && |c.subcommands| > 0 ==>
      r.description == UnusedDescription && r.descLocs == c.descLocs
    ensures c.ctype == ChatInput && |c.subcommands| == 0 ==>
      r.descLocs == Some(I18n.Metadata(t, key + ".description")) && r.description == English(r.descLocs.value)
    ensures c.ctype != ChatInput ==> r.description == c.description && r.descLocs == c.descLocs
    ensures |c.subcommands| > 0 ==> r.options == c.options
    ensures |c.subcommands| == 0 ==> r.options == LocalizeOptions(t, key, c.options)
  {
    var named := c.(nameLocs := Some(I18n.Metadata(t, key + ".name")));
    var described := match c.ctype
      case ChatInput =>
        if |c.subcommands| > 0 then named.(description := UnusedDescription)
        else named.(descLocs := Some(I18n.Metadata(t, key + ".description")),
                    description := English(I18n.Metadata(t, key + ".description")))
      case _ => named;
    if |c.subcommands| > 0 then described
    else described.(options := LocalizeOptions(t, key, c.options))
  }

  /** asSubcommandOption: a built node as an option of its parent. */
  function AsSubcommandOption(c: Command): (o: CommandOption)
    ensures o.name == c.name && o.description == c.description && o.options == c.options
    ensures o.kind == SubCommandGroup <==> |c.subcommands| > 0
    ensures o.kind == SubCommand <==> |c.subcommands| == 0
  {
    CommandOption(c.name, if |c.subcommands| > 0 then SubCommandGroup else SubCommand,
                  c.description, false, c.nameLocs.GetOr(map[]), c.descLocs.GetOr(map[]), [], c.options)
  }

  /** A node that has subcommands and also options or a handler: build refuses it. */
  predicate Mixed(c: Command)
  {
    |c.subcommands| > 0 && (|c.options| > 0 || !c.handler.NoHandler?)
  }

  /** No node of the tree is mixed. */
  predicate WellFormed(c: Command)
    decreases c, 1
  {
    !Mixed(c) && AllWellFormed(c.subcommands)
  }

  predicate AllWellFormed(cs: seq<Command>)
    decreases cs, 0
  {
    |cs| == 0 || (WellFormed(cs[0]) && AllWellFormed(cs[1..]))
  }

  /** The panic build raises, naming the offending node. */
  datatype BuildPanic = MixedNode(name: string)

  /** The subcommand map: every child name to the last built child with that name. */
  function NameMap(built: seq<Command>): (m: map<string, Command>)
    ensures m.Keys == set i | 0 <= i < |built| :: built[i].name
    decreases |built|
  {
    if |built| == 0 then map[]
    else
      var last := built[|built| - 1];
      var m := NameMap(built[..|built| - 1])[last.name := last];
      assert forall i :: 0 <= i < |built| - 1 ==> built[..|built| - 1][i] == built[i];
      m
  }

  /** build(prefix): the built node, or the panic of the first mixed node met in
      depth-first order. */
  function Build(t: I18n.Tables, prefix: string, c: Command): (r: Result<Command, BuildPanic>)
    ensures r.Success? <==> WellFormed(c)
    ensures r.Success? ==> r.value.name == c.name && r.value.ctype == c.ctype && r.value.subcommands == c.subcommands
    ensures r.Success? && |c.subcommands| == 0 ==> r.value.handler == c.handler
    ensures r.Success? && |c.subcommands| > 0 ==> r.value.handler == Dispatch && |r.value.options| == |c.subcommands|
    ensures Mixed(c) ==> r == Failure(MixedNode(c.name))
    decreases c, 1
  {
    var key := LocalizationKey(prefix, c.name);
    if |c.subcommands| > 0 then
      if |c.options| > 0 || !c.handler.NoHandler? then Failure(MixedNode(c.name))
      else
        match BuildAll(t, key, c.subcommands)
        case Failure(e) => Failure(e)
        case Success(built) =>
          var options := SubcommandOptions(built);
          Success(Localize(t, key, c.(subcommandMap := NameMap(built), options := options, handler := Dispatch)))
    else Success(Localize(t, key, c))
  }

  /** The children built in order, stopping at the first panic. */
  function BuildAll(t: I18n.Tables, key: string, cs: seq<Command>): (r: Result<seq<Command>, BuildPanic>)
    ensures r.Success? <==> AllWellFormed(cs)
    ensures r.Success? ==> |r.value| == |cs|
    ensures r.Success? ==> forall i {:trigger r.value[i]} :: 0 <= i < |cs| ==> Build(t, key, cs[i]) == Success(r.value[i])
    decreases cs, 0
  {
    if |cs| == 0 then Success([])
    else
      match Build(t, key, cs[0])
      case Failure(e) => Failure(e)
      case Success(b) =>
        match BuildAll(t, key, cs[1..])
        case Failure(e) => Failure(e)
        case Success(rest) =>
          assert forall i :: 1 <= i < |cs| ==> cs[i] == cs[1..][i - 1];
          Success([b] + rest)
  }

  function SubcommandOptions(built: seq<Command>): (os: seq<CommandOption>)
    ensures |os| == |built|
    ensures forall i :: 0 <= i < |built| ==> os[i] == AsSubcommandOption(built[i])
  {
    if |built| == 0 then [] else [AsSubcommandOption(built[0])] + SubcommandOptions(built[1..])
  }

  /** Building an internal node gives one option per child, in order, a group exactly when
      the child has children, and the placeholder description on a chat-input node. */
  lemma BuiltInternalOptions(t: I18n.Tables, prefix: string, c: Command)
    requires |c.subcommands| > 0 && Build(t, prefix, c).Success?
    ensures var b := Build(t, prefix, c).value;
      && b.handler == Dispatch
      && |b.options| == |c.subcommands|
      && (forall i :: 0 <= i < |c.subcommands| ==>
            && b.options[i].name == c.subcommands[i].name
            && (b.options[i].kind == SubCommandGroup <==> |c.subcommands[i].subcommands| > 0))
      && (c.ctype == ChatInput ==> b.description == UnusedDescription)
  {
    var key := LocalizationKey(prefix, c.name);
    var built := BuildAll(t, key, c.subcommands).value;
    assert Build(t, prefix, c).value.options == SubcommandOptions(built);
  }

  /** Building an internal node maps exactly the child names, each to the built form of a
      child with that name. */
  lemma BuiltInternalMap(t: I18n.Tables, prefix: string, c: Command)
    requires |c.subcommands| > 0 && Build(t, prefix, c).Success?
    ensures var b := Build(t, prefix, c).value;
      && b.subcommandMap.Keys == (set i | 0 <= i < |c.subcommands| :: c.subcommands[i].name)
      && (forall n :: n in b.subcommandMap ==>
            exists i :: 0 <= i < |c.subcommands| && c.subcommands[i].name == n &&
                        Build(t, LocalizationKey(prefix, c.name), c.subcommands[i]) == Success(b.subcommandMap[n]))
  {
    var key := LocalizationKey(prefix, c.name);
    BuiltMapIsNameMap(t, prefix, c);
    NameMapOfChildren(t, key, c.subcommands, BuildAll(t, key, c.subcommands).value);
  }

  /** The name map of built children holds exactly the children's names, each mapped to
      the built form of a child with that name. */
  lemma NameMapOfChildren(t: I18n.Tables, key: string, cs: seq<Command>, built: seq<Command>)
    requires BuildAll(t, key, cs) == Success(built)
    ensures NameMap(built).Keys == (set i | 0 <= i < |cs| :: cs[i].name)
    ensures forall n :: n in NameMap(built) ==>
      exists i :: 0 <= i < |cs| && cs[i].name == n && Build(t, key, cs[i]) == Success(NameMap(built)[n])
  {
    BuiltNamesKept(t, key, cs, built);
    NameMapFindsBuilt(built);
    forall n | n in NameMap(built)
      ensures exists i :: 0 <= i < |cs| && cs[i].name == n && Build(t, key, cs[i]) == Success(NameMap(built)[n])
    {
      var i :| 0 <= i < |built| && built[i] == NameMap(built)[n] && built[i].name == n;
      assert Build(t, key, cs[i]) == Success(built[i]);
    }
    assert (set i | 0 <= i < |built| :: built[i].name) == (set i | 0 <= i < |cs| :: cs[i].name);
  }

  /** Each entry of the name map is one of the built children, under its own name. */
  lemma {:induction false} NameMapFindsBuilt(built: seq<Command>)
    ensures forall n :: n in NameMap(built) ==>
      exists i :: 0 <= i < |built| && built[i] == NameMap(built)[n] && built[i].name == n
    decreases |built|
  {
    if |built| > 0 {
      var init := built[..|built| - 1];
      NameMapFindsBuilt(init);
      forall n | n in NameMap(built)
        ensures exists i :: 0 <= i < |built| && built[i] == NameMap(built)[n] && built[i].name == n
      {
        if n == built[|built| - 1].name {
          assert built[|built| - 1] == NameMap(built)[n];
        } else {
          var i :| 0 <= i < |init| && init[i] == NameMap(init)[n] && init[i].name == n;
          assert built[i] == init[i];
        }
      }
    }
  }

  /** A built internal node has options and a handler, so building it again panics. */
  lemma BuildTwicePanics(t: I18n.Tables, prefix: string, c: Command)
    requires |c.subcommands| > 0 && Build(t, prefix, c).Success?
    ensures Build(t, prefix, Build(t, prefix, c).value) == Failure(MixedNode(c.name))
  {
  }

  /** Why dispatch fails: a leaf without handler (a nil call), a missing first option (an
      index out of range), or a name the node does not know (the returned error). */
  datatype DispatchError = NilHandler | NoOptions | UnknownSubcommand(subcommand: string, parent: string)

  /** The handler a dispatch reaches and the options it is given. */
  datatype Invocation = Invocation(handler: nat, options: seq<InteractionOption>)

  /** Running a built node's handler: a leaf handler runs with the options as they are; the
      generated handler reads the first option's name, peels one option layer and runs the
      matching child. */
  function Run(c: Command, opts: seq<InteractionOption>): (r: Result<Invocation, DispatchError>)
    ensures c.handler.Handle? ==> r == Success(Invocation(c.handler.id, opts))
    ensures c.handler.Dispatch? && |opts| > 0 && opts[0].name !in c.subcommandMap ==>
      r == Failure(UnknownSubcommand(opts[0].name, c.name))
    decreases opts
  {
    match c.handler
    case NoHandler => Failure(NilHandler)
    case Handle(id) => Success(Invocation(id, opts))
    case Dispatch =>
      if |opts| == 0 then Failure(NoOptions)
      else if opts[0].name in c.subcommandMap then Run(c.subcommandMap[opts[0].name], opts[0].options)
      else Failure(UnknownSubcommand(opts[0].name, c.name))
  }

  /** Dispatching a two-level tree: a call whose first option names a child runs that
      child's handler with the child's own options, whatever the parent had. */
  lemma DispatchPeelsOneLayer(t: I18n.Tables, c: Command, b: Command, opts: seq<InteractionOption>, i: nat)
    requires Build(t, "", c) == Success(b) && i < |c.subcommands|
    requires |opts| > 0 && opts[0].name == c.subcommands[i].name
    requires forall j :: 0 <= j < |c.subcommands| && j != i ==> c.subcommands[j].name != c.subcommands[i].name
    requires c.subcommands[i].handler.Handle?
    ensures Run(b, opts) == Success(Invocation(c.subcommands[i].handler.id, opts[0].options))
  {
    var child := c.subcommands[i];
    BuiltChildAt(t, c, b, i);
    BuiltLeafKeepsHandler(t, LocalizationKey("", c.name), child, b.subcommandMap[child.name]);
    RunPeels(b, opts);
  }

  /** A node built from a leaf with a handler keeps that handler. */
  lemma BuiltLeafKeepsHandler(t: I18n.Tables, key: string, child: Command, leaf: Command)
    requires Build(t, key, child) == Success(leaf) && child.handler.Handle?
    ensures leaf.handler == child.handler
  {
    assert !Mixed(child);
  }

  /** The generated handler runs the child its first option names on that option's own
      options. */
  lemma RunPeels(c: Command, opts: seq<InteractionOption>)
    requires c.handler.Dispatch? && |opts| > 0 && opts[0].name in c.subcommandMap
    ensures Run(c, opts) == Run(c.subcommandMap[opts[0].name], opts[0].options)
  {
  }

  /** In a built internal node, a child whose name no sibling shares is mapped to its own
      built form. */
  lemma BuiltChildAt(t: I18n.Tables, c: Command, b: Command, i: nat)
    requires Build(t, "", c) == Success(b) && i < |c.subcommands|
    requires forall j :: 0 <= j < |c.subcommands| && j != i ==> c.subcommands[j].name != c.subcommands[i].name
    ensures c.subcommands[i].name in b.subcommandMap
    ensures Build(t, LocalizationKey("", c.name), c.subcommands[i]) == Success(b.subcommandMap[c.subcommands[i].name])
  {
    BuiltMapIsNameMap(t, "", c);
    var key := LocalizationKey("", c.name);
    NameMapOfBuilt(t, key, c.subcommands, BuildAll(t, key, c.subcommands).value, i);
  }

  /** Built children keep their names, so a child whose name is unique is found in the
      name map in its built form. */
  lemma NameMapOfBuilt(t: I18n.Tables, key: string, cs: seq<Command>, built: seq<Command>, i: nat)
    requires BuildAll(t, key, cs) == Success(built) && i < |cs|
    requires forall j :: 0 <= j < |cs| && j != i ==> cs[j].name != cs[i].name
    ensures cs[i].name in NameMap(built) && Build(t, key, cs[i]) == Success(NameMap(built)[cs[i].name])
  {
    BuiltNamesKept(t, key, cs, built);
    NameMapDistinct(built, i);
  }

  /** Building children keeps their number and their names. */
  lemma BuiltNamesKept(t: I18n.Tables, key: string, cs: seq<Command>, built: seq<Command>)
    requires BuildAll(t, key, cs) == Success(built)
    ensures |built| == |cs| && forall i :: 0 <= i < |cs| ==> built[i].name == cs[i].name
  {
    forall i | 0 <= i < |cs| ensures built[i].name == cs[i].name {
      assert Build(t, key, cs[i]) == Success(built[i]);
    }
  }

  /** The map of a built internal node is the name map of its built children. */
  lemma BuiltMapIsNameMap(t: I18n.Tables, prefix: string, c: Command)
    requires |c.subcommands| > 0 && Build(t, prefix, c).Success?
    ensures BuildAll(t, LocalizationKey(prefix, c.name), c.subcommands).Success?
    ensures Build(t, prefix, c).value.subcommandMap
         == NameMap(BuildAll(t, LocalizationKey(prefix, c.name), c.subcommands).value)
  {
  }

  /** A child whose name no other child has is the one the name map holds for it. */
  lemma {:induction false} NameMapDistinct(built: seq<Command>, i: nat)
    requires i < |built|
    requires forall j :: 0 <= j < |built| && j != i ==> built[j].name != built[i].name
    ensures built[i].name in NameMap(built) && NameMap(built)[built[i].name] == built[i]
    decreases |built|
  {
    var init := built[..|built| - 1];
    if i < |built| - 1 {
      assert built[|built| - 1].name != built[i].name;
      assert init[i] == built[i];
      forall j | 0 <= j < |init| && j != i ensures init[j].name != init[i].name {
        assert init[j] == built[j];
      }
      NameMapDistinct(init, i);
    }
  }

  /** A Response: the message data (flags and content), the key and variables of its text,
      and whether it is public. */
  datatype Response = Response(flags: bv64, content: string, key: string,
                               vars: Option<map<string, string>>, public: bool)

  /** The text of a sent response: the caller's content, or the localised text. */
  datatype Content = Literal(s: string) | Localised(text: I18n.Reply)

  datatype Sent = Sent(flags: bv64, content: Content)

  /** Respond: with a key, the content becomes its localised text, in the user's locale when
      the flags as given are ephemeral and in the guild's locale otherwise; then the
      ephemeral bit is cleared for a public response and set for any other, other bits
      kept. `pick` is the random choice among variants. */
  function Respond(t: I18n.Tables, r: Response, userLocale: I18n.Locale, guildLocale: I18n.Locale, pick: nat): (s: Sent)
    ensures s.flags == Visibility(r.flags, r.public)
    ensures r.key == "" ==> s.content == Literal(r.content)
    ensures r.key != "" ==>
      s.content == Localised(I18n.Get(t, if r.flags & Ephemeral != 0 then userLocale else guildLocale, r.key, r.vars, pick))
  {
    var content :=
      if r.key != "" then
        var locale := if r.flags & Ephemeral != 0 then userLocale else guildLocale;
        Localised(I18n.Get(t, locale, r.key, r.vars, pick))
      else Literal(r.content);
    Sent(Visibility(r.flags, r.public), content)
  }

  /** The flags a response is sent with: the ephemeral bit cleared when public and set
      otherwise, every other bit kept. */
  function Visibility(flags: bv64, public: bool): (f: bv64)
    ensures (f & Ephemeral == 0) <==> public
    ensures f & !Ephemeral == flags & !Ephemeral
  {
    if public then flags & !Ephemeral else flags | Ephemeral
  }

  /** A non-public response without flags is sent ephemeral, yet its text is rendered in
      the guild's locale, because the locale is chosen before the flag is set. */
  lemma PrivateResponseUsesGuildLocale(t: I18n.Tables, key: string, vars: Option<map<string, string>>,
                                       userLocale: I18n.Locale, guildLocale: I18n.Locale, pick: nat)
    requires key != ""
    ensures var s := Respond(t, Response(0, "", key, vars, false), userLocale, guildLocale, pick);
      s.flags & Ephemeral != 0 && s.content == Localised(I18n.Get(t, guildLocale, key, vars, pick))
  {
  }

  /** How a command handler ends: it responds, returns an error to the dispatcher, or
      panics (lo.Must on a failed call, a nil dereference). */
  datatype HandlerResult = Responded(response: Response) | Failed(error: string) | Panicked(reason: string)

  /** Response{Key: key}: a private response carrying only a key. */
  function Reply(key: string): Response
  {
    Response(0, "", key, None, false)
  }

  /** A response with a key and its variables. */
  function ReplyWith(key: string, vars: map<string, string>, public: bool): Response
  {
    Response(0, "", key, Some(vars), public)
  }
}

=== FILE: config.dfy ===
/** Per-guild configuration values with a get-or-load cache (internal/config/config.go).

    The config table is a sequence of rows of config key, guild and raw JSON value. A
    lookup result records the query's error, if any; JSON decoding of a value is a
    parameter of `Value`, since the decoder is not modelled. The cache is an expiring LRU, modelled as a plain map that is
    only emptied by ClearCache. */
module Config {
  import opened Wrappers

  /** The error a single-row query can end with. */
  datatype DbError = RecordNotFound | StorageError(message: string)

  /** ConfigValue: the query result it came from (None when it was built by GetAll) and the
      raw stored value ("" when no row was read). */
  datatype ConfigValue = ConfigValue(query: Option<Option<DbError>>, raw: string)

  /** The cache key: config key, ":", guild id. */
  function CacheKey(key: string, guild: string): (k: string)
    ensures |k| == |key| + 1 + |guild| && k[..|key|] == key && k[|key|] == ':' && k[|key| + 1..] == guild
  {
    key + ":" + guild
  }

  /** A row of the config table; the config key and the guild id together are its primary
      key. */
  datatype ConfigRow = ConfigRow(key: string, guild: string, value: string)

  /** The primary key holds: no two rows share both the config key and the guild. */
  predicate KeysUnique(table: seq<ConfigRow>)
  {
    forall i, j :: 0 <= i < j < |table| ==> (table[i].key, table[i].guild) != (table[j].key, table[j].guild)
  }

  /** Under the primary key, a row is fixed by its config key and guild. */
  lemma SameKeySameRow(table: seq<ConfigRow>, x: ConfigRow, y: ConfigRow)
    requires KeysUnique(table)
    requires x in table && y in table && x.key == y.key && x.guild == y.guild
    ensures x == y
  {
    var i :| 0 <= i < |table| && table[i] == x;
    var j :| 0 <= j < |table| && table[j] == y;
    assert (table[i].key, table[i].guild) == (table[j].key, table[j].guild);
  }

  /** The condition of the struct Where: the config key, and the guild unless it is the
      zero value "", which GORM leaves out of the query. */
  predicate Matches(r: ConfigRow, key: string, guild: string)
  {
    r.key == key && (guild == "" || r.guild == guild)
  }

  /** The rows the query's condition selects, in table order. */
  function Selected(table: seq<ConfigRow>, key: string, guild: string): (s: seq<ConfigRow>)
    ensures forall r :: r in s <==> r in table && Matches(r, key, guild)
  {
    if |table| == 0 then []
    else (if Matches(table[0], key, guild) then [table[0]] else []) + Selected(table[1..], key, guild)
  }

  /** What the single-row query returns: the storage failure the caller passes in (a fault
      of the database outside this model), not found when the condition selects no row,
      and otherwise the value of whichever selected row the database takes (`pick`). With
      the guild "" the condition names the config key alone, so any guild's row of that
      key can come back. */
  function Load(table: seq<ConfigRow>, key: string, guild: string, failure: Option<string>, pick: nat): (v: ConfigValue)
    ensures v.query.Some?
    ensures failure.Some? ==> v == ConfigValue(Some(Some(StorageError(failure.value))), "")
    ensures failure.None? && (forall r :: r in table ==> !Matches(r, key, guild)) ==>
      v == ConfigValue(Some(Some(RecordNotFound)), "")
    ensures failure.None? && (exists r :: r in table && Matches(r, key, guild)) ==>
      exists r :: r in table && Matches(r, key, guild) && v == ConfigValue(Some(None), r.value)
  {
    if failure.Some? then ConfigValue(Some(Some(StorageError(failure.value))), "")
    else
      var selected := Selected(table, key, guild);
      if |selected| == 0 then ConfigValue(Some(Some(RecordNotFound)), "")
      else
        var taken := selected[pick % |selected|];
        assert taken in selected;
        ConfigValue(Some(None), taken.value)
  }

  /** With a guild named, the query finds that guild's row, whichever row the database
      would take. */
  lemma LoadFindsTheGuildsRow(table: seq<ConfigRow>, r: ConfigRow, pick: nat)
    requires KeysUnique(table) && r in table && r.guild != ""
    ensures Load(table, r.key, r.guild, None, pick) == ConfigValue(Some(None), r.value)
  {
    var selected := Selected(table, r.key, r.guild);
    assert r in selected;
    SameKeySameRow(table, selected[pick % |selected|], r);
  }

  /** With the guild "" (a direct message has no guild), every row of the key, whatever
      its guild, is one the query can return. */
  lemma NoGuildCanLoadAnyGuildsRow(table: seq<ConfigRow>, r: ConfigRow)
    requires r in table
    ensures exists pick :: Load(table, r.key, "", None, pick) == ConfigValue(Some(None), r.value)
  {
    var selected := Selected(table, r.key, "");
    assert r in selected;
    var i :| 0 <= i < |selected| && selected[i] == r;
    assert i % |selected| == i;
    assert Load(table, r.key, "", None, i) == ConfigValue(Some(None), r.value);
  }

  /** Exists: a query result is attached and it carries no error. */
  predicate Exists(v: ConfigValue)
  {
    v.query == Some(None)
  }

  /** Value: the zero value and the query's error when the lookup failed, otherwise the
      decode of the stored value by `parse` (json.Unmarshal into the value's type). */
  function Value<T>(v: ConfigValue, zero: T, parse: string -> (T, Option<string>)): (r: (T, Option<string>))
    ensures v.query.Some? && v.query.value.Some? ==> r == (zero, Some(ErrorText(v.query.value.value)))
    ensures !(v.query.Some? && v.query.value.Some?) ==> r == parse(v.raw)
  {
    match v.query
    case Some(Some(e)) => (zero, Some(ErrorText(e)))
    case _ => parse(v.raw)
  }

  function ErrorText(e: DbError): string
  {
    match e
    case RecordNotFound => "record not found"
    case StorageError(m) => m
  }

  /** GetAll: one value per stored row of the key, keyed by guild, with no query attached;
      lo.FromEntries keeps the later of two entries for one guild. */
  function GetAll(table: seq<ConfigRow>, key: string): (m: map<string, ConfigValue>)
    ensures forall g :: g in m <==> exists r :: r in table && r.key == key && r.guild == g
    ensures forall g :: g in m ==> exists r :: r in table && r.key == key && r.guild == g && m[g] == ConfigValue(None, r.value)
  {
    if |table| == 0 then map[]
    else
      var init := table[..|table| - 1];
      var last := table[|table| - 1];
      assert table == init + [last];
      var m := GetAll(init, key);
      if last.key == key then m[last.guild := ConfigValue(None, last.value)] else m
  }

  /** A value from GetAll reports that it does not exist, and yet Value decodes the row. */
  lemma GetAllEntriesDoNotExist<T>(table: seq<ConfigRow>, r: ConfigRow, zero: T, parse: string -> (T, Option<string>))
    requires KeysUnique(table) && r in table
    ensures r.guild in GetAll(table, r.key)
    ensures !Exists(GetAll(table, r.key)[r.guild])
    ensures Value(GetAll(table, r.key)[r.guild], zero, parse) == parse(r.value)
  {
    var m := GetAll(table, r.key);
    assert r.guild in m;
    var x :| x in table && x.key == r.key && x.guild == r.guild && m[r.guild] == ConfigValue(None, x.value);
    SameKeySameRow(table, x, r);
  }

  /** A loaded value exists exactly when the query succeeded and its condition selected a
      row: for the guild "", a row of the key in any guild. */
  lemma LoadedExistsIffFound(table: seq<ConfigRow>, key: string, guild: string, failure: Option<string>, pick: nat)
    ensures Exists(Load(table, key, guild, failure, pick)) <==>
      failure.None? && exists r :: r in table && r.key == key && (guild == "" || r.guild == guild)
  {
  }

  /** The process-wide cache of looked-up values. */
  class ConfigCache {
    var entries: map<string, ConfigValue>
    /** How many storage queries have been made. */
    ghost var queries: nat

    constructor ()
      ensures entries == map[] && queries == 0
    {
      entries := map[];
      queries := 0;
    }

    /** GuildConfig.Get: a cached value with no query; otherwise one query whose result is
        cached whatever it is, "not found" and storage errors included. */
    method Get(table: seq<ConfigRow>, key: string, guild: string, failure: Option<string>, pick: nat)
      returns (v: ConfigValue)
      modifies this
      ensures CacheKey(key, guild) in old(entries) ==>
        v == old(entries)[CacheKey(key, guild)] && entries == old(entries) && queries == old(queries)
      ensures CacheKey(key, guild) !in old(entries) ==>
        && v == Load(table, key, guild, failure, pick)
        && entries == old(entries)[CacheKey(key, guild) := v]
        && queries == old(queries) + 1
    {
      var cacheKey := CacheKey(key, guild);
      if cacheKey in entries {
        return entries[cacheKey];
      }
      queries := queries + 1;
      v := Load(table, key, guild, failure, pick);
      entries := entries[cacheKey := v];
    }

    /** ClearCache: every entry is dropped at once. */
    method ClearCache()
      modifies this
      ensures entries == map[] && queries == old(queries)
    {
      entries := map[];
    }
  }

  /** Two reads of one key and guild: the second is answered from the cache with what the
      first returned, even when the first found no row. */
  method SecondGetIsCached(cache: ConfigCache, table: seq<ConfigRow>, key: string, guild: string,
                           first: Option<string>, second: Option<string>, firstPick: nat, secondPick: nat)
    returns (a: ConfigValue, b: ConfigValue)
    modifies cache
    ensures a == b
    ensures cache.queries <= old(cache.queries) + 1
  {
    a := cache.Get(table, key, guild, first, firstPick);
    b := cache.Get(table, key, guild, second, secondPick);
  }
}

=== FILE: cooldown.dfy ===
/** Fixed-window rate limiter (internal/cooldown/cooldown.go).

    A manager keeps two bucket maps: one keyed by channel id and one keyed by
    "channelId:userId". Each bucket holds a count and the instant its window expires.
    Instants are integer seconds; `now` is the clock reading the caller passes in. */
module Cooldown {
  import opened Wrappers
  import opened Discord

  datatype Bucket = Bucket(count: nat, expires: int)

  /** A window is live while it expires strictly after `now`. */
  predicate Live(b: Bucket, now: int)
  {
    b.expires > now
  }

  function Lookup(m: map<string, Bucket>, key: string): Option<Bucket>
  {
    if key in m then Some(m[key]) else None
  }

  /** The key of a user's bucket: channel id, ":", user id. */
  function UserKey(channelId: string, userId: string): (k: string)
    ensures |k| == |channelId| + 1 + |userId|
    ensures k[..|channelId|] == channelId && k[|channelId|] == ':' && k[|channelId| + 1..] == userId
  {
    channelId + ":" + userId
  }

  /** Whether a check is allowed, and the bucket it leaves under the key. */
  datatype Decision = Decision(allowed: bool, bucket: Bucket)

  /** The decision checkBuckets takes on the bucket found under its key. A missing bucket
      is first created with `expires == now`, which is not live at `now`, so it resets. */
  function Decide(found: Option<Bucket>, max: nat, duration: int, now: int): (d: Decision)
    ensures !d.allowed <==> found.Some? && Live(found.value, now) && found.value.count >= max
    ensures !d.allowed ==> d.bucket == found.value
    ensures d.allowed && found.Some? && Live(found.value, now) ==>
      d.bucket == Bucket(found.value.count + 1, found.value.expires)
    ensures d.allowed && !(found.Some? && Live(found.value, now)) ==>
      d.bucket == Bucket(1, now + duration)
  {
    var b := found.GetOr(Bucket(0, now));
    if Live(b, now) then
      if b.count >= max then Decision(false, b)
      else Decision(true, b.(count := b.count + 1))
    else
      Decision(true, Bucket(1, now + duration))
  }

  /** With a limit of at least one, a check never lifts a bucket's count above the limit. */
  lemma DecideKeepsBound(found: Option<Bucket>, max: nat, duration: int, now: int)
    requires max >= 1
    requires found.Some? ==> found.value.count <= max
    ensures Decide(found, max, duration, now).bucket.count <= max
  {
  }

  /** Allowed/denied answers of successive checks of one key at the given instants. */
  function Outcomes(found: Option<Bucket>, max: nat, duration: int, times: seq<int>): (r: seq<bool>)
    ensures |r| == |times|
    decreases |times|
  {
    if |times| == 0 then []
    else
      var d := Decide(found, max, duration, times[0]);
      [d.allowed] + Outcomes(Some(d.bucket), max, duration, times[1..])
  }

  /** The bucket left under the key after successive checks at the given instants. */
  function Final(found: Option<Bucket>, max: nat, duration: int, times: seq<int>): Option<Bucket>
    decreases |times|
  {
    if |times| == 0 then found
    else Final(Some(Decide(found, max, duration, times[0]).bucket), max, duration, times[1..])
  }

  /** After any sequence of checks of a fresh key, with a limit of at least one, the count
      is at most the limit. */
  lemma {:induction false} CountNeverExceedsMax(found: Option<Bucket>, max: nat, duration: int, times: seq<int>)
    requires max >= 1
    requires found.Some? ==> found.value.count <= max
    ensures var f := Final(found, max, duration, times); f.Some? ==> f.value.count <= max
    decreases |times|
  {
    if |times| > 0 {
      DecideKeepsBound(found, max, duration, times[0]);
      CountNeverExceedsMax(Some(Decide(found, max, duration, times[0]).bucket), max, duration, times[1..]);
    }
  }

  /** Inside a live window that started with count `c`, check number `i` (from zero)
      is allowed exactly when `c + i` is below the limit. */
  lemma {:induction false} LiveWindowOutcomes(c: nat, expires: int, max: nat, duration: int, times: seq<int>)
    requires forall t :: t in times ==> t < expires
    ensures forall i :: 0 <= i < |times| ==>
      Outcomes(Some(Bucket(c, expires)), max, duration, times)[i] == (c + i < max)
    decreases |times|
  {
    if |times| > 0 {
      var out := Outcomes(Some(Bucket(c, expires)), max, duration, times);
      var d := Decide(Some(Bucket(c, expires)), max, duration, times[0]);
      assert times[0] in times;
      assert forall t :: t in times[1..] ==> t in times;
      var c' := if c >= max then c else c + 1;
      assert d.bucket == Bucket(c', expires);
      LiveWindowOutcomes(c', expires, max, duration, times[1..]);
      var rest := Outcomes(Some(Bucket(c', expires)), max, duration, times[1..]);
      assert out == [d.allowed] + rest;
      forall i | 0 <= i < |times| ensures out[i] == (c + i < max) {
        if i == 0 {
          assert out[0] == d.allowed;
        } else {
          assert out[i] == rest[i - 1];
          assert rest[i - 1] == (c' + (i - 1) < max);
        }
      }
    }
  }

  /** One window of a missing or expired bucket: the first check opens it, and then
      check number `i` (from zero) is allowed exactly when `i` is below the limit; so with
      a limit of at least one, check number `max + 1` within the window is denied. */
  lemma WindowAllowsExactlyMax(found: Option<Bucket>, max: nat, duration: int, times: seq<int>)
    requires |times| > 0
    requires found.Some? ==> !Live(found.value, times[0])
    requires forall t :: t in times ==> t < times[0] + duration
    ensures var out := Outcomes(found, max, duration, times);
      out[0] && forall i :: 1 <= i < |times| ==> out[i] == (i < max)
  {
    var d := Decide(found, max, duration, times[0]);
    assert d.bucket == Bucket(1, times[0] + duration);
    assert forall t :: t in times[1..] ==> t in times;
    LiveWindowOutcomes(1, times[0] + duration, max, duration, times[1..]);
    var out := Outcomes(found, max, duration, times);
    assert forall i :: 1 <= i < |times| ==> out[i] == Outcomes(Some(d.bucket), max, duration, times[1..])[i - 1];
  }

  /** One bucket map. Go maps are references, so each map is an object of its own. */
  class Buckets {
    var m: map<string, Bucket>

    constructor ()
      ensures m == map[]
    {
      m := map[];
    }

    /** checkBuckets: creates or updates only the entry under `key`; never deletes one. */
    method Check(key: string, max: nat, duration: int, now: int) returns (allowed: bool)
      modifies this
      ensures var d := Decide(Lookup(old(m), key), max, duration, now);
        allowed == d.allowed && m == old(m)[key := d.bucket]
      ensures m.Keys == old(m).Keys + {key}
    {
      var bucket: Bucket;
      if key in m {
        bucket := m[key];
      } else {
        bucket := Bucket(0, now);
        m := m[key := bucket];
      }
      if bucket.expires > now {
        if bucket.count >= max {
          return false;
        }
        bucket := bucket.(count := bucket.count + 1);
      } else {
        bucket := Bucket(1, now + duration);
      }
      m := m[key := bucket];
      allowed := true;
    }
  }

  class CooldownManager {
    const userInvocations: nat
    const channelInvocations: nat
    const cooldownDuration: int
    const userBuckets: Buckets      // channelId:userId -> bucket
    const channelBuckets: Buckets   // channelId -> bucket

    ghost predicate Valid()
      reads this
    {
      userBuckets != channelBuckets
    }

    /** Initialize: both maps start empty; the limits are kept as given. */
    constructor Initialize(userInvocations: nat, channelInvocations: nat, cooldownDuration: int)
      ensures Valid() && fresh(userBuckets) && fresh(channelBuckets)
      ensures userBuckets.m == map[] && channelBuckets.m == map[]
      ensures this.userInvocations == userInvocations
      ensures this.channelInvocations == channelInvocations
      ensures this.cooldownDuration == cooldownDuration
    {
      this.userInvocations := userInvocations;
      this.channelInvocations := channelInvocations;
      this.cooldownDuration := cooldownDuration;
      userBuckets := new Buckets();
      channelBuckets := new Buckets();
    }

    /** Can: moderators and exempt channels pass without touching any bucket; otherwise the
        channel bucket is checked, and only when it allows, the user bucket.
        `exempt` is the guild's exempt-channel list, None when it is not configured. */
    method Can(channelId: string, userId: string, permissions: bv64, exempt: Option<seq<string>>, now: int)
      returns (allowed: bool)
      requires Valid()
      modifies userBuckets, channelBuckets
      ensures Valid()
      ensures Bypassed(permissions, exempt, channelId) ==>
        allowed && unchanged(userBuckets, channelBuckets)
      ensures allowed == Permits(old(channelBuckets.m), old(userBuckets.m), channelInvocations, userInvocations,
                                 cooldownDuration, channelId, userId, permissions, exempt, now)
      ensures Updated(old(channelBuckets.m), old(userBuckets.m), channelBuckets.m, userBuckets.m,
                      channelInvocations, userInvocations, cooldownDuration, channelId, userId, permissions, exempt, now)
    {
      if permissions & ManageMessages != 0 {
        return true;
      }
      if exempt.Some? && channelId in exempt.value {
        return true;
      }
      allowed := channelBuckets.Check(channelId, channelInvocations, cooldownDuration, now);
      if allowed {
        allowed := userBuckets.Check(UserKey(channelId, userId), userInvocations, cooldownDuration, now);
      }
    }
  }

  /** The two ways past the limiter: the Manage Messages permission, or a channel on the
      guild's exempt list. */
  predicate Bypassed(permissions: bv64, exempt: Option<seq<string>>, channelId: string)
  {
    permissions & ManageMessages != 0 || (exempt.Some? && channelId in exempt.value)
  }

  /** The bucket maps after Can: unchanged on a bypass; otherwise the channel bucket is
      decided and stored, and the user bucket is decided and stored only when the channel
      allowed. */
  predicate Updated(channelMap: map<string, Bucket>, userMap: map<string, Bucket>,
                    newChannelMap: map<string, Bucket>, newUserMap: map<string, Bucket>,
                    channelMax: nat, userMax: nat, duration: int,
                    channelId: string, userId: string, permissions: bv64,
                    exempt: Option<seq<string>>, now: int)
  {
    if Bypassed(permissions, exempt, channelId) then newChannelMap == channelMap && newUserMap == userMap
    else
      var cd := Decide(Lookup(channelMap, channelId), channelMax, duration, now);
      var uKey := UserKey(channelId, userId);
      && newChannelMap == channelMap[channelId := cd.bucket]
      && newUserMap == (if cd.allowed then userMap[uKey := Decide(Lookup(userMap, uKey), userMax, duration, now).bucket]
                        else userMap)
  }

  /** The answer Can gives for the given bucket maps: a bypass, or both buckets allowing. */
  predicate Permits(channelMap: map<string, Bucket>, userMap: map<string, Bucket>,
                    channelMax: nat, userMax: nat, duration: int,
                    channelId: string, userId: string, permissions: bv64,
                    exempt: Option<seq<string>>, now: int)
  {
    || Bypassed(permissions, exempt, channelId)
    || (&& Decide(Lookup(channelMap, channelId), channelMax, duration, now).allowed
        && Decide(Lookup(userMap, UserKey(channelId, userId)), userMax, duration, now).allowed)
  }
}

=== FILE: discord.dfy ===
/** The few facts of the chat platform the handlers rely on: permission bits, mention
    syntax and the printing of numbers into message variables. */
module Discord {

  /** dg.PermissionManageMessages, bit 13 of a member's permission set. */
  const ManageMessages: bv64 := 0x2000

  predicate IsModerator(permissions: bv64)
  {
    permissions & ManageMessages != 0
  }

  /** User.Mention: "<@" + id + ">". */
  function Mention(userId: string): (m: string)
    ensures |m| == |userId| + 3 && m[..2] == "<@" && m[2..|m| - 1] == userId && m[|m| - 1] == '>'
  {
    "<@" + userId + ">"
  }

  function Digit(d: nat): (c: char)
    requires d < 10
    ensures '0' <= c <= '9'
  {
    ['0', '1', '2', '3', '4', '5', '6', '7', '8', '9'][d]
  }

  /** The decimal text of a number, as a template prints it. */
  function Decimal(n: nat): (s: string)
    ensures |s| > 0 && forall i :: 0 <= i < |s| ==> '0' <= s[i] <= '9'
  {
    if n < 10 then [Digit(n)] else Decimal(n / 10) + [Digit(n % 10)]
  }

  /** A field of a message embed. */
  datatype EmbedField = EmbedField(name: string, value: string)

  /** Member.Mention, the nickname form: "<@!" + id + ">". */
  function MemberMention(userId: string): (m: string)
    ensures |m| == |userId| + 4 && m[..3] == "<@!" && m[3..|m| - 1] == userId && m[|m| - 1] == '>'
  {
    "<@!" + userId + ">"
  }

  /** The decimal text of a signed number. */
  function Signed(n: int): (s: string)
    ensures n >= 0 ==> s == Decimal(n)
    ensures n < 0 ==> s == "-" + Decimal(-n)
  {
    if n >= 0 then Decimal(n) else "-" + Decimal(-n)
  }

  /** A guild member as fetched: the user's id, the display name (nickname, else global
      name, else user name), the role ids, when the member joined and the permissions. */
  datatype Member = Member(userId: string, displayName: string, roles: seq<string>, joinedAt: int, permissions: bv64)

  /** How an event handler ends: normally, with an error it returns, or with a panic. */
  datatype EventResult = Handled | EventFailed(error: string) | EventPanicked(reason: string)
}

=== FILE: i18n.dfy ===
/** Localisation tables (internal/i18n/i18n.go).

    Language files are YAML trees; each string leaf is added under the dot-joined path of
    keys that leads to it. Response strings become template variants per (key, locale),
    or fragment values when the path contains "fragments"; metadata strings keep one value
    per (key, locale). Templates are kept as their source text: parsing and execution are
    not modelled. */
module I18n {
  import opened Wrappers
  import opened Text

  type Locale = string

  /** defaultLang: dg.EnglishUS. */
  const DefaultLang: Locale := "en-US"

  /** The name of the path component that marks a fragment. */
  const FragmentsKey: string := "fragments"

  /** A decoded YAML value; `Other` stands for numbers, booleans and the like. Maps keep
      the order in which the range loop visits their keys. */
  datatype Yaml = Str(s: string) | List(items: seq<Yaml>) | Map(entries: seq<Entry>) | Other
  datatype Entry = Entry(key: string, value: Yaml)

  /** One call of the add function: the path of keys and the string found there. */
  datatype Leaf = Leaf(path: seq<string>, value: string)

  /** The add calls flattenAndAdd makes for the single entry `key: v` under `prefix`. */
  function FlattenValue(prefix: seq<string>, key: string, v: Yaml): seq<Leaf>
    decreases v, 1
  {
    match v
    case Str(s) => [Leaf(prefix + [key], s)]
    case List(items) => FlattenItems(prefix, key, items)
    case Map(es) => FlattenEntries(prefix + [key], es)
    case Other => []
  }

  /** Each element of a list is flattened as if it were the list's own value. */
  function FlattenItems(prefix: seq<string>, key: string, items: seq<Yaml>): seq<Leaf>
    decreases items, 0
  {
    if |items| == 0 then [] else FlattenValue(prefix, key, items[0]) + FlattenItems(prefix, key, items[1..])
  }

  /** The add calls flattenAndAdd makes for a map, entry by entry. */
  function FlattenEntries(prefix: seq<string>, es: seq<Entry>): seq<Leaf>
    decreases es, 0
  {
    if |es| == 0 then [] else FlattenValue(prefix, es[0].key, es[0].value) + FlattenEntries(prefix, es[1..])
  }

  /** Every leaf lies strictly below the prefix it was flattened under. */
  lemma {:induction false} LeavesBelowPrefix(prefix: seq<string>, key: string, v: Yaml)
    ensures forall l :: l in FlattenValue(prefix, key, v) ==>
      |l.path| > |prefix| && l.path[..|prefix|] == prefix && l.path[|prefix|] == key
    decreases v, 1
  {
    match v
    case Str(s) =>
    case List(items) => LeavesBelowPrefixItems(prefix, key, items);
    case Map(es) =>
      LeavesBelowPrefixEntries(prefix + [key], es);
      forall l | l in FlattenValue(prefix, key, v)
        ensures |l.path| > |prefix| && l.path[..|prefix|] == prefix && l.path[|prefix|] == key
      {
        assert l.path[..|prefix| + 1] == prefix + [key];
        assert l.path[..|prefix|] == (prefix + [key])[..|prefix|];
      }
    case Other =>
  }

  lemma {:induction false} LeavesBelowPrefixItems(prefix: seq<string>, key: string, items: seq<Yaml>)
    ensures forall l :: l in FlattenItems(prefix, key, items) ==>
      |l.path| > |prefix| && l.path[..|prefix|] == prefix && l.path[|prefix|] == key
    decreases items, 0
  {
    if |items| > 0 {
      LeavesBelowPrefix(prefix, key, items[0]);
      LeavesBelowPrefixItems(prefix, key, items[1..]);
    }
  }

  lemma {:induction false} LeavesBelowPrefixEntries(prefix: seq<string>, es: seq<Entry>)
    ensures forall l :: l in FlattenEntries(prefix, es) ==>
      |l.path| > |prefix| && l.path[..|prefix|] == prefix
    decreases es, 0
  {
    if |es| > 0 {
      LeavesBelowPrefix(prefix, es[0].key, es[0].value);
      LeavesBelowPrefixEntries(prefix, es[1..]);
    }
  }

  /** A string element of a list is added under the list's own path. */
  lemma {:induction false} ListElementUnderListPath(prefix: seq<string>, key: string, items: seq<Yaml>, i: nat)
    requires i < |items| && items[i].Str?
    ensures Leaf(prefix + [key], items[i].s) in FlattenItems(prefix, key, items)
    decreases i
  {
    if i > 0 {
      ListElementUnderListPath(prefix, key, items[1..], i - 1);
    }
  }

  /** Flattening distributes over the entries of a map. */
  lemma {:induction false} FlattenEntriesAppend(prefix: seq<string>, a: seq<Entry>, b: seq<Entry>)
    ensures FlattenEntries(prefix, a + b) == FlattenEntries(prefix, a) + FlattenEntries(prefix, b)
    decreases |a|
  {
    if |a| > 0 {
      assert (a + b)[1..] == a[1..] + b;
      FlattenEntriesAppend(prefix, a[1..], b);
    } else {
      assert a + b == b;
    }
  }

  lemma {:induction false} FlattenItemsAppend(prefix: seq<string>, key: string, a: seq<Yaml>, b: seq<Yaml>)
    ensures FlattenItems(prefix, key, a + b) == FlattenItems(prefix, key, a) + FlattenItems(prefix, key, b)
    decreases |a|
  {
    if |a| > 0 {
      assert (a + b)[1..] == a[1..] + b;
      FlattenItemsAppend(prefix, key, a[1..], b);
    } else {
      assert a + b == b;
    }
  }

  /** The three tables: metadata (key -> locale -> value), response (key -> locale ->
      template variants) and fragments (key -> locale -> fragment key -> values). */
  datatype Tables = Tables(metadata: map<string, map<Locale, string>>,
                           response: map<string, map<Locale, seq<string>>>,
                           fragments: map<string, map<Locale, map<string, seq<string>>>>)

  /** The template variants of (key, locale); a missing key or locale has none. */
  function Variants(t: Tables, key: string, lang: Locale): seq<string>
  {
    if key in t.response && lang in t.response[key] then t.response[key][lang] else []
  }

  /** The fragments of (key, locale); a missing key or locale has none. */
  function Fragments(t: Tables, key: string, lang: Locale): map<string, seq<string>>
  {
    if key in t.fragments && lang in t.fragments[key] then t.fragments[key][lang] else map[]
  }

  function FragmentValues(t: Tables, key: string, lang: Locale, fragKey: string): seq<string>
  {
    var f := Fragments(t, key, lang);
    if fragKey in f then f[fragKey] else []
  }

  /** GetMetadata: the locale -> value map of a key, empty when the key is absent. */
  function Metadata(t: Tables, key: string): map<Locale, string>
  {
    if key in t.metadata then t.metadata[key] else map[]
  }

  /** Which table a flattened leaf goes to: addResponse or addMetadata. */
  datatype Target = ResponseTable | MetadataTable

  /** The key a response path is filed under, and whether it is a fragment. */
  function ResponseKey(parts: seq<string>): (r: (string, Option<string>))
    ensures IndexOf(parts, FragmentsKey) == -1 ==> r == (Join(parts, "."), None)
    ensures var i := IndexOf(parts, FragmentsKey);
      i != -1 ==> r == (Join(parts[..i], "."), Some(Join(parts[i + 1..], ".")))
  {
    var i := IndexOf(parts, FragmentsKey);
    if i == -1 then (Join(parts, "."), None) else (Join(parts[..i], "."), Some(Join(parts[i + 1..], ".")))
  }

  /** The tables after addResponse(lang, parts, value): one more fragment value, or one
      more template variant, and nothing else changed. */
  function WithResponse(t: Tables, lang: Locale, parts: seq<string>, value: string): (u: Tables)
    ensures u.metadata == t.metadata
    ensures var (key, frag) := ResponseKey(parts);
      && (frag.None? ==>
            && u.fragments == t.fragments
            && Variants(u, key, lang) == Variants(t, key, lang) + [value]
            && forall k, l :: (k, l) != (key, lang) ==> Variants(u, k, l) == Variants(t, k, l))
      && (frag.Some? ==>
            && u.response == t.response
            && FragmentValues(u, key, lang, frag.value) == FragmentValues(t, key, lang, frag.value) + [value]
            && forall k, l, f :: (k, l, f) != (key, lang, frag.value) ==>
                 FragmentValues(u, k, l, f) == FragmentValues(t, k, l, f))
  {
    var (key, frag) := ResponseKey(parts);
    match frag
    case None => WithVariant(t, key, lang, value)
    case Some(fragKey) => WithFragment(t, key, lang, fragKey, value)
  }

  /** One more template variant for (key, locale). */
  function WithVariant(t: Tables, key: string, lang: Locale, value: string): (u: Tables)
    ensures u.metadata == t.metadata && u.fragments == t.fragments
    ensures Variants(u, key, lang) == Variants(t, key, lang) + [value]
    ensures forall k, l :: (k, l) != (key, lang) ==> Variants(u, k, l) == Variants(t, k, l)
  {
    if key !in t.response then t.(response := t.response[key := map[lang := [value]]])
    else t.(response := t.response[key := t.response[key][lang := Variants(t, key, lang) + [value]]])
  }

  /** One more value for the fragment `fragKey` of (key, locale). */
  function WithFragment(t: Tables, key: string, lang: Locale, fragKey: string, value: string): (u: Tables)
    ensures u.metadata == t.metadata && u.response == t.response
    ensures FragmentValues(u, key, lang, fragKey) == FragmentValues(t, key, lang, fragKey) + [value]
    ensures forall k, l, f :: (k, l, f) != (key, lang, fragKey) ==>
      FragmentValues(u, k, l, f) == FragmentValues(t, k, l, f)
  {
    if key !in t.fragments then t.(fragments := t.fragments[key := map[lang := map[fragKey := [value]]]])
    else if lang !in t.fragments[key] then t.(fragments := t.fragments[key := t.fragments[key][lang := map[fragKey := [value]]]])
    else t.(fragments := t.fragments[key := t.fragments[key][lang := t.fragments[key][lang][fragKey := FragmentValues(t, key, lang, fragKey) + [value]]]])
  }

  /** The tables after addMetadata(lang, parts, value): the value of (key, locale) is
      replaced, and nothing else changed. */
  function WithMetadata(t: Tables, lang: Locale, parts: seq<string>, value: string): (u: Tables)
    ensures u.response == t.response && u.fragments == t.fragments
    ensures lang in Metadata(u, Join(parts, ".")) && Metadata(u, Join(parts, "."))[lang] == value
    ensures forall k, l :: (k != Join(parts, ".") || l != lang) && l in Metadata(t, k) ==>
      l in Metadata(u, k) && Metadata(u, k)[l] == Metadata(t, k)[l]
    ensures forall k :: Metadata(u, k).Keys == Metadata(t, k).Keys + (if k == Join(parts, ".") then {lang} else {})
  {
    var key := Join(parts, ".");
    t.(metadata := t.metadata[key := Metadata(t, key)[lang := value]])
  }

  function Apply(t: Tables, target: Target, lang: Locale, leaf: Leaf): Tables
  {
    match target
    case ResponseTable => WithResponse(t, lang, leaf.path, leaf.value)
    case MetadataTable => WithMetadata(t, lang, leaf.path, leaf.value)
  }

  /** The tables after a sequence of add calls, in order. */
  function ApplyAll(t: Tables, target: Target, lang: Locale, leaves: seq<Leaf>): Tables
    decreases |leaves|
  {
    if |leaves| == 0 then t else ApplyAll(Apply(t, target, lang, leaves[0]), target, lang, leaves[1..])
  }

  lemma {:induction false} ApplyAllAppend(t: Tables, target: Target, lang: Locale, a: seq<Leaf>, b: seq<Leaf>)
    ensures ApplyAll(t, target, lang, a + b) == ApplyAll(ApplyAll(t, target, lang, a), target, lang, b)
    decreases |a|
  {
    if |a| > 0 {
      assert (a + b)[1..] == a[1..] + b;
      ApplyAllAppend(Apply(t, target, lang, a[0]), target, lang, a[1..], b);
    } else {
      assert a + b == b;
    }
  }

  /** Adding the leaves of one more list element continues the fold over the list. */
  lemma ItemsStep(t: Tables, target: Target, lang: Locale, prefix: seq<string>, key: string, items: seq<Yaml>, i: nat)
    requires i < |items|
    ensures ApplyAll(t, target, lang, FlattenItems(prefix, key, items[..i + 1]))
         == ApplyAll(ApplyAll(t, target, lang, FlattenItems(prefix, key, items[..i])), target, lang,
                     FlattenValue(prefix, key, items[i]))
  {
    var a := FlattenItems(prefix, key, items[..i]);
    var b := FlattenValue(prefix, key, items[i]);
    assert FlattenItems(prefix, key, items[..i + 1]) == a + b by {
      FlattenItemsAppend(prefix, key, items[..i], [items[i]]);
      assert items[..i + 1] == items[..i] + [items[i]];
      assert [items[i]][1..] == [];
      assert FlattenItems(prefix, key, [items[i]]) == b + [];
    }
    ApplyAllAppend(t, target, lang, a, b);
  }

  /** Adding the leaves of one more map entry continues the fold over the map. */
  lemma EntriesStep(t: Tables, target: Target, lang: Locale, prefix: seq<string>, data: seq<Entry>, i: nat)
    requires i < |data|
    ensures ApplyAll(t, target, lang, FlattenEntries(prefix, data[..i + 1]))
         == ApplyAll(ApplyAll(t, target, lang, FlattenEntries(prefix, data[..i])), target, lang,
                     FlattenValue(prefix, data[i].key, data[i].value))
  {
    var a := FlattenEntries(prefix, data[..i]);
    var b := FlattenValue(prefix, data[i].key, data[i].value);
    assert FlattenEntries(prefix, data[..i + 1]) == a + b by {
      FlattenEntriesAppend(prefix, data[..i], [data[i]]);
      assert data[..i + 1] == data[..i] + [data[i]];
      assert [data[i]][1..] == [];
      assert FlattenEntries(prefix, [data[i]]) == b + [];
    }
    ApplyAllAppend(t, target, lang, a, b);
  }

  /** The part of a file name before its first ".", used as the file's locale. */
  function LocaleOf(fileName: string): (lang: Locale)
    ensures IsPrefix(lang, fileName) && '.' !in lang
    ensures |lang| < |fileName| ==> fileName[|lang|] == '.'
  {
    BeforeFirst(fileName, '.')
  }

  lemma LocaleOfExample()
    ensures LocaleOf("en-US.yaml") == "en-US"
  {
    assert "en-US.yaml" == "en-US" + ['.'] + "yaml";
    BeforeFirstStops("en-US", '.', "yaml");
  }

  /** The global metadata, response and fragments maps. */
  class Catalog {
    var metadata: map<string, map<Locale, string>>
    var response: map<string, map<Locale, seq<string>>>
    var fragments: map<string, map<Locale, map<string, seq<string>>>>

    function State(): Tables
      reads this
    {
      Tables(metadata, response, fragments)
    }

    constructor ()
      ensures State() == Tables(map[], map[], map[])
    {
      metadata := map[];
      response := map[];
      fragments := map[];
    }

    /** addResponse: a path with a "fragments" component adds a fragment value under the
        parts before it (key) and after it (fragment key); any other path adds a template
        variant under its dot-joined key. */
    method AddResponse(lang: Locale, keyParts: seq<string>, value: string)
      modifies this
      ensures State() == WithResponse(old(State()), lang, keyParts, value)
    {
      var idx := IndexOf(keyParts, FragmentsKey);
      if idx != -1 {
        var key := Join(keyParts[..idx], ".");
        var fragKey := Join(keyParts[idx + 1..], ".");
        if key !in fragments {
          fragments := fragments[key := map[lang := map[fragKey := [value]]]];
        } else if lang !in fragments[key] {
          fragments := fragments[key := fragments[key][lang := map[fragKey := [value]]]];
        } else {
          var prev := if fragKey in fragments[key][lang] then fragments[key][lang][fragKey] else [];
          fragments := fragments[key := fragments[key][lang := fragments[key][lang][fragKey := prev + [value]]]];
        }
      } else {
        var key := Join(keyParts, ".");
        if key !in response {
          response := response[key := map[lang := [value]]];
        } else {
          var prev := if lang in response[key] then response[key][lang] else [];
          response := response[key := response[key][lang := prev + [value]]];
        }
      }
    }

    /** addMetadata: the dot-joined key gets this value for the locale, replacing any. */
    method AddMetadata(lang: Locale, keyParts: seq<string>, value: string)
      modifies this
      ensures State() == WithMetadata(old(State()), lang, keyParts, value)
    {
      var key := Join(keyParts, ".");
      if key !in metadata {
        metadata := metadata[key := map[lang := value]];
      } else {
        metadata := metadata[key := metadata[key][lang := value]];
      }
    }

    method Add(target: Target, lang: Locale, keyParts: seq<string>, value: string)
      modifies this
      ensures State() == Apply(old(State()), target, lang, Leaf(keyParts, value))
    {
      match target
      case ResponseTable => AddResponse(lang, keyParts, value);
      case MetadataTable => AddMetadata(lang, keyParts, value);
    }

    /** One entry `key: value` of flattenAndAdd's range loop. */
    method AddEntry(target: Target, lang: Locale, keyParts: seq<string>, key: string, value: Yaml)
      modifies this
      ensures State() == ApplyAll(old(State()), target, lang, FlattenValue(keyParts, key, value))
      decreases value, 1
    {
      match value
      case Str(v) =>
        Add(target, lang, keyParts + [key], v);
      case List(items) =>
        var i := 0;
        while i < |items|
          invariant 0 <= i <= |items|
          invariant State() == ApplyAll(old(State()), target, lang, FlattenItems(keyParts, key, items[..i]))
        {
          AddEntry(target, lang, keyParts, key, items[i]);
          ItemsStep(old(State()), target, lang, keyParts, key, items, i);
          i := i + 1;
        }
        assert items[..i] == items;
      case Map(es) =>
        FlattenAndAdd(target, lang, keyParts + [key], es);
      case Other =>
    }

    /** flattenAndAdd: every string leaf of the tree is added under its path. */
    method FlattenAndAdd(target: Target, lang: Locale, keyParts: seq<string>, data: seq<Entry>)
      modifies this
      ensures State() == ApplyAll(old(State()), target, lang, FlattenEntries(keyParts, data))
      decreases data, 0
    {
      var i := 0;
      while i < |data|
        invariant 0 <= i <= |data|
        invariant State() == ApplyAll(old(State()), target, lang, FlattenEntries(keyParts, data[..i]))
      {
        AddEntry(target, lang, keyParts, data[i].key, data[i].value);
        EntriesStep(old(State()), target, lang, keyParts, data, i);
        i := i + 1;
      }
      assert data[..i] == data;
    }

    /** loadFile: the decoded tree of one file, added under the file's locale. */
    method LoadFile(target: Target, fileName: string, data: seq<Entry>)
      modifies this
      ensures State() == ApplyAll(old(State()), target, LocaleOf(fileName), FlattenEntries([], data))
    {
      FlattenAndAdd(target, LocaleOf(fileName), [], data);
    }

    /** GetFragments: each fragment key of (key, locale) mapped to one of its values,
        chosen at random; no locale fallback. */
    method GetFragments(lang: Locale, key: string) returns (res: map<string, string>)
      ensures res.Keys == Fragments(State(), key, lang).Keys
      ensures forall k :: k in res ==> var vs := Fragments(State(), key, lang)[k];
        (|vs| > 0 ==> res[k] in vs) && (|vs| == 0 ==> res[k] == "")
    {
      var frags := Fragments(State(), key, lang);
      res := map[];
      var todo := frags.Keys;
      while todo != {}
        invariant todo <= frags.Keys
        invariant res.Keys == frags.Keys - todo
        invariant forall k :: k in res ==> (|frags[k]| > 0 ==> res[k] in frags[k]) && (|frags[k]| == 0 ==> res[k] == "")
        decreases todo
      {
        var k :| k in todo;
        var v := frags[k];
        var sample := "";
        if |v| > 0 {
          var j :| 0 <= j < |v|;
          sample := v[j];
        }
        res := res[k := sample];
        todo := todo - {k};
      }
    }
  }

  /** What Get returns: the key itself, or a template with the variables it is run with. */
  datatype Reply = RawKey(key: string) | Rendered(template: string, vars: map<string, string>)

  /** Get: one of the (key, locale) variants, run with the caller's variables (none means
      an empty set); with no variants, a non-default locale falls back to en-US without the
      variables, and en-US falls back to the key. `pick` stands for the random choice among
      several variants. */
  function Get(t: Tables, lang: Locale, key: string, vars: Option<map<string, string>>, pick: nat): (r: Reply)
    ensures r.RawKey? <==> Variants(t, key, lang) == [] && Variants(t, key, DefaultLang) == []
    ensures r.RawKey? ==> r.key == key
    ensures r.Rendered? && Variants(t, key, lang) != [] ==>
      r.template in Variants(t, key, lang) && r.vars == vars.GetOr(map[])
    ensures r.Rendered? && Variants(t, key, lang) == [] ==>
      lang != DefaultLang && r.template in Variants(t, key, DefaultLang) && r.vars == map[]
    decreases if lang == DefaultLang then 0 else 1
  {
    var opts := Variants(t, key, lang);
    if |opts| == 0 then
      if lang != DefaultLang then Get(t, DefaultLang, key, None, pick)
      else RawKey(key)
    else if |opts| == 1 then Rendered(opts[0], vars.GetOr(map[]))
    else Rendered(opts[pick % |opts|], vars.GetOr(map[]))
  }

  /** A key with a single variant always renders that variant, whatever the random pick. */
  lemma SingleVariantAlwaysUsed(t: Tables, lang: Locale, key: string, vars: Option<map<string, string>>, p: nat, q: nat)
    requires |Variants(t, key, lang)| == 1
    ensures Get(t, lang, key, vars, p) == Get(t, lang, key, vars, q) == Rendered(Variants(t, key, lang)[0], vars.GetOr(map[]))
  {
  }

  /** Through the fallback, any en-US variant can be the one shown, without the caller's
      variables. */
  lemma FallbackCanShowAnyVariant(t: Tables, lang: Locale, key: string, vars: Option<map<string, string>>, j: nat)
    requires lang != DefaultLang && Variants(t, key, lang) == []
    requires j < |Variants(t, key, DefaultLang)|
    ensures Get(t, lang, key, vars, j) == Rendered(Variants(t, key, DefaultLang)[j], map[])
  {
    var opts := Variants(t, key, DefaultLang);
    assert Get(t, lang, key, vars, j) == Get(t, DefaultLang, key, None, j);
    if |opts| > 1 {
      assert j % |opts| == j;
    }
  }

  /** The text a reply stands for when its template is run with no variables: the key
      itself, or the template (running templates is not modelled). */
  function TextOf(r: Reply): string
  {
    match r
    case RawKey(k) => k
    case Rendered(template, _) => template
  }

  /** Adding a variant for (key, locale) makes Get of that key and locale render one of
      the variants in the locale asked for, never a fallback. */
  lemma AddedVariantIsFound(t: Tables, lang: Locale, parts: seq<string>, value: string,
                            vars: Option<map<string, string>>, pick: nat)
    requires IndexOf(parts, FragmentsKey) == -1
    ensures var u := WithResponse(t, lang, parts, value);
      var r := Get(u, lang, Join(parts, "."), vars, pick);
      r.Rendered? && r.template in Variants(u, Join(parts, "."), lang) && r.vars == vars.GetOr(map[])
  {
  }
}

=== FILE: logging.dfy ===
/** The moderation log (internal/events/logging.go): a cache of recent messages so edits and
    deletes can be reported with their earlier content, a short-lived cache of audit-log
    entries keyed so that the handlers can find who acted, and the embeds posted to the
    guild's logs channel. */
module MessageLog {
  import opened Wrappers
  import opened Discord
  import Config
  import Text

  datatype Author = Author(id: string, username: string, bot: bool)

  /** A message as the gateway delivers it; `author` is None on partial updates. */
  datatype Message = Message(id: string, channelId: string, author: Option<Author>, content: string,
                             timestamp: int, attachments: seq<string>)

  /** The logs channel setting read with Value: None when the lookup failed or the stored
      value does not decode (`decoded` is the decode of the stored value). */
  function LogsChannel(logs: Config.ConfigValue, decoded: Option<string>): (r: Option<string>)
    ensures logs.query.Some? && logs.query.value.Some? ==> r.None?
    ensures r.Some? ==> decoded == r
  {
    if logs.query.Some? && logs.query.value.Some? then None else decoded
  }

  /** A post to the logs channel. */
  datatype LogPost = LogPost(channelId: string, title: string, fields: seq<EmbedField>)

  function ChannelMention(channelId: string): string
  {
    "<#" + channelId + ">"
  }

  /** The <t:unix:f> timestamp markup. */
  function Timestamp(t: int): string
  {
    "<t:" + Signed(t) + ":f>"
  }

  function MessageUrl(guildId: string, channelId: string, messageId: string): string
  {
    "https://discord.com/channels/" + guildId + "/" + channelId + "/" + messageId
  }

  /** The attachment URLs joined by ", ", or "None" when that is empty. */
  function AttachmentsText(urls: seq<string>): (r: string)
    ensures urls == [] ==> r == "None"
    ensures |urls| == 1 ==> r == (if urls[0] == "" then "None" else urls[0])
    ensures r != "None" ==> r == Text.Join(urls, ", ")
  {
    var joined := Text.Join(urls, ", ");
    if joined == "" then "None" else joined
  }

  /** The attachment text names every URL, in order, when there are several. */
  lemma AttachmentsListed(a: string, rest: seq<string>)
    requires |rest| > 0
    ensures AttachmentsText([a] + rest) == a + ", " + Text.Join(rest, ", ")
  {
    assert ([a] + rest)[1..] == rest;
  }

  // ---- Audit-log routing ----

  datatype AuditAction = MessageDelete | MessageBulkDelete | MemberBanAdd | MemberBanRemove | MemberKick
                       | MemberUpdate | OtherAction(code: nat)

  /** An audit-log entry: its action, target, the channel option, who acted, the reason
      and the keys of its changes in order. */
  datatype AuditEntry = AuditEntry(action: AuditAction, targetId: string, channelId: string, userId: string,
                                   reason: string, changeKeys: seq<string>)

  datatype AuditKey = AuditKey(action: AuditAction, key: string)

  const TimeoutChangeKey: string := "communication_disabled_until"

  /** The key an audit entry is remembered under, or None when it is ignored. */
  function AuditKeyOf(e: AuditEntry): (k: Option<AuditKey>)
    ensures k.Some? ==> k.value.action == e.action
    ensures (e.action == MessageDelete || e.action == MessageBulkDelete) ==> k == Some(AuditKey(e.action, e.channelId + e.targetId))
    ensures (e.action == MemberBanAdd || e.action == MemberBanRemove || e.action == MemberKick) ==> k == Some(AuditKey(e.action, e.targetId))
    ensures e.action == MemberUpdate ==>
      (k.Some? <==> |e.changeKeys| > 0 && e.changeKeys[0] == TimeoutChangeKey) && (k.Some? ==> k.value.key == e.targetId)
    ensures e.action.OtherAction? ==> k.None?
  {
    match e.action
    case MessageDelete => Some(AuditKey(e.action, e.channelId + e.targetId))
    case MessageBulkDelete => Some(AuditKey(e.action, e.channelId + e.targetId))
    case MemberBanAdd => Some(AuditKey(e.action, e.targetId))
    case MemberBanRemove => Some(AuditKey(e.action, e.targetId))
    case MemberKick => Some(AuditKey(e.action, e.targetId))
    case MemberUpdate =>
      if |e.changeKeys| > 0 && e.changeKeys[0] == TimeoutChangeKey then Some(AuditKey(e.action, e.targetId)) else None
    case OtherAction(_) => None
  }

  /** The keys the handlers look up: a delete by channel and author, a ban, unban or kick
      by user. */
  function DeleteLookup(channelId: string, authorId: string): AuditKey
  {
    AuditKey(MessageDelete, channelId + authorId)
  }

  /** An entry for a deleted message is found under the key the delete handler looks up;
      ban, unban and kick entries likewise; bulk deletes are stored under a key no handler
      looks up. */
  lemma RoutingMatchesLookups(e: AuditEntry, channelId: string, authorId: string)
    ensures e.action == MessageDelete && e.channelId == channelId && e.targetId == authorId ==>
      AuditKeyOf(e) == Some(DeleteLookup(channelId, authorId))
    ensures e.action in {MemberBanAdd, MemberBanRemove, MemberKick} ==> AuditKeyOf(e) == Some(AuditKey(e.action, e.targetId))
    ensures e.action == MessageBulkDelete ==> AuditKeyOf(e) != Some(DeleteLookup(channelId, authorId))
  {
  }

  /** waitForAuditLog: the entry stored under the key when it is looked up, if any (the
      retries wait for the entry to arrive; the audit cache when the wait ends is the
      input). */
  function FindAudit(audit: map<AuditKey, AuditEntry>, key: AuditKey): (r: Option<AuditEntry>)
    ensures r.Some? <==> key in audit
    ensures r.Some? ==> r.value == audit[key]
  {
    if key in audit then Some(audit[key]) else None
  }

  /** addAuditLogFields: without an entry the fields are unchanged; with one, exactly two
      fields are appended, who acted (as a mention) and the reason, "Not provided" when
      empty. */
  function AddAuditLogFields(fields: seq<EmbedField>, entry: Option<AuditEntry>): (r: seq<EmbedField>)
    ensures entry.None? ==> r == fields
    ensures entry.Some? ==> |r| == |fields| + 2 && r[..|fields|] == fields
    ensures entry.Some? ==> r[|fields|] == EmbedField("Performed By", Mention(entry.value.userId))
    ensures entry.Some? ==> r[|fields| + 1].name == "Reason" && r[|fields| + 1].value != ""
    ensures entry.Some? && entry.value.reason != "" ==> r[|fields| + 1].value == entry.value.reason
  {
    if entry.None? then fields
    else fields + [EmbedField("Performed By", Mention(entry.value.userId)),
                   EmbedField("Reason", if entry.value.reason == "" then "Not provided" else entry.value.reason)]
  }

  // ---- Member events ----

  datatype User = User(id: string, username: string)

  function UserFields(u: User): seq<EmbedField>
  {
    [EmbedField("User ID", u.id), EmbedField("Username", u.username)]
  }

  /** logBan and logUnban: always posted, with the audit fields when an entry was found. */
  function BanPost(logsChannel: Option<string>, u: User, banned: bool, audit: map<AuditKey, AuditEntry>): (p: Option<LogPost>)
    ensures p.Some? <==> logsChannel.Some?
    ensures p.Some? ==> p.value.title == (if banned then "User Banned" else "User Unbanned")
    ensures p.Some? ==> |p.value.fields| >= 2 && p.value.fields[..2] == UserFields(u)
    ensures p.Some? ==> (|p.value.fields| == 4 <==> AuditKey(if banned then MemberBanAdd else MemberBanRemove, u.id) in audit)
  {
    if logsChannel.None? then None
    else
      var entry := FindAudit(audit, AuditKey(if banned then MemberBanAdd else MemberBanRemove, u.id));
      Some(LogPost(logsChannel.value, if banned then "User Banned" else "User Unbanned",
                   AddAuditLogFields(UserFields(u), entry)))
  }

  /** logLeave: "User Kicked" with the audit fields when a kick entry for the user is
      found, "User Left" otherwise. */
  function LeavePost(logsChannel: Option<string>, u: User, audit: map<AuditKey, AuditEntry>): (p: Option<LogPost>)
    ensures p.Some? <==> logsChannel.Some?
    ensures p.Some? ==> (p.value.title == "User Kicked" <==> AuditKey(MemberKick, u.id) in audit)
    ensures p.Some? && AuditKey(MemberKick, u.id) !in audit ==> p.value == LogPost(logsChannel.value, "User Left", UserFields(u))
    ensures p.Some? && AuditKey(MemberKick, u.id) in audit ==>
      p.value.fields == AddAuditLogFields(UserFields(u), Some(audit[AuditKey(MemberKick, u.id)]))
  {
    if logsChannel.None? then None
    else match FindAudit(audit, AuditKey(MemberKick, u.id))
      case Some(e) => Some(LogPost(logsChannel.value, "User Kicked", AddAuditLogFields(UserFields(u), Some(e))))
      case None => Some(LogPost(logsChannel.value, "User Left", UserFields(u)))
  }

  /** A kick whose audit entry has been routed is logged as a kick naming who kicked. */
  lemma RoutedKickIsReported(logsChannel: string, u: User, audit: map<AuditKey, AuditEntry>, e: AuditEntry)
    requires e.action == MemberKick && e.targetId == u.id
    ensures var p := LeavePost(Some(logsChannel), u, audit[AuditKeyOf(e).value := e]);
      p.Some? && p.value.title == "User Kicked" && p.value.fields[2] == EmbedField("Performed By", Mention(e.userId))
  {
  }

  // ---- Timeouts ----

  datatype TimeoutLog = NoTimeoutLog | TimedOut(until: int) | TimeoutRemoved | TimeoutPanic

  /** logTimeout as written. `before` is the member before the update (None when unknown),
      holding its timeout end if any; `until` is the new timeout end; `samePointer` says
      whether the two timeout ends are the same pointer (the source compares pointers, not
      instants). The second condition calls Before on the new timeout end before testing it
      for nil, so a nil end dereferences nil. */
  function TimeoutAsWritten(before: Option<Option<int>>, until: Option<int>, samePointer: bool, now: int): (r: TimeoutLog)
    requires samePointer ==> before.Some? && before.value.Some? && before.value == until
    ensures r.TimedOut? ==> before.Some? && until == Some(r.until) && r.until > now
    ensures r == TimeoutPanic <==>
      !(before.Some? && until.Some? && until.value > now && !samePointer) &&
      before.Some? && before.value.Some? && before.value.value < now && until.None?
  {
    if before.Some? && until.Some? && until.value > now && !samePointer then TimedOut(until.value)
    else if before.Some? && before.value.Some? && before.value.value < now then
      if until.None? then TimeoutPanic
      else if until.value < now then TimeoutRemoved
      else NoTimeoutLog
    else NoTimeoutLog
  }

  /** A member whose earlier timeout has lapsed and whose update carries no timeout panics. */
  lemma ClearedTimeoutPanics(now: int)
    ensures TimeoutAsWritten(Some(Some(now - 60)), None, false, now) == TimeoutPanic
  {
  }

  /** logTimeout with the nil test first, as the condition evidently intends. */
  function Timeout(before: Option<Option<int>>, until: Option<int>, samePointer: bool, now: int): (r: TimeoutLog)
    requires samePointer ==> before.Some? && before.value.Some? && before.value == until
    ensures r != TimeoutPanic
    ensures r == TimeoutRemoved <==>
      !(before.Some? && until.Some? && until.value > now && !samePointer) &&
      before.Some? && before.value.Some? && before.value.value < now && (until.None? || until.value < now)
  {
    if before.Some? && until.Some? && until.value > now && !samePointer then TimedOut(until.value)
    else if before.Some? && before.value.Some? && before.value.value < now && (until.None? || until.value < now) then
      TimeoutRemoved
    else NoTimeoutLog
  }

  /** The corrected handler differs from the written one only where that one panics. */
  lemma TimeoutAgreesWhenNoPanic(before: Option<Option<int>>, until: Option<int>, samePointer: bool, now: int)
    requires samePointer ==> before.Some? && before.value.Some? && before.value == until
    ensures TimeoutAsWritten(before, until, samePointer, now) != TimeoutPanic ==>
      Timeout(before, until, samePointer, now) == TimeoutAsWritten(before, until, samePointer, now)
    ensures TimeoutAsWritten(before, until, samePointer, now) == TimeoutPanic ==>
      Timeout(before, until, samePointer, now) == TimeoutRemoved
  {
  }

  // ---- Message caches ----

  /** The message cache (keyed by message id) and the audit cache. Both are expiring LRUs,
      modelled as plain maps. */
  class LogCaches {
    var messages: map<string, Message>
    var audit: map<AuditKey, AuditEntry>

    constructor ()
      ensures messages == map[] && audit == map[]
    {
      messages := map[];
      audit := map[];
    }

    /** logMessageCreate: cached only when the logs channel exists and the author is a
        known non-bot. */
    method MessageCreated(logs: Config.ConfigValue, m: Message)
      modifies this
      ensures audit == old(audit)
      ensures Config.Exists(logs) && m.author.Some? && !m.author.value.bot ==> messages == old(messages)[m.id := m]
      ensures !(Config.Exists(logs) && m.author.Some? && !m.author.value.bot) ==> messages == old(messages)
    {
      if Config.Exists(logs) && m.author.Some? && !m.author.value.bot {
        messages := messages[m.id := m];
      }
    }

    /** logMessageUpdate. An edit of a cached message by a non-bot author is reported and
        the cache keeps the earlier version; in every other case with a logs channel the
        new version is cached. The send's error is returned. */
    method MessageUpdated(logsChannel: Option<string>, guildId: string, m: Message, edited: bool,
                          sendError: Option<string>) returns (post: Option<LogPost>, r: EventResult)
      modifies this
      ensures audit == old(audit)
      ensures logsChannel.None? ==> post.None? && r == Handled && messages == old(messages)
      ensures logsChannel.Some? && m.id in old(messages) && m.author.Some? && !m.author.value.bot && edited ==>
        && messages == old(messages)
        && post == Some(LogPost(logsChannel.value, "Message Updated",
             [EmbedField("Channel", ChannelMention(m.channelId)),
              EmbedField("Originally Sent", Timestamp(old(messages)[m.id].timestamp)),
              EmbedField("Message URL", MessageUrl(guildId, m.channelId, m.id)),
              EmbedField("Previous Content", old(messages)[m.id].content),
              EmbedField("New Content", m.content)]))
        && r == (if sendError.Some? then EventFailed(sendError.value) else Handled)
      ensures logsChannel.Some? && !(m.id in old(messages) && m.author.Some? && !m.author.value.bot && edited) ==>
        post.None? && r == Handled && messages == old(messages)[m.id := m]
    {
      if logsChannel.None? {
        return None, Handled;
      }
      if m.id in messages && m.author.Some? && !m.author.value.bot && edited {
        var cached := messages[m.id];
        post := Some(LogPost(logsChannel.value, "Message Updated",
          [EmbedField("Channel", ChannelMention(m.channelId)),
           EmbedField("Originally Sent", Timestamp(cached.timestamp)),
           EmbedField("Message URL", MessageUrl(guildId, m.channelId, m.id)),
           EmbedField("Previous Content", cached.content),
           EmbedField("New Content", m.content)]));
        r := if sendError.Some? then EventFailed(sendError.value) else Handled;
        return;
      }
      messages := messages[m.id := m];
      return None, Handled;
    }

    /** logMessageDelete. A cached message is reported with its content and attachments
        and the audit fields of a delete entry for its channel and author, then dropped
        from the cache; an uncached one is not reported. A cached message without an
        author (cached from a partial update) dereferences nil. */
    method MessageDeleted(logsChannel: Option<string>, guildId: string, channelId: string, messageId: string,
                          sendError: Option<string>) returns (post: Option<LogPost>, r: EventResult)
      modifies this
      ensures audit == old(audit)
      ensures logsChannel.None? || messageId !in old(messages) ==> post.None? && r == Handled && messages == old(messages)
      ensures logsChannel.Some? && messageId in old(messages) && old(messages)[messageId].author.None? ==>
        post.None? && r.EventPanicked? && messages == old(messages)
      ensures logsChannel.Some? && messageId in old(messages) && old(messages)[messageId].author.Some? ==>
        var cached := old(messages)[messageId];
        && messages == old(messages) - {messageId}
        && post == Some(LogPost(logsChannel.value, "Message Deleted",
             AddAuditLogFields(DeletedFields(guildId, channelId, messageId, cached),
                               FindAudit(audit, DeleteLookup(channelId, cached.author.value.id)))))
        && r == (if sendError.Some? then EventFailed(sendError.value) else Handled)
    {
      if logsChannel.None? || messageId !in messages {
        return None, Handled;
      }
      var cached := messages[messageId];
      if cached.author.None? {
        return None, EventPanicked("nil pointer dereference");
      }
      var entry := FindAudit(audit, DeleteLookup(channelId, cached.author.value.id));
      post := Some(LogPost(logsChannel.value, "Message Deleted",
                           AddAuditLogFields(DeletedFields(guildId, channelId, messageId, cached), entry)));
      messages := messages - {messageId};
      r := if sendError.Some? then EventFailed(sendError.value) else Handled;
    }

    /** logAuditLog: a routed entry is remembered under its key; others are ignored. */
    method AuditLogged(e: AuditEntry)
      modifies this
      ensures messages == old(messages)
      ensures AuditKeyOf(e).Some? ==> audit == old(audit)[AuditKeyOf(e).value := e]
      ensures AuditKeyOf(e).None? ==> audit == old(audit)
    {
      var k := AuditKeyOf(e);
      if k.Some? {
        audit := audit[k.value := e];
      }
    }
  }

  /** The fields of a deleted-message report. */
  function DeletedFields(guildId: string, channelId: string, messageId: string, cached: Message): (fs: seq<EmbedField>)
    ensures |fs| == 5 && fs[3] == EmbedField("Content", cached.content)
    ensures fs[4] == EmbedField("Attachments", AttachmentsText(cached.attachments))
  {
    [EmbedField("Channel", ChannelMention(channelId)),
     EmbedField("Sent At", Timestamp(cached.timestamp)),
     EmbedField("Message URL", MessageUrl(guildId, channelId, messageId)),
     EmbedField("Content", cached.content),
     EmbedField("Attachments", AttachmentsText(cached.attachments))]
  }

  /** A message created, then edited, then deleted is reported as deleted with the content
      it was created with: the edit does not replace the cached copy. */
  method CreateEditDelete(caches: LogCaches, logs: Config.ConfigValue, logsChannel: string, guildId: string,
                          m: Message, edit: Message) returns (post: Option<LogPost>)
    requires Config.Exists(logs) && m.author.Some? && !m.author.value.bot
    requires edit.id == m.id && edit.author == m.author && edit.channelId == m.channelId
    modifies caches
    ensures post.Some? && post.value.title == "Message Deleted"
    ensures |post.value.fields| >= 5 && post.value.fields[3] == EmbedField("Content", m.content)
    ensures m.id !in caches.messages
  {
    caches.MessageCreated(logs, m);
    var _, _ := caches.MessageUpdated(Some(logsChannel), guildId, edit, true, None);
    var r;
    post, r := caches.MessageDeleted(Some(logsChannel), guildId, m.channelId, m.id, None);
  }
}

=== FILE: models.dfy ===
/** The stored records (internal/database/models.go) and the user cache.

    Tables are in memory. Instants are integer seconds; a bedtime is a number of seconds
    after local midnight. A stored JSON payload is either an object of string fields or
    text that does not decode. */
module Models {
  import opened Wrappers

  /** Config: one raw JSON value per (config key, guild). */
  datatype ConfigRow = ConfigRow(configKey: string, guildId: string, configValue: string)

  datatype User = User(userId: string, timezone: Option<string>, bedtime: Option<int>,
                       lastBedtimeNotified: Option<int>, suppressMentions: bool)

  datatype Quote = Quote(id: nat, guildId: string, userId: string, addedBy: string,
                         content: string, contentDigest: string)

  /** TaskType is an unsigned number; these are the three named values. */
  type TaskType = nat
  const RemoveRole: TaskType := 0
  const Reminder: TaskType := 1
  const Birthday: TaskType := 2

  /** A JSON payload: an object whose fields are strings, or text that fails to decode. */
  datatype Json = Object(fields: map<string, string>) | Malformed

  /** The column default '{}'. */
  const EmptyPayload: Json := Object(map[])

  datatype ScheduledTask = ScheduledTask(id: nat, guildId: string, userId: string, taskType: TaskType,
                                         processAfter: int, payload: Json)

  datatype MessageMetric = MessageMetric(guildId: string, userId: string, messageCount: nat,
                                         distinctDays: nat, lastDistinctDayBoundary: int)

  datatype ReminderPayload = ReminderPayload(channelId: string, reason: string)
  datatype RemoveRolePayload = RemoveRolePayload(roleId: string)

  /** A field of a decoded object, or the zero value when the field is absent. */
  function Field(fields: map<string, string>, name: string): string
  {
    if name in fields then fields[name] else ""
  }

  /** json.Marshal of a reminder payload: the fields "channel" and "reason". */
  function EncodeReminder(p: ReminderPayload): (j: Json)
    ensures j.Object? && j.fields.Keys == {"channel", "reason"}
    ensures j.fields["channel"] == p.channelId && j.fields["reason"] == p.reason
  {
    Object(map["channel" := p.channelId, "reason" := p.reason])
  }

  /** json.Unmarshal into a reminder payload: absent fields stay empty, others are ignored. */
  function DecodeReminder(j: Json): (r: Result<ReminderPayload, string>)
    ensures j.Malformed? <==> r.Failure?
    ensures j.Object? ==> r == Success(ReminderPayload(Field(j.fields, "channel"), Field(j.fields, "reason")))
  {
    match j
    case Object(f) => Success(ReminderPayload(Field(f, "channel"), Field(f, "reason")))
    case Malformed => Failure("invalid payload")
  }

  /** json.Marshal of a role-removal payload: the field "role". */
  function EncodeRemoveRole(p: RemoveRolePayload): (j: Json)
    ensures j.Object? && j.fields.Keys == {"role"} && j.fields["role"] == p.roleId
  {
    Object(map["role" := p.roleId])
  }

  function DecodeRemoveRole(j: Json): (r: Result<RemoveRolePayload, string>)
    ensures j.Malformed? <==> r.Failure?
    ensures j.Object? ==> r == Success(RemoveRolePayload(Field(j.fields, "role")))
  {
    match j
    case Object(f) => Success(RemoveRolePayload(Field(f, "role")))
    case Malformed => Failure("invalid payload")
  }

  /** json.Marshal of the empty birthday payload. */
  function EncodeBirthday(): (j: Json)
    ensures j == EmptyPayload
  {
    Object(map[])
  }

  /** Payloads survive being stored and read back. */
  lemma PayloadRoundTrips(p: ReminderPayload, q: RemoveRolePayload)
    ensures DecodeReminder(EncodeReminder(p)) == Success(p)
    ensures DecodeRemoveRole(EncodeRemoveRole(q)) == Success(q)
  {
  }

  /** The unique index guild_user_digest: no two quotes share guild, user and digest. */
  predicate QuotesUnique(qs: seq<Quote>)
  {
    forall i, j :: 0 <= i < j < |qs| ==>
      (qs[i].guildId, qs[i].userId, qs[i].contentDigest) != (qs[j].guildId, qs[j].userId, qs[j].contentDigest)
  }

  /** The composite primary key of the metrics table: one row per (guild, user), stored
      under that key. */
  predicate MetricsKeyed(m: map<(string, string), MessageMetric>)
  {
    forall k :: k in m ==> (m[k].guildId, m[k].userId) == k
  }

  /** A user row with only its ID set. */
  function NewUser(id: string): (u: User)
    ensures u.userId == id && u.timezone.None? && u.bedtime.None? && u.lastBedtimeNotified.None?
    ensures !u.suppressMentions
  {
    User(id, None, None, None, false)
  }

  /** The users table and the user cache (UserCache, an expiring LRU modelled as a plain
      map: eviction by age or size is not modelled). */
  class Users {
    var rows: map<string, User>
    var cache: map<string, User>
    /** How many storage queries have been made. */
    ghost var queries: nat

    constructor (rows: map<string, User>)
      ensures this.rows == rows && cache == map[] && queries == 0
    {
      this.rows := rows;
      cache := map[];
      queries := 0;
    }

    /** The row a lookup by id finds, or a user with only the id set. */
    function Stored(id: string): (u: User)
      reads this
      ensures id in rows ==> u == rows[id]
      ensures id !in rows ==> u == NewUser(id)
    {
      if id in rows then rows[id] else NewUser(id)
    }

    /** GetUser: a cached user with no query; otherwise one query, where a missing row
        counts as a user with only its id set and is cached like a found one; a storage
        failure (`failure`, a fault of the database outside this model) returns its error
        and caches nothing. */
    method GetUser(id: string, failure: Option<string>) returns (r: Result<User, string>)
      modifies this
      ensures rows == old(rows)
      ensures id in old(cache) ==> r == Success(old(cache)[id]) && cache == old(cache) && queries == old(queries)
      ensures id !in old(cache) ==> queries == old(queries) + 1
      ensures id !in old(cache) && failure.Some? ==> r == Failure(failure.value) && cache == old(cache)
      ensures id !in old(cache) && failure.None? ==>
        r == Success(Stored(id)) && cache == old(cache)[id := Stored(id)]
    {
      if id in cache {
        return Success(cache[id]);
      }
      queries := queries + 1;
      if failure.Some? {
        return Failure(failure.value);
      }
      var user := if id in rows then rows[id] else NewUser(id);
      cache := cache[id := user];
      return Success(user);
    }

    /** UserCache.Remove. */
    method Evict(id: string)
      modifies this
      ensures rows == old(rows) && cache == old(cache) - {id} && queries == old(queries)
    {
      cache := cache - {id};
    }
  }

  /** A cache that only ever holds what the table held when each entry was filled is
      consistent with the table until the table changes. */
  predicate CacheAgrees(cache: map<string, User>, rows: map<string, User>)
  {
    forall id :: id in cache ==> cache[id] == (if id in rows then rows[id] else NewUser(id))
  }

  /** GetUser keeps the cache in agreement with the table, and a cache in agreement with
      the table makes GetUser answer what the table holds. */
  method GetUserAgrees(users: Users, id: string) returns (r: Result<User, string>)
    requires CacheAgrees(users.cache, users.rows)
    modifies users
    ensures CacheAgrees(users.cache, users.rows)
    ensures r == Success(users.Stored(id))
  {
    r := users.GetUser(id, None);
  }

  /** The scheduled tasks table; ids come from an auto-increment counter. */
  class TaskTable {
    var rows: seq<ScheduledTask>
    var nextId: nat

    ghost predicate Valid()
      reads this
    {
      forall t :: t in rows ==> t.id < nextId
    }

    constructor (rows: seq<ScheduledTask>, nextId: nat)
      requires forall t :: t in rows ==> t.id < nextId
      ensures this.rows == rows && this.nextId == nextId && Valid()
    {
      this.rows := rows;
      this.nextId := nextId;
    }

    /** Create: the row is appended with the next id. */
    method Insert(guildId: string, userId: string, taskType: TaskType, processAfter: int, payload: Json)
      returns (task: ScheduledTask)
      requires Valid()
      modifies this
      ensures Valid()
      ensures task == ScheduledTask(old(nextId), guildId, userId, taskType, processAfter, payload)
      ensures rows == old(rows) + [task] && nextId == old(nextId) + 1
    {
      task := ScheduledTask(nextId, guildId, userId, taskType, processAfter, payload);
      rows := rows + [task];
      nextId := nextId + 1;
    }

    /** Delete of a task value: the ORM deletes by the primary key alone, whatever other
        fields the value holds. A zero id leaves no condition and is refused; otherwise
        every row with that id goes, `failure` being a fault of the database, and the
        result says whether any row went. */
    method DeleteById(id: nat, failure: Option<string>) returns (r: Result<bool, string>)
      requires Valid()
      modifies this
      ensures Valid() && nextId == old(nextId)
      ensures id == 0 ==> r == Failure(MissingWhereClause) && rows == old(rows)
      ensures id != 0 && failure.Some? ==> r == Failure(failure.value) && rows == old(rows)
      ensures id != 0 && failure.None? ==>
        && rows == WithoutId(old(rows), id)
        && r == Success(exists x :: x in old(rows) && x.id == id)
    {
      if id == 0 {
        return Failure(MissingWhereClause);
      }
      if failure.Some? {
        return Failure(failure.value);
      }
      var found := exists x :: x in rows && x.id == id;
      rows := WithoutId(rows, id);
      r := Success(found);
    }
  }

  /** The error the ORM gives a delete whose value has no primary key and no other
      condition. */
  const MissingWhereClause: string := "WHERE conditions required"

  /** The tasks other than those with this id, in table order. */
  function WithoutId(rows: seq<ScheduledTask>, id: nat): (r: seq<ScheduledTask>)
    ensures forall x :: x in r <==> x in rows && x.id != id
  {
    if |rows| == 0 then []
    else (if rows[0].id == id then [] else [rows[0]]) + WithoutId(rows[1..], id)
  }

  /** Removing an id no task has leaves the table as it is. */
  lemma {:induction false} WithoutAbsentId(rows: seq<ScheduledTask>, id: nat)
    requires forall x :: x in rows ==> x.id != id
    ensures WithoutId(rows, id) == rows
  {
    if |rows| > 0 {
      assert rows[0] in rows;
      WithoutAbsentId(rows[1..], id);
      assert rows == [rows[0]] + rows[1..];
    }
  }

  /** The message metrics table, one row per (guild, user). Every row has counted at least
      as many messages as distinct days. */
  class MetricTable {
    var rows: map<(string, string), MessageMetric>

    ghost predicate Valid()
      reads this
    {
      MetricsKeyed(rows) && forall k :: k in rows ==> rows[k].distinctDays <= rows[k].messageCount
    }

    constructor (rows: map<(string, string), MessageMetric>)
      requires MetricsKeyed(rows) && forall k :: k in rows ==> rows[k].distinctDays <= rows[k].messageCount
      ensures this.rows == rows && Valid()
    {
      this.rows := rows;
    }
  }
}

=== FILE: quote.dfy ===
/** Quotes (internal/commands/quote.go): the digest used to find duplicates, adding,
    showing, finding and deleting quotes.

    The quotes table is in memory, in insertion order. MD5 is a parameter: any function
    from bytes to 16 bytes. The content is handled as characters: a character outside
    ASCII is encoded in UTF-8 as bytes of value 0x80 or more, none of which is kept by the
    compaction, so filtering the characters keeps exactly the bytes that filtering the
    encoding keeps. */
module Quotes {
  import opened Wrappers
  import opened Models
  import opened Discord
  import opened Commands
  import Text

  predicate IsAlnum(c: char)
  {
    ('a' <= c <= 'z') || ('A' <= c <= 'Z') || ('0' <= c <= '9')
  }

  /** The ASCII letters and digits of `s`, in order and in their own case. */
  function KeepAlnum(s: string): (r: string)
    ensures |r| <= |s|
    ensures forall i :: 0 <= i < |r| ==> IsAlnum(r[i])
  {
    if |s| == 0 then []
    else KeepAlnum(s[..|s| - 1]) + (if IsAlnum(s[|s| - 1]) then [s[|s| - 1]] else [])
  }

  lemma {:induction false} KeepAlnumAppend(a: string, b: string)
    ensures KeepAlnum(a + b) == KeepAlnum(a) + KeepAlnum(b)
  {
    if |b| == 0 {
      assert a + b == a;
    } else {
      KeepAlnumAppend(a, b[..|b| - 1]);
      assert (a + b)[..|a + b| - 1] == a + b[..|b| - 1];
    }
  }

  /** Spacing and punctuation do not change what is kept: dropping one character that is
      not a letter or digit leaves the result as it was. */
  lemma PunctuationIsIgnored(a: string, c: char, b: string)
    requires !IsAlnum(c)
    ensures KeepAlnum(a + [c] + b) == KeepAlnum(a + b)
  {
    KeepAlnumAppend(a + [c], b);
    KeepAlnumAppend(a, [c]);
    KeepAlnumAppend(a, b);
    assert [c][..0] == [];
  }

  /** Text made only of letters and digits is kept whole. */
  lemma {:induction false} AlnumIsKept(s: string)
    requires forall i :: 0 <= i < |s| ==> IsAlnum(s[i])
    ensures KeepAlnum(s) == s
  {
    if |s| > 0 {
      AlnumIsKept(s[..|s| - 1]);
    }
  }

  /** Case is kept, so "Hi" and "hi" do not collide. */
  lemma CaseIsKept()
    ensures KeepAlnum("Hi") == "Hi" && KeepAlnum("hi") == "hi"
  {
    AlnumIsKept("Hi");
    AlnumIsKept("hi");
  }

  /** The in-place compaction of _computeDigest: each letter or digit is written at the
      write index, which never passes the read position; the kept characters end up as the
      prefix of length `n` and the rest of the array is as it was. */
  method CompactAlnum(a: array<char>) returns (n: nat)
    modifies a
    ensures n <= a.Length
    ensures a[..n] == KeepAlnum(old(a[..]))
    ensures a[n..] == old(a[n..])
  {
    ghost var orig := a[..];
    n := 0;
    var j := 0;
    while j < a.Length
      invariant n <= j <= a.Length
      invariant a[..n] == KeepAlnum(orig[..j])
      invariant a[n..] == orig[n..]
    {
      var c := a[j];
      assert c == orig[j];
      assert orig[..j + 1][..j] == orig[..j];
      if IsAlnum(c) {
        a[n] := c;
        n := n + 1;
      }
      j := j + 1;
    }
    assert orig[..j] == orig;
  }

  /** A byte, as a number. */
  type Byte = x: int | 0 <= x < 256

  /** The bytes of ASCII text. */
  function Bytes(s: string): (b: seq<Byte>)
    ensures |b| == |s|
  {
    seq(|s|, i requires 0 <= i < |s| => (s[i] as int) % 256)
  }

  /** The lower-case hex digit of a nibble: '0'..'9', then 'a'..'f'. */
  function HexDigit(n: nat): (c: char)
    requires n < 16
    ensures IsHexDigit(c) && HexValue(c) == n
  {
    if n < 10 then ('0' as int + n) as char else ('a' as int + n - 10) as char
  }

  predicate IsHexDigit(c: char)
  {
    ('0' <= c <= '9') || ('a' <= c <= 'f')
  }

  function HexValue(c: char): nat
  {
    if '0' <= c <= '9' then c as nat - '0' as nat
    else if 'a' <= c <= 'f' then c as nat - 'a' as nat + 10
    else 0
  }

  /** hex.EncodeToString: two lower-case hex digits per byte, high nibble first. */
  function Hex(bs: seq<Byte>): (s: string)
    ensures |s| == 2 * |bs|
    ensures forall i :: 0 <= i < |s| ==> IsHexDigit(s[i])
  {
    if |bs| == 0 then []
    else [HexDigit(bs[0] / 16), HexDigit(bs[0] % 16)] + Hex(bs[1..])
  }

  /** The inverse of Hex: each pair of digits back to a byte (an odd last digit is
      dropped). */
  function Unhex(s: string): (bs: seq<Byte>)
    ensures |bs| == |s| / 2
  {
    if |s| < 2 then []
    else [(HexValue(s[0]) * 16 + HexValue(s[1])) % 256] + Unhex(s[2..])
  }

  lemma ByteDigits(x: Byte)
    ensures (HexValue(HexDigit(x / 16)) * 16 + HexValue(HexDigit(x % 16))) % 256 == x
  {
    var hi, lo := x / 16, x % 16;
    assert hi * 16 + lo == x;
  }

  /** The hex text determines the digest bytes. */
  lemma {:induction false} HexRoundTrip(bs: seq<Byte>)
    ensures Unhex(Hex(bs)) == bs
  {
    if |bs| == 0 {
      assert Hex(bs) == [];
    } else {
      var hi, lo := HexDigit(bs[0] / 16), HexDigit(bs[0] % 16);
      assert Hex(bs) == [hi, lo] + Hex(bs[1..]);
      UnhexCons(hi, lo, Hex(bs[1..]));
      HexRoundTrip(bs[1..]);
      ByteDigits(bs[0]);
      assert bs == [bs[0]] + bs[1..];
    }
  }

  lemma UnhexCons(hi: char, lo: char, rest: string)
    ensures Unhex([hi, lo] + rest) == [(HexValue(hi) * 16 + HexValue(lo)) % 256] + Unhex(rest)
  {
    var s := [hi, lo] + rest;
    assert s[0] == hi && s[1] == lo && s[2..] == rest;
  }

  /** The digest of a quote's content: the hex MD5 of its letters and digits. */
  function Digest(content: string, md5: seq<Byte> -> seq<Byte>): (d: string)
    ensures |d| == 2 * |md5(Bytes(KeepAlnum(content)))|
  {
    Hex(md5(Bytes(KeepAlnum(content))))
  }

  /** _computeDigest: compacts a copy of the content in place and hashes the prefix; the
      result is 32 hex digits, the width of the digest column. */
  method ComputeDigest(content: string, md5: seq<Byte> -> seq<Byte>) returns (d: string)
    requires |md5(Bytes(KeepAlnum(content)))| == 16
    ensures d == Digest(content, md5)
    ensures |d| == 32 && forall i :: 0 <= i < |d| ==> IsHexDigit(d[i])
  {
    var a := new char[|content|](i requires 0 <= i < |content| => content[i]);
    assert a[..] == content;
    var n := CompactAlnum(a);
    d := Hex(md5(Bytes(a[..n])));
  }

  /** Two contents that differ only in spacing and punctuation have the same digest. */
  lemma SameLettersSameDigest(a: string, c: char, b: string, md5: seq<Byte> -> seq<Byte>)
    requires !IsAlnum(c)
    ensures Digest(a + [c] + b, md5) == Digest(a + b, md5)
  {
    PunctuationIsIgnored(a, c, b);
  }

  /** The key of the unique index on quotes. */
  function UniqueKey(q: Quote): (string, string, string)
  {
    (q.guildId, q.userId, q.contentDigest)
  }

  /** Is there a quote with this guild, user and digest? */
  function Collides(rows: seq<Quote>, key: (string, string, string)): (r: bool)
    ensures r <==> exists q :: q in rows && UniqueKey(q) == key
  {
    if |rows| == 0 then false
    else UniqueKey(rows[0]) == key || Collides(rows[1..], key)
  }

  /** The rows other than the one with this id. */
  function Without(rows: seq<Quote>, id: nat): (r: seq<Quote>)
    ensures forall q :: q in r <==> q in rows && q.id != id
    ensures |r| <= |rows|
  {
    if |rows| == 0 then []
    else (if rows[0].id == id then [] else [rows[0]]) + Without(rows[1..], id)
  }

  lemma {:induction false} WithoutKeepsUnique(rows: seq<Quote>, id: nat)
    requires QuotesUnique(rows)
    ensures QuotesUnique(Without(rows, id))
  {
    if |rows| > 0 {
      var rest := rows[1..];
      TailUnique(rows);
      WithoutKeepsUnique(rest, id);
      if rows[0].id != id {
        var w := Without(rest, id);
        forall q | q in w ensures UniqueKey(q) != UniqueKey(rows[0])
        {
          var k :| 0 <= k < |rest| && rest[k] == q;
          assert rows[k + 1] == q;
        }
        ConsUnique(rows[0], w);
      }
    }
  }

  lemma TailUnique(rows: seq<Quote>)
    requires |rows| > 0 && QuotesUnique(rows)
    ensures QuotesUnique(rows[1..])
  {
    var rest := rows[1..];
    forall i, j | 0 <= i < j < |rest| ensures UniqueKey(rest[i]) != UniqueKey(rest[j]) {
      assert rest[i] == rows[i + 1] && rest[j] == rows[j + 1];
    }
  }

  /** A quote whose key no row shares can go in front of unique rows. */
  lemma ConsUnique(x: Quote, w: seq<Quote>)
    requires QuotesUnique(w)
    requires forall q :: q in w ==> UniqueKey(q) != UniqueKey(x)
    ensures QuotesUnique([x] + w)
  {
    var r := [x] + w;
    forall i, j | 0 <= i < j < |r| ensures UniqueKey(r[i]) != UniqueKey(r[j]) {
      if i > 0 {
        assert r[i] == w[i - 1] && r[j] == w[j - 1];
      } else {
        assert r[j] in w;
      }
    }
  }

  /** Why a create fails: the unique index, or a fault of the database. */
  datatype CreateError = Duplicate | StorageError(message: string)

  /** The quotes table; ids come from an auto-increment counter. */
  class QuoteTable {
    var rows: seq<Quote>
    var nextId: nat

    ghost predicate Valid()
      reads this
    {
      QuotesUnique(rows) && forall q :: q in rows ==> q.id < nextId
    }

    constructor (rows: seq<Quote>, nextId: nat)
      requires QuotesUnique(rows) && forall q :: q in rows ==> q.id < nextId
      ensures this.rows == rows && this.nextId == nextId && Valid()
    {
      this.rows := rows;
      this.nextId := nextId;
    }

    /** Create: refused when another quote has the same guild, user and digest, or when
        the database fails (`failure`); otherwise appended with the next id. */
    method Create(guildId: string, userId: string, addedBy: string, content: string, digest: string,
                  failure: Option<string>)
      returns (r: Result<Quote, CreateError>)
      requires Valid()
      modifies this
      ensures Valid()
      ensures failure.Some? ==> r == Failure(StorageError(failure.value)) && rows == old(rows) && nextId == old(nextId)
      ensures failure.None? && Collides(old(rows), (guildId, userId, digest)) ==>
        r == Failure(Duplicate) && rows == old(rows) && nextId == old(nextId)
      ensures failure.None? && !Collides(old(rows), (guildId, userId, digest)) ==>
        && r == Success(Quote(old(nextId), guildId, userId, addedBy, content, digest))
        && rows == old(rows) + [r.value] && nextId == old(nextId) + 1
    {
      if failure.Some? {
        return Failure(StorageError(failure.value));
      }
      if Collides(rows, (guildId, userId, digest)) {
        return Failure(Duplicate);
      }
      var q := Quote(nextId, guildId, userId, addedBy, content, digest);
      rows := rows + [q];
      nextId := nextId + 1;
      assert QuotesUnique(rows) by {
        forall i, j | 0 <= i < j < |rows|
          ensures UniqueKey(rows[i]) != UniqueKey(rows[j])
        {
          if j == |rows| - 1 {
            assert rows[i] in old(rows);
          }
        }
      }
      return Success(q);
    }

    /** Delete of a quote value: the ORM deletes by the primary key alone. A zero id leaves
        no condition and is refused; otherwise the row with that id goes, `failure` being a
        fault of the database, and the result says whether a row went. A missing row is
        not an error. */
    method Delete(id: nat, failure: Option<string>) returns (r: Result<bool, string>)
      requires Valid()
      modifies this
      ensures Valid() && nextId == old(nextId)
      ensures id == 0 ==> r == Failure(MissingWhereClause) && rows == old(rows)
      ensures id != 0 && failure.Some? ==> r == Failure(failure.value) && rows == old(rows)
      ensures id != 0 && failure.None? && (forall q :: q in old(rows) ==> q.id != id) ==>
        r == Success(false) && rows == old(rows)
      ensures id != 0 && failure.None? && (exists q :: q in old(rows) && q.id == id) ==>
        r == Success(true) && rows == Without(old(rows), id)
    {
      if id == 0 {
        return Failure(MissingWhereClause);
      }
      if failure.Some? {
        return Failure(failure.value);
      }
      if FindById(rows, id).None? {
        return Success(false);
      }
      WithoutKeepsUnique(rows, id);
      rows := Without(rows, id);
      return Success(true);
    }
  }

  /** Take by primary key. */
  function FindById(rows: seq<Quote>, id: nat): (r: Option<Quote>)
    ensures r.None? <==> forall q :: q in rows ==> q.id != id
    ensures r.Some? ==> r.value in rows && r.value.id == id
  {
    if |rows| == 0 then None
    else if rows[0].id == id then Some(rows[0])
    else FindById(rows[1..], id)
  }

  /** _addQuote: quoting the bot itself is refused before anything is stored; a quote whose
      guild, user and digest are already stored answers "duplicate"; otherwise the quote is
      stored and its id reported. */
  method AddQuote(table: QuoteTable, guildId: string, botId: string, invokerId: string, userId: string,
                  content: string, md5: seq<Byte> -> seq<Byte>, failure: Option<string>)
    returns (r: HandlerResult)
    requires table.Valid()
    requires |md5(Bytes(KeepAlnum(content)))| == 16
    modifies table
    ensures table.Valid()
    ensures userId == botId ==> r == Responded(Reply("quotes/add.botTarget")) && table.rows == old(table.rows)
    ensures userId != botId && failure.Some? ==> r == Failed(failure.value) && table.rows == old(table.rows)
    ensures userId != botId && failure.None? && Collides(old(table.rows), (guildId, userId, Digest(content, md5))) ==>
      r == Responded(Reply("quotes/add.duplicate")) && table.rows == old(table.rows)
    ensures userId != botId && failure.None? && !Collides(old(table.rows), (guildId, userId, Digest(content, md5))) ==>
      var q := Quote(old(table.nextId), guildId, userId, invokerId, content, Digest(content, md5));
      && table.rows == old(table.rows) + [q]
      && r == Responded(ReplyWith("quotes/add.success", map["id" := Decimal(q.id)], false))
  {
    if userId == botId {
      return Responded(Reply("quotes/add.botTarget"));
    }
    var digest := ComputeDigest(content, md5);
    var created := table.Create(guildId, userId, invokerId, content, digest, failure);
    match created
    case Failure(Duplicate) => r := Responded(Reply("quotes/add.duplicate"));
    case Failure(StorageError(m)) => r := Failed(m);
    case Success(q) => r := Responded(ReplyWith("quotes/add.success", map["id" := Decimal(q.id)], false));
  }

  /** Adding the same words for the same member twice, however they are spaced or
      punctuated the second time, answers "duplicate" the second time and stores one
      quote. */
  method AddTwiceIsDuplicate(table: QuoteTable, guildId: string, botId: string, invokerId: string, userId: string,
                             a: string, c: char, b: string, md5: seq<Byte> -> seq<Byte>)
    returns (first: HandlerResult, second: HandlerResult)
    requires table.Valid() && userId != botId && !IsAlnum(c)
    requires forall x :: |md5(x)| == 16
    modifies table
    ensures first.Responded? && first.response.key in {"quotes/add.success", "quotes/add.duplicate"}
    ensures second == Responded(Reply("quotes/add.duplicate"))
    ensures |table.rows| <= |old(table.rows)| + 1
  {
    ghost var key := (guildId, userId, Digest(a + b, md5));
    first := AddQuote(table, guildId, botId, invokerId, userId, a + b, md5, None);
    if !Collides(old(table.rows), key) {
      var q := Quote(old(table.nextId), guildId, userId, invokerId, a + b, Digest(a + b, md5));
      assert table.rows[|table.rows| - 1] == q;
      assert q in table.rows && UniqueKey(q) == key;
    }
    assert Collides(table.rows, key);
    SameLettersSameDigest(a, c, b, md5);
    second := AddQuote(table, guildId, botId, invokerId, userId, a + [c] + b, md5, None);
  }

  /** The quotes of one member of one guild. */
  function OfMember(rows: seq<Quote>, guildId: string, userId: string): (r: seq<Quote>)
    ensures forall q :: q in r <==> q in rows && q.guildId == guildId && q.userId == userId
  {
    if |rows| == 0 then []
    else (if rows[0].guildId == guildId && rows[0].userId == userId then [rows[0]] else [])
         + OfMember(rows[1..], guildId, userId)
  }

  /** quote: a random quote of the target member, shown publicly with the member's display
      name. `target` is the fetched member's display name or the fetch error, `failure` a
      fault of the database and `pick` the random ordering. */
  function RandomQuote(rows: seq<Quote>, guildId: string, userId: string, target: Result<string, string>,
                       failure: Option<string>, pick: nat): (r: HandlerResult)
    ensures target.Failure? ==> r == Failed(target.error)
    ensures target.Success? && failure.Some? ==> r == Failed(failure.value)
    ensures target.Success? && failure.None? ==>
      (r == Responded(Reply("quote.missing")) <==> forall q :: q in rows ==> !(q.guildId == guildId && q.userId == userId))
    ensures target.Success? && failure.None? && r != Responded(Reply("quote.missing")) ==>
      exists q :: q in rows && q.guildId == guildId && q.userId == userId &&
        r == Responded(ReplyWith("quote.success", map["user" := target.value, "content" := q.content], true))
  {
    match target
    case Failure(e) => Failed(e)
    case Success(name) =>
      if failure.Some? then Failed(failure.value)
      else
        var found := OfMember(rows, guildId, userId);
        if |found| == 0 then Responded(Reply("quote.missing"))
        else
          var q := found[pick % |found|];
          Responded(ReplyWith("quote.success", map["user" := name, "content" := q.content], true))
  }

  /** Take of a quote value: by its primary key, or, for a zero id, which leaves no
      condition, whichever row comes first (`pick` stands for the row the database
      returns). */
  function TakeById(rows: seq<Quote>, id: nat, pick: nat): (r: Option<Quote>)
    ensures id != 0 ==> r == FindById(rows, id)
    ensures id == 0 ==> (r.None? <==> |rows| == 0) && (r.Some? ==> r.value in rows)
  {
    if id != 0 then FindById(rows, id)
    else if |rows| == 0 then None
    else Some(rows[pick % |rows|])
  }

  /** quotes get: the quote with this id, of any guild, shown publicly with its member's
      display name (`member`, the result of fetching the quote's member); a zero id shows
      whichever quote the database returns first. */
  function GetQuote(rows: seq<Quote>, id: nat, member: Result<string, string>, failure: Option<string>,
                    pick: nat): (r: HandlerResult)
    ensures failure.Some? ==> r == Failed(failure.value)
    ensures failure.None? && id != 0 && (forall q :: q in rows ==> q.id != id) ==> r == Responded(Reply("quote.missing"))
    ensures failure.None? && id == 0 ==> (r == Responded(Reply("quote.missing")) <==> |rows| == 0)
    ensures failure.None? && id != 0 && (exists q :: q in rows && q.id == id) ==>
      var q := FindById(rows, id).value;
      && (member.Failure? ==> r == Failed(member.error))
      && (member.Success? ==> r == Responded(ReplyWith("quote.success", map["user" := member.value, "content" := q.content], true)))
    ensures failure.None? && id == 0 && |rows| > 0 ==>
      exists q :: q in rows &&
        (member.Failure? ==> r == Failed(member.error)) &&
        (member.Success? ==> r == Responded(ReplyWith("quote.success", map["user" := member.value, "content" := q.content], true)))
  {
    if failure.Some? then Failed(failure.value)
    else match TakeById(rows, id, pick)
      case None => Responded(Reply("quote.missing"))
      case Some(q) =>
        match member
        case Failure(e) => Failed(e)
        case Success(name) => Responded(ReplyWith("quote.success", map["user" := name, "content" := q.content], true))
  }

  /** The answer to a quote delete as written: an error is returned, and every delete
      that runs is answered success, since the delete never reports a missing record and
      the "missing" branch is never taken. */
  function DeleteAnswerAsWritten(deleted: Result<bool, string>): (r: HandlerResult)
    ensures deleted.Failure? ==> r == Failed(deleted.error)
    ensures deleted.Success? ==> r == Responded(Reply("quotes/delete.success"))
  {
    match deleted
    case Failure(e) => Failed(e)
    case Success(_) => Responded(Reply("quotes/delete.success"))
  }

  /** The answer the handler means to give: "missing" when the delete removed nothing. */
  function DeleteAnswer(deleted: Result<bool, string>): (r: HandlerResult)
    ensures deleted.Failure? ==> r == Failed(deleted.error)
    ensures deleted.Success? ==>
      r == Responded(Reply(if deleted.value then "quotes/delete.success" else "quotes/delete.missing"))
  {
    match deleted
    case Failure(e) => Failed(e)
    case Success(removed) =>
      if removed then Responded(Reply("quotes/delete.success")) else Responded(Reply("quotes/delete.missing"))
  }

  /** A delete that removed nothing is answered success as written, "missing" as meant. */
  lemma MissingQuoteAnswersSuccess()
    ensures DeleteAnswerAsWritten(Success(false)) == Responded(Reply("quotes/delete.success"))
    ensures DeleteAnswer(Success(false)) == Responded(Reply("quotes/delete.missing"))
  {
  }

  /** quotes delete as written: a zero id returns the ORM's error, a storage failure is
      returned, and otherwise the quote with this id, of any guild, is removed if there is
      one and success is answered either way. */
  method DeleteQuoteAsWritten(table: QuoteTable, id: nat, failure: Option<string>) returns (r: HandlerResult)
    requires table.Valid()
    modifies table
    ensures table.Valid()
    ensures id == 0 ==> r == Failed(MissingWhereClause) && table.rows == old(table.rows)
    ensures id != 0 && failure.Some? ==> r == Failed(failure.value) && table.rows == old(table.rows)
    ensures id != 0 && failure.None? ==> r == Responded(Reply("quotes/delete.success"))
    ensures id != 0 && failure.None? && (exists q :: q in old(table.rows) && q.id == id) ==>
      table.rows == Without(old(table.rows), id)
    ensures id != 0 && failure.None? && (forall q :: q in old(table.rows) ==> q.id != id) ==>
      table.rows == old(table.rows)
  {
    var deleted := table.Delete(id, failure);
    r := DeleteAnswerAsWritten(deleted);
  }

  /** quotes delete with the answer it means to give: as written, except that "missing"
      is answered, with no change, when no quote has the id. */
  method DeleteQuote(table: QuoteTable, id: nat, failure: Option<string>) returns (r: HandlerResult)
    requires table.Valid()
    modifies table
    ensures table.Valid()
    ensures id == 0 ==> r == Failed(MissingWhereClause) && table.rows == old(table.rows)
    ensures id != 0 && failure.Some? ==> r == Failed(failure.value) && table.rows == old(table.rows)
    ensures id != 0 && failure.None? && (forall q :: q in old(table.rows) ==> q.id != id) ==>
      r == Responded(Reply("quotes/delete.missing")) && table.rows == old(table.rows)
    ensures id != 0 && failure.None? && (exists q :: q in old(table.rows) && q.id == id) ==>
      r == Responded(Reply("quotes/delete.success")) && table.rows == Without(old(table.rows), id)
  {
    var deleted := table.Delete(id, failure);
    r := DeleteAnswer(deleted);
  }

  /** The find filter: by member only when one is given, by substring only when the text
      is not empty. */
  predicate FindMatches(q: Quote, userId: Option<string>, text: string)
  {
    (userId.None? || q.userId == userId.value) && (text == "" || Text.Contains(q.content, text))
  }

  /** The rows of the find query in table order, without any guild condition. */
  function FindRows(rows: seq<Quote>, userId: Option<string>, text: string): (r: seq<Quote>)
    ensures forall q :: q in r <==> q in rows && FindMatches(q, userId, text)
  {
    if |rows| == 0 then []
    else (if FindMatches(rows[0], userId, text) then [rows[0]] else []) + FindRows(rows[1..], userId, text)
  }

  /** The rows of the find query restricted to one guild. */
  function FindRowsInGuild(rows: seq<Quote>, guildId: string, userId: Option<string>, text: string): (r: seq<Quote>)
    ensures forall q :: q in r <==> q in rows && q.guildId == guildId && FindMatches(q, userId, text)
  {
    if |rows| == 0 then []
    else (if rows[0].guildId == guildId && FindMatches(rows[0], userId, text) then [rows[0]] else [])
         + FindRowsInGuild(rows[1..], guildId, userId, text)
  }

  /** What find answers: an error, "empty", or an embed of fields with an optional
      "has more" footer, sent ephemeral. */
  datatype FindReply = FindFailed(error: string) | FindEmpty | Listing(fields: seq<EmbedField>, hasMore: bool)

  /** One embed field: "[#id] name" over the quote's content; the name is the member's
      display name, or "Unknown User" when the member cannot be fetched (`names` holds the
      members that can). */
  function QuoteField(q: Quote, names: map<string, string>): (f: EmbedField)
    ensures f.value == q.content
  {
    var userName := if q.userId in names then names[q.userId] else "Unknown User";
    EmbedField("[#" + Decimal(q.id) + "] " + userName, q.content)
  }

  function QuoteFields(qs: seq<Quote>, names: map<string, string>): (fs: seq<EmbedField>)
    ensures |fs| == |qs|
    ensures forall i :: 0 <= i < |qs| ==> fs[i] == QuoteField(qs[i], names)
  {
    if |qs| == 0 then [] else [QuoteField(qs[0], names)] + QuoteFields(qs[1..], names)
  }

  /** The answer to a fetched page of at most 11 rows: "empty" for none, otherwise the
      first 10 as fields and the footer exactly when more came back. */
  function Page(fetched: seq<Quote>, names: map<string, string>): (r: FindReply)
    requires |fetched| <= 11
    ensures |fetched| == 0 <==> r == FindEmpty
    ensures |fetched| > 0 ==> (
      && r.Listing?
      && |r.fields| == (if |fetched| > 10 then 10 else |fetched|)
      && (r.hasMore <==> |fetched| > 10)
      && forall i :: 0 <= i < |r.fields| ==> r.fields[i] == QuoteField(fetched[i], names))
  {
    if |fetched| == 0 then FindEmpty
    else Listing(QuoteFields(if |fetched| > 10 then fetched[..10] else fetched, names), |fetched| > 10)
  }

  /** quotes find as written: at most 11 matching rows of any guild. */
  function FindAsWritten(rows: seq<Quote>, userId: Option<string>, text: string, names: map<string, string>,
                         failure: Option<string>): (r: FindReply)
    ensures failure.Some? ==> r == FindFailed(failure.value)
    ensures failure.None? ==>
      var found := FindRows(rows, userId, text);
      r == Page(if |found| > 11 then found[..11] else found, names)
  {
    if failure.Some? then FindFailed(failure.value)
    else
      var found := FindRows(rows, userId, text);
      Page(if |found| > 11 then found[..11] else found, names)
  }

  /** The query has no guild condition: a quote stored in another guild is listed to the
      invoker, where the guild-scoped find answers "empty". */
  lemma FindListsOtherGuilds(q: Quote, guildId: string, names: map<string, string>)
    requires q.guildId != guildId
    ensures FindAsWritten([q], None, "", names, None) == Listing([QuoteField(q, names)], false)
    ensures Find([q], guildId, None, "", names, None) == FindEmpty
  {
    assert FindRows([q], None, "") == [q];
    assert FindRowsInGuild([q], guildId, None, "") == [];
  }

  /** quotes find restricted to the invoking guild, as the other quote commands are. */
  function Find(rows: seq<Quote>, guildId: string, userId: Option<string>, text: string, names: map<string, string>,
                failure: Option<string>): (r: FindReply)
    ensures failure.Some? ==> r == FindFailed(failure.value)
    ensures failure.None? ==>
      var found := FindRowsInGuild(rows, guildId, userId, text);
      r == Page(if |found| > 11 then found[..11] else found, names)
  {
    if failure.Some? then FindFailed(failure.value)
    else
      var found := FindRowsInGuild(rows, guildId, userId, text);
      Page(if |found| > 11 then found[..11] else found, names)
  }

  /** Every quote listed by the guild-scoped find belongs to the guild and matches the
      filters; it answers "empty" exactly when no quote of the guild matches. */
  lemma FindStaysInGuild(rows: seq<Quote>, guildId: string, userId: Option<string>, text: string,
                         names: map<string, string>)
    ensures Find(rows, guildId, userId, text, names, None) == FindEmpty <==>
      forall q :: q in rows && q.guildId == guildId ==> !FindMatches(q, userId, text)
    ensures var found := FindRowsInGuild(rows, guildId, userId, text);
      forall i :: 0 <= i < |found| && i < 10 ==>
        found[i] in rows && found[i].guildId == guildId && FindMatches(found[i], userId, text) &&
        Find(rows, guildId, userId, text, names, None).fields[i] == QuoteField(found[i], names)
  {
    var found := FindRowsInGuild(rows, guildId, userId, text);
    if |found| == 0 {
      forall q | q in rows && q.guildId == guildId ensures !FindMatches(q, userId, text) {
        assert q !in found;
      }
    } else {
      assert found[0] in found;
    }
  }
}

=== FILE: remind.dfy ===
/** The reminder commands (internal/commands/remind.go): set, cancel and list. */
module Reminders {
  import opened Wrappers
  import opened Models
  import opened Commands
  import opened Discord
  import Zones

  /** The `<t:…:f>` timestamp markup of an instant. */
  function TimestampMarkup(t: int): string
  {
    "<t:" + Signed(t) + ":f>"
  }

  /** reminder set. `zone` is the zone name the user row yields (None when the row is
      missing, has no zone, or the read failed), `readError` the read's error, and `parsed`
      what the date parser makes of the text in that zone (None when it cannot parse it).
      The refusals come in order: no zone, the read's error, a zone that does not load (the
      handler panics), no parse, a time before now. Otherwise a Reminder task is stored for
      the parsed time with the channel and the message as its payload. */
  method SetReminder(tasks: TaskTable, zones: Zones.ZoneTable, guildId: string, userId: string,
                     channelId: string, message: string, zone: Option<string>, readError: Option<string>,
                     parsed: Option<int>, now: int, createFailure: Option<string>)
    returns (r: HandlerResult)
    requires tasks.Valid()
    modifies tasks
    ensures tasks.Valid()
    ensures zone.None? ==> r == Responded(Reply("reminder/set.timezone"))
    ensures zone.Some? && readError.Some? ==> r == Failed(readError.value)
    ensures zone.Some? && readError.None? && Zones.LoadLocation(zones, zone.value).None? ==> r.Panicked?
    ensures zone.Some? && readError.None? && Zones.LoadLocation(zones, zone.value).Some? ==>
      && (parsed.None? ==> r == Responded(Reply("reminder/set.format")))
      && (parsed.Some? && parsed.value < now ==> r == Responded(Reply("reminder/set.past")))
      && (parsed.Some? && parsed.value >= now ==>
            var task := ScheduledTask(old(tasks.nextId), guildId, userId, Reminder, parsed.value,
                                      EncodeReminder(ReminderPayload(channelId, message)));
            && (createFailure.Some? ==> r == Failed(createFailure.value))
            && (createFailure.None? ==>
                  && tasks.rows == old(tasks.rows) + [task]
                  && r == Responded(ReplyWith("reminder/set.success",
                                              map["time" := TimestampMarkup(parsed.value),
                                                  "id" := Decimal(task.id)], false))))
    ensures !(zone.Some? && readError.None? && Zones.LoadLocation(zones, zone.value).Some? &&
              parsed.Some? && parsed.value >= now && createFailure.None?) ==>
      tasks.rows == old(tasks.rows) && tasks.nextId == old(tasks.nextId)
  {
    if zone.None? {
      return Responded(Reply("reminder/set.timezone"));
    }
    if readError.Some? {
      return Failed(readError.value);
    }
    var location := Zones.LoadLocation(zones, zone.value);
    if location.None? {
      return Panicked("unknown time zone " + zone.value);
    }
    if parsed.None? {
      return Responded(Reply("reminder/set.format"));
    }
    if parsed.value < now {
      return Responded(Reply("reminder/set.past"));
    }
    var payload := EncodeReminder(ReminderPayload(channelId, message));
    if createFailure.Some? {
      return Failed(createFailure.value);
    }
    var task := tasks.Insert(guildId, userId, Reminder, parsed.value, payload);
    r := Responded(ReplyWith("reminder/set.success",
                             map["time" := TimestampMarkup(parsed.value), "id" := Decimal(task.id)], false));
  }

  /** The rows the cancel's delete conditions select: this id, this guild, a reminder. */
  predicate Cancels(t: ScheduledTask, id: nat, guildId: string)
  {
    t.id == id && t.guildId == guildId && t.taskType == Reminder
  }

  function WithoutCancelled(rows: seq<ScheduledTask>, id: nat, guildId: string): (r: seq<ScheduledTask>)
    ensures forall x :: x in r <==> x in rows && !Cancels(x, id, guildId)
  {
    if |rows| == 0 then []
    else (if Cancels(rows[0], id, guildId) then [] else [rows[0]]) + WithoutCancelled(rows[1..], id, guildId)
  }

  /** reminder cancel as written. The task handed to the delete carries this guild and the
      reminder type, but the ORM deletes a value by its primary key alone, so whatever
      scheduled task has this id is deleted: another guild's reminder, a birthday or a
      role removal. Such a delete never reports a missing record, so every cancel that
      runs answers success, whether or not anything was deleted. A zero id leaves no
      condition and the ORM's error is returned. */
  method CancelReminderAsWritten(tasks: TaskTable, guildId: string, id: nat, failure: Option<string>)
    returns (r: HandlerResult)
    requires tasks.Valid()
    modifies tasks
    ensures tasks.Valid() && tasks.nextId == old(tasks.nextId)
    ensures id == 0 ==> r == Failed(MissingWhereClause) && tasks.rows == old(tasks.rows)
    ensures id != 0 && failure.Some? ==> r == Failed(failure.value) && tasks.rows == old(tasks.rows)
    ensures id != 0 && failure.None? ==>
      r == Responded(Reply("reminder/clear.success")) && tasks.rows == WithoutId(old(tasks.rows), id)
    ensures id != 0 && failure.None? && (forall x :: x in old(tasks.rows) ==> x.id != id) ==>
      r == Responded(Reply("reminder/clear.success")) && tasks.rows == old(tasks.rows)
  {
    if forall x :: x in tasks.rows ==> x.id != id {
      WithoutAbsentId(tasks.rows, id);
    }
    var deleted := tasks.DeleteById(id, failure);
    if deleted.Failure? {
      return Failed(deleted.error);
    }
    r := Responded(Reply("reminder/clear.success"));
  }

  /** A task of another guild, or one that is not a reminder, is deleted by the cancel as
      written, while the cancel its conditions describe keeps it. */
  lemma CancelAsWrittenTakesAnyTask(t: ScheduledTask, guildId: string)
    requires t.id != 0 && (t.guildId != guildId || t.taskType != Reminder)
    ensures WithoutId([t], t.id) == []
    ensures WithoutCancelled([t], t.id, guildId) == [t]
  {
    assert [t][1..] == [];
  }

  /** reminder cancel with the delete conditions it evidently means: only the reminder of
      this guild with this id is deleted; a delete that matches no row answers "missing";
      a storage failure is returned. Another guild's reminder, or another kind of task
      with the same id, is kept. */
  method CancelReminder(tasks: TaskTable, guildId: string, id: nat, failure: Option<string>)
    returns (r: HandlerResult)
    requires tasks.Valid()
    modifies tasks
    ensures tasks.Valid() && tasks.nextId == old(tasks.nextId)
    ensures failure.Some? ==> r == Failed(failure.value) && tasks.rows == old(tasks.rows)
    ensures failure.None? && (forall x :: x in old(tasks.rows) ==> !Cancels(x, id, guildId)) ==>
      r == Responded(Reply("reminder/cancel.missing")) && tasks.rows == old(tasks.rows)
    ensures failure.None? && (exists x :: x in old(tasks.rows) && Cancels(x, id, guildId)) ==>
      r == Responded(Reply("reminder/clear.success")) &&
      tasks.rows == WithoutCancelled(old(tasks.rows), id, guildId)
    ensures forall x :: x in old(tasks.rows) && !Cancels(x, id, guildId) ==> x in tasks.rows
  {
    if failure.Some? {
      return Failed(failure.value);
    }
    var kept := WithoutCancelled(tasks.rows, id, guildId);
    NothingCancelled(tasks.rows, id, guildId);
    if |kept| == |tasks.rows| {
      return Responded(Reply("reminder/cancel.missing"));
    }
    tasks.rows := kept;
    r := Responded(Reply("reminder/clear.success"));
  }

  /** The delete removed nothing exactly when nothing matched. */
  lemma {:induction false} NothingCancelled(rows: seq<ScheduledTask>, id: nat, guildId: string)
    ensures |WithoutCancelled(rows, id, guildId)| <= |rows|
    ensures |WithoutCancelled(rows, id, guildId)| == |rows| <==> forall x :: x in rows ==> !Cancels(x, id, guildId)
  {
    if |rows| > 0 {
      NothingCancelled(rows[1..], id, guildId);
      assert forall x :: x in rows <==> x == rows[0] || x in rows[1..];
    }
  }

  /** The list filter: the guild's reminders whose payload has the key "ChannelID" equal to
      the channel. Reminders are stored with the key "channel", so this key is looked up in
      vain for them. */
  predicate Listed(t: ScheduledTask, guildId: string, channelId: string)
  {
    && t.guildId == guildId && t.taskType == Reminder
    && t.payload.Object? && "ChannelID" in t.payload.fields && t.payload.fields["ChannelID"] == channelId
  }

  function Candidates(rows: seq<ScheduledTask>, guildId: string, channelId: string): (r: seq<ScheduledTask>)
    ensures forall x :: x in r <==> x in rows && Listed(x, guildId, channelId)
  {
    if |rows| == 0 then []
    else (if Listed(rows[0], guildId, channelId) then [rows[0]] else []) + Candidates(rows[1..], guildId, channelId)
  }

  /** Ordered by process_after. */
  predicate ByTime(s: seq<ScheduledTask>)
  {
    forall i, j :: 0 <= i < j < |s| ==> s[i].processAfter <= s[j].processAfter
  }

  /** No row is earlier than `t`. */
  predicate NotBefore(t: int, s: seq<ScheduledTask>)
  {
    forall y :: y in s ==> t <= y.processAfter
  }

  function InsertByTime(x: ScheduledTask, s: seq<ScheduledTask>): (r: seq<ScheduledTask>)
    requires ByTime(s)
    ensures |r| == |s| + 1 && multiset(r) == multiset(s) + multiset{x}
    ensures ByTime(r)
  {
    if |s| == 0 then [x]
    else if x.processAfter <= s[0].processAfter then
      assert NotBefore(x.processAfter, s);
      [x] + s
    else
      var rest := InsertByTime(x, s[1..]);
      InsertAfterHead(x, s, rest);
      [s[0]] + rest
  }

  /** Putting back a head no later than anything in `s[1..]` or than `x`. */
  lemma InsertAfterHead(x: ScheduledTask, s: seq<ScheduledTask>, rest: seq<ScheduledTask>)
    requires |s| > 0 && ByTime(s) && s[0].processAfter < x.processAfter
    requires ByTime(rest) && multiset(rest) == multiset(s[1..]) + multiset{x}
    ensures ByTime([s[0]] + rest)
    ensures multiset([s[0]] + rest) == multiset(s) + multiset{x}
  {
    assert s == [s[0]] + s[1..];
    forall y | y in rest ensures s[0].processAfter <= y.processAfter {
      assert y in multiset(rest);
      assert y == x || y in s[1..];
    }
    var r := [s[0]] + rest;
    forall i, j | 0 <= i < j < |r| ensures r[i].processAfter <= r[j].processAfter {
      assert r[j] == rest[j - 1];
      if i > 0 {
        assert r[i] == rest[i - 1];
      } else {
        assert rest[j - 1] in rest;
      }
    }
  }

  /** The ORDER BY: the rows sorted by process_after, keeping table order among equal times. */
  function SortByTime(s: seq<ScheduledTask>): (r: seq<ScheduledTask>)
    ensures ByTime(r) && multiset(r) == multiset(s)
  {
    if |s| == 0 then []
    else
      assert s == [s[0]] + s[1..];
      InsertByTime(s[0], SortByTime(s[1..]))
  }

  /** The answer to reminder list: the query's error, "empty", or an embed with at most ten
      fields and the "has more" footer key when an eleventh row came back. */
  datatype ListReply = ListFailed(error: string) | ListEmpty | ListEmbed(fields: seq<EmbedField>, footer: Option<string>)

  /** One field: "[#id] name" over the reminder's reason; a payload that does not decode
      gives an empty reason, a member that cannot be fetched the name "Unknown User". */
  function ReminderField(t: ScheduledTask, names: map<string, string>): (f: EmbedField)
    ensures DecodeReminder(t.payload).Failure? ==> f.value == ""
    ensures DecodeReminder(t.payload).Success? ==> f.value == DecodeReminder(t.payload).value.reason
  {
    var reason := match DecodeReminder(t.payload) case Success(p) => p.reason case Failure(_) => "";
    var userName := if t.userId in names then names[t.userId] else "Unknown User";
    EmbedField("[#" + Decimal(t.id) + "] " + userName, reason)
  }

  function ReminderFields(ts: seq<ScheduledTask>, names: map<string, string>): (fs: seq<EmbedField>)
    ensures |fs| == |ts|
    ensures forall i :: 0 <= i < |ts| ==> fs[i] == ReminderField(ts[i], names)
  {
    if |ts| == 0 then [] else [ReminderField(ts[0], names)] + ReminderFields(ts[1..], names)
  }

  /** The query: the candidates in time order, at most eleven of them. */
  function Fetch(rows: seq<ScheduledTask>, guildId: string, channelId: string): (r: seq<ScheduledTask>)
    ensures |r| <= 11 && ByTime(r)
    ensures forall x :: x in r ==> x in rows && Listed(x, guildId, channelId)
  {
    var sorted := SortByTime(Candidates(rows, guildId, channelId));
    assert forall x :: x in sorted ==> x in multiset(sorted);
    if |sorted| <= 11 then sorted
    else
      assert forall x :: x in sorted[..11] ==> x in sorted;
      sorted[..11]
  }

  /** reminder list. */
  function ListReminders(rows: seq<ScheduledTask>, guildId: string, channelId: string, names: map<string, string>,
                         failure: Option<string>): (r: ListReply)
    ensures failure.Some? ==> r == ListFailed(failure.value)
    ensures failure.None? ==> !r.ListFailed?
  {
    if failure.Some? then ListFailed(failure.value) else Page(Fetch(rows, guildId, channelId), names)
  }

  /** The reply built from the rows the query fetched. */
  function Page(fetched: seq<ScheduledTask>, names: map<string, string>): (r: ListReply)
    ensures !r.ListFailed?
    ensures r.ListEmpty? <==> |fetched| == 0
    ensures r.ListEmbed? ==>
      && |r.fields| == (if |fetched| > 10 then 10 else |fetched|)
      && (r.footer.Some? <==> |fetched| > 10)
  {
    if |fetched| == 0 then ListEmpty
    else ListEmbed(ReminderFields(if |fetched| > 10 then fetched[..10] else fetched, names),
                   if |fetched| > 10 then Some("reminders/list.hasMore") else None)
  }

  /** What the list shows: nothing but the error on a failure; "empty" exactly when no row
      passes the filter; otherwise the first ten passing rows in time order, each row shown
      no later than any passing row left out, and the footer exactly when more than ten
      rows pass. */
  lemma ListShowsEarliest(rows: seq<ScheduledTask>, guildId: string, channelId: string,
                           names: map<string, string>)
    ensures ListReminders(rows, guildId, channelId, names, None) == ListEmpty
        <==> forall x :: x in rows ==> !Listed(x, guildId, channelId)
    ensures ShowsFirstTen(ListReminders(rows, guildId, channelId, names, None),
                          SortByTime(Candidates(rows, guildId, channelId)), names)
  {
    var cands := Candidates(rows, guildId, channelId);
    var all := SortByTime(cands);
    SortKeepsRows(cands);
    NoneListedIffEmpty(rows, guildId, channelId);
    assert Fetch(rows, guildId, channelId) == if |all| <= 11 then all else all[..11];
    PageShowsFirstTen(all, names);
  }

  /** An embed reply shows the first ten of `all` (or all of them), none of them later
      than a row left out, with the footer exactly when rows were left out. */
  predicate ShowsFirstTen(r: ListReply, all: seq<ScheduledTask>, names: map<string, string>)
  {
      r.ListEmbed? ==>
        && |r.fields| == (if |all| > 10 then 10 else |all|)
        && (r.footer.Some? <==> |all| > 10)
        && (forall i :: 0 <= i < |r.fields| ==> r.fields[i] == ReminderField(all[i], names))
        && (forall i, j :: 0 <= i < |r.fields| <= j < |all| ==> all[i].processAfter <= all[j].processAfter)
  }

  /** The page of an ordered result shows its first ten rows, none later than a row left out. */
  lemma PageShowsFirstTen(all: seq<ScheduledTask>, names: map<string, string>)
    requires ByTime(all)
    ensures ShowsFirstTen(Page(if |all| <= 11 then all else all[..11], names), all, names)
  {
    var fetched := if |all| <= 11 then all else all[..11];
    if |all| > 0 {
      var shown := if |fetched| > 10 then fetched[..10] else fetched;
      assert |shown| == (if |all| > 10 then 10 else |all|);
      assert forall i :: 0 <= i < |shown| ==> shown[i] == all[i];
    }
  }

  /** Sorting keeps the number of rows and which rows there are. */
  lemma SortKeepsRows(s: seq<ScheduledTask>)
    ensures |SortByTime(s)| == |s|
    ensures forall x :: x in SortByTime(s) <==> x in s
  {
    var r := SortByTime(s);
    assert |multiset(r)| == |multiset(s)|;
    forall x ensures x in r <==> x in s {
      assert x in r <==> x in multiset(r);
      assert x in s <==> x in multiset(s);
    }
  }

  lemma NoneListedIffEmpty(rows: seq<ScheduledTask>, guildId: string, channelId: string)
    ensures |Candidates(rows, guildId, channelId)| == 0 <==> forall x :: x in rows ==> !Listed(x, guildId, channelId)
  {
    var cands := Candidates(rows, guildId, channelId);
    if |cands| > 0 {
      assert cands[0] in cands;
    }
  }

  /** Every reminder that set stores carries the key "channel", never "ChannelID": list
      never shows it, whatever the guild and channel. */
  lemma StoredRemindersAreNotListed(id: nat, guildId: string, userId: string, when: int, p: ReminderPayload,
                                    channelId: string)
    ensures !Listed(ScheduledTask(id, guildId, userId, Reminder, when, EncodeReminder(p)), guildId, channelId)
  {
  }

  /** So a guild whose tasks were all stored by set, as reminders, birthdays or role
      removals, always lists as empty. */
  lemma {:induction false} ListOfStoredRemindersIsEmpty(rows: seq<ScheduledTask>, guildId: string, channelId: string,
                                                        names: map<string, string>)
    requires forall x :: x in rows && x.taskType == Reminder ==>
      exists p :: x.payload == EncodeReminder(p)
    ensures ListReminders(rows, guildId, channelId, names, None) == ListEmpty
  {
    forall x | x in rows ensures !Listed(x, guildId, channelId) {
      if x.taskType == Reminder {
        var p :| x.payload == EncodeReminder(p);
        StoredRemindersAreNotListed(x.id, x.guildId, x.userId, x.processAfter, p, channelId);
      }
    }
    ListShowsEarliest(rows, guildId, channelId, names);
  }
}

=== FILE: role_metrics.dfy ===
/** The message metrics behind the regulars role (internal/events/roles.go): every message
    of a member without the role is counted, with the distinct days of activity, and the
    role may then be granted automatically. */
module RoleMetrics {
  import opened Wrappers
  import opened Models
  import opened Discord
  import opened Commands
  import Calendar
  import Roles

  /** The row written for a member's first counted message. */
  function FirstMetric(guildId: string, userId: string, now: int): (m: MessageMetric)
    ensures m.messageCount == 1 && m.distinctDays == 1 && m.lastDistinctDayBoundary == now
  {
    MessageMetric(guildId, userId, 1, 1, now)
  }

  /** The conflict update of a stored row: one more message; one more distinct day, with
      the boundary moved to now, only when the stored boundary is more than a day old. */
  function Bump(m: MessageMetric, now: int): (n: MessageMetric)
    ensures n.guildId == m.guildId && n.userId == m.userId
    ensures n.messageCount == m.messageCount + 1
    ensures m.lastDistinctDayBoundary < now - Calendar.SecondsPerDay ==>
      n.distinctDays == m.distinctDays + 1 && n.lastDistinctDayBoundary == now
    ensures m.lastDistinctDayBoundary >= now - Calendar.SecondsPerDay ==>
      n.distinctDays == m.distinctDays && n.lastDistinctDayBoundary == m.lastDistinctDayBoundary
  {
    var newDay := m.lastDistinctDayBoundary < now - Calendar.SecondsPerDay;
    m.(messageCount := m.messageCount + 1,
       distinctDays := if newDay then m.distinctDays + 1 else m.distinctDays,
       lastDistinctDayBoundary := if newDay then now else m.lastDistinctDayBoundary)
  }

  /** The upsert: a failed statement changes nothing. */
  method RecordMessage(metrics: MetricTable, guildId: string, userId: string, now: int, failure: Option<string>)
    requires metrics.Valid()
    modifies metrics
    ensures metrics.Valid()
    ensures failure.Some? ==> metrics.rows == old(metrics.rows)
    ensures failure.None? && (guildId, userId) in old(metrics.rows) ==>
      metrics.rows == old(metrics.rows)[(guildId, userId) := Bump(old(metrics.rows)[(guildId, userId)], now)]
    ensures failure.None? && (guildId, userId) !in old(metrics.rows) ==>
      metrics.rows == old(metrics.rows)[(guildId, userId) := FirstMetric(guildId, userId, now)]
  {
    if failure.Some? {
      return;
    }
    var key := (guildId, userId);
    if key in metrics.rows {
      metrics.rows := metrics.rows[key := Bump(metrics.rows[key], now)];
    } else {
      metrics.rows := metrics.rows[key := FirstMetric(guildId, userId, now)];
    }
  }

  /** The row of one member after messages at the given times, from no row. */
  function Replay(guildId: string, userId: string, found: Option<MessageMetric>, times: seq<int>): (m: Option<MessageMetric>)
    ensures |times| > 0 ==> m.Some?
  {
    if |times| == 0 then found
    else
      var prev := Replay(guildId, userId, found, times[..|times| - 1]);
      var now := times[|times| - 1];
      Some(if prev.Some? then Bump(prev.value, now) else FirstMetric(guildId, userId, now))
  }

  /** From no row, the count is the number of messages, at least one distinct day is
      recorded, and never more distinct days than messages. */
  lemma {:induction false} ReplayCounts(guildId: string, userId: string, times: seq<int>)
    requires |times| > 0
    ensures var m := Replay(guildId, userId, None, times).value;
      m.messageCount == |times| && 1 <= m.distinctDays <= m.messageCount
  {
    if |times| > 1 {
      ReplayCounts(guildId, userId, times[..|times| - 1]);
    }
  }

  /** Messages less than a day after the boundary add no distinct day. */
  lemma {:induction false} SameDayAddsNoDay(m: MessageMetric, times: seq<int>)
    requires forall i :: 0 <= i < |times| ==> times[i] <= m.lastDistinctDayBoundary + Calendar.SecondsPerDay
    ensures var r := Replay(m.guildId, m.userId, Some(m), times).value;
      r.distinctDays == m.distinctDays && r.messageCount == m.messageCount + |times|
      && r.lastDistinctDayBoundary == m.lastDistinctDayBoundary
  {
    if |times| > 0 {
      SameDayAddsNoDay(m, times[..|times| - 1]);
    }
  }

  /** The author of a message. */
  datatype Author = Author(id: string, bot: bool)

  /** roleMessageMetricsHandler: nothing is recorded when the regulars role is unset, the
      message has no member, the author is a bot or already holds the role; otherwise the
      message is counted, and only when automatic assignment is on is the role attempted,
      on the table as counted. The result is the attempt's response and whether the role was
      added. */
  method RoleMessageMetrics(metrics: MetricTable, guildId: string, author: Author, member: Option<Member>,
                            s: Roles.RegularsSettings, autoAssign: bool, now: int, upsertFailure: Option<string>,
                            metricFailure: Option<string>, roleAddOk: bool)
    returns (attempt: Option<(Response, bool)>)
    requires metrics.Valid()
    requires member.Some? ==> member.value.joinedAt <= now
    modifies metrics
    ensures metrics.Valid()
    ensures !Roles.RoleSet(s.roleId) || member.None? || author.bot || s.roleId.value in member.value.roles ==>
      attempt.None? && metrics.rows == old(metrics.rows)
    ensures attempt.Some? ==> autoAssign
    ensures !autoAssign ==> attempt.None?
    ensures Roles.RoleSet(s.roleId) && member.Some? && !author.bot && s.roleId.value !in member.value.roles ==>
      var counted := Counted(old(metrics.rows), guildId, author.id, now, upsertFailure);
      && (!autoAssign ==> metrics.rows == counted)
      && (autoAssign ==> attempt.Some? && (metrics.rows == counted || metrics.rows == counted - {(guildId, author.id)}))
    ensures Roles.RoleSet(s.roleId) && member.Some? && !author.bot && s.roleId.value !in member.value.roles && autoAssign ==>
      var counted := Counted(old(metrics.rows), guildId, author.id, now, upsertFailure);
      var v := Roles.RegularsCheck(s, member.value.(userId := author.id), now,
                                   Roles.MetricLookup(counted, guildId, author.id, metricFailure));
      && (v.RegularsRefused? ==> attempt == Some((v.response, false)) && metrics.rows == counted)
      && (v.RegularsGranted? && !roleAddOk ==> attempt == Some((Reply("roles.error"), false)) && metrics.rows == counted)
      && (v.RegularsGranted? && roleAddOk ==>
            && attempt == Some((ReplyWith("roles.regulars.success", map["target" := Mention(author.id)], false), true))
            && metrics.rows == counted - {(guildId, author.id)})
  {
    if !Roles.RoleSet(s.roleId) {
      return None;
    }
    if member.None? || author.bot {
      return None;
    }
    if s.roleId.value in member.value.roles {
      return None;
    }
    RecordMessage(metrics, guildId, author.id, now, upsertFailure);
    if !autoAssign {
      return None;
    }
    var asAuthor := member.value.(userId := author.id);
    var response, added := Roles.TryAssignRegularsRole(metrics, guildId, asAuthor, s, now, metricFailure, roleAddOk);
    attempt := Some((response, added));
  }

  /** The table after the upsert. */
  function Counted(rows: map<(string, string), MessageMetric>, guildId: string, userId: string, now: int,
                   failure: Option<string>): (r: map<(string, string), MessageMetric>)
    ensures failure.Some? ==> r == rows
    ensures failure.None? ==> r.Keys == rows.Keys + {(guildId, userId)}
    ensures forall k :: k in rows && k != (guildId, userId) ==> k in r && r[k] == rows[k]
  {
    if failure.Some? then rows
    else if (guildId, userId) in rows then rows[(guildId, userId) := Bump(rows[(guildId, userId)], now)]
    else rows[(guildId, userId) := FirstMetric(guildId, userId, now)]
  }
}

=== FILE: roles.dfy ===
/** The role commands (internal/commands/roles.go): the temporary role, which a later
    scheduled task takes back, and the regulars role, granted when a member has been in
    the guild, written and been active long enough.

    Settings come in as the results of reading them: a role id read as a Result whose
    failure is the read error, and the numeric thresholds as their decoded value, which is
    zero when the read fails. The platform's answers (fetching the target, adding a role)
    are inputs. */
module Roles {
  import opened Wrappers
  import opened Models
  import opened Discord
  import opened Commands
  import I18n
  import Calendar
  import Scheduled

  /** What the checks of the temporary-role command decide. */
  datatype TempVerdict = TempRefused(key: string) | TempGranted(roleId: string, expires: int)

  /** The role id setting is usable: read without error and not empty. */
  predicate RoleSet(roleSetting: Result<string, string>)
  {
    roleSetting.Success? && roleSetting.value != ""
  }

  /** The checks of assignTempRole, in their order: self-target, a caller without the
      Manage Messages permission, the role unset or empty, the duration unset, the target
      not fetched, the target already holding the role. The expiry is `duration` minutes
      after now. */
  function TempRoleCheck(invoker: Member, targetId: string, roleSetting: Result<string, string>,
                         duration: Result<nat, string>, target: Result<Member, string>, now: int): (v: TempVerdict)
    ensures targetId == invoker.userId ==> v == TempRefused("roles.self")
    ensures targetId != invoker.userId && !IsModerator(invoker.permissions) ==> v == TempRefused("roles.notMod")
    ensures targetId != invoker.userId && IsModerator(invoker.permissions) && (!RoleSet(roleSetting) || duration.Failure?) ==>
      v == TempRefused("roles.notAvailable")
    ensures targetId != invoker.userId && IsModerator(invoker.permissions) && RoleSet(roleSetting) && duration.Success? ==>
      && (target.Failure? ==> v == TempRefused("roles.error"))
      && (target.Success? && roleSetting.value in target.value.roles ==> v == TempRefused("roles.alreadyHasRole"))
    ensures v.TempGranted? <==>
      && targetId != invoker.userId && IsModerator(invoker.permissions) && RoleSet(roleSetting) && duration.Success?
      && target.Success? && roleSetting.value !in target.value.roles
    ensures v.TempGranted? ==> v.roleId == roleSetting.value && v.expires == now + duration.value * 60
  {
    if targetId == invoker.userId then TempRefused("roles.self")
    else if !IsModerator(invoker.permissions) then TempRefused("roles.notMod")
    else if !RoleSet(roleSetting) then TempRefused("roles.notAvailable")
    else if duration.Failure? then TempRefused("roles.notAvailable")
    else
      var expires := now + duration.value * 60;
      if target.Failure? then TempRefused("roles.error")
      else if roleSetting.value in target.value.roles then TempRefused("roles.alreadyHasRole")
      else TempGranted(roleSetting.value, expires)
  }

  /** The role-removal task the temporary-role command stores. */
  function RemovalTask(id: nat, guildId: string, targetId: string, roleId: string, expires: int): ScheduledTask
  {
    ScheduledTask(id, guildId, targetId, RemoveRole, expires, EncodeRemoveRole(RemoveRolePayload(roleId)))
  }

  /** assignTempRole: after the checks, the role is added; only if that succeeds is a
      role-removal task stored for the expiry, and only if the task is stored is success
      reported. `roleAdded` says whether the target was given the role. */
  method AssignTempRole(tasks: TaskTable, guildId: string, invoker: Member, targetId: string,
                        roleSetting: Result<string, string>, duration: Result<nat, string>,
                        target: Result<Member, string>, now: int, roleAddOk: bool, createFailure: Option<string>)
    returns (r: HandlerResult, roleAdded: bool)
    requires tasks.Valid()
    modifies tasks
    ensures tasks.Valid()
    ensures var v := TempRoleCheck(invoker, targetId, roleSetting, duration, target, now);
      && (v.TempRefused? ==> r == Responded(Reply(v.key)) && !roleAdded && tasks.rows == old(tasks.rows))
      && (v.TempGranted? && !roleAddOk ==> r == Responded(Reply("roles.error")) && !roleAdded && tasks.rows == old(tasks.rows))
      && (v.TempGranted? && roleAddOk && createFailure.Some? ==>
            roleAdded && r == Failed(createFailure.value) && tasks.rows == old(tasks.rows))
      && (v.TempGranted? && roleAddOk && createFailure.None? ==>
            && roleAdded
            && tasks.rows == old(tasks.rows) + [RemovalTask(old(tasks.nextId), guildId, targetId, v.roleId, v.expires)]
            && r == Responded(ReplyWith("roles.temp.success",
                                        map["target" := Mention(target.value.userId),
                                            "expires" := "<t:" + Signed(v.expires) + ":f>"], false)))
  {
    var v := TempRoleCheck(invoker, targetId, roleSetting, duration, target, now);
    roleAdded := false;
    if v.TempRefused? {
      return Responded(Reply(v.key)), false;
    }
    if !roleAddOk {
      return Responded(Reply("roles.error")), false;
    }
    roleAdded := true;
    if createFailure.Some? {
      return Failed(createFailure.value), true;
    }
    var task := tasks.Insert(guildId, targetId, RemoveRole, v.expires, EncodeRemoveRole(RemoveRolePayload(v.roleId)));
    r := Responded(ReplyWith("roles.temp.success",
                             map["target" := Mention(target.value.userId),
                                 "expires" := "<t:" + Signed(v.expires) + ":f>"], false));
  }

  /** The stored removal task is claimed by the first tick after the expiry, not before,
      and its handler takes exactly that role from that member. */
  lemma TempRoleIsTakenBack(t: I18n.Tables, id: nat, guildId: string, targetId: string, roleId: string, expires: int,
                            now: int, inp: Scheduled.TaskInputs, serverOffset: int)
    requires Scheduled.TaskInfoOf(inp).Some?
    ensures var task := RemovalTask(id, guildId, targetId, roleId, expires);
      && (task in Scheduled.DueTasks([task], now) <==> expires < now)
      && Scheduled.Process(t, task, inp, serverOffset).actions == [Scheduled.RemoveMemberRole(guildId, targetId, roleId)]
  {
    PayloadRoundTrips(ReminderPayload("", ""), RemoveRolePayload(roleId));
  }

  /** The regulars settings: the role id as read, and the three thresholds (zero when
      unset). */
  datatype RegularsSettings = RegularsSettings(roleId: Result<string, string>, minMessages: nat,
                                               minDaysJoined: nat, minDaysActive: nat)

  datatype RegularsVerdict = RegularsRefused(response: Response) | RegularsGranted(roleId: string)

  /** Whole days since joining, rounded down. */
  function DaysJoined(joinedAt: int, now: int): (days: nat)
    requires joinedAt <= now
    ensures days * Calendar.SecondsPerDay <= now - joinedAt < (days + 1) * Calendar.SecondsPerDay
  {
    (now - joinedAt) / Calendar.SecondsPerDay
  }

  /** The metric row of a member: found, absent, or the storage error. */
  function MetricLookup(rows: map<(string, string), MessageMetric>, guildId: string, userId: string,
                        failure: Option<string>): (r: Result<Option<MessageMetric>, string>)
    ensures failure.Some? ==> r == Failure(failure.value)
    ensures failure.None? ==> r == Success(if (guildId, userId) in rows then Some(rows[(guildId, userId)]) else None)
  {
    if failure.Some? then Failure(failure.value)
    else if (guildId, userId) in rows then Success(Some(rows[(guildId, userId)]))
    else Success(None)
  }

  /** The message count and distinct days of a looked-up row; a missing row counts as
      zero of both. */
  function Counts(found: Option<MessageMetric>): (c: (nat, nat))
    ensures found.None? ==> c == (0, 0)
    ensures found.Some? ==> c == (found.value.messageCount, found.value.distinctDays)
  {
    match found
    case None => (0, 0)
    case Some(m) => (m.messageCount, m.distinctDays)
  }

  /** The chain of TryAssignRegularsRole up to the role add; it stops at the first
      failure, in the order role unset, no threshold, role already held, too few days
      joined, a storage error, too few messages, too few active days. The join-time
      refusal shows the days joined; the message and active-day refusals show the required
      minimum. */
  function RegularsCheck(s: RegularsSettings, member: Member, now: int,
                         metric: Result<Option<MessageMetric>, string>): (v: RegularsVerdict)
    requires member.joinedAt <= now
    ensures !RoleSet(s.roleId) ==> v == RegularsRefused(Reply("roles.notAvailable"))
    ensures RoleSet(s.roleId) && s.minMessages == 0 && s.minDaysJoined == 0 && s.minDaysActive == 0 ==>
      v == RegularsRefused(Reply("roles.notAvailable"))
    ensures RoleSet(s.roleId) && (s.minMessages > 0 || s.minDaysJoined > 0 || s.minDaysActive > 0) ==>
      && (s.roleId.value in member.roles ==> v == RegularsRefused(Reply("roles.alreadyHasRole")))
      && (s.roleId.value !in member.roles ==>
            var days := DaysJoined(member.joinedAt, now);
            && (days < s.minDaysJoined ==>
                  v == RegularsRefused(ReplyWith("roles.regulars.joinTimeNotMet",
                                                 map["target" := MemberMention(member.userId), "value" := Decimal(days)], false)))
            && (days >= s.minDaysJoined && metric.Failure? ==> v == RegularsRefused(Reply("roles.error")))
            && (days >= s.minDaysJoined && metric.Success? && Counts(metric.value).0 < s.minMessages ==>
                  v == RegularsRefused(ReplyWith("roles.regulars.messageCountNotMet",
                                                 map["target" := Mention(member.userId), "value" := Decimal(s.minMessages)], false)))
            && (days >= s.minDaysJoined && metric.Success? && Counts(metric.value).0 >= s.minMessages
                && Counts(metric.value).1 < s.minDaysActive ==>
                  v == RegularsRefused(ReplyWith("roles.regulars.distinctDaysNotMet",
                                                 map["target" := Mention(member.userId), "value" := Decimal(s.minDaysActive)], false))))
    ensures v.RegularsGranted? <==>
      && RoleSet(s.roleId)
      && (s.minMessages > 0 || s.minDaysJoined > 0 || s.minDaysActive > 0)
      && s.roleId.value !in member.roles
      && DaysJoined(member.joinedAt, now) >= s.minDaysJoined
      && metric.Success?
      && Counts(metric.value).0 >= s.minMessages
      && Counts(metric.value).1 >= s.minDaysActive
    ensures v.RegularsGranted? ==> v.roleId == s.roleId.value
  {
    if !RoleSet(s.roleId) then RegularsRefused(Reply("roles.notAvailable"))
    else if s.minMessages == 0 && s.minDaysJoined == 0 && s.minDaysActive == 0 then
      RegularsRefused(Reply("roles.notAvailable"))
    else if s.roleId.value in member.roles then RegularsRefused(Reply("roles.alreadyHasRole"))
    else
      var days := DaysJoined(member.joinedAt, now);
      if days < s.minDaysJoined then
        RegularsRefused(ReplyWith("roles.regulars.joinTimeNotMet",
                                  map["target" := MemberMention(member.userId), "value" := Decimal(days)], false))
      else if metric.Failure? then RegularsRefused(Reply("roles.error"))
      else
        var (messages, activeDays) := Counts(metric.value);
        if messages < s.minMessages then
          RegularsRefused(ReplyWith("roles.regulars.messageCountNotMet",
                                    map["target" := Mention(member.userId), "value" := Decimal(s.minMessages)], false))
        else if activeDays < s.minDaysActive then
          RegularsRefused(ReplyWith("roles.regulars.distinctDaysNotMet",
                                    map["target" := Mention(member.userId), "value" := Decimal(s.minDaysActive)], false))
        else RegularsGranted(s.roleId.value)
  }

  /** A member who has long held the role is still told so rather than refused for
      thresholds: the held-role check comes before the counts. */
  lemma HeldRoleBeatsThresholds(s: RegularsSettings, member: Member, now: int, metric: Result<Option<MessageMetric>, string>)
    requires member.joinedAt <= now
    requires RoleSet(s.roleId) && s.minMessages > 0 && s.roleId.value in member.roles
    ensures RegularsCheck(s, member, now, metric) == RegularsRefused(Reply("roles.alreadyHasRole"))
  {
  }

  /** A member with no metric row is refused for messages whenever a message minimum is
      set, as if the member had written nothing. */
  lemma MissingMetricCountsAsZero(s: RegularsSettings, member: Member, now: int)
    requires member.joinedAt <= now
    requires RoleSet(s.roleId) && s.minMessages > 0 && s.roleId.value !in member.roles
    requires DaysJoined(member.joinedAt, now) >= s.minDaysJoined
    ensures RegularsCheck(s, member, now, Success(None)).response.key == "roles.regulars.messageCountNotMet"
  {
  }

  /** TryAssignRegularsRole: after the checks the role is added; success is reported only
      if that works, and then the member's metric row is deleted. `metricFailure` is a
      storage fault other than a missing row. */
  method TryAssignRegularsRole(metrics: MetricTable, guildId: string, member: Member, s: RegularsSettings, now: int,
                               metricFailure: Option<string>, roleAddOk: bool)
    returns (response: Response, roleAdded: bool)
    requires metrics.Valid() && member.joinedAt <= now
    modifies metrics
    ensures metrics.Valid()
    ensures var v := RegularsCheck(s, member, now, MetricLookup(old(metrics.rows), guildId, member.userId, metricFailure));
      && (v.RegularsRefused? ==> response == v.response && !roleAdded && metrics.rows == old(metrics.rows))
      && (v.RegularsGranted? && !roleAddOk ==> response == Reply("roles.error") && !roleAdded && metrics.rows == old(metrics.rows))
      && (v.RegularsGranted? && roleAddOk ==>
            && response == ReplyWith("roles.regulars.success", map["target" := Mention(member.userId)], false)
            && roleAdded && metrics.rows == old(metrics.rows) - {(guildId, member.userId)})
  {
    var v := RegularsCheck(s, member, now, MetricLookup(metrics.rows, guildId, member.userId, metricFailure));
    if v.RegularsRefused? {
      return v.response, false;
    }
    if !roleAddOk {
      return Reply("roles.error"), false;
    }
    metrics.rows := metrics.rows - {(guildId, member.userId)};
    response := ReplyWith("roles.regulars.success", map["target" := Mention(member.userId)], false);
    roleAdded := true;
  }

  /** The regulars command: the caller's permission is checked before self-target, then the
      target is fetched and the role attempted. */
  method AssignRegularsRole(metrics: MetricTable, guildId: string, invoker: Member, targetId: string,
                            target: Result<Member, string>, s: RegularsSettings, now: int,
                            metricFailure: Option<string>, roleAddOk: bool)
    returns (r: HandlerResult, roleAdded: bool)
    requires metrics.Valid()
    requires target.Success? ==> target.value.joinedAt <= now
    modifies metrics
    ensures metrics.Valid()
    ensures !IsModerator(invoker.permissions) ==> r == Responded(Reply("roles.notMod")) && !roleAdded && metrics.rows == old(metrics.rows)
    ensures IsModerator(invoker.permissions) && targetId == invoker.userId ==>
      r == Responded(Reply("roles.self")) && !roleAdded && metrics.rows == old(metrics.rows)
    ensures IsModerator(invoker.permissions) && targetId != invoker.userId && target.Failure? ==>
      r == Responded(Reply("roles.error")) && !roleAdded && metrics.rows == old(metrics.rows)
    ensures IsModerator(invoker.permissions) && targetId != invoker.userId && target.Success? ==>
      var member := target.value;
      var v := RegularsCheck(s, member, now, MetricLookup(old(metrics.rows), guildId, member.userId, metricFailure));
      && (v.RegularsRefused? ==> r == Responded(v.response) && !roleAdded && metrics.rows == old(metrics.rows))
      && (v.RegularsGranted? && !roleAddOk ==>
            r == Responded(Reply("roles.error")) && !roleAdded && metrics.rows == old(metrics.rows))
      && (v.RegularsGranted? && roleAddOk ==>
            && r == Responded(ReplyWith("roles.regulars.success", map["target" := Mention(member.userId)], false))
            && roleAdded && metrics.rows == old(metrics.rows) - {(guildId, member.userId)})
    ensures roleAdded ==> (
      && IsModerator(invoker.permissions) && targetId != invoker.userId && target.Success?
      && RegularsCheck(s, target.value, now, MetricLookup(old(metrics.rows), guildId, target.value.userId, metricFailure)).RegularsGranted?)
  {
    if !IsModerator(invoker.permissions) {
      return Responded(Reply("roles.notMod")), false;
    }
    if targetId == invoker.userId {
      return Responded(Reply("roles.self")), false;
    }
    if target.Failure? {
      return Responded(Reply("roles.error")), false;
    }
    var response;
    response, roleAdded := TryAssignRegularsRole(metrics, guildId, target.value, s, now, metricFailure, roleAddOk);
    r := Responded(response);
  }
}

=== FILE: scheduled.dfy ===
/** The scheduled-task tick (internal/tasks/scheduled.go).

    Every tick atomically deletes and returns the tasks due strictly before now, then hands
    each to the handler of its type. What a handler needs from the platform (is there a bot
    for the guild, can the guild and the member be fetched, does a send succeed) is an
    input; what it does is recorded as actions. The handlers run one after the other here. */
module Scheduled {
  import opened Wrappers
  import opened Models
  import opened Discord
  import I18n
  import Calendar
  import Text

  /** What a task handler learns from the platform and the configuration. `guildLocale` is
      the fetched guild's preferred locale, `member` says whether the member could be
      fetched, `birthdayChannel` is the result of reading the birthday-channel setting,
      `sendOk` whether the message send succeeds and `pick` the random choice of text. */
  datatype TaskInputs = TaskInputs(hasBot: bool, guildLocale: Option<I18n.Locale>, member: bool,
                                   birthdayChannel: Result<string, string>, sendOk: bool, pick: nat)

  /** The guild locale of a task whose bot, guild and member were all found. */
  datatype TaskInfo = TaskInfo(locale: I18n.Locale)

  /** What a handler does: a message sent with only user mentions allowed, or a role taken
      from a member. */
  datatype Action =
    | SendMessage(channelId: string, content: I18n.Reply)
    | RemoveMemberRole(guildId: string, userId: string, roleId: string)

  /** A task a handler asks to be created. */
  datatype NewTask = NewTask(guildId: string, userId: string, taskType: TaskType, processAfter: int, payload: Json)

  datatype Outcome = Outcome(actions: seq<Action>, next: Option<NewTask>)

  const Nothing: Outcome := Outcome([], None)

  /** The tasks due strictly before `now`, in table order. */
  function DueTasks(rows: seq<ScheduledTask>, now: int): (due: seq<ScheduledTask>)
    ensures forall t :: t in due <==> t in rows && t.processAfter < now
    ensures |due| <= |rows|
  {
    if |rows| == 0 then []
    else (if rows[0].processAfter < now then [rows[0]] else []) + DueTasks(rows[1..], now)
  }

  /** The tasks left in the table by the claim: those due at or after `now`. */
  function Remaining(rows: seq<ScheduledTask>, now: int): (rest: seq<ScheduledTask>)
    ensures forall t :: t in rest <==> t in rows && now <= t.processAfter
  {
    if |rows| == 0 then []
    else (if rows[0].processAfter < now then [] else [rows[0]]) + Remaining(rows[1..], now)
  }

  /** The claim splits the table: every row is either claimed or kept, none is lost or
      duplicated. */
  lemma {:induction false} ClaimPartitions(rows: seq<ScheduledTask>, now: int)
    ensures multiset(DueTasks(rows, now)) + multiset(Remaining(rows, now)) == multiset(rows)
  {
    if |rows| > 0 {
      ClaimPartitions(rows[1..], now);
      ClaimStep(rows, now);
    }
  }

  /** One row more: the claim and the rest grow by that row between them. */
  lemma ClaimStep(rows: seq<ScheduledTask>, now: int)
    requires |rows| > 0
    ensures multiset(DueTasks(rows, now)) + multiset(Remaining(rows, now))
         == multiset{rows[0]} + multiset(DueTasks(rows[1..], now)) + multiset(Remaining(rows[1..], now))
    ensures multiset(rows) == multiset{rows[0]} + multiset(rows[1..])
  {
    assert rows == [rows[0]] + rows[1..];
  }

  /** _getTaskInfo: the guild's locale when there is a bot for the guild and the guild and
      the member can be fetched, otherwise nothing. */
  function TaskInfoOf(inp: TaskInputs): (r: Option<TaskInfo>)
    ensures r.Some? <==> inp.hasBot && inp.guildLocale.Some? && inp.member
    ensures r.Some? ==> r.value.locale == inp.guildLocale.value
  {
    if !inp.hasBot then None
    else if inp.guildLocale.None? then None
    else if !inp.member then None
    else Some(TaskInfo(inp.guildLocale.value))
  }

  /** processReminder: the reminder text, naming the member and the reason, sent to the
      payload's channel. */
  function ProcessReminder(t: I18n.Tables, task: ScheduledTask, inp: TaskInputs): (o: Outcome)
    ensures o.next.None?
    ensures TaskInfoOf(inp).None? || DecodeReminder(task.payload).Failure? ==> o == Nothing
    ensures TaskInfoOf(inp).Some? && DecodeReminder(task.payload).Success? ==>
      var p := DecodeReminder(task.payload).value;
      o.actions == [SendMessage(p.channelId, I18n.Get(t, TaskInfoOf(inp).value.locale, "reminder/notif",
                                  Some(map["name" := MemberMention(task.userId), "content" := p.reason]), inp.pick))]
  {
    match TaskInfoOf(inp)
    case None => Nothing
    case Some(info) =>
      match DecodeReminder(task.payload)
      case Failure(_) => Nothing
      case Success(p) =>
        var text := I18n.Get(t, info.locale, "reminder/notif",
                             Some(map["name" := MemberMention(task.userId), "content" := p.reason]), inp.pick);
        Outcome([SendMessage(p.channelId, text)], None)
  }

  /** processBirthday: the greeting is sent to the configured birthday channel, and only
      after a successful send is the next birthday scheduled, one calendar year after this
      one in the server's zone (`serverOffset`). */
  function ProcessBirthday(t: I18n.Tables, task: ScheduledTask, inp: TaskInputs, serverOffset: int): (o: Outcome)
    ensures TaskInfoOf(inp).None? || task.payload.Malformed? || inp.birthdayChannel.Failure? ==> o == Nothing
    ensures o.next.Some? <==> TaskInfoOf(inp).Some? && task.payload.Object? && inp.birthdayChannel.Success? && inp.sendOk
    ensures o.next.Some? ==>
      && o.next.value == NewTask(task.guildId, task.userId, Birthday, Calendar.AddYear(task.processAfter, serverOffset), EmptyPayload)
      && 365 * Calendar.SecondsPerDay <= o.next.value.processAfter - task.processAfter <= 366 * Calendar.SecondsPerDay
    ensures TaskInfoOf(inp).Some? && task.payload.Object? && inp.birthdayChannel.Success? ==>
      o.actions == [SendMessage(inp.birthdayChannel.value,
                                I18n.Get(t, TaskInfoOf(inp).value.locale, "my/birthday/notif",
                                         Some(map["name" := MemberMention(task.userId)]), inp.pick))]
  {
    match TaskInfoOf(inp)
    case None => Nothing
    case Some(info) =>
      if task.payload.Malformed? then Nothing
      else match inp.birthdayChannel
        case Failure(_) => Nothing
        case Success(channelId) =>
          var text := I18n.Get(t, info.locale, "my/birthday/notif", Some(map["name" := MemberMention(task.userId)]), inp.pick);
          var sent := [SendMessage(channelId, text)];
          if !inp.sendOk then Outcome(sent, None)
          else Outcome(sent, Some(NewTask(task.guildId, task.userId, Birthday,
                                          Calendar.AddYear(task.processAfter, serverOffset), EncodeBirthday())))
  }

  /** processRemoveRole: the payload's role is taken from the task's member. */
  function ProcessRemoveRole(task: ScheduledTask, inp: TaskInputs): (o: Outcome)
    ensures o.next.None?
    ensures TaskInfoOf(inp).None? || DecodeRemoveRole(task.payload).Failure? ==> o == Nothing
    ensures TaskInfoOf(inp).Some? && DecodeRemoveRole(task.payload).Success? ==>
      o.actions == [RemoveMemberRole(task.guildId, task.userId, DecodeRemoveRole(task.payload).value.roleId)]
  {
    match TaskInfoOf(inp)
    case None => Nothing
    case Some(_) =>
      match DecodeRemoveRole(task.payload)
      case Failure(_) => Nothing
      case Success(p) => Outcome([RemoveMemberRole(task.guildId, task.userId, p.roleId)], None)
  }

  /** The dispatch by task type; an unknown type does nothing. */
  function Process(t: I18n.Tables, task: ScheduledTask, inp: TaskInputs, serverOffset: int): (o: Outcome)
    ensures task.taskType == Reminder ==> o == ProcessReminder(t, task, inp)
    ensures task.taskType == Birthday ==> o == ProcessBirthday(t, task, inp, serverOffset)
    ensures task.taskType == RemoveRole ==> o == ProcessRemoveRole(task, inp)
    ensures task.taskType > Birthday ==> o == Nothing
  {
    if task.taskType == Reminder then ProcessReminder(t, task, inp)
    else if task.taskType == Birthday then ProcessBirthday(t, task, inp, serverOffset)
    else if task.taskType == RemoveRole then ProcessRemoveRole(task, inp)
    else Nothing
  }

  /** Only a birthday task can ask for another task, and it asks for a birthday task. */
  lemma OnlyBirthdaysRecur(t: I18n.Tables, task: ScheduledTask, inp: TaskInputs, serverOffset: int)
    ensures var o := Process(t, task, inp, serverOffset);
      o.next.Some? ==> task.taskType == Birthday && o.next.value.taskType == Birthday &&
                       o.next.value.guildId == task.guildId && o.next.value.userId == task.userId
  {
  }

  /** The outcomes of processing the tasks in order, each with its own inputs. */
  function ProcessAll(t: I18n.Tables, tasks: seq<ScheduledTask>, inputs: seq<TaskInputs>, serverOffset: int): (os: seq<Outcome>)
    requires |inputs| == |tasks|
    ensures |os| == |tasks|
  {
    if |tasks| == 0 then []
    else ProcessAll(t, tasks[..|tasks| - 1], inputs[..|tasks| - 1], serverOffset)
         + [Process(t, tasks[|tasks| - 1], inputs[|tasks| - 1], serverOffset)]
  }

  /** Each task gets the outcome of its own handler, with its own inputs. */
  lemma {:induction false} ProcessAllPointwise(t: I18n.Tables, tasks: seq<ScheduledTask>, inputs: seq<TaskInputs>, serverOffset: int)
    requires |inputs| == |tasks|
    ensures forall i :: 0 <= i < |tasks| ==>
      ProcessAll(t, tasks, inputs, serverOffset)[i] == Process(t, tasks[i], inputs[i], serverOffset)
  {
    if |tasks| > 0 {
      ProcessAllPointwise(t, tasks[..|tasks| - 1], inputs[..|tasks| - 1], serverOffset);
    }
  }

  lemma ProcessAllStep(t: I18n.Tables, tasks: seq<ScheduledTask>, inputs: seq<TaskInputs>, serverOffset: int, i: nat)
    requires |inputs| == |tasks| && i < |tasks|
    ensures ProcessAll(t, tasks[..i + 1], inputs[..i + 1], serverOffset)
         == ProcessAll(t, tasks[..i], inputs[..i], serverOffset) + [Process(t, tasks[i], inputs[i], serverOffset)]
  {
    assert tasks[..i + 1][..i] == tasks[..i];
    assert inputs[..i + 1][..i] == inputs[..i];
  }

  /** Applies a handler's outcome to the table: the task it asks for, if any, is created. */
  method Apply(table: TaskTable, o: Outcome) returns (ghost added: seq<ScheduledTask>)
    requires table.Valid()
    requires o.next.Some? ==> o.next.value.taskType == Birthday
    modifies table
    ensures table.Valid()
    ensures table.rows == old(table.rows) + added
    ensures |added| == (if o.next.Some? then 1 else 0)
    ensures forall x :: x in added ==> x.taskType == Birthday
  {
    added := [];
    if o.next.Some? {
      var n := o.next.value;
      var task := table.Insert(n.guildId, n.userId, n.taskType, n.processAfter, n.payload);
      added := [task];
    }
  }

  /** The atomic delete-returning claim: the due tasks leave the table and are returned. */
  method Claim(table: TaskTable, now: int) returns (due: seq<ScheduledTask>)
    requires table.Valid()
    modifies table
    ensures table.Valid() && table.nextId == old(table.nextId)
    ensures due == DueTasks(old(table.rows), now)
    ensures table.rows == Remaining(old(table.rows), now)
  {
    due := DueTasks(table.rows, now);
    table.rows := Remaining(table.rows, now);
  }

  /** The handlers of the claimed tasks, in order; the tasks they ask for are created. */
  method ProcessClaimed(table: TaskTable, t: I18n.Tables, due: seq<ScheduledTask>, inputs: seq<TaskInputs>,
                        serverOffset: int)
    returns (outcomes: seq<Outcome>, ghost created: seq<ScheduledTask>)
    requires |inputs| == |due|
    requires table.Valid()
    modifies table
    ensures table.Valid()
    ensures outcomes == ProcessAll(t, due, inputs, serverOffset)
    ensures table.rows == old(table.rows) + created
    ensures forall x :: x in created ==> x.taskType == Birthday
  {
    outcomes := [];
    created := [];
    var i := 0;
    while i < |due|
      invariant 0 <= i <= |due|
      invariant table.Valid()
      invariant outcomes == ProcessAll(t, due[..i], inputs[..i], serverOffset)
      invariant table.rows == old(table.rows) + created
      invariant forall x :: x in created ==> x.taskType == Birthday
    {
      var o := Process(t, due[i], inputs[i], serverOffset);
      OnlyBirthdaysRecur(t, due[i], inputs[i], serverOffset);
      ghost var added := Apply(table, o);
      Text.AppendAssoc(old(table.rows), created, added);
      created := created + added;
      ProcessAllStep(t, due, inputs, serverOffset, i);
      outcomes := outcomes + [o];
      i := i + 1;
    }
    assert due[..i] == due && inputs[..i] == inputs;
  }

  /** storedScheduledTask: claim the due tasks, then process each of them in order. A task
      due at or after now stays in the table; only birthday tasks are added. `inputs`
      holds what the platform answers for each claimed task, in claim order. */
  method Tick(table: TaskTable, t: I18n.Tables, now: int, inputs: seq<TaskInputs>, serverOffset: int)
    returns (due: seq<ScheduledTask>, outcomes: seq<Outcome>, ghost created: seq<ScheduledTask>)
    requires |inputs| == |DueTasks(table.rows, now)|
    requires table.Valid()
    modifies table
    ensures table.Valid()
    ensures due == DueTasks(old(table.rows), now)
    ensures outcomes == ProcessAll(t, due, inputs, serverOffset)
    ensures table.rows == Remaining(old(table.rows), now) + created
    ensures forall x :: x in created ==> x.taskType == Birthday
  {
    due := Claim(table, now);
    outcomes, created := ProcessClaimed(table, t, due, inputs, serverOffset);
  }
}

=== FILE: text.dfy ===
/** String helpers with the meaning of the Go standard-library calls the bot uses
    (strings.Join, strings.HasPrefix, strings.Contains, strings.Split, strings.Replace,
    strings.ToLower restricted to ASCII, lo.IndexOf). Strings are sequences of characters. */
module Text {

  /** strings.Join: the parts with `sep` between consecutive ones. */
  function Join(parts: seq<string>, sep: string): string
  {
    if |parts| == 0 then ""
    else if |parts| == 1 then parts[0]
    else parts[0] + sep + Join(parts[1..], sep)
  }

  /** Joining two non-empty lists puts exactly one separator between their joins. */
  lemma {:induction false} JoinAppend(a: seq<string>, b: seq<string>, sep: string)
    requires |a| > 0 && |b| > 0
    ensures Join(a + b, sep) == Join(a, sep) + sep + Join(b, sep)
  {
    if |a| == 1 {
      assert (a + b)[1..] == b;
    } else {
      assert (a + b)[1..] == a[1..] + b;
      JoinAppend(a[1..], b, sep);
    }
  }

  /** Joining one more part at the end appends the separator and that part. */
  lemma JoinSnoc(a: seq<string>, x: string, sep: string)
    requires |a| > 0
    ensures Join(a + [x], sep) == Join(a, sep) + sep + x
  {
    JoinAppend(a, [x], sep);
  }

  /** Concatenation is associative. */
  lemma AppendAssoc<T>(a: seq<T>, b: seq<T>, c: seq<T>)
    ensures (a + b) + c == a + (b + c)
  {
  }

  predicate IsPrefix(p: string, s: string)
  {
    |p| <= |s| && s[..|p|] == p
  }

  /** `sub` occurs in `s` starting at offset `i`. */
  predicate OccursAt(s: string, sub: string, i: int)
  {
    0 <= i && i + |sub| <= |s| && forall j :: 0 <= j < |sub| ==> s[i + j] == sub[j]
  }

  /** strings.Contains, computed by scanning. */
  function Contains(s: string, sub: string): (r: bool)
    ensures r <==> exists i :: OccursAt(s, sub, i)
    decreases |s|
  {
    if |sub| > |s| then false
    else if s[..|sub|] == sub then
      assert OccursAt(s, sub, 0);
      true
    else
      ShiftOccurrence(s, sub);
      assert !OccursAt(s, sub, 0);
      Contains(s[1..], sub)
  }

  function LowerChar(c: char): (d: char)
    ensures 'A' <= c <= 'Z' ==> 'a' <= d <= 'z'
    ensures !('A' <= c <= 'Z') ==> d == c
  {
    if 'A' <= c <= 'Z' then (c as int + 32) as char else c
  }

  /** strings.ToLower on the ASCII letters; other characters are kept. Zone names are
      ASCII, so on them this agrees with full Unicode lowering; typed search text differs
      only on the few non-ASCII letters whose lower case is ASCII, such as the Kelvin sign. */
  function ToLower(s: string): (r: string)
    ensures |r| == |s|
    ensures forall i :: 0 <= i < |s| ==> r[i] == LowerChar(s[i])
  {
    if |s| == 0 then "" else [LowerChar(s[0])] + ToLower(s[1..])
  }

  /** lo.IndexOf: the first position of `x` in `xs`, or -1. */
  function IndexOf<T(==)>(xs: seq<T>, x: T): (r: int)
    ensures -1 <= r < |xs|
    ensures r == -1 <==> x !in xs
    ensures r >= 0 ==> xs[r] == x && x !in xs[..r]
  {
    if |xs| == 0 then -1
    else if xs[0] == x then 0
    else
      var k := IndexOf(xs[1..], x);
      assert xs[1..] + [] == xs[1..];
      if k == -1 then -1
      else
        assert xs[..k + 1] == [xs[0]] + xs[1..][..k];
        k + 1
  }

  /** strings.Split(s, string(sep))[0]: everything before the first `sep`, or all of `s`. */
  function BeforeFirst(s: string, sep: char): (r: string)
    ensures IsPrefix(r, s)
    ensures sep !in r
    ensures |r| < |s| ==> s[|r|] == sep
  {
    if |s| == 0 then ""
    else if s[0] == sep then ""
    else [s[0]] + BeforeFirst(s[1..], sep)
  }

  /** The part before the first separator is everything up to it. */
  lemma BeforeFirstStops(pre: string, sep: char, post: string)
    requires sep !in pre
    ensures BeforeFirst(pre + [sep] + post, sep) == pre
  {
    var s := pre + [sep] + post;
    var r := BeforeFirst(s, sep);
    assert s[..|pre|] == pre && s[|pre|] == sep;
  }

  /** The last element of strings.Split(s, string(sep)): everything after the last `sep`. */
  function AfterLast(s: string, sep: char): (r: string)
    ensures |r| <= |s| && r == s[|s| - |r|..]
    ensures sep !in r
    ensures |r| < |s| ==> s[|s| - |r| - 1] == sep
  {
    if |s| == 0 then ""
    else if s[|s| - 1] == sep then ""
    else AfterLast(s[..|s| - 1], sep) + [s[|s| - 1]]
  }

  /** strings.Index: the offset of the first occurrence of `pat` in `s`, or -1. */
  function FirstIndex(s: string, pat: string): (k: int)
    ensures -1 <= k && (k >= 0 ==> k + |pat| <= |s|)
    decreases |s|
  {
    if |s| < |pat| then -1
    else if s[..|pat|] == pat then 0
    else
      var k := FirstIndex(s[1..], pat);
      if k == -1 then -1 else k + 1
  }

  /** FirstIndex finds an occurrence, and no earlier one; -1 means there is none. */
  lemma {:induction false} FirstIndexCorrect(s: string, pat: string)
    ensures var k := FirstIndex(s, pat);
      && (k == -1 <==> forall i :: !OccursAt(s, pat, i))
      && (k >= 0 ==> OccursAt(s, pat, k) && forall j :: 0 <= j < k ==> !OccursAt(s, pat, j))
    decreases |s|
  {
    if |s| < |pat| {
    } else if s[..|pat|] == pat {
      assert OccursAt(s, pat, 0);
    } else {
      FirstIndexCorrect(s[1..], pat);
      ShiftOccurrence(s, pat);
      assert !OccursAt(s, pat, 0);
    }
  }

  /** Occurrences in `s[1..]` are the occurrences in `s` one position later. */
  lemma ShiftOccurrence(s: string, pat: string)
    requires |s| > 0
    ensures forall i :: i >= 0 ==> (OccursAt(s[1..], pat, i) <==> OccursAt(s, pat, i + 1))
    ensures forall i :: OccursAt(s, pat, i) && i > 0 ==> OccursAt(s[1..], pat, i - 1)
  {
    forall i | i >= 0 ensures OccursAt(s[1..], pat, i) <==> OccursAt(s, pat, i + 1) {
      if OccursAt(s, pat, i + 1) {
        forall j | 0 <= j < |pat| ensures s[1..][i + j] == pat[j] {
          assert s[1..][i + j] == s[i + 1 + j];
        }
      }
    }
    assert forall i :: OccursAt(s, pat, i) && i > 0 ==> OccursAt(s[1..], pat, i - 1);
  }

  /** strings.Replace(s, pat, rep, 1): the string is searched with strings.Index and
      `rep` is spliced in at the offset found; without an occurrence `s` is returned. */
  function ReplaceFirst(s: string, pat: string, rep: string): (r: string)
    requires |pat| > 0
    ensures FirstIndex(s, pat) == -1 ==> r == s
    ensures FirstIndex(s, pat) >= 0 ==> |r| == |s| - |pat| + |rep|
  {
    var k := FirstIndex(s, pat);
    if k == -1 then s else s[..k] + rep + s[k + |pat|..]
  }

  /** Replacing the first occurrence when it sits right after `pre`. */
  lemma ReplaceAfter(pre: string, pat: string, rep: string, post: string)
    requires |pat| > 0
    requires forall i :: 0 <= i < |pre| ==> !OccursAt(pre + pat + post, pat, i)
    ensures ReplaceFirst(pre + pat + post, pat, rep) == pre + rep + post
  {
    var s := pre + pat + post;
    FirstIndexCorrect(s, pat);
    forall j | 0 <= j < |pat| ensures s[|pre| + j] == pat[j] {
    }
    assert OccursAt(s, pat, |pre|);
    var k := FirstIndex(s, pat);
    assert k == |pre|;
    assert s[..k] == pre && s[k + |pat|..] == post;
  }
}

=== FILE: text_commands.dfy ===
/** The dice command and the targeted fun commands (internal/commands/text.go).

    A targeted command answers with the text under "<command>.self", "<command>.bot" or
    "<command>.user", filled with the command's fragments, the invoker's name and the
    target's name or mention. The rate limiter is the shared cooldown manager. */
module TextCommands {
  import opened Wrappers
  import opened Models
  import opened Discord
  import opened Commands
  import I18n
  import Cooldown

  /** The limits of the targeted commands' cooldown manager. */
  const TargetedUserInvocations: nat := 3
  const TargetedChannelInvocations: nat := 5
  const TargetedCooldownSeconds: int := 300

  const MinSides: int := 3
  const MaxSides: int := 120

  /** What flip's two random draws give: the first fails the flip one time in a hundred,
      the second picks the side. */
  datatype Coin = Fails | Heads | Tails

  /** The text key of the side shown. */
  function SideKey(coin: Coin): string
  {
    if coin == Heads then "flip.heads" else "flip.tails"
  }

  /** flip: the answer is always public; a failed flip has the failure key and no
      variables, any other has the success key and, as "result", the text under
      SideKey(coin) in the guild's locale (`pick` is the choice among its variants). */
  function Flip(t: I18n.Tables, lang: I18n.Locale, coin: Coin, pick: nat): (r: Response)
    ensures r.public && r.flags == 0 && r.content == ""
    ensures coin == Fails <==> r.key == "flip.failure"
    ensures coin == Fails ==> r.vars.None?
    ensures coin != Fails ==>
      r.key == "flip.success" && r.vars == Some(map["result" := I18n.TextOf(I18n.Get(t, lang, SideKey(coin), None, pick))])
  {
    if coin == Fails then Response(0, "", "flip.failure", None, true)
    else
      var side := I18n.Get(t, lang, SideKey(coin), None, pick);
      ReplyWith("flip.success", map["result" := I18n.TextOf(side)], true)
  }

  /** When the locale has texts for both sides and no text serves for both, the side shown
      is one of the texts of the side drawn, so heads and tails never look alike. */
  lemma FlipShowsTheSideDrawn(t: I18n.Tables, lang: I18n.Locale, p: nat, q: nat)
    requires I18n.Variants(t, "flip.heads", lang) != [] && I18n.Variants(t, "flip.tails", lang) != []
    requires forall v :: v in I18n.Variants(t, "flip.heads", lang) ==> v !in I18n.Variants(t, "flip.tails", lang)
    ensures Flip(t, lang, Heads, p).vars.value["result"] in I18n.Variants(t, "flip.heads", lang)
    ensures Flip(t, lang, Tails, q).vars.value["result"] in I18n.Variants(t, "flip.tails", lang)
    ensures Flip(t, lang, Heads, p) != Flip(t, lang, Tails, q)
  {
    var h := Flip(t, lang, Heads, p).vars.value["result"];
    var u := Flip(t, lang, Tails, q).vars.value["result"];
    assert h in I18n.Variants(t, "flip.heads", lang);
    assert u in I18n.Variants(t, "flip.tails", lang);
  }

  /** rand.Int63n(sides) + 1 for the random draw `pick`. */
  function Face(sides: int, pick: nat): (k: int)
    requires MinSides <= sides
    ensures 1 <= k <= sides
  {
    pick % sides + 1
  }

  /** roll: fewer than 3 or more than 120 sides are refused with their own keys; otherwise
      a face between 1 and the number of sides is shown publicly. */
  function Roll(sides: int, pick: nat): (r: Response)
    ensures sides < MinSides ==> r == ReplyWith("roll.tooFewSides", map["sides" := Signed(sides)], true)
    ensures sides > MaxSides ==> r == ReplyWith("roll.tooManySides", map["sides" := Signed(sides)], true)
    ensures MinSides <= sides <= MaxSides ==>
      exists k :: 1 <= k <= sides && r == ReplyWith("roll.success", map["sides" := Signed(sides), "result" := Signed(k)], true)
  {
    if sides < MinSides then ReplyWith("roll.tooFewSides", map["sides" := Signed(sides)], true)
    else if sides > MaxSides then ReplyWith("roll.tooManySides", map["sides" := Signed(sides)], true)
    else
      var k := Face(sides, pick);
      ReplyWith("roll.success", map["sides" := Signed(sides), "result" := Signed(k)], true)
  }

  /** Every face can come up. */
  lemma EveryFaceCanComeUp(sides: int, k: int)
    requires MinSides <= sides <= MaxSides && 1 <= k <= sides
    ensures Roll(sides, (k - 1) as nat) == ReplyWith("roll.success", map["sides" := Signed(sides), "result" := Signed(k)], true)
  {
    FaceOfDraw(sides, k);
  }

  /** The draw k - 1 shows face k. */
  lemma FaceOfDraw(sides: int, k: int)
    requires MinSides <= sides && 1 <= k <= sides
    ensures Face(sides, (k - 1) as nat) == k
  {
    var pick := (k - 1) as nat;
    assert pick % sides == pick;
  }

  /** The key suffix: ".self" when the target is the invoker, else ".bot" when it is the
      bot, else ".user". */
  function TargetKey(command: string, targetId: string, invokerId: string, botId: string): (key: string)
    ensures targetId == invokerId ==> key == command + ".self"
    ensures targetId != invokerId && targetId == botId ==> key == command + ".bot"
    ensures targetId != invokerId && targetId != botId ==> key == command + ".user"
  {
    if targetId == invokerId then command + ".self"
    else if targetId == botId then command + ".bot"
    else command + ".user"
  }

  /** Self takes precedence: a bot invoking a command on itself gets the ".self" text. */
  lemma SelfBeatsBot(command: string, botId: string)
    ensures TargetKey(command, botId, botId, botId) == command + ".self"
  {
  }

  /** mentionIfWanted: the display name when the user row cannot be read, the user
      suppresses mentions or the target can manage messages; the member mention
      otherwise. */
  function MentionIfWanted(target: Member, user: Result<User, string>): (s: string)
    ensures user.Failure? || user.value.suppressMentions || IsModerator(target.permissions) ==> s == target.displayName
    ensures user.Success? && !user.value.suppressMentions && !IsModerator(target.permissions) ==>
      s == MemberMention(target.userId)
  {
    if user.Failure? || user.value.suppressMentions || IsModerator(target.permissions) then target.displayName
    else MemberMention(target.userId)
  }

  /** lo.CoalesceOrEmpty: the first non-empty name, or "". */
  function FirstNonEmpty(names: seq<string>): (s: string)
    ensures s == "" || s in names
    ensures s == "" <==> forall n :: n in names ==> n == ""
  {
    if |names| == 0 then ""
    else if names[0] != "" then names[0]
    else assert names == [names[0]] + names[1..]; FirstNonEmpty(names[1..])
  }

  /** What GetUser answers for an id, given the cache and table before the call. */
  function UserAnswer(users: Users, id: string, failure: Option<string>): (r: Result<User, string>)
    reads users
    ensures r.Failure? ==> id !in users.cache && failure.Some?
    ensures id in users.cache ==> r == Success(users.cache[id])
  {
    if id in users.cache then Success(users.cache[id])
    else if failure.Some? then Failure(failure.value)
    else Success(users.Stored(id))
  }

  /** The bot as it names itself: its member display name, the application name or its
      user name, whichever is first non-empty. */
  datatype BotNames = BotNames(id: string, displayName: string, appName: string, userName: string)

  /** handleTargetedCommand: the cooldown is checked first; then the target option is
      resolved (`targetId`, None when it cannot be); the variables are the command's
      fragments for the guild's locale, with "author" set to the invoker's display name and
      "target" to the target's name or mention; the answer is public. `targetMember` is the
      fetch of a third-party target, whose failure panics; `userFailure` is a storage
      fault reading the target's user row. */
  method HandleTargeted(cdm: Cooldown.CooldownManager, catalog: I18n.Catalog, users: Users,
                        command: string, guildLocale: I18n.Locale, invoker: Member, channelId: string,
                        exempt: Option<seq<string>>, now: int, targetId: Option<string>, bot: BotNames,
                        targetMember: Result<Member, string>, userFailure: Option<string>)
    returns (r: HandlerResult)
    requires cdm.Valid()
    requires cdm.userInvocations == TargetedUserInvocations && cdm.channelInvocations == TargetedChannelInvocations
    requires cdm.cooldownDuration == TargetedCooldownSeconds
    modifies cdm.userBuckets, cdm.channelBuckets, users
    ensures cdm.Valid()
    ensures users.rows == old(users.rows)
    ensures var allowed := Cooldown.Permits(old(cdm.channelBuckets.m), old(cdm.userBuckets.m),
                                            TargetedChannelInvocations, TargetedUserInvocations,
                                            TargetedCooldownSeconds, channelId, invoker.userId,
                                            invoker.permissions, exempt, now);
      var fetched := allowed && targetId.Some? && targetId.value != invoker.userId && targetId.value != bot.id &&
                     targetMember.Success?;
      && (!fetched ==> users.cache == old(users.cache))
      && (fetched ==>
            var id := targetMember.value.userId;
            && (id in old(users.cache) || userFailure.Some? ==> users.cache == old(users.cache))
            && (id !in old(users.cache) && userFailure.None? ==> users.cache == old(users.cache)[id := old(users.Stored(id))]))
    ensures Cooldown.Updated(old(cdm.channelBuckets.m), old(cdm.userBuckets.m), cdm.channelBuckets.m, cdm.userBuckets.m,
                             TargetedChannelInvocations, TargetedUserInvocations, TargetedCooldownSeconds,
                             channelId, invoker.userId, invoker.permissions, exempt, now)
    ensures var allowed := Cooldown.Permits(old(cdm.channelBuckets.m), old(cdm.userBuckets.m),
                                            TargetedChannelInvocations, TargetedUserInvocations,
                                            TargetedCooldownSeconds, channelId, invoker.userId,
                                            invoker.permissions, exempt, now);
      && (!allowed ==> r == Responded(Reply("base.cooldown")) && users.cache == old(users.cache))
      && (allowed && targetId.None? ==> r == Failed("user not found"))
      && (allowed && targetId.Some? ==>
            var tid := targetId.value;
            var frags := I18n.Fragments(catalog.State(), command, guildLocale);
            && (tid != invoker.userId && tid != bot.id && targetMember.Failure? ==> r.Panicked?)
            && (r.Responded? ==>
                  && r.response.key == TargetKey(command, tid, invoker.userId, bot.id) && r.response.public
                  && r.response.vars.Some?
                  && r.response.vars.value.Keys == frags.Keys + {"author", "target"}
                  && r.response.vars.value["author"] == invoker.displayName
                  && (tid == invoker.userId ==> r.response.vars.value["target"] == invoker.displayName)
                  && (tid != invoker.userId && tid == bot.id ==>
                        r.response.vars.value["target"] == FirstNonEmpty([bot.displayName, bot.appName, bot.userName]))
                  && (tid != invoker.userId && tid != bot.id ==>
                        targetMember.Success? &&
                        r.response.vars.value["target"] ==
                          MentionIfWanted(targetMember.value, old(UserAnswer(users, targetMember.value.userId, userFailure))))))
  {
    var allowed := cdm.Can(channelId, invoker.userId, invoker.permissions, exempt, now);
    if !allowed {
      return Responded(Reply("base.cooldown"));
    }
    if targetId.None? {
      return Failed("user not found");
    }
    r := TargetReply(catalog, users, command, guildLocale, invoker, targetId.value, bot, targetMember, userFailure);
  }

  /** The targeted reply once the cooldown allowed it and the target id is known: the
      command's fragments, the author's name, and the target named by who it is. */
  method TargetReply(catalog: I18n.Catalog, users: Users, command: string, guildLocale: I18n.Locale,
                     invoker: Member, tid: string, bot: BotNames,
                     targetMember: Result<Member, string>, userFailure: Option<string>)
    returns (r: HandlerResult)
    modifies users
    ensures users.rows == old(users.rows)
    ensures !(tid != invoker.userId && tid != bot.id && targetMember.Success?) ==> users.cache == old(users.cache)
    ensures tid != invoker.userId && tid != bot.id && targetMember.Success? ==>
      var id := targetMember.value.userId;
      && (id in old(users.cache) || userFailure.Some? ==> users.cache == old(users.cache))
      && (id !in old(users.cache) && userFailure.None? ==> users.cache == old(users.cache)[id := old(users.Stored(id))])
    ensures var frags := I18n.Fragments(catalog.State(), command, guildLocale);
      && (tid != invoker.userId && tid != bot.id && targetMember.Failure? ==> r.Panicked?)
      && (!(tid != invoker.userId && tid != bot.id && targetMember.Failure?) ==> r.Responded?)
      && (r.Responded? ==>
            && r.response.key == TargetKey(command, tid, invoker.userId, bot.id) && r.response.public
            && r.response.vars.Some?
            && r.response.vars.value.Keys == frags.Keys + {"author", "target"}
            && r.response.vars.value["author"] == invoker.displayName
            && (tid == invoker.userId ==> r.response.vars.value["target"] == invoker.displayName)
            && (tid != invoker.userId && tid == bot.id ==>
                  r.response.vars.value["target"] == FirstNonEmpty([bot.displayName, bot.appName, bot.userName]))
            && (tid != invoker.userId && tid != bot.id ==>
                  targetMember.Success? &&
                  r.response.vars.value["target"] ==
                    MentionIfWanted(targetMember.value, old(UserAnswer(users, targetMember.value.userId, userFailure)))))
  {
    var vars := catalog.GetFragments(guildLocale, command);
    vars := vars["author" := invoker.displayName];
    var key;
    if tid == invoker.userId {
      vars := vars["target" := invoker.displayName];
      key := command + ".self";
    } else if tid == bot.id {
      vars := vars["target" := FirstNonEmpty([bot.displayName, bot.appName, bot.userName])];
      key := command + ".bot";
    } else {
      if targetMember.Failure? {
        return Panicked(targetMember.error);
      }
      var user := users.GetUser(targetMember.value.userId, userFailure);
      vars := vars["target" := MentionIfWanted(targetMember.value, user)];
      key := command + ".user";
    }
    r := Responded(ReplyWith(key, vars, true));
  }

  /** createTargetedCommand: a command with one required user option, handled by the
      shared targeted handler. */
  function TargetedCommand(name: string, handler: nat): (c: Command)
    ensures c.name == name && c.ctype == ChatInput && |c.subcommands| == 0 && c.handler == Handle(handler)
    ensures |c.options| == 1 && c.options[0].name == "user" && c.options[0].required
  {
    Command(name, ChatInput, "", None, None,
            [CommandOption("user", OtherType(UserOptionType), "", true, map[], map[], [], [])],
            [], Handle(handler), map[])
  }

  /** The option type code of a user option. */
  const UserOptionType: nat := 6
}

=== FILE: timezone.dfy ===
/** The timezone commands (internal/commands/my.timezone.go): autocomplete over the zone
    list, setting and reading a user's zone. */
module MyTimezone {
  import opened Wrappers
  import opened Models
  import opened Commands
  import Text
  import Zones

  /** At most this many suggestions are offered. */
  const MaxChoices: nat := 10

  /** Whether a zone name, lower-cased, contains the (lower-cased) typed text. */
  predicate Hit(zone: string, needle: string)
  {
    Text.Contains(Text.ToLower(zone), needle)
  }

  /** The zones that are hits for `needle`, in list order. */
  function Matching(zones: seq<string>, needle: string): (r: seq<string>)
    ensures |r| <= |zones|
  {
    if |zones| == 0 then []
    else
      var last := zones[|zones| - 1];
      Matching(zones[..|zones| - 1], needle) + (if Hit(last, needle) then [last] else [])
  }

  /** Matching keeps exactly the hits. */
  lemma {:induction false} MatchingMembers(zones: seq<string>, needle: string)
    ensures forall z :: z in Matching(zones, needle) <==> z in zones && Hit(z, needle)
  {
    if |zones| > 0 {
      var init := zones[..|zones| - 1];
      MatchingMembers(init, needle);
      assert zones == init + [zones[|zones| - 1]];
    }
  }

  lemma {:induction false} MatchingAppend(a: seq<string>, b: seq<string>, needle: string)
    ensures Matching(a + b, needle) == Matching(a, needle) + Matching(b, needle)
  {
    if |b| == 0 {
      assert a + b == a;
    } else {
      MatchingAppend(a, b[..|b| - 1], needle);
      assert (a + b)[..|a + b| - 1] == a + b[..|b| - 1];
    }
  }

  /** Once the scan has seen ten hits, or every zone, it holds the ten first hits. */
  lemma MatchingStep(zones: seq<string>, i: nat, needle: string)
    requires i < |zones|
    ensures Matching(zones[..i + 1], needle)
         == Matching(zones[..i], needle) + (if Hit(zones[i], needle) then [zones[i]] else [])
  {
    assert zones[..i + 1][..i] == zones[..i];
  }

  lemma OfferedPrefix(zones: seq<string>, i: nat, needle: string)
    requires i <= |zones|
    requires |Matching(zones[..i], needle)| >= MaxChoices || i == |zones|
    requires |Matching(zones[..i], needle)| <= MaxChoices
    ensures Take(Matching(zones, needle), MaxChoices) == Matching(zones[..i], needle)
  {
    MatchingAppend(zones[..i], zones[i..], needle);
    assert zones[..i] + zones[i..] == zones;
    if i == |zones| {
      assert zones[i..] == [];
    }
  }

  /** The first `n` elements, or all when there are fewer. */
  function Take<T>(s: seq<T>, n: nat): (r: seq<T>)
    ensures |r| == if |s| < n then |s| else n
    ensures r == s[..|r|]
  {
    if |s| <= n then s else s[..n]
  }

  /** The focused option of an autocomplete request: its typed text and whether it is the
      one being edited. */
  datatype Typed = Typed(value: string, focused: bool)

  /** One suggestion: the zone as both its name and its value. */
  function ZoneChoice(z: string): (c: Choice)
    ensures c.name == z && c.value == z
  {
    Choice(z, z, map[])
  }

  /** The autocomplete answer: None when the "zone" option is absent or not focused (no
      answer is sent); otherwise the first ten zones whose lower-cased name contains the
      lower-cased text, in list order. The scan stops at the tenth match. */
  method Autocomplete(zones: seq<string>, zone: Option<Typed>) returns (r: Option<seq<Choice>>)
    ensures zone.None? || !zone.value.focused ==> r.None?
    ensures zone.Some? && zone.value.focused ==>
      var offered := Take(Matching(zones, Text.ToLower(zone.value.value)), MaxChoices);
      && r.Some? && |r.value| == |offered|
      && forall i :: 0 <= i < |offered| ==> r.value[i] == ZoneChoice(offered[i])
  {
    if zone.None? || !zone.value.focused {
      return None;
    }
    var needle := Text.ToLower(zone.value.value);
    var found: seq<string> := [];
    var i := 0;
    while i < |zones|
      invariant 0 <= i <= |zones|
      invariant found == Matching(zones[..i], needle)
      invariant |found| < MaxChoices
    {
      MatchingStep(zones, i, needle);
      if Hit(zones[i], needle) {
        found := found + [zones[i]];
      }
      i := i + 1;
      if |found| >= MaxChoices {
        break;
      }
    }
    OfferedPrefix(zones, i, needle);
    return Some(ZoneChoices(found));
  }

  /** One choice per zone, in order. */
  function ZoneChoices(zs: seq<string>): (cs: seq<Choice>)
    ensures |cs| == |zs| && forall i :: 0 <= i < |zs| ==> cs[i] == ZoneChoice(zs[i])
  {
    seq(|zs|, k requires 0 <= k < |zs| => ZoneChoice(zs[k]))
  }

  /** Every suggestion matches the typed text, there are never more than ten, and a zone
      that matches is offered whenever fewer than ten zones match in all. */
  lemma SuggestionsMatch(zones: seq<string>, typed: string)
    ensures var offered := Take(Matching(zones, Text.ToLower(typed)), MaxChoices);
      && |offered| <= MaxChoices
      && (forall z :: z in offered ==> z in zones && Hit(z, Text.ToLower(typed)))
      && (|Matching(zones, Text.ToLower(typed))| < MaxChoices ==>
            forall z :: z in zones && Hit(z, Text.ToLower(typed)) ==> z in offered)
  {
    MatchingMembers(zones, Text.ToLower(typed));
    var all := Matching(zones, Text.ToLower(typed));
    var offered := Take(all, MaxChoices);
    forall z | z in offered ensures z in all {
      var k :| 0 <= k < |offered| && offered[k] == z;
      assert all[k] == z;
    }
  }

  /** my timezone set: a zone that does not load answers "invalid" and writes nothing;
      otherwise the user's row gets the zone's name (created if missing, other columns
      kept) and the user's cache entry is dropped. `failure` is a fault of the upsert. */
  method SetTimezone(users: Users, zones: Zones.ZoneTable, userId: string, zoneName: string, failure: Option<string>)
    returns (r: HandlerResult)
    modifies users
    ensures Zones.LoadLocation(zones, zoneName).None? ==>
      && r == Responded(ReplyWith("my/timezone/set.invalid", map["zone" := zoneName], false))
      && users.rows == old(users.rows) && users.cache == old(users.cache)
    ensures Zones.LoadLocation(zones, zoneName).Some? && failure.Some? ==>
      r == Failed(failure.value) && users.rows == old(users.rows) && users.cache == old(users.cache)
    ensures Zones.LoadLocation(zones, zoneName).Some? && failure.None? ==>
      var name := Zones.ZoneName(zoneName);
      && r == Responded(ReplyWith("my/timezone/set.success", map["zone" := name], false))
      && users.rows == old(users.rows)[userId := old(users.Stored(userId)).(timezone := Some(name))]
      && users.cache == old(users.cache) - {userId}
    ensures CacheAgrees(old(users.cache), old(users.rows)) ==> CacheAgrees(users.cache, users.rows)
  {
    var location := Zones.LoadLocation(zones, zoneName);
    if location.None? {
      return Responded(ReplyWith("my/timezone/set.invalid", map["zone" := zoneName], false));
    }
    var name := Zones.ZoneName(zoneName);
    if failure.Some? {
      return Failed(failure.value);
    }
    var row := users.Stored(userId);
    users.rows := users.rows[userId := row.(timezone := Some(name))];
    users.Evict(userId);
    r := Responded(ReplyWith("my/timezone/set.success", map["zone" := name], false));
  }

  /** After a successful set, the next read of the user through the cache sees the new
      zone. */
  method SetThenRead(users: Users, zones: Zones.ZoneTable, userId: string, zoneName: string)
    returns (r: HandlerResult, read: Result<User, string>)
    requires Zones.LoadLocation(zones, zoneName).Some?
    modifies users
    ensures read.Success? && read.value.timezone == Some(Zones.ZoneName(zoneName))
  {
    r := SetTimezone(users, zones, userId, zoneName, None);
    read := users.GetUser(userId, None);
  }

  /** my timezone get: the stored zone; "missing" when the row is absent or has no zone;
      the storage error otherwise. It reads the table, not the cache. */
  function GetTimezone(rows: map<string, User>, userId: string, failure: Option<string>): (r: HandlerResult)
    ensures failure.Some? ==> r == Failed(failure.value)
    ensures failure.None? && userId in rows && rows[userId].timezone.Some? ==>
      r == Responded(ReplyWith("my/timezone/get.success", map["zone" := rows[userId].timezone.value], false))
    ensures failure.None? && (userId !in rows || rows[userId].timezone.None?) ==>
      r == Responded(Reply("my/timezone/get.missing"))
  {
    if failure.Some? then Failed(failure.value)
    else if userId in rows && rows[userId].timezone.Some? then
      Responded(ReplyWith("my/timezone/get.success", map["zone" := rows[userId].timezone.value], false))
    else Responded(Reply("my/timezone/get.missing"))
  }

  /** What set stores, get reads back. */
  lemma SetThenGet(rows: map<string, User>, userId: string, name: string)
    ensures var u := if userId in rows then rows[userId] else NewUser(userId);
      GetTimezone(rows[userId := u.(timezone := Some(name))], userId, None)
        == Responded(ReplyWith("my/timezone/get.success", map["zone" := name], false))
  {
  }
}

=== FILE: twitch.dfy ===
/** Twitch live status (internal/events/twitch.go): the live role kept in step with members'
    streaming activities, and the stream notification. */
module TwitchLive {
  import opened Wrappers
  import opened Discord
  import Text

  const TwitchPrefix: string := "https://www.twitch.tv/"

  /** An activity: whether its type is Streaming, and its URL. */
  datatype Activity = Activity(streaming: bool, url: string)

  /** A member's presence; `activities` is None when the list is absent. */
  datatype Presence = Presence(userId: string, activities: Option<seq<Activity>>)

  datatype RoleAction = AddRole(userId: string, roleId: string) | RemoveRole(userId: string, roleId: string)

  /** A Twitch stream: a Streaming activity whose URL starts with the Twitch prefix. */
  predicate IsTwitchStream(a: Activity)
  {
    a.streaming && Text.IsPrefix(TwitchPrefix, a.url)
  }

  /** The channel login: the URL without its first 22 characters. */
  function Login(a: Activity): (login: string)
    requires IsTwitchStream(a)
    ensures a.url == TwitchPrefix + login
  {
    assert |TwitchPrefix| == 22;
    a.url[22..]
  }

  /** The first Twitch stream among the activities. */
  function FirstStream(acts: seq<Activity>): (r: Option<Activity>)
    ensures r.Some? ==> r.value in acts && IsTwitchStream(r.value)
    ensures r.None? <==> forall a :: a in acts ==> !IsTwitchStream(a)
  {
    if |acts| == 0 then None
    else if IsTwitchStream(acts[0]) then Some(acts[0])
    else FirstStream(acts[1..])
  }

  /** Role changes and live logins collected by a scan. */
  datatype Scan = Scan(actions: seq<RoleAction>, live: seq<string>)

  function Then(a: Scan, b: Scan): Scan
  {
    Scan(a.actions + b.actions, a.live + b.live)
  }

  /** The guild-available scan as written: a presence without an activity list is left
      alone, a presence that is not streaming loses the role, and the first streamer gets
      the role, after which the labelled break ends the whole scan. */
  function ScanAsWritten(ps: seq<Presence>, roleId: string): (s: Scan)
    ensures |s.live| <= 1
  {
    if |ps| == 0 then Scan([], [])
    else if ps[0].activities.None? then ScanAsWritten(ps[1..], roleId)
    else match FirstStream(ps[0].activities.value)
      case Some(a) => Scan([AddRole(ps[0].userId, roleId)], [Login(a)])
      case None => Then(Scan([RemoveRole(ps[0].userId, roleId)], []), ScanAsWritten(ps[1..], roleId))
  }

  /** Two streamers: the second never gets the role. */
  lemma SecondStreamerIsMissed(roleId: string)
    ensures var ps := [Presence("a", Some([Activity(true, TwitchPrefix + "one")])),
                       Presence("b", Some([Activity(true, TwitchPrefix + "two")]))];
      ScanAsWritten(ps, roleId) == Scan([AddRole("a", roleId)], ["one"])
  {
    var a := Activity(true, TwitchPrefix + "one");
    assert IsTwitchStream(a);
    assert FirstStream([a]) == Some(a);
    assert Login(a) == "one";
  }

  /** The role change of one presence: none without an activity list, the role for a
      streamer, its removal otherwise. */
  function PresenceScan(p: Presence, roleId: string): (s: Scan)
    ensures |s.actions| <= 1 && |s.live| <= |s.actions|
    ensures s.actions == [] <==> p.activities.None?
    ensures forall a :: a in s.actions ==> a.userId == p.userId
  {
    if p.activities.None? then Scan([], [])
    else match FirstStream(p.activities.value)
      case Some(a) => Scan([AddRole(p.userId, roleId)], [Login(a)])
      case None => Scan([RemoveRole(p.userId, roleId)], [])
  }

  /** The scan with the labelled loop continued rather than left: every presence is
      handled. */
  function ScanAll(ps: seq<Presence>, roleId: string): (s: Scan)
    ensures |s.live| <= |s.actions| <= |ps|
  {
    if |ps| == 0 then Scan([], []) else Then(PresenceScan(ps[0], roleId), ScanAll(ps[1..], roleId))
  }

  /** Every streamer gets the role and every member with an activity list who is not
      streaming loses it; members without a list are not touched. */
  lemma {:induction false} ScanAllHandlesEveryone(ps: seq<Presence>, roleId: string, p: Presence)
    requires p in ps
    ensures p.activities.Some? && FirstStream(p.activities.value).Some? ==> AddRole(p.userId, roleId) in ScanAll(ps, roleId).actions
    ensures p.activities.Some? && FirstStream(p.activities.value).None? ==> RemoveRole(p.userId, roleId) in ScanAll(ps, roleId).actions
  {
    if ps[0] != p {
      ScanAllHandlesEveryone(ps[1..], roleId, p);
    }
  }

  /** Only members whose presence has a list are touched by the scan. */
  lemma {:induction false} ScanAllTouchesOnlyListed(ps: seq<Presence>, roleId: string, act: RoleAction)
    requires act in ScanAll(ps, roleId).actions
    ensures exists p :: p in ps && p.userId == act.userId && p.activities.Some?
  {
    if PresenceScan(ps[0], roleId).actions != [] && act in PresenceScan(ps[0], roleId).actions {
      assert ps[0] in ps;
    } else {
      ScanAllTouchesOnlyListed(ps[1..], roleId, act);
      var p :| p in ps[1..] && p.userId == act.userId && p.activities.Some?;
      assert p in ps;
    }
  }

  /** The scan as written is the corrected one cut short at the first streamer. */
  lemma {:induction false} AsWrittenIsPrefixOfScanAll(ps: seq<Presence>, roleId: string)
    ensures var w := ScanAsWritten(ps, roleId);
      var c := ScanAll(ps, roleId);
      |w.actions| <= |c.actions| && w.actions == c.actions[..|w.actions|]
  {
    if |ps| > 0 {
      AsWrittenIsPrefixOfScanAll(ps[1..], roleId);
    }
  }

  lemma ThenAssoc(a: Scan, b: Scan, c: Scan)
    ensures Then(Then(a, b), c) == Then(a, Then(b, c))
  {
  }

  lemma ScanAllStep(ps: seq<Presence>, i: nat, roleId: string)
    requires i < |ps|
    ensures ScanAll(ps[i..], roleId) == Then(PresenceScan(ps[i], roleId), ScanAll(ps[i + 1..], roleId))
  {
    assert ps[i..][1..] == ps[i + 1..];
  }

  /** The inner loop over a presence's activities: the first Twitch stream, if any. */
  method FindStream(acts: seq<Activity>) returns (r: Option<Activity>)
    ensures r == FirstStream(acts)
  {
    var j := 0;
    while j < |acts|
      invariant 0 <= j <= |acts|
      invariant FirstStream(acts[j..]) == FirstStream(acts)
    {
      if IsTwitchStream(acts[j]) {
        return Some(acts[j]);
      }
      assert acts[j..] == [acts[j]] + acts[j + 1..];
      j := j + 1;
    }
    return None;
  }

  /** The scan with its loop over presences: a streamer's role is added and the next
      presence is taken. */
  method ScanPresences(ps: seq<Presence>, roleId: string) returns (s: Scan)
    ensures s == ScanAll(ps, roleId)
  {
    s := Scan([], []);
    var i := 0;
    while i < |ps|
      invariant 0 <= i <= |ps|
      invariant Then(s, ScanAll(ps[i..], roleId)) == ScanAll(ps, roleId)
    {
      var step := Scan([], []);
      if ps[i].activities.Some? {
        var stream := FindStream(ps[i].activities.value);
        if stream.Some? {
          step := Scan([AddRole(ps[i].userId, roleId)], [Login(stream.value)]);
        } else {
          step := Scan([RemoveRole(ps[i].userId, roleId)], []);
        }
      }
      assert step == PresenceScan(ps[i], roleId);
      ScanAllStep(ps, i, roleId);
      ThenAssoc(s, step, ScanAll(ps[i + 1..], roleId));
      s := Then(s, step);
      i := i + 1;
    }
  }

  /** The scan loop as written, whose labelled break leaves the loop over presences at the
      first streamer. */
  method ScanPresencesAsWritten(ps: seq<Presence>, roleId: string) returns (s: Scan)
    ensures s == ScanAsWritten(ps, roleId)
  {
    s := Scan([], []);
    var i := 0;
    label userPresence:
    while i < |ps|
      invariant 0 <= i <= |ps|
      invariant Then(s, ScanAsWritten(ps[i..], roleId)) == ScanAsWritten(ps, roleId)
    {
      assert ps[i..][1..] == ps[i + 1..];
      if ps[i].activities.Some? {
        var stream := FindStream(ps[i].activities.value);
        if stream.Some? {
          s := Then(s, Scan([AddRole(ps[i].userId, roleId)], [Login(stream.value)]));
          break userPresence;
        }
        ThenAssoc(s, Scan([RemoveRole(ps[i].userId, roleId)], []), ScanAsWritten(ps[i + 1..], roleId));
        s := Then(s, Scan([RemoveRole(ps[i].userId, roleId)], []));
      }
      i := i + 1;
    }
  }

  /** twitchStreamGuildAvailable with the corrected scan: nothing unless the live role is
      configured (a setting that fails to read counts as unset). */
  method GuildAvailable(roleId: string, ps: seq<Presence>) returns (s: Scan)
    ensures roleId == "" ==> s == Scan([], [])
    ensures roleId != "" ==> s == ScanAll(ps, roleId)
  {
    if roleId == "" {
      return Scan([], []);
    }
    s := ScanPresences(ps, roleId);
  }

  /** The settings a presence update reads; each is the zero value when it fails to read. */
  datatype LiveSettings = LiveSettings(roleId: string, channelId: string, template: string, eligibleRoles: seq<string>)

  /** What a presence update does: role changes, and at most one stream check started for a
      login (which, for a new stream, posts the template naming the member and an embed). */
  datatype PresenceOutcome = PresenceOutcome(roles: seq<RoleAction>, check: Option<StreamCheck>, error: Option<string>)
  datatype StreamCheck = StreamCheck(login: string, channelId: string, template: string, mention: string)

  /** Whether the member may be announced: no eligible roles configured, or one held. */
  predicate Eligible(eligibleRoles: seq<string>, memberRoles: seq<string>)
  {
    |eligibleRoles| == 0 || exists r :: r in eligibleRoles && r in memberRoles
  }

  /** twitchStreamPresenceUpdate. `member` is the member fetch. */
  function PresenceUpdate(s: LiveSettings, userId: string, member: Result<Member, string>,
                          activities: Option<seq<Activity>>): (o: PresenceOutcome)
    ensures s.roleId == "" && s.channelId == "" ==> o == PresenceOutcome([], None, None)
    ensures (s.roleId != "" || s.channelId != "") && member.Failure? ==> o == PresenceOutcome([], None, Some(member.error))
    ensures member.Success? && !Eligible(s.eligibleRoles, member.value.roles) ==> o.roles == [] && o.check.None?
    ensures activities.None? ==> o.roles == [] && o.check.None?
    ensures (s.roleId != "" || s.channelId != "") && member.Success? && Eligible(s.eligibleRoles, member.value.roles) &&
            activities.Some? ==>
      && o.error.None?
      && (FirstStream(activities.value).Some? ==>
            && o.roles == (if s.roleId != "" then [AddRole(userId, s.roleId)] else [])
            && (o.check.Some? <==> s.channelId != "")
            && (o.check.Some? ==> o.check.value.login == Login(FirstStream(activities.value).value)
                                  && o.check.value.mention == Mention(userId)))
      && (FirstStream(activities.value).None? ==>
            o.check.None? && o.roles == (if s.roleId != "" then [RemoveRole(userId, s.roleId)] else []))
  {
    if s.roleId == "" && s.channelId == "" then PresenceOutcome([], None, None)
    else if member.Failure? then PresenceOutcome([], None, Some(member.error))
    else if !Eligible(s.eligibleRoles, member.value.roles) then PresenceOutcome([], None, None)
    else if activities.None? then PresenceOutcome([], None, None)
    else match FirstStream(activities.value)
      case Some(a) =>
        PresenceOutcome(if s.roleId != "" then [AddRole(userId, s.roleId)] else [],
                        if s.channelId != "" then Some(StreamCheck(Login(a), s.channelId, s.template, Mention(userId))) else None,
                        None)
      case None => PresenceOutcome(if s.roleId != "" then [RemoveRole(userId, s.roleId)] else [], None, None)
  }

  /** The stream data read from Twitch. */
  datatype Stream = Stream(userLogin: string, title: string, gameName: string, thumbnailUrl: string,
                           startedAt: string, tags: seq<string>)

  /** The notification embed; the profile image is an input. */
  datatype StreamEmbed = StreamEmbed(title: string, description: string, url: string, author: string,
                                     thumbnail: string, timestamp: string, footer: string, image: string)

  function NotificationEmbed(st: Stream, profileImage: string): StreamEmbed
  {
    StreamEmbed(st.title, st.gameName, TwitchPrefix + st.userLogin, st.userLogin, profileImage,
                st.startedAt, Text.Join(st.tags, ", "), Thumbnail(st.thumbnailUrl))
  }

  /** The message a stream check posts. */
  datatype StreamPost = StreamPost(channelId: string, content: string, embed: StreamEmbed)

  /** How a started stream check ends: nothing posted, a post, or a panic in the check's
      goroutine, which no recover covers, so the whole bot process stops. */
  datatype StreamCheckOutcome = NoPost | Posted(post: StreamPost) | ProcessCrash

  /** One HEAD request for the sized thumbnail: the image is there; Twitch redirects to its
      generic image, which the client refuses with an error but still returns the response;
      or the request fails with no response at all. */
  datatype ThumbnailPoll = Available | Redirected | NoResponse

  /** lo.AttemptWithDelay tries at most this many times, stopping at the first success. */
  const ThumbnailAttempts: nat := 20

  /** Whether the polling panics: each attempt logs the response's status code before
      returning its error, so the first attempt with no response, reached before any
      success within the attempts made, dereferences nil. `polls` are the outcomes of
      successive requests. */
  function PollingPanics(polls: seq<ThumbnailPoll>, attempts: nat): (b: bool)
    ensures b <==> exists i :: 0 <= i < |polls| && i < attempts && polls[i] == NoResponse &&
                              forall j :: 0 <= j < i ==> polls[j] == Redirected
  {
    if attempts == 0 || |polls| == 0 then false
    else if polls[0] == NoResponse then true
    else if polls[0] == Available then
      assert polls[0] != Redirected;
      false
    else
      var rest := PollingPanics(polls[1..], attempts - 1);
      assert rest ==> exists i :: 0 <= i < |polls| && i < attempts && polls[i] == NoResponse &&
                                 forall j :: 0 <= j < i ==> polls[j] == Redirected by {
        if rest {
          var k :| 0 <= k < |polls[1..]| && k < attempts - 1 && polls[1..][k] == NoResponse &&
                   forall j :: 0 <= j < k ==> polls[1..][j] == Redirected;
          assert polls[k + 1] == NoResponse;
          assert forall j :: 0 <= j < k + 1 ==> polls[j] == Redirected by {
            forall j | 0 <= j < k + 1 ensures polls[j] == Redirected {
              if j > 0 { assert polls[j] == polls[1..][j - 1]; }
            }
          }
        }
      }
      assert (exists i :: 0 <= i < |polls| && i < attempts && polls[i] == NoResponse &&
                         forall j :: 0 <= j < i ==> polls[j] == Redirected) ==> rest by {
        if exists i :: 0 <= i < |polls| && i < attempts && polls[i] == NoResponse &&
                       forall j :: 0 <= j < i ==> polls[j] == Redirected {
          var i :| 0 <= i < |polls| && i < attempts && polls[i] == NoResponse &&
                   forall j :: 0 <= j < i ==> polls[j] == Redirected;
          assert i > 0;
          assert polls[1..][i - 1] == NoResponse;
          assert forall j :: 0 <= j < i - 1 ==> polls[1..][j] == Redirected by {
            forall j | 0 <= j < i - 1 ensures polls[1..][j] == Redirected {
              assert polls[1..][j] == polls[j + 1];
            }
          }
        }
      }
      rest
  }

  /** The stream check: nothing when the stream lookup fails or the stream is not new;
      otherwise the guild's template is parsed (`rendered` is its text rendered with the
      member's mention, None when it does not parse, where lo.Must panics), the thumbnail
      is polled (`polls`), and the text is posted with the embed. A panic in either step
      happens in the check's goroutine, which no recover covers. */
  function StreamCheckPost(c: StreamCheck, lookup: Result<(Stream, bool), string>, rendered: Option<string>,
                           polls: seq<ThumbnailPoll>, profileImage: string): (r: StreamCheckOutcome)
    ensures r == NoPost <==> lookup.Failure? || !lookup.value.1
    ensures r == ProcessCrash <==>
      lookup.Success? && lookup.value.1 && (rendered.None? || PollingPanics(polls, ThumbnailAttempts))
    ensures r.Posted? ==> r.post.channelId == c.channelId && Some(r.post.content) == rendered
    ensures r.Posted? ==> var st := lookup.value.0; var e := r.post.embed;
      && e.url == TwitchPrefix + st.userLogin && e.author == st.userLogin
      && e.title == st.title && e.description == st.gameName && e.thumbnail == profileImage
      && e.timestamp == st.startedAt && e.footer == Text.Join(st.tags, ", ")
      && e.image == Thumbnail(st.thumbnailUrl)
  {
    if lookup.Failure? || !lookup.value.1 then NoPost
    else if rendered.None? || PollingPanics(polls, ThumbnailAttempts) then ProcessCrash
    else Posted(StreamPost(c.channelId, rendered.value, NotificationEmbed(lookup.value.0, profileImage)))
  }

  /** The size placeholder of a stream thumbnail URL. */
  const SizePlaceholder: string := "{width}x{height}"

  /** The thumbnail URL with its first size placeholder set to 1024x576. */
  function Thumbnail(url: string): (r: string)
  {
    Text.ReplaceFirst(url, SizePlaceholder, "1024x576")
  }

  /** The placeholder is replaced where it first occurs. */
  lemma ThumbnailSized(pre: string, post: string)
    requires forall i :: 0 <= i < |pre| ==> !Text.OccursAt(pre + SizePlaceholder + post, SizePlaceholder, i)
    ensures Thumbnail(pre + SizePlaceholder + post) == pre + "1024x576" + post
  {
    Text.ReplaceAfter(pre, SizePlaceholder, "1024x576", post);
  }

  /** A URL without the placeholder is kept. */
  lemma ThumbnailWithoutPlaceholder(url: string)
    requires forall i :: !Text.OccursAt(url, SizePlaceholder, i)
    ensures Thumbnail(url) == url
  {
    Text.FirstIndexCorrect(url, SizePlaceholder);
  }
}

=== FILE: wrappers.dfy ===
/** Option and Result values shared by every module of the model. */
module Wrappers {

  datatype Option<+T> = None | Some(value: T) {
    function GetOr(default: T): T {
      match this
      case Some(v) => v
      case None => default
    }
  }

  datatype Result<+T, +E> = Success(value: T) | Failure(error: E) {
    function ToOption(): Option<T> {
      match this
      case Success(v) => Some(v)
      case Failure(_) => None
    }
  }
}

=== FILE: youtube.dfy ===
/** The YouTube notification task (internal/tasks/youtube.go): every tick, for each guild
    whose settings are all usable, each followed playlist is checked and public videos
    newer than the playlist's watermark are announced. */
module Youtube {
  import opened Wrappers

  /** A playlist item: video id, channel title, whether it is public, and its publication
      time (None when the timestamp does not parse). */
  datatype Video = Video(videoId: string, channelTitle: string, public: bool, publishedAt: Option<int>)

  /** One guild's settings as the tick reads them: the channel and template rows (None when
      the guild has no row, else the decoded value or its error), whether the template
      parses, whether a bot serves the guild, and the decoded playlist list. */
  datatype GuildSetup = GuildSetup(guildId: string, channel: Option<Result<string, string>>,
                                   template: Option<Result<string, string>>, templateParses: bool,
                                   hasBot: bool, playlists: Result<seq<string>, string>)

  /** One message sent: the guild's bot posts the guild's template, filled with the video's
      URL and channel title, in the guild's channel. */
  datatype Announcement = Announcement(guildId: string, channelId: string, template: string,
                                       url: string, channelTitle: string)

  /** Every precondition the tick checks before querying YouTube for a guild. */
  predicate Ready(g: GuildSetup)
  {
    && g.channel.Some? && g.channel.value.Success?
    && g.template.Some? && g.template.value.Success?
    && g.templateParses && g.hasBot && g.playlists.Success?
  }

  const WatchPrefix: string := "https://www.youtube.com/watch?v="

  /** The public videos, in feed order. */
  function Public(vs: seq<Video>): (r: seq<Video>)
    ensures forall v :: v in r <==> v in vs && v.public
  {
    if |vs| == 0 then [] else (if vs[0].public then [vs[0]] else []) + Public(vs[1..])
  }

  /** The videos whose time parses and is strictly after `mark`, in feed order. */
  function After(vs: seq<Video>, mark: int): (r: seq<Video>)
    ensures forall v :: v in r <==> v in vs && v.publishedAt.Some? && v.publishedAt.value > mark
  {
    if |vs| == 0 then []
    else (if vs[0].publishedAt.Some? && vs[0].publishedAt.value > mark then [vs[0]] else []) + After(vs[1..], mark)
  }

  /** What one playlist check does: the watermark to store (None: left as it is) and the
      videos to announce. */
  datatype Step = Step(store: Option<int>, newVideos: seq<Video>)

  function PlaylistStep(mark: Option<int>, feed: Result<seq<Video>, string>): (s: Step)
    ensures s.store.Some? ==> feed.Success?
    ensures forall v :: v in s.newVideos ==> feed.Success? && v in feed.value && v.public
    ensures mark.None? ==> s.newVideos == []
  {
    if feed.Failure? then Step(None, [])
    else
      var public := Public(feed.value);
      if |public| == 0 || public[0].publishedAt.None? then Step(None, [])
      else
        var latest := public[0].publishedAt.value;
        if mark.None? then Step(Some(latest), [])
        else if latest > mark.value then Step(Some(latest), After(public, mark.value))
        else Step(None, [])
  }

  /** The watermark rules: a failed query, a feed with no public video or a newest public
      video whose time does not parse leave everything as it is; the first sighting stores
      the newest public video's time and announces nothing; a newer one announces exactly
      the public videos after the old watermark and stores the newest time; otherwise
      nothing happens. */
  lemma PlaylistRules(mark: Option<int>, feed: Result<seq<Video>, string>)
    ensures var s := PlaylistStep(mark, feed);
      && (feed.Failure? || (forall v :: v in feed.value ==> !v.public) ==> s == Step(None, []))
      && (feed.Success? && |Public(feed.value)| > 0 && Public(feed.value)[0].publishedAt.None? ==> s == Step(None, []))
      && (feed.Success? && |Public(feed.value)| > 0 && Public(feed.value)[0].publishedAt.Some? ==>
            var latest := Public(feed.value)[0].publishedAt.value;
            && (mark.None? ==> s == Step(Some(latest), []))
            && (mark.Some? && latest > mark.value ==>
                  s.store == Some(latest) &&
                  forall v :: v in s.newVideos <==> v in feed.value && v.public && v.publishedAt.Some? && v.publishedAt.value > mark.value)
            && (mark.Some? && latest <= mark.value ==> s == Step(None, [])))
  {
  }

  /** A watermark never moves back. */
  lemma WatermarkNeverDecreases(mark: int, feed: Result<seq<Video>, string>)
    ensures PlaylistStep(Some(mark), feed).store.Some? ==> PlaylistStep(Some(mark), feed).store.value > mark
  {
  }

  /** Checking the same feed again right after an advance announces nothing: a second
      guild following the same playlist in the same tick sees nothing new. */
  lemma SecondCheckSeesNothing(mark: Option<int>, feed: Result<seq<Video>, string>)
    requires PlaylistStep(mark, feed).store.Some?
    ensures PlaylistStep(PlaylistStep(mark, feed).store, feed) == Step(None, [])
  {
  }

  /** The announcement of one video by a guild. */
  function Announce(g: GuildSetup, v: Video): (a: Announcement)
    requires Ready(g)
    ensures a.url == WatchPrefix + v.videoId && a.guildId == g.guildId
    ensures a.channelId == g.channel.value.value && a.template == g.template.value.value
  {
    Announcement(g.guildId, g.channel.value.value, g.template.value.value, WatchPrefix + v.videoId, v.channelTitle)
  }

  function AnnounceAll(g: GuildSetup, vs: seq<Video>): (r: seq<Announcement>)
    requires Ready(g)
    ensures |r| == |vs| && forall k :: 0 <= k < |vs| ==> r[k] == Announce(g, vs[k])
  {
    if |vs| == 0 then [] else AnnounceAll(g, vs[..|vs| - 1]) + [Announce(g, vs[|vs| - 1])]
  }

  lemma AnnounceAllStep(g: GuildSetup, vs: seq<Video>, k: nat)
    requires Ready(g) && k < |vs|
    ensures AnnounceAll(g, vs[..k + 1]) == AnnounceAll(g, vs[..k]) + [Announce(g, vs[k])]
  {
    assert vs[..k + 1][..k] == vs[..k];
  }

  /** The watermarks and the messages sent so far in a tick. */
  datatype Tally = Tally(marks: map<string, int>, sent: seq<Announcement>)

  function Lookup(marks: map<string, int>, p: string): Option<int>
  {
    if p in marks then Some(marks[p]) else None
  }

  function FeedOf(feeds: map<string, Result<seq<Video>, string>>, p: string): Result<seq<Video>, string>
  {
    if p in feeds then feeds[p] else Failure("query failed")
  }

  function PlaylistTally(t: Tally, g: GuildSetup, p: string, feeds: map<string, Result<seq<Video>, string>>): Tally
    requires Ready(g)
  {
    var s := PlaylistStep(Lookup(t.marks, p), FeedOf(feeds, p));
    Tally(if s.store.Some? then t.marks[p := s.store.value] else t.marks, t.sent + AnnounceAll(g, s.newVideos))
  }

  function PlaylistsTally(t: Tally, g: GuildSetup, ps: seq<string>, feeds: map<string, Result<seq<Video>, string>>): Tally
    requires Ready(g)
  {
    if |ps| == 0 then t else PlaylistTally(PlaylistsTally(t, g, ps[..|ps| - 1], feeds), g, ps[|ps| - 1], feeds)
  }

  function GuildTally(t: Tally, g: GuildSetup, feeds: map<string, Result<seq<Video>, string>>): Tally
  {
    if Ready(g) then PlaylistsTally(t, g, g.playlists.value, feeds) else t
  }

  /** A tick over the guilds in the order the settings are visited. */
  function TickTally(t: Tally, gs: seq<GuildSetup>, feeds: map<string, Result<seq<Video>, string>>): Tally
  {
    if |gs| == 0 then t else GuildTally(TickTally(t, gs[..|gs| - 1], feeds), gs[|gs| - 1], feeds)
  }

  /** A guild whose settings are not all usable changes nothing and sends nothing. */
  lemma UnreadyGuildIsSkipped(t: Tally, g: GuildSetup, feeds: map<string, Result<seq<Video>, string>>)
    requires !Ready(g)
    ensures GuildTally(t, g, feeds) == t
  {
  }

  /** The playlists a tick queries, in order: every playlist of every ready guild. */
  function Queried(gs: seq<GuildSetup>): (r: seq<string>)
  {
    if |gs| == 0 then []
    else Queried(gs[..|gs| - 1]) + (if Ready(gs[|gs| - 1]) then gs[|gs| - 1].playlists.value else [])
  }

  /** Only ready guilds cause queries. */
  lemma {:induction false} OnlyReadyGuildsQuery(gs: seq<GuildSetup>, p: string)
    requires p in Queried(gs)
    ensures exists g :: g in gs && Ready(g) && p in g.playlists.value
  {
    var init := gs[..|gs| - 1];
    if p in Queried(init) {
      OnlyReadyGuildsQuery(init, p);
      var g :| g in init && Ready(g) && p in g.playlists.value;
      assert g in gs;
    } else {
      assert gs[|gs| - 1] in gs;
    }
  }

  /** The task, holding the per-playlist watermarks across ticks. */
  class YoutubeTask {
    var lastPublished: map<string, int>

    constructor ()
      ensures lastPublished == map[]
    {
      lastPublished := map[];
    }

    /** One tick. `feeds` holds what the playlist query returns (a missing entry is a
        failed query). The result lists the messages sent (a send that fails is only
        logged) and the playlists queried: those of ready guilds only. */
    method Tick(guilds: seq<GuildSetup>, feeds: map<string, Result<seq<Video>, string>>)
      returns (sent: seq<Announcement>, queried: seq<string>)
      modifies this
      ensures Tally(lastPublished, sent) == TickTally(Tally(old(lastPublished), []), guilds, feeds)
      ensures queried == Queried(guilds)
    {
      sent := [];
      queried := [];
      var i := 0;
      while i < |guilds|
        invariant 0 <= i <= |guilds|
        invariant Tally(lastPublished, sent) == TickTally(Tally(old(lastPublished), []), guilds[..i], feeds)
        invariant queried == Queried(guilds[..i])
      {
        assert guilds[..i + 1][..i] == guilds[..i];
        var g := guilds[i];
        if Ready(g) {
          sent := CheckGuild(g, feeds, sent);
          queried := queried + g.playlists.value;
        }
        i := i + 1;
      }
      assert guilds[..i] == guilds;
    }

    /** The playlists of one ready guild, in order. */
    method CheckGuild(g: GuildSetup, feeds: map<string, Result<seq<Video>, string>>, sentBefore: seq<Announcement>)
      returns (sent: seq<Announcement>)
      requires Ready(g)
      modifies this
      ensures Tally(lastPublished, sent) == PlaylistsTally(Tally(old(lastPublished), sentBefore), g, g.playlists.value, feeds)
    {
      var ps := g.playlists.value;
      sent := sentBefore;
      var j := 0;
      while j < |ps|
        invariant 0 <= j <= |ps|
        invariant Tally(lastPublished, sent) == PlaylistsTally(Tally(old(lastPublished), sentBefore), g, ps[..j], feeds)
      {
        assert ps[..j + 1][..j] == ps[..j];
        sent := CheckPlaylist(g, ps[j], feeds, sent);
        j := j + 1;
      }
      assert ps[..j] == ps;
    }

    /** One playlist: the watermark is updated before the new videos are announced, one
        message each. */
    method CheckPlaylist(g: GuildSetup, p: string, feeds: map<string, Result<seq<Video>, string>>,
                         sentBefore: seq<Announcement>)
      returns (sent: seq<Announcement>)
      requires Ready(g)
      modifies this
      ensures Tally(lastPublished, sent) == PlaylistTally(Tally(old(lastPublished), sentBefore), g, p, feeds)
    {
      var s := PlaylistStep(Lookup(lastPublished, p), FeedOf(feeds, p));
      if s.store.Some? {
        lastPublished := lastPublished[p := s.store.value];
      }
      ghost var marks := lastPublished;
      var added := [];
      var k := 0;
      while k < |s.newVideos|
        invariant 0 <= k <= |s.newVideos|
        invariant lastPublished == marks
        invariant added == AnnounceAll(g, s.newVideos[..k])
      {
        AnnounceAllStep(g, s.newVideos, k);
        added := added + [Announce(g, s.newVideos[k])];
        k := k + 1;
      }
      assert s.newVideos[..k] == s.newVideos;
      assert added == AnnounceAll(g, s.newVideos);
      sent := sentBefore + added;
    }
  }
}

=== FILE: zones.dfy ===
/** time.LoadLocation over a zone database of fixed offsets. */
module Zones {
  import opened Wrappers

  /** The zone database: zone name to its offset in seconds east of UTC. */
  type ZoneTable = map<string, int>

  /** LoadLocation: "" and "UTC" are UTC; any other name must be in the database. The
      name "Local", which Go resolves to the host's own zone, is an entry of the database
      here like any other name, holding the host's offset when the host provides one. */
  function LoadLocation(zones: ZoneTable, name: string): (r: Option<int>)
    ensures name == "" || name == "UTC" ==> r == Some(0)
    ensures name != "" && name != "UTC" ==> (r.Some? <==> name in zones) && (name in zones ==> r == Some(zones[name]))
  {
    if name == "" || name == "UTC" then Some(0)
    else if name in zones then Some(zones[name])
    else None
  }

  /** Location.String of a loaded zone: its name, "UTC" for the empty name. */
  function ZoneName(name: string): (n: string)
    ensures n != ""
    ensures name != "" ==> n == name
  {
    if name == "" then "UTC" else name
  }

  /** A stored name reloads to the same zone. */
  lemma NormalisedNameReloads(zones: ZoneTable, name: string)
    requires LoadLocation(zones, name).Some?
    ensures LoadLocation(zones, ZoneName(name)) == LoadLocation(zones, name)
  {
  }
}
